=== FILE: README.md ===
# Teder trading bot core, modelled in Dafny

This project models the decision and bookkeeping core of Teder, a USDT/KRW trading bot
for the Coinone exchange. It covers everything that decides and books trades once the
exchange, the wall clock and pandas are turned into plain inputs:

- **Position ledger** (`PositionLedger`, `PositionManager`): a weighted-average cost basis
  with fees folded in, sells booked at average cost, realised and unrealised P&L, and
  complete clearing once at most 1e-8 remains. `total_cost == total_quantity * average_price`
  is proved as an invariant.
- **Order lifecycle** (`OrderLifecycle`, `OrderManager`): the `active` map and the append-only
  `history`, the amount validator, placement, cancellation, status updates, the
  cancel-everything sweep and the poll-then-cancel wait. The wait is a loop that consumes
  a finite sequence of status replies.
- **Strategy state machines**:
  - `TradingStrategy` is the five-state machine `WAITING_FOR_BUY / POSITION_HELD /
    WAITING_FOR_SELL / STRATEGY_COMPLETED / ERROR`, driven by one `Gateway` record per
    cycle that holds every exchange reply and clock reading.
  - `SplitBuy` is the phase machine `WAITING -> PHASE1 -> PHASE2 -> PHASE3 -> SELLING`.
  - `SplitSim` is the split-buy backtest.
  - `LiveBot` and `SimpleBot` hold the buy and sell decisions of `main_live.py` and
    `main_simple.py`.
  - In every one of these, the sell rules are first-match-wins, and their order is proved.
- **Backtest engines** (`BacktestEngine`, `BasicStrategy`, `ImprovedStrategy`): a bar-by-bar
  replay that sells before it buys, applies slippage and the limit/market fee rules, books
  trades and the equity curve, and force-closes at the last bar.
- **Indicator arithmetic**:
  - `Series` is the NaN-aware series.
  - `EmaIndicator` is `ewm(adjust=False)` as its recurrence.
  - `RsiIndicator` is the SMA-smoothed RSI with its slope analysis and monitor, and
    `RsiEmaIndicator` is the EMA of that RSI with its momentum and trend classification.
  - `ShortIndicators` holds the short-window indicators of the split-buy strategy.
  - `BaseIndicator` holds the shared slope helpers.
  - `SlopeRules` relates the repository's several slope definitions and its four
    "EMA declining" rules, and gives inputs on which they disagree.
- **Support logic**:
  - `ApiErrors` maps exchange error codes to error classes.
  - `DataLoader` holds the OHLCV validator and the merge of chart replies.
  - `CandleTable` holds dedupe, sort and window operations.
  - `HistoryCleaner` holds the cleaner and repairer, hour filling and synthetic bars.
  - `Performance` holds the trade statistics, drawdown periods and the buy-and-hold
    comparison.

`Numeric` gives exact counterparts of `math.ceil`, `round(x, n)` and
`Decimal.quantize(ROUND_UP)`. `Wrappers` gives `Option` and `Result`.

Floats are modelled as exact `real`s, and a pandas NaN is `None` in an `Option<real>`. The
following are parameters of the functions that use them:

- the exchange's replies;
- the clock, in integer seconds;
- random draws;
- pandas_ta outputs.

Several source files exist in identical copies, for example under `TederBot_Release/`,
`TederBot_v1.0_fixed/` and `standalone_dist/`. The table cites one copy of each. The
model follows the code where the code and its documentation disagree. Behaviour the code
has but its comments do not intend is reproduced and listed under "Quirks reproduced"
below.

## Model

| member | source | states |
|---|---|---|
| ApiErrors.Parent | TederBot_v1.0_fixed/src/api/exceptions.py:5-39 | only the base class `CoinoneAPIError` lacks a superclass; every other class derives from it directly |
| ApiErrors.MappingFollowsRanges | TederBot_v1.0_fixed/src/api/exceptions.py:42-60 | the code table holds exactly codes 10-13, 20-24, 30-33, 40 and 50-52, each filed under its range's class (authentication, validation, balance, order, rate limit, server), and none maps to a network error |
| ApiErrors.DecimalText | TederBot_v1.0_fixed/src/api/exceptions.py:67 | the text of an integer in the f-string reads back as that integer (with a leading minus for a negative one) |
| ApiErrors.UnknownMessageNamesTheCode | TederBot_v1.0_fixed/src/api/exceptions.py:67 | the default message of an unknown code is the fixed prefix, the code's decimal text and a closing parenthesis, so the code can be read back out of it |
| ApiErrors.GetExceptionFromCode | TederBot_v1.0_fixed/src/api/exceptions.py:62-67 | a known code gives an error of its table class, an unknown code a base error; the code is attached and no HTTP status; the caller's message wins unless it is missing or empty, and then the table's message or the unknown-code text is used |
| BaseIndicator.BaseSlope | TederBot_v1.0_fixed/src/indicators/base.py:10-18 | a series shorter than `periods` gives 0.0; otherwise the slope is NaN exactly when either endpoint is NaN and is the undivided difference of the last value and the value `periods` back |
| BaseIndicator.Put | TederBot_v1.0_fixed/src/indicators/base.py:25 | storing into the slope dictionary sets that key, leaves every other key alone, and keeps the insertion order (a new key goes last) |
| BaseIndicator.CalculateSlopes | TederBot_v1.0_fixed/src/indicators/base.py:21-27 | the dictionary has a key for exactly the requested periods, each holding that period's slope, in first-request order |
| BaseIndicator.MaxPeriod | TederBot_Release/src/indicators/ema.py:110 | `max(periods)` (taken the same way at rsi.py:88) is one of the periods and no period exceeds it |
| BaseIndicator.IsSlopesPositive | TederBot_v1.0_fixed/src/indicators/base.py:30-38 | true exactly when every value passes (strictly positive with `exclude_zero`, non-negative without); an empty dictionary passes |
| BaseIndicator.AllColumnsPresent | TederBot_v1.0_fixed/src/indicators/base.py:46-48 | true exactly when every required column is in the frame |
| BaseIndicator.ValidateData | TederBot_v1.0_fixed/src/indicators/base.py:41-50 | false for a missing or empty frame; otherwise true exactly when all required columns are present |
| BaseIndicator.CreateIndicatorSeries | TederBot_v1.0_fixed/src/indicators/base.py:53-58 | the named column when the frame has it, otherwise the "not found" error |
| BaseIndicator.HasObservation | TederBot_v1.0_fixed/src/indicators/base.py:63 | true exactly when the series is not entirely NaN |
| BaseIndicator.EnsureSufficientData | TederBot_v1.0_fixed/src/indicators/base.py:61-63 | true exactly when the series is long enough and holds at least one number |
| BaseIndicator.InsufficientDataNamesTheCount | TederBot_Release/src/indicators/rsi.py:53 | the insufficient-data message is the fixed prefix, the required count in decimal and " periods", and its digits read back as that count |
| BaseIndicator.StrictImpliesLenient | TederBot_v1.0_fixed/src/indicators/base.py:30-38 | passing with `exclude_zero` implies passing without it, and a single zero slope separates the two modes |
| BaseIndicator.NaNSlopesPass | TederBot_v1.0_fixed/src/indicators/base.py:33-36 | a dictionary of NaN slopes counts as positive in both modes, because every comparison with NaN is false |
| EmaIndicator.Alpha | TederBot_Release/src/indicators/ema.py:40 | the smoothing factor lies in (0, 1] and times `span + 1` is 2 |
| EmaIndicator.Blend | TederBot_Release/src/indicators/ema.py:40 | the blended mean is the weighted average of the old mean (weight `decayed`) and the new observation (weight `alpha`) |
| EmaIndicator.EwmStep | TederBot_Release/src/indicators/ema.py:40 | one step of `ewm(adjust=False)` keeps a non-negative weight, has a mean once any observation was seen, and leaves the mean alone on a NaN |
| EmaIndicator.StepFromUnitWeight | TederBot_Release/src/indicators/ema.py:40 | from unit weight one observation gives exactly `a*x + (1-a)*w` with weight 1 again |
| EmaIndicator.EwmRunIsClassic | TederBot_Release/src/indicators/ema.py:40 | on NaN-free input, once a mean exists, the recursion is the textbook EMA `e_i = a*x_i + (1-a)*e_(i-1)` |
| EmaIndicator.EwmWithoutNaN | TederBot_Release/src/indicators/ema.py:29-40 | with no NaN, the EMA series starts at the first price and then follows the textbook recursion with `a = 2/(span+1)` |
| EmaIndicator.EwmRunDefinedFrom | TederBot_Release/src/indicators/ema.py:40 | an EMA output is a number exactly when some observation exists at or before that row |
| EmaIndicator.BuyThreshold | TederBot_Release/src/indicators/ema.py:24-27 | the threshold is 0.3 for period 3, 0.2 for period 5 and 0.0 for any other period |
| EmaIndicator.CalculateEma | TederBot_Release/src/indicators/ema.py:42-63 | succeeds exactly when the column exists, the span is valid and the column has `period + 5` values not all NaN; the result is the EMA of the column; a short or all-NaN column gives the insufficient-data error naming the required `period + 5` |
| EmaIndicator.EmaNeverAllNaN | TederBot_Release/src/indicators/ema.py:60-61 | an input with any number has an EMA with a number, so "Failed to calculate EMA" cannot occur |
| EmaIndicator.CheckBuyThresholds | TederBot_Release/src/indicators/ema.py:79-96 | one check per slope, in the same order, true exactly when the slope is a number at or above its period's threshold |
| EmaIndicator.AllPass | TederBot_Release/src/indicators/ema.py:118 | true exactly when every check in the dictionary passed |
| EmaIndicator.IsDecliningTrend | TederBot_Release/src/indicators/ema.py:164-185 | false on fewer than `lookback + 1` values; otherwise true exactly when no value of the window is `>=` its predecessor |
| EmaIndicator.DecliningMeansStrictDecrease | TederBot_Release/src/indicators/ema.py:175-185 | on NaN-free values the rule holds exactly when the last `lookback + 1` values strictly decrease, and a window with NaN next to every value passes without falling at all |
| EmaIndicator.AnalyzeEmaTrend | TederBot_Release/src/indicators/ema.py:98-139 | fails exactly when the series is shorter than the longest period; reports the last EMA; buys exactly when every requested period's undivided slope meets its threshold; sells exactly when the last four values decline |
| EmaIndicator.ThresholdsMeanAllPeriods | TederBot_Release/src/indicators/ema.py:114-118 | all threshold checks pass exactly when every requested period's slope meets its threshold |
| EmaIndicator.CheckBuyCondition | TederBot_Release/src/indicators/ema.py:146-153 | never fails: the buy flag is true exactly when the signals succeed and say buy |
| EmaIndicator.CheckSellCondition | TederBot_Release/src/indicators/ema.py:155-162 | never fails: the sell flag is true exactly when the signals succeed and say sell |
| EmaIndicator.DistancePercentage | TederBot_Release/src/indicators/ema.py:204 | 0 when the EMA is exactly zero; otherwise the distance as a percentage of the EMA |
| EmaIndicator.GetCurrentStatus | TederBot_Release/src/indicators/ema.py:196-222 | an error report exactly when the signals fail; otherwise the rounded EMA, the last close, their difference, its percentage of the rounded EMA, and "above" exactly when the difference is positive |
| EmaIndicator.EwmRunStaysDefined | TederBot_Release/src/indicators/ema.py:40 | once the EMA has a value, every later output is a number, whatever NaNs follow |
| EmaIndicator.GetEmaSignals | TederBot_Release/src/indicators/ema.py:141-144 | fails exactly when the EMA cannot be computed; otherwise reports the last EMA, buys exactly when the 3-bar undivided slope is at least 0.3 and the 5-bar one at least 0.2, and sells exactly on the declining rule |
| RsiIndicator.Delta | TederBot_Release/src/indicators/rsi.py:30 | `diff()` is NaN at the first row and otherwise the difference with the previous value, NaN next to a NaN |
| RsiIndicator.Gain | TederBot_Release/src/indicators/rsi.py:31 | the gain is the rise when the difference is a positive number and 0 otherwise (NaN included), so never negative |
| RsiIndicator.Loss | TederBot_Release/src/indicators/rsi.py:32 | the loss is the fall when the difference is a negative number and 0 otherwise, so never negative |
| RsiIndicator.RsiFromMeans | TederBot_Release/src/indicators/rsi.py:34-35 | with a zero mean loss the RSI is 100 for a positive mean gain and NaN for 0/0; otherwise `rsi*(gain+loss) == 100*gain`; every value lies in [0, 100] |
| RsiIndicator.MeanGain | TederBot_Release/src/indicators/rsi.py:31 | the rolling mean times the window is the sum of the window's gains |
| RsiIndicator.MeanLoss | TederBot_Release/src/indicators/rsi.py:32 | the rolling mean times the window is the sum of the window's losses |
| RsiIndicator.RsiAt | TederBot_Release/src/indicators/rsi.py:30-37 | NaN until a full window exists, then the RSI of the window's mean gain and loss, within [0, 100] |
| RsiIndicator.RsiManual | TederBot_Release/src/indicators/rsi.py:19-37 | one RSI value per price, each the RSI of its own window |
| RsiIndicator.RsiBounded | TederBot_Release/src/indicators/rsi.py:35 | every numeric RSI value lies in [0, 100] |
| RsiIndicator.RisingHasNoLoss | TederBot_Release/src/indicators/rsi.py:30-32 | strictly rising prices have no losses, and any window containing a rise has positive gains |
| RsiIndicator.WindowMeans | TederBot_Release/src/indicators/rsi.py:31-32 | a rolling mean is zero exactly when its window sum is, and positive when the sum is |
| RsiIndicator.RisingPricesGiveHundred | TederBot_Release/src/indicators/rsi.py:34-35 | on strictly rising prices every full-window RSI is exactly 100 |
| RsiIndicator.ConstantHasNoMoves | TederBot_Release/src/indicators/rsi.py:30-32 | constant prices have neither gains nor losses |
| RsiIndicator.ConstantRsiIsNaN | TederBot_Release/src/indicators/rsi.py:34-35 | on constant prices every RSI value is NaN (0/0) |
| RsiIndicator.ConstantPricesAllNaN | TederBot_Release/src/indicators/rsi.py:19-37 | on constant prices the whole RSI series is NaN |
| RsiIndicator.CalculateRsi | TederBot_Release/src/indicators/rsi.py:39-60 | a missing column, a short or all-NaN column, and an RSI that is NaN everywhere are errors, the short or all-NaN column with the insufficient-data message naming `period + 5`; otherwise the result is the RSI series of the column |
| RsiIndicator.FlatMarketFails | TederBot_Release/src/indicators/rsi.py:57-58 | a flat market gives the "Failed to calculate RSI" error however much data there is |
| RsiIndicator.PositiveMeansAllPeriods | TederBot_Release/src/indicators/rsi.py:92-95 | the strict positivity test on the slope dictionary holds exactly when every requested period's undivided slope passes it |
| RsiIndicator.AnalyzeRsiTrend | TederBot_Release/src/indicators/rsi.py:76-115 | fails exactly when the series is shorter than the longest period; buys exactly when every slope is strictly positive or NaN; sells exactly when the last RSI exceeds 70 |
| RsiIndicator.GetRsiSignals | TederBot_Release/src/indicators/rsi.py:117-120 | fails exactly when the RSI cannot be calculated, with the same error; otherwise reports the last RSI, buys exactly when the 3-bar and 5-bar undivided slopes both pass the strict test (a NaN slope passes), and sells exactly when the last RSI exceeds 70 |
| RsiIndicator.CheckBuyCondition | TederBot_Release/src/indicators/rsi.py:122-129 | never fails: the buy flag is true exactly when the signals succeed and say buy |
| RsiIndicator.CheckSellCondition | TederBot_Release/src/indicators/rsi.py:131-138 | never fails: the sell flag is true exactly when the signals succeed and say sell |
| RsiIndicator.Alert | TederBot_Release/src/indicators/rsi.py:148-163 | overbought exactly at 70 or above, oversold exactly at 30 or below, normal between them and for NaN |
| RsiIndicator.GetCurrentStatus | TederBot_Release/src/indicators/rsi.py:153-177 | an error report exactly when the signals fail; otherwise the rounded RSI and the alert level of that rounded value |
| RsiIndicator.RoundedAlertDisagreesWithSell | TederBot_Release/src/indicators/rsi.py:98 | an RSI of 69.99996 is reported overbought after rounding to four places, yet does not signal a sell |
| RsiEmaIndicator.CalculateRsiEma | src/indicators/rsi_ema.py:52-77 | succeeds exactly when the column exists, the EMA span is valid, the prices cover `rsi_period + ema_period + 5` rows and the RSI succeeds; the result is the EMA of the RSI series; a short or all-NaN column gives the insufficient-data message naming `rsi_period + ema_period + 5` |
| RsiEmaIndicator.RsiEmaFailsOnlyOnRsi | src/indicators/rsi_ema.py:69-75 | with enough prices the calculation fails exactly when the RSI is NaN everywhere, so "Failed to calculate RSI-EMA" never occurs |
| RsiEmaIndicator.AssessMomentum | src/indicators/rsi_ema.py:241-253 | Strong exactly at slopes (>= 0.5, >= 0.3), Moderate at (>= 0.3, >= 0.2) short of Strong, Weak when both are positive short of that, Negative otherwise (NaN included) |
| RsiEmaIndicator.AssessTrend | src/indicators/rsi_ema.py:255-265 | up exactly when both slopes are positive, down exactly when both are negative, sideways otherwise (NaN included) |
| RsiEmaIndicator.MomentumMatchesTrend | src/indicators/rsi_ema.py:241-265 | momentum is other than Negative exactly in an uptrend, and a downtrend always has Negative momentum |
| RsiEmaIndicator.RoundSlopes | src/indicators/rsi_ema.py:224 | the reported dictionary keeps the keys and order and rounds every slope to four places |
| RsiEmaIndicator.DetailedAnalysis | src/indicators/rsi_ema.py:201-239 | succeeds exactly when the RSI-EMA does, otherwise carries the RSI's error or else the RSI-EMA's; reports the last RSI and last RSI-EMA rounded to 4 places, their rounded difference, whether the RSI is strictly above its EMA, the analysis' buy and sell flags, and momentum and trend judged on the ROUNDED 3- and 5-bar slopes of the RSI-EMA |
| RsiEmaIndicator.RoundedLookup | src/indicators/rsi_ema.py:243-244 | looking up periods 3 and 5 in the rounded dictionary gives the rounded undivided slopes |
| RsiEmaIndicator.RoundedGet | src/indicators/rsi_ema.py:224 | a lookup in the rounded dictionary is the rounded lookup |
| RsiEmaIndicator.Alert | src/indicators/rsi_ema.py:290-298 | overbought exactly at a rounded RSI of 70 or above; otherwise oversold exactly at 30 or below; otherwise strong momentum exactly when momentum is Strong |
| RsiEmaIndicator.GetCurrentStatus | src/indicators/rsi_ema.py:281-317 | an error report exactly when the detailed analysis fails; otherwise that analysis with its alert level |
| ShortIndicators.SumsClosedForm | TederBot_Release/src/indicators/price_ema.py:55 | the positions 0..n-1 sum to n(n-1)/2 and their squares to n(n-1)(2n-1)/6 |
| ShortIndicators.DenominatorClosedForm | TederBot_Release/src/indicators/price_ema.py:59 | the normal-equation denominator of a degree-1 fit on 0..n-1 is n^2(n^2-1)/12 |
| ShortIndicators.DenominatorPositive | TederBot_Release/src/indicators/price_ema.py:59 | from two points on, the denominator is positive, so the fit is unique |
| ShortIndicators.FitOfSums | TederBot_Release/src/indicators/price_ema.py:59 | the slope solves the normal equations of the given sums |
| ShortIndicators.LeastSquaresSlope | TederBot_Release/src/indicators/price_ema.py:54-62 | from two points on, the slope times the denominator is `n*Sxy - Sx*Sy`; fewer than two points give 0.0 |
| ShortIndicators.LineSumY | TederBot_Release/src/indicators/price_ema.py:56 | the values of the line `a + b*i` sum to `n*a + b*Sx` |
| ShortIndicators.LineSumXY | TederBot_Release/src/indicators/price_ema.py:56 | the position-weighted values of a line sum to `a*Sx + b*Sxx` |
| ShortIndicators.FitOfLine | TederBot_Release/src/indicators/price_ema.py:59 | sums in the shape a line produces make the fitted slope the line's slope |
| ShortIndicators.LeastSquaresOfLine | TederBot_Release/src/indicators/price_ema.py:54-60 | a fit through points on a line recovers the line's slope |
| ShortIndicators.LeastSquaresOfTwo | TederBot_Release/src/indicators/price_ema.py:59 | the fit of two points is their difference |
| ShortIndicators.LeastSquaresOfThree | TederBot_Release/src/indicators/price_ema.py:59 | the fit of three points is half the end-to-end difference, whatever the middle point |
| ShortIndicators.WindowSlope | TederBot_Release/src/indicators/price_ema.py:34-62 | 0.0 when the series is shorter than the window or the window holds a NaN; otherwise the least-squares slope of the window's numbers |
| ShortIndicators.SimpleSlope | TederBot_Release/src/indicators/price_ema.py:64-88 | 0.0 on a short or NaN window or a window under two values; otherwise the slope times `periods - 1` is the last value minus the first of the window |
| ShortIndicators.FitAgreesWithSimpleOnShortWindows | TederBot_Release/src/indicators/price_ema.py:34-88 | on windows of two or three values the fitted and the simple slopes agree |
| ShortIndicators.FitDiffersFromSimpleOnFour | TederBot_Release/src/indicators/price_ema.py:34-88 | on four values they differ: the window 0, 0, 0, 3 fits 0.9 but has simple slope 1 |
| ShortIndicators.Calculate | TederBot_Release/src/indicators/price_ema.py:19-32 | an empty series with fewer rows than the period, otherwise the pandas_ta series |
| ShortIndicators.PriceEmaBuy | TederBot_Release/src/indicators/price_ema.py:90-122 | "Insufficient data" under two EMA values; otherwise the last EMA value is reported and the condition is met exactly when the 2-bar fitted slope exceeds 0.2; a failing check's reason carries the slope to three decimals |
| ShortIndicators.Fixed3ReadsBack | TederBot_Release/src/indicators/price_ema.py:121 | the `.3f` text has a minus sign exactly for a negative value, then digits, a point and three digits that read back as the value to within half a thousandth |
| ShortIndicators.PriceEmaBuyMeansRise | TederBot_Release/src/indicators/price_ema.py:103-115 | the condition holds exactly when the last two EMA values are numbers and the last exceeds the one before by more than 0.2 |
| ShortIndicators.CurrentPriceInfo | TederBot_Release/src/indicators/price_ema.py:124-150 | nothing for empty data; otherwise the last close, "above" exactly when an EMA value exists and the close exceeds it, and a difference of 0 when the EMA series is empty |
| ShortIndicators.ReasonsAreExclusive | TederBot_Release/src/indicators/rsi_short.py:102-111 | the four reasons are distinct, so the reason names the failing combination, and "All conditions met" comes exactly when both hold |
| ShortIndicators.RsiShortBuy | TederBot_Release/src/indicators/rsi_short.py:64-100 | "Insufficient data" under three RSI values; otherwise "below 70" is the last value being a number under 70, "slope above 3" is the 3-bar fitted slope exceeding 3, the reason names the pair, and the condition is met exactly when both hold |
| ShortIndicators.RsiShortBuyMeansRise | TederBot_Release/src/indicators/rsi_short.py:78-94 | the condition holds exactly when the last three values are numbers, the last is under 70 and exceeds the value two bars back by more than 6 |
| ShortIndicators.RsiEmaShortCalculate | TederBot_Release/src/indicators/rsi_short.py:123-140 | empty when the RSI has fewer values than the EMA period, otherwise the pandas_ta EMA of the RSI |
| ShortIndicators.RsiEmaShortBuy | TederBot_Release/src/indicators/rsi_short.py:172-204 | "Insufficient data" under two values; otherwise the condition is met exactly when the 2-bar fitted slope exceeds 1, with the matching reason |
| ShortIndicators.RsiEmaShortBuyMeansRise | TederBot_Release/src/indicators/rsi_short.py:185-197 | the condition holds exactly when the last two values are numbers and the last exceeds the one before by more than 1 |
| SlopeRules.LineRise | TederBot_v1.0_fixed/backtest/improved_backtest_engine.py:36 | two points `k` apart on the line `a + b*i` differ by `k*b` |
| SlopeRules.BaseSlopeOnALine | TederBot_v1.0_fixed/src/indicators/base.py:10-18 | on a line of slope `b` the indicators' undivided slope over `p` values is `(p-1)*b`: it does not divide by the number of steps |
| SlopeRules.BaseOfRise | TederBot_v1.0_fixed/src/indicators/base.py:15-18 | the undivided slope of a window is the difference of its end values |
| SlopeRules.EndpointSlopeOnALine | TederBot_v1.0_fixed/backtest/improved_backtest_engine.py:33-47 | on a line the improved engine's endpoint slope is exactly `b` |
| SlopeRules.EndpointOfRise | TederBot_v1.0_fixed/backtest/improved_backtest_engine.py:42-45 | a window whose ends differ by `(p-1)*b` has endpoint slope `b` |
| SlopeRules.SegmentSlopeOnALine | TederBot_Release/main_live.py:132-137 | on a line the live bot's segment slope is exactly `b` |
| SlopeRules.SegmentOfRise | TederBot_Release/main_live.py:136-137 | values whose last and `p`-th-last differ by `(p-1)*b` have segment slope `b` |
| SlopeRules.DiffSlopeOnALine | TederBot_Release/backtest/backtest_engine.py:104-110 | on a line the basic engine's `diff(p) / (p-1)` spans `p` steps, so it is `p/(p-1)` times `b` |
| SlopeRules.DiffOfRise | TederBot_Release/backtest/backtest_engine.py:106 | a value that rose by `p*b` over `p` rows has `diff(p)/(p-1)` equal to `p*b/(p-1)` |
| SlopeRules.FitOnALine | TederBot_Release/src/indicators/price_ema.py:34-62 | on a line the least-squares window slope is exactly `b` |
| SlopeRules.BasicRows | TederBot_Release/backtest/backtest_engine.py:109-110 | each row's 3-step EMA slope is `diff(3)/2` of the EMA column at that row |
| SlopeRules.SteadyFallSplitsTheRules | TederBot_Release/src/indicators/ema.py:164-185 | on a steadily falling EMA (10 values, slope -1) only the EMA calculator's rule reports a decline; the basic, improved and live rules do not, since their slopes are equal instead of shrinking |
| SlopeRules.SlowingRiseSplitsTheRules | TederBot_Release/main_live.py:202-212 | on an EMA still rising but by less each bar, the basic, improved and live rules all report a decline and the EMA calculator's rule does not |
| BacktestEngine.OpenAt | TederBot_Release/backtest/backtest_engine.py:47-52 | opening a position records the price, quantity and entry time and marks it open |
| BacktestEngine.Reset | TederBot_Release/backtest/backtest_engine.py:207-213 | a reset engine holds the initial balance, a closed all-zero position, no trades, no equity points and no held trade |
| BacktestEngine.Fees | TederBot_Release/backtest/backtest_engine.py:215-222 | the charge is the traded value times the fee rate of the order type (limit or market) plus the slippage rate |
| BacktestEngine.ExecuteBuy | TederBot_Release/backtest/backtest_engine.py:224-259 | a buy happens exactly when no position is open and cash is positive; it buys at the price plus slippage a quantity that, with the limit fee, spends the balance exactly, leaves zero cash and holds a trade carrying the entry fee; a refused buy changes nothing |
| BacktestEngine.ExecuteSell | TederBot_Release/backtest/backtest_engine.py:261-304 | a sell happens exactly when a position is open and a trade is held; it sells at the price less slippage, charges the limit rate only for the profit target, appends one settled trade whose P&L is net proceeds less entry cost (entry fee included), makes the net proceeds the balance and closes the position; a refused sell changes nothing |
| BacktestEngine.PnlPercent | TederBot_Release/backtest/backtest_engine.py:283 | the percentage times the entry cost is 100 times the P&L when the cost is positive, and 0 otherwise |
| BacktestEngine.Equity | TederBot_Release/backtest/backtest_engine.py:306-324 | exactly one point is appended and nothing else changes; total equity is the market value of the position while open and the cash otherwise, with the unrealised P&L against the average price |
| BacktestEngine.SlopeWarmup | TederBot_Release/backtest/backtest_engine.py:116 | the warm-up is at least 5, no smaller than any configured RSI slope period, and is one of them or 5 |
| BacktestEngine.PeriodIndices | TederBot_Release/backtest/backtest_engine.py:337-341 | the date filter keeps exactly the positions whose timestamp lies inside the optional start and end dates, in increasing order: every kept position passes, every passing position is kept, and nothing is dropped when all pass |
| BacktestEngine.CheckSell | TederBot_Release/backtest/backtest_engine.py:148-196 | with a position open the reason is the first rule that fires in the order profit target, holding time, RSI overbought, EMA decline, each stated as an if-and-only-if; no reason without a position and never "backtest end" |
| BacktestEngine.Step | TederBot_Release/backtest/backtest_engine.py:347-366 | one bar adds one equity point and at most one trade, keeps the state invariant (open exactly while a trade is held, all cash invested, every booked trade settled), sells exactly when a rule fires and buys only on the signal with cash |
| BacktestEngine.SellLeavesCash | TederBot_Release/backtest/backtest_engine.py:277-278 | with non-negative rates whose sum is at most 1, selling at a positive price never leaves negative cash |
| BacktestEngine.StepKeepsCash | TederBot_Release/backtest/backtest_engine.py:347-366 | a step from a reachable state with non-negative cash keeps cash non-negative |
| BacktestEngine.Fold | TederBot_Release/backtest/backtest_engine.py:347-366 | replaying the bars keeps the state invariant and records one equity point per bar, with that bar's time and price, in order |
| BacktestEngine.Replay | TederBot_Release/backtest/backtest_engine.py:347-366 | the loop equals the fold from a reset state; it ends reachable with one equity point per bar, no more trades plus open positions than bars, and non-negative cash when the initial balance is |
| BacktestEngine.ForceClose | TederBot_Release/backtest/backtest_engine.py:369-371 | a position still open is sold at the last bar as "backtest end", adding exactly one trade; afterwards nothing is open, and a closed state is left unchanged |
| BacktestEngine.RunBacktest | TederBot_Release/backtest/backtest_engine.py:343-384 | an error exactly when no bar is left; otherwise the replay followed by the forced close, with nothing open, one equity point per bar, every trade settled and non-negative cash from a non-negative start |
| BacktestEngine.BuyIsAllIn | TederBot_Release/backtest/backtest_engine.py:224-259 | a buy from a flat state with cash is all-in: the held trade enters at the position price, carries the limit fee with slippage, and its cost with the limit fee is the whole old balance |
| BacktestEngine.BookedPnlMissesEntrySlippage | TederBot_Release/backtest/backtest_engine.py:230-284 | selling an all-in position books a P&L short of the real change in cash by the entry slippage charged a second time |
| BacktestEngine.FlatRoundTripLoses | TederBot_Release/backtest/backtest_engine.py:230-278 | buying and selling at the same quoted price loses cash whenever slippage is positive, whatever the fee rates |
| BacktestEngine.SellAtQuoteLoses | TederBot_Release/backtest/backtest_engine.py:261-278 | selling a position bought at a quoted price plus slippage at that same quote brings in less than the purchase cost |
| BasicStrategy.DiffSlope | TederBot_Release/backtest/backtest_engine.py:104-110 | for every configured period the `diff(p) / (p - 1)` slope is NaN on the first p rows; from p = 2 on it is a number exactly when both ends are, and times p - 1 it equals the change over p steps; at p = 1 it is an infinity of the change's sign, or NaN when nothing changed; at p = 0 it is zero |
| BasicStrategy.RowAt | TederBot_Release/backtest/backtest_engine.py:94-112 | a frame row carries the bar's time and close, one slope per configured RSI period (any period), each the `diff` slope of the RSI column, and the 3- and 5-step `diff` slopes of the EMA column |
| BasicStrategy.PositiveSlopeMeansRise | TederBot_Release/backtest/backtest_engine.py:104-106 | a positive RSI slope column value means the period is at least 1 and the RSI rose over those p steps; a period of 0 never gives a positive slope |
| BasicStrategy.CalculateIndicators | TederBot_Release/backtest/backtest_engine.py:94-112 | the frame exists exactly when both the RSI and the EMA can be computed, an RSI error is passed through first, and row i is built from the two columns |
| BasicStrategy.CheckBuy | TederBot_Release/backtest/backtest_engine.py:114-146 | a buy exactly when past the warm-up, the first two RSI slopes are numbers above 0 and the EMA 3- and 5-step slopes are numbers at or above the two thresholds; a missing column or threshold means no buy |
| BasicStrategy.Bars | TederBot_Release/backtest/backtest_engine.py:180-194 | each replayed bar carries its row's time, close and RSI, the buy decision and the EMA-declining rule (three 3-step slopes strictly falling) |
| BasicStrategy.PricesStayPositive | TederBot_Release/backtest/backtest_engine.py:337-341 | the date filter keeps only frame rows, so positive input closes give positive replayed closes |
| BasicStrategy.RunBacktest | TederBot_Release/backtest/backtest_engine.py:326-384 | indicator errors are returned; otherwise an error exactly when the date filter leaves nothing, else the replay of the filtered frame with its forced close |
| BasicStrategy.BuyMeansRising | TederBot_Release/backtest/backtest_engine.py:104-146 | for any configured periods, a buy means both periods are at least 1, the RSI rose over both, and the EMA rose by at least twice the first threshold over 3 steps and four times the second over 5 |
| ImprovedStrategy.CalculateSlope | TederBot_v1.0_fixed/backtest/improved_backtest_engine.py:33-47 | NaN with fewer than `bars` values; otherwise a number exactly when both ends are, and then times `bars - 1` equals the change from `bars - 1` steps back to the last value |
| ImprovedStrategy.SlidingSlopes | TederBot_v1.0_fixed/backtest/improved_backtest_engine.py:49-77 | there are always `count` slopes, all NaN without `window + count - 1` values |
| ImprovedStrategy.SlidingSlopeSpan | TederBot_v1.0_fixed/backtest/improved_backtest_engine.py:62-75 | slope i is the slope over the window ending `count - 1 - i` values before the last |
| ImprovedStrategy.RowAt | TederBot_v1.0_fixed/backtest/improved_backtest_engine.py:89-114 | the first 10 rows have NaN slopes and no decline; later rows take the 3- and 5-bar slopes of the RSI and EMA up to that row and the sliding-decline rule of the EMA |
| ImprovedStrategy.CalculateIndicators | TederBot_v1.0_fixed/backtest/improved_backtest_engine.py:79-116 | the frame exists exactly when both the RSI and the EMA can be computed, an RSI error is passed through, and row i is built from the two columns |
| ImprovedStrategy.CheckBuy | TederBot_v1.0_fixed/backtest/improved_backtest_engine.py:118-152 | a buy exactly when past the warm-up, the fixed 3- and 5-bar RSI slopes are numbers above 0 and the EMA slopes are numbers at or above the thresholds |
| ImprovedStrategy.Bars | TederBot_v1.0_fixed/backtest/improved_backtest_engine.py:154-193 | each replayed bar carries the buy decision and the row's sliding-decline flag as its EMA-declining rule |
| ImprovedStrategy.PricesStayPositive | TederBot_v1.0_fixed/backtest/improved_backtest_engine.py:332-336 | the date filter keeps only frame rows, so positive input closes give positive replayed closes |
| ImprovedStrategy.RunBacktest | TederBot_v1.0_fixed/backtest/improved_backtest_engine.py:321-380 | indicator errors are returned; otherwise an error exactly when the date filter leaves nothing, else the replay with its forced close |
| ImprovedStrategy.SlidingDeclineMeansShrinkingRises | TederBot_v1.0_fixed/backtest/improved_backtest_engine.py:108-114 | the sliding decline holds exactly when, over the last five EMA values, the 2-step rises strictly shrink |
| CandleTable.DropDuplicates | TederBot_v1.0_fixed/backtest/get_historical_data.py:234 | the result has no repeated timestamp, the same set of timestamps, and every row is the first input row with its timestamp |
| CandleTable.KeptIndices | TederBot_v1.0_fixed/backtest/get_historical_data.py:234 | the positions `keep='first'` keeps are first rows of their timestamp, in increasing order |
| CandleTable.KeptIndicesComplete | TederBot_v1.0_fixed/backtest/get_historical_data.py:234 | every first row of a timestamp is kept |
| CandleTable.DropDuplicatesKeepsOrder | TederBot_v1.0_fixed/backtest/get_historical_data.py:234 | the kept rows are exactly the rows at the kept positions, one for one, so they keep their input order |
| CandleTable.LastIsFirstOf | TederBot_v1.0_fixed/backtest/get_historical_data.py:234 | the last row is kept exactly when no earlier row has its timestamp |
| CandleTable.DuplicatedCountIsDropped | TederBot_Release/backtest/data_loader.py:294 | `duplicated().sum()` counts exactly the rows that dropping duplicates removes, and is zero exactly when the timestamps are distinct |
| CandleTable.Insert | TederBot_v1.0_fixed/backtest/get_historical_data.py:239 | inserting a new timestamp into a sorted table keeps it strictly sorted and is a permutation of the table plus the row |
| CandleTable.SortByTime | TederBot_v1.0_fixed/backtest/get_historical_data.py:239 | sorting a table without repeated timestamps gives a strictly increasing permutation of it |
| CandleTable.KeepFrom | TederBot_Release/backtest/data_loader.py:149 | the kept rows are exactly the input rows at or after the start |
| CandleTable.KeepFromIncreasing | TederBot_Release/backtest/data_loader.py:149 | keeping a window of a sorted table leaves it sorted |
| CandleTable.Normalize | TederBot_Release/backtest/data_loader.py:143-144 | dropping duplicates then sorting gives a strictly increasing table with exactly the input's timestamps, non-empty for non-empty input |
| CandleTable.NormalizedRowsFromAll | TederBot_Release/backtest/data_loader.py:143-144 | every normalised row is a row of the input |
| CandleTable.MaxStamp | TederBot_Release/backtest/data_loader.py:147 | the latest timestamp is one of the table's and no row is later |
| HistoryCleaner.PrevKnown | TederBot_v1.0_fixed/backtest/get_historical_data.py:246 | the index found holds a number and only NaNs lie between it and the position; none is found only when everything before is NaN |
| HistoryCleaner.NextKnown | TederBot_v1.0_fixed/backtest/get_historical_data.py:334 | the index found holds a number and only NaNs lie between the position and it; none is found only when everything after is NaN |
| HistoryCleaner.LastKnownIsNearest | TederBot_v1.0_fixed/backtest/get_historical_data.py:246 | the last known value is NaN exactly when every row up to the position is, and is otherwise the nearest number at or before it |
| HistoryCleaner.NextKnownIsNearest | TederBot_v1.0_fixed/backtest/get_historical_data.py:334 | the next known value is NaN exactly when every row from the position on is, and is otherwise the nearest number at or after it |
| HistoryCleaner.FillForward | TederBot_v1.0_fixed/backtest/get_historical_data.py:246 | forward filling keeps the length and puts at each position the nearest number at or before it |
| HistoryCleaner.FillForwardRecurrence | TederBot_v1.0_fixed/backtest/get_historical_data.py:246 | forward filling agrees with the row-by-row rule: the first row kept, each later NaN repeating the filled row before it |
| HistoryCleaner.FillBackward | TederBot_v1.0_fixed/backtest/get_historical_data.py:334 | backward filling keeps the length and puts at each position the nearest number at or after it |
| HistoryCleaner.FillBackwardRecurrence | TederBot_v1.0_fixed/backtest/get_historical_data.py:334 | backward filling agrees with the row-by-row rule from the end: the last row kept, each earlier NaN repeating the filled row after it |
| HistoryCleaner.PyMax | TederBot_v1.0_fixed/backtest/get_historical_data.py:260 | Python's `max` returns one of its arguments; a NaN first argument survives, otherwise the result is at least every number given |
| HistoryCleaner.PyMin | TederBot_v1.0_fixed/backtest/get_historical_data.py:261 | Python's `min` returns one of its arguments; a NaN first argument survives, otherwise the result is at most every number given |
| HistoryCleaner.RepairRow | TederBot_v1.0_fixed/backtest/get_historical_data.py:249-261 | a consistent row is left alone; any row keeps its timestamp, open, close and volume and comes out ordered (low at or below open and close, high at or above both) |
| HistoryCleaner.RepairWithMissingOpenClearsHighAndLow | TederBot_v1.0_fixed/backtest/get_historical_data.py:260-261 | a selected row whose open is NaN loses its high and low, since `max` and `min` keep a NaN first argument |
| HistoryCleaner.FillColumns | TederBot_v1.0_fixed/backtest/get_historical_data.py:242-246 | filling every numeric column keeps the number of rows and their timestamps |
| HistoryCleaner.FillColumnsCarry | TederBot_v1.0_fixed/backtest/get_historical_data.py:242-246 | each filled column carries the nearest number at or before the row |
| HistoryCleaner.CleanAndValidate | TederBot_v1.0_fixed/backtest/get_historical_data.py:222-270 | an empty table stays empty; otherwise the result is strictly increasing in time, has exactly the input's timestamps, and every row is ordered |
| HistoryCleaner.RepairedKeepsOrder | TederBot_v1.0_fixed/backtest/get_historical_data.py:239-261 | filling and repairing a sorted table keeps its length, order and timestamps |
| HistoryCleaner.CleanCarriesLastKnown | TederBot_v1.0_fixed/backtest/get_historical_data.py:239-261 | the cleaned open, close and volume of a row are the nearest number at or before it in the sorted, de-duplicated input |
| HistoryCleaner.HourFloor | TederBot_v1.0_fixed/backtest/get_historical_data.py:135-136 | the floor is a whole hour at or before the time and less than an hour before it |
| HistoryCleaner.HourCount | TederBot_v1.0_fixed/backtest/get_historical_data.py:134-138 | the hourly range is empty exactly when the end is before the start |
| HistoryCleaner.HourCountBounds | TederBot_v1.0_fixed/backtest/get_historical_data.py:134-138 | the last hour counted is at or before the end and the next one would be after it |
| HistoryCleaner.ParamsOf | TederBot_v1.0_fixed/backtest/get_historical_data.py:141-159 | base prices lie between 1340 and 1390 with positive volatility and volume, April alone has 1340, and months outside April to June use July's parameters |
| HistoryCleaner.ActivityMultiplier | TederBot_v1.0_fixed/backtest/get_historical_data.py:162-171 | the multiplier lies between 0.24 and 1.5, at most 0.6 at weekends, and 1.5 in the busy weekday hours |
| HistoryCleaner.Volatility | TederBot_v1.0_fixed/backtest/get_historical_data.py:154-174 | the hour's volatility is the volatility of the timestamp's month scaled by the activity of its hour and weekday: between 24% and 150% of the month's, and at most 60% of it at weekends |
| HistoryCleaner.Clamp | TederBot_v1.0_fixed/backtest/get_historical_data.py:182-183 | the clamped price lies in the band from 95% to 108% of the base price and a price already inside is unchanged |
| HistoryCleaner.PriceWalk | TederBot_v1.0_fixed/backtest/get_historical_data.py:151-183 | whatever the random changes, every walked price lies in its month's band |
| HistoryCleaner.GeneratedBarIsOrdered | TederBot_v1.0_fixed/backtest/get_historical_data.py:194-215 | whatever the draws, a generated bar is complete, ordered after rounding, and has a volume of at least 1000 |
| HistoryCleaner.HourBarIsOrdered | TederBot_v1.0_fixed/backtest/get_historical_data.py:194-215 | whatever the standard draws, the bar of an hour, with its draws scaled by the intra-hour volatility and its volume by the month's base and the hour's activity, is complete, ordered, and has a volume of at least 1000 |
| HistoryCleaner.GeneratedBars | TederBot_v1.0_fixed/backtest/get_historical_data.py:123-220 | one bar per hour of the range, bar i at the start's hour plus i hours |
| HistoryCleaner.GeneratedBarsAreOrdered | TederBot_v1.0_fixed/backtest/get_historical_data.py:182-215 | every generated bar is ordered with a volume of at least 1000 and a close inside its month's rounded band |
| HistoryCleaner.GeneratedBarsAreContinuous | TederBot_v1.0_fixed/backtest/get_historical_data.py:186-191 | generated bars are strictly increasing in time and each opens at the previous bar's close |
| HistoryCleaner.FindRow | TederBot_v1.0_fixed/backtest/get_historical_data.py:323-326 | the row found is a table row with that timestamp; none only when no row has it |
| HistoryCleaner.FindRowIsUnique | TederBot_v1.0_fixed/backtest/get_historical_data.py:323-326 | in a table without repeated timestamps each row is the one found for its timestamp |
| HistoryCleaner.Interpolate | TederBot_v1.0_fixed/backtest/get_historical_data.py:331 | interpolation keeps the length and every number already present |
| HistoryCleaner.InterpolateIsLinear | TederBot_v1.0_fixed/backtest/get_historical_data.py:331 | a NaN between two numbers takes the `Lerp` point between the nearest number before it and the nearest after it; a NaN after the last number takes that number; a NaN before the first number stays NaN; numbers stay |
| HistoryCleaner.Lerp | TederBot_v1.0_fixed/backtest/get_historical_data.py:331 | the linear point `k / d` of the way from `va` to `vb` is the value whose rise above `va`, times `d`, equals `(vb - va) * k`: the straight line through the two neighbours |
| HistoryCleaner.InterpolateKeepsLeadingNaN | TederBot_v1.0_fixed/backtest/get_historical_data.py:331 | an interpolated value is NaN exactly when no number lies at or before it |
| HistoryCleaner.InterpolateAtIsBetween | TederBot_v1.0_fixed/backtest/get_historical_data.py:331 | every interpolated value lies between two numbers of the column (its exact value is stated by HistoryCleaner.InterpolateIsLinear) |
| HistoryCleaner.Reindexed | TederBot_v1.0_fixed/backtest/get_historical_data.py:326 | the reindexed column holds the table's number at each hour it has a row for, NaN elsewhere |
| HistoryCleaner.FillMissingHours | TederBot_v1.0_fixed/backtest/get_historical_data.py:303-342 | an empty table is returned as is; otherwise it succeeds exactly when timestamps are distinct and gives one row per hour of the range, in order |
| HistoryCleaner.FillMissingHoursCoversEveryHour | TederBot_v1.0_fixed/backtest/get_historical_data.py:316-326 | the filled table is strictly increasing, on whole hours within the range, and has every whole hour of it |
| HistoryCleaner.FillMissingHoursColumn | TederBot_v1.0_fixed/backtest/get_historical_data.py:329-334 | each column of the filled table is that column reindexed, interpolated, forward- and backward-filled on its own |
| HistoryCleaner.FillMissingHoursKeepsKnownValues | TederBot_v1.0_fixed/backtest/get_historical_data.py:326-334 | a number the table has at a whole hour of the range is kept at that hour |
| HistoryCleaner.FilledColumnKeeps | TederBot_v1.0_fixed/backtest/get_historical_data.py:331-334 | interpolation and both fills never change a number the reindexed column has |
| HistoryCleaner.FillMissingHoursNaNOnlyWhenEmpty | TederBot_v1.0_fixed/backtest/get_historical_data.py:331-334 | a filled value is NaN exactly when the column has no number at any hour of the range |
| DataLoader.MissingFrom | TederBot_Release/backtest/data_loader.py:260-261 | the missing columns are exactly the required ones absent from the table |
| DataLoader.CountBadZero | TederBot_Release/backtest/data_loader.py:273-286 | the invalid-row count is zero exactly when no row breaks the price ordering or has a non-positive price |
| DataLoader.CountNullZero | TederBot_Release/backtest/data_loader.py:289 | a column's null count is zero exactly when every row has a number there |
| DataLoader.NullCountsReportNulls | TederBot_Release/backtest/data_loader.py:289-291 | the null counts report something exactly when some row has a null |
| DataLoader.ValidateOhlcvData | TederBot_Release/backtest/data_loader.py:247-305 | the table is valid exactly when no error is reported; missing columns give that single error and stop; a non-datetime timestamp column is reported |
| DataLoader.ValidIffWellFormed | TederBot_Release/backtest/data_loader.py:247-305 | the validator accepts exactly the tables with every column, datetime stamps, ordered positive complete rows and distinct timestamps |
| DataLoader.ValidRowsAreOrdered | TederBot_Release/backtest/data_loader.py:273-282 | every row of a valid table is complete with a positive low at or below open and close and a high at or above both |
| DataLoader.RequestsNeeded | TederBot_Release/backtest/data_loader.py:117-119 | the requests of 200 candles cover `days * 24` hours, and one fewer would not |
| DataLoader.Concat | TederBot_Release/backtest/data_loader.py:129-140 | the combined rows are exactly the rows of the replies and are empty exactly when every reply is |
| DataLoader.FirstFailure | TederBot_Release/backtest/data_loader.py:123-157 | the index found is the first failed reply; none is found only when every reply succeeded |
| DataLoader.Window | TederBot_Release/backtest/data_loader.py:143-149 | the window is sorted and holds exactly the merged timestamps from `days` days before the latest one |
| DataLoader.WindowRows | TederBot_Release/backtest/data_loader.py:143-149 | every window row is a row of the merged replies, between the window start and the latest timestamp |
| DataLoader.GetExtendedData | TederBot_Release/backtest/data_loader.py:97-157 | a failed request's error is raised first; a success needs a positive number of days and some data, and is sorted |
| DataLoader.ExtendedDataNeedsSomeData | TederBot_Release/backtest/data_loader.py:136-137 | without a failed request the fetch succeeds exactly when some reply holds data, and otherwise fails with the no-data message |
| DataLoader.ExtendedDataKeepsTheWindow | TederBot_Release/backtest/data_loader.py:140-153 | a fetched history has exactly the merged timestamps within the last `days` days |
| DataLoader.ExtendedDataRowsFromReplies | TederBot_Release/backtest/data_loader.py:140-153 | every fetched row comes from one of the replies and lies within the window |
| DataLoader.LoadBacktestData | TederBot_Release/backtest/data_loader.py:308-341 | fetched data is used exactly when real data is asked for, the fetch succeeds and it validates; otherwise the generated sample is used |
| LiveBot.CalculateSlopes | main_live.py:132-137 | 0 with fewer than `bars` values; otherwise the slope times `bars - 1` is the change over the last `bars` values |
| LiveBot.CheckBuy | main_live.py:139-175 | a buy exactly with at least 20 rows, no position, five RSI and five EMA numbers, the RSI above its values 2 and 4 numbers back, and the EMA up by at least 0.6 over 2 steps and 0.8 over 4 |
| LiveBot.HoldHours | main_live.py:192 | the hours held times 3600 are the seconds between entry and now |
| LiveBot.DisjointDeclineMeansShrinkingRises | main_live.py:202-212 | the disjoint-segment EMA rule holds exactly when the 2-step rises ending 6 bars back, 3 bars back and at the last value strictly shrink |
| LiveBot.CheckSell | main_live.py:177-214 | nothing without a position; otherwise the first of profit target, timeout, RSI overbought and disjoint-segment EMA decline, each as an if-and-only-if, with the hours and RSI value reported |
| LiveBot.BuyQuantity | main_live.py:223-224 | the quantity rounded to 4 places is within half a unit of `balance * 0.999 / price`, so the order's value never exceeds the balance when the price is at most 20 times it |
| LiveBot.PlaceBuyOrder | main_live.py:216-267 | a buy succeeds exactly with at least 10,000 KRW and, outside a dry run, an accepted order; a dry run opens the position at the price now, a live run records the pending order; a refused buy changes nothing |
| LiveBot.PlaceSellOrder | main_live.py:269-325 | a zero entry price raises; with a position, the sell succeeds exactly in a dry run or on an accepted order, which alone clear the position; a live sell is a limit order only for the profit target and a market order otherwise |
| LiveBot.CheckPendingOrder | main_live.py:327-374 | no pending order lets the cycle proceed; one older than 600 seconds is cleared, cancelled outside a dry run, and stops the cycle; a filled pending buy becomes the position at its price and size |
| LiveBot.SellPrice | main_live.py:408-414 | the profit target sells at entry plus the target, every other reason at the last close |
| LiveBot.RunStrategy | main_live.py:376-421 | without a balance nothing happens; otherwise the balances are refreshed, the position/pending consistency is kept, a buy is placed only at the ask and only when the buy rule holds for the refreshed, pending-checked bot; a sell is placed only for the first reason the sell rule gives and clears the position, at the last close unless it is the profit target; conversely a buy signal with nothing pending, a non-zero ask, at least 10,000 KRW and an accepted (or dry-run) order places the buy, and a sell reason with a non-zero entry price and an accepted (or dry-run) order places that sell |
| OrderLifecycle.ValidateOrderAmount | src/strategy/order_manager.py:464-474 | an amount is accepted exactly when positive and at most the maximum order amount |
| OrderLifecycle.SubmitLimit | src/strategy/order_manager.py:129-151 | an order is submitted and registered as active exactly when the reply carries an order id; otherwise it is marked failed and the book is unchanged |
| OrderLifecycle.PlaceLimitBuy | src/strategy/order_manager.py:85-157 | an invalid amount fails with the validation message and no book change; otherwise the buy is registered as submitted exactly when the reply carries an order id |
| OrderLifecycle.PlaceLimitSell | src/strategy/order_manager.py:159-224 | the sell is registered as submitted exactly when the reply carries an order id, with the history untouched; otherwise it fails with the book unchanged |
| OrderLifecycle.PlaceMarketSell | src/strategy/order_manager.py:226-287 | the book never changes; an accepted market sell is filled at once with nothing remaining and is never active |
| OrderLifecycle.CancelOrder | src/strategy/order_manager.py:289-322 | an accepted cancel of an active order moves it to the history as cancelled; an error returns false with the book unchanged |
| OrderLifecycle.ApplyStatusBody | src/strategy/order_manager.py:340-358 | "filled" fills with nothing remaining, "partially_filled" keeps filled plus remaining equal to the quantity, "cancelled" keeps the counts, any other text leaves status and counts alone |
| OrderLifecycle.UpdateOrderStatus | src/strategy/order_manager.py:324-372 | an unknown id or an error answers None with the book unchanged; a filled or cancelled order moves from active to history, any other status stays active |
| OrderLifecycle.ArchivedExactlyOnce | src/strategy/order_manager.py:360-362 | once an update archives an order, the history grew by one and every later update of that id answers None and changes nothing |
| OrderLifecycle.WaitForPartialFill | src/strategy/order_manager.py:374-414 | the polling loop succeeds exactly when the first poll reporting FILLED or CANCELLED reported FILLED; at that first terminal poll it returns the poll's filled quantity and the book that poll left; with no terminal poll it returns no fill, the active filled quantity (0 when the order is gone) and the book after cancelling; it agrees with the recursive reference `WaitSpec` |
| OrderLifecycle.WaitFilledOnlyOnFill | src/strategy/order_manager.py:386-400 | the reference wait reports success if and only if the first poll reporting a terminal status reported FILLED |
| OrderLifecycle.WaitEndsAtFirstTerminal | src/strategy/order_manager.py:386-400 | the reference wait ends at the first terminal poll: a fill reports success and a cancel reports none, both with that poll's filled quantity and the book after that poll |
| OrderLifecycle.WaitTimeoutCancels | src/strategy/order_manager.py:386-414 | when no poll reports FILLED or CANCELLED, the reference wait reports no fill, the filled quantity the book shows after all polls (0 when the order is gone), and cancels the order in that book |
| OrderLifecycle.WaitStopsOnExternalCancel | src/strategy/order_manager.py:398-400 | an external cancel seen at any poll, with no earlier terminal poll and the order still active, ends the wait there with no fill, the quantity filled so far, and the order moved from the active map to the history as cancelled at that poll's time |
| OrderLifecycle.CancelAllActiveOrders | src/strategy/order_manager.py:430-445 | the sweep computes the reference outcome of cancelling each id of the snapshot in order |
| OrderLifecycle.CancelAllCounts | src/strategy/order_manager.py:430-445 | the count is the number of accepted cancel replies and never more than the ids swept |
| OrderLifecycle.CancelAllRemaining | src/strategy/order_manager.py:430-445 | after the sweep an order is still active exactly when it was active and every cancel aimed at it failed |
| OrderLifecycle.CancelAllBoundedByActive | src/strategy/order_manager.py:430-445 | sweeping the distinct active ids counts at most the number of active orders |
| PositionLedger.PositionDuration | standalone_dist/src/strategy/position_manager.py:101-108 | there is a duration exactly when a position is held with an entry time, and then it is the time since entry |
| PositionLedger.IsPositionTimeout | standalone_dist/src/strategy/position_manager.py:110-117 | a timeout exactly when a position with an entry time has been held for at least the timeout |
| PositionLedger.AddBuyTrade | standalone_dist/src/strategy/position_manager.py:119-187 | the buy adds its quantity and its cost plus fee to the basis, the new average times the quantity is the new cost, the entry time is set only by the first buy, and exactly one record is appended |
| PositionLedger.AddSellTrade | standalone_dist/src/strategy/position_manager.py:189-266 | selling more than is held is refused with nothing changed; otherwise the realised P&L grows by proceeds less fee less average cost, a partial sell keeps the average, a remainder at or below 1e-8 clears the position, one record is appended and the sell counts as a win exactly when it made money |
| PositionLedger.CalculateUnrealizedPnl | standalone_dist/src/strategy/position_manager.py:268-285 | 0 with nothing stored when flat; otherwise the P&L plus the cost is the market value, and it is stored on the position |
| PositionLedger.ProfitTargetPrice | standalone_dist/src/strategy/position_manager.py:287-300 | 0 when flat; otherwise the target exceeds the average price by the configured margin |
| PositionLedger.ReturnPercentage | standalone_dist/src/strategy/position_manager.py:302-316 | 0 when flat or at zero cost; otherwise the return times the average is 100 times the price gain |
| PositionLedger.ValidateTradeAmount | standalone_dist/src/strategy/position_manager.py:377-402 | an amount is accepted exactly when positive, within the cap and, for a sell, within the held quantity |
| PositionLedger.CeilUnits | standalone_dist/src/strategy/position_manager.py:417-434 | the unit count is the scaled quantity rounded away from zero |
| PositionLedger.CeilQuantity | standalone_dist/src/strategy/position_manager.py:417-434 | the result is a whole number of units of 10^-precision |
| PositionLedger.CeilUnitsIsLeast | standalone_dist/src/strategy/position_manager.py:417-434 | for a non-negative quantity no smaller whole number of units covers it, so the rounded quantity is the least multiple at or above it |
| PositionLedger.BuyKeepsCostConsistent | standalone_dist/src/strategy/position_manager.py:155-166 | a buy leaving a positive quantity keeps cost equal to quantity times average price |
| PositionLedger.SellKeepsCostConsistent | standalone_dist/src/strategy/position_manager.py:229-244 | a sell keeps cost equal to quantity times average price, whether or not it clears the position |
| PositionLedger.HistoryKeepsInvariants | standalone_dist/src/strategy/position_manager.py:155-255 | over any history of positive buys and arbitrary sells the cost identity, a non-negative quantity and the trade counters all hold |
| PositionLedger.HistoryAppendsOnly | standalone_dist/src/strategy/position_manager.py:119-266 | the trade list only grows, by at most one record per operation, and never rewrites an earlier record |
| SimpleBot.UpdateBalance | main_simple.py:49-60 | a successful reply replaces both balances and nothing else; a failed one changes nothing |
| SimpleBot.GetMarketData | main_simple.py:62-90 | market data, when there is any, has one row per hour requested and needs a ticker |
| SimpleBot.MarketDataNeverArrives | main_simple.py:71-90 | the flat 24-row frame makes the RSI step fail for any ticker, so market data is always missing |
| SimpleBot.CheckBuySignal | main_simple.py:92-118 | the hard-coded slope test agrees with the live bot's buy rule on every bot without a position |
| SimpleBot.CheckSellSignal | main_simple.py:120-140 | nothing without a position; otherwise the first of profit target, timeout and RSI overbought, each as an if-and-only-if |
| SimpleBot.SellIsLiveWithoutEma | main_simple.py:120-140 | on the same position and frame the simple bot's sell reason is the live bot's with the EMA rule removed |
| SimpleBot.ExecuteBuy | main_simple.py:142-155 | a dry run puts the whole KRW balance into a position at the price (a zero price raises); a live run never trades |
| SimpleBot.ExecuteSell | main_simple.py:157-169 | a dry run clears the position (raising without one or at a zero entry price); a live run never trades |
| SimpleBot.RunOnce | main_simple.py:178-205 | without market data nothing changes; balances never change, and a position appears or disappears only in a dry run |
| SimpleBot.RunOnceNeverTrades | main_simple.py:171-212 | no pass of the main loop ever changes the bot: the simple bot never trades |
| Performance.SumOfPositives | TederBot_v1.0_fixed/backtest/performance_analyzer.py:143 | the total of a list of strictly positive P&Ls is non-negative, and positive when the list is non-empty |
| Performance.SumOfNegatives | TederBot_v1.0_fixed/backtest/performance_analyzer.py:144 | the total of a list of strictly negative P&Ls is non-positive, and negative when the list is non-empty |
| Performance.Mean | TederBot_v1.0_fixed/backtest/performance_analyzer.py:137 | the mean times the count is the sum |
| Performance.MaxOf | TederBot_v1.0_fixed/backtest/performance_analyzer.py:161 | the maximum is one of the values and no value exceeds it |
| Performance.MinOf | TederBot_v1.0_fixed/backtest/performance_analyzer.py:201 | the minimum is one of the values and no value is below it |
| Performance.Positives | TederBot_v1.0_fixed/backtest/performance_analyzer.py:128 | the winning P&Ls: only strictly positive values, and every strictly positive input value among them |
| Performance.Negatives | TederBot_v1.0_fixed/backtest/performance_analyzer.py:129 | the losing P&Ls: only strictly negative values, and every strictly negative input value among them |
| Performance.SignsPartition | TederBot_v1.0_fixed/backtest/performance_analyzer.py:128-132 | winners, losers and break-even trades together count every trade exactly once |
| Performance.Pnls | TederBot_v1.0_fixed/backtest/performance_analyzer.py:150 | one P&L per trade, in trade order |
| Performance.HoldingHours | TederBot_v1.0_fixed/backtest/performance_analyzer.py:153-157 | at most one holding period per trade, and none exactly when no trade has an exit time; every exited trade's duration in hours (seconds over 3600) is among them, and each of them is the duration of an exited trade |
| Performance.HoldingHoursAppend | TederBot_v1.0_fixed/backtest/performance_analyzer.py:153-157 | the periods of two runs of trades are those of the first run followed by those of the second, so the periods come in trade order |
| Performance.HoldingHoursOfOne | TederBot_v1.0_fixed/backtest/performance_analyzer.py:154-157 | one trade contributes its duration in hours when it has exited and nothing otherwise |
| Performance.ReturnPct | TederBot_v1.0_fixed/backtest/performance_analyzer.py:106-107 | the return percentage turns the initial balance into the final one: (pct / 100 + 1) times initial is final |
| Performance.MeanOr | TederBot_v1.0_fixed/backtest/performance_analyzer.py:136-140 | the mean of a non-empty list, and the previous field value for an empty one |
| Performance.MeanOfPositives | TederBot_v1.0_fixed/backtest/performance_analyzer.py:136-137 | the average win is positive |
| Performance.MeanOfNegatives | TederBot_v1.0_fixed/backtest/performance_analyzer.py:139-140 | the average loss is negative |
| Performance.WinRate | TederBot_v1.0_fixed/backtest/performance_analyzer.py:133 | the win rate lies in [0, 100] and times the trade count is 100 times the winners |
| Performance.ProfitFactor | TederBot_v1.0_fixed/backtest/performance_analyzer.py:143-147 | with a loss, total wins over the absolute total loss, never negative; with no loss the field keeps its previous value |
| Performance.WinStats | TederBot_v1.0_fixed/backtest/performance_analyzer.py:128-147 | winners and losers counted exactly (with break-evens they cover every trade), win rate in [0, 100], average win positive and average loss negative when present, profit factor as above, and no other field changed |
| Performance.AnalyzeTrades | TederBot_v1.0_fixed/backtest/performance_analyzer.py:120-171 | the trade count is set even for no trades; otherwise the winner and loser counts, a win rate between 0 and 100, signed average win and loss, the mean P&L, the longest holding period at least the average and one of the periods, the expectancy only when there is a positive average win and a negative average loss; the return and drawdown fields untouched |
| Performance.AnalyzeTradesWinStatistics | TederBot_v1.0_fixed/backtest/performance_analyzer.py:127-146 | the win rate is 100 times the winners over all trades, the average win and loss are the means of the winners and losers, and the profit factor is the winners' sum over the losers' absolute sum when some trade lost and is left as it was otherwise |
| Performance.AnalyzeTradesHoldingPeriods | TederBot_v1.0_fixed/backtest/performance_analyzer.py:151-161 | with some exited trade, the average holding period is the mean of the periods and the maximum bounds every period; with none, both fields are left as they were |
| Performance.WithHoldingPeriods | TederBot_v1.0_fixed/backtest/performance_analyzer.py:159-161 | with periods, the mean and the largest period are recorded, the mean at most the largest; no other field changes |
| Performance.Expectancy | TederBot_v1.0_fixed/backtest/performance_analyzer.py:164-169 | the expectancy lies between the average loss and the average win, and equals either one at a win rate of 100 or 0 |
| Performance.ExpectancyNeedsWinnerAndLoser | TederBot_v1.0_fixed/backtest/performance_analyzer.py:164-169 | from fresh metrics, the expectancy is set exactly when there is at least one winner and one loser, and then lies between the average loss and the average win |
| Performance.Peak | TederBot_v1.0_fixed/backtest/performance_analyzer.py:198 | the running maximum at a point is one of the equities so far and none of them exceeds it |
| Performance.PeakGrows | TederBot_v1.0_fixed/backtest/performance_analyzer.py:198 | the running maximum never decreases |
| Performance.Fraction | TederBot_v1.0_fixed/backtest/performance_analyzer.py:199 | the drawdown is never positive, is zero exactly at a new running peak, and is at least -100% while equity is non-negative |
| Performance.DrawdownPcts | TederBot_v1.0_fixed/backtest/performance_analyzer.py:199 | one drawdown percentage per equity point |
| Performance.MaxDrawdown | TederBot_v1.0_fixed/backtest/performance_analyzer.py:201 | the maximum drawdown is never negative |
| Performance.MaxDrawdownAbs | TederBot_v1.0_fixed/backtest/performance_analyzer.py:202 | the maximum drawdown in money is never negative |
| Performance.MaxDrawdownAbsIsDeepest | TederBot_v1.0_fixed/backtest/performance_analyzer.py:198-202 | the maximum drawdown in money is at least every point's fall below its running peak and equals the fall at some point |
| Performance.MaxDrawdownIsDeepest | TederBot_v1.0_fixed/backtest/performance_analyzer.py:198-201 | the maximum drawdown is at least every point's drawdown and equals one of them, and is at most 100% while equity stays non-negative |
| Performance.MaxDrawdownZeroIffNeverFalls | TederBot_v1.0_fixed/backtest/performance_analyzer.py:198-201 | the maximum drawdown is zero exactly when the equity curve never falls |
| Performance.AnalyzeEquityCurve | TederBot_v1.0_fixed/backtest/performance_analyzer.py:173-231 | a curve with fewer than two points changes nothing; otherwise the maximum drawdown is set to the deepest percentage fall and the money drawdown to the deepest money fall below the running peak, and the recovery factor is total return over maximum drawdown when that is positive; no other field changes |
| Performance.AnalyzeBacktestResult | TederBot_v1.0_fixed/backtest/performance_analyzer.py:88-118 | the total return is set from a positive initial balance and zero otherwise, the trade count is set, the drawdown is never negative, a curve of two or more points sets both drawdowns as the equity-curve analysis does, and no trades leave the win statistics and expectancy at zero |
| Performance.PeriodIsRecorded | TederBot_v1.0_fixed/backtest/performance_analyzer.py:296-316 | a period that opens below -1% and closes back at its peak is deeper than 1%, starts no lower than its minimum and ends above its start |
| Performance.Closed | TederBot_v1.0_fixed/backtest/performance_analyzer.py:300-316 | closing a period records exactly that one period |
| Performance.Scan | TederBot_v1.0_fixed/backtest/performance_analyzer.py:292-316 | every recorded period passes the recording threshold |
| Performance.OpenPeriodIsDropped | TederBot_v1.0_fixed/backtest/performance_analyzer.py:296-316 | a drawdown that never recovers before the end of the curve is never recorded |
| Performance.InsertByDepth | TederBot_v1.0_fixed/backtest/performance_analyzer.py:319 | inserting keeps the list deepest first and adds exactly the one period |
| Performance.SortByDepth | TederBot_v1.0_fixed/backtest/performance_analyzer.py:319 | the sorted list is deepest first and a permutation of the input |
| Performance.InsertByDepthIsStable | TederBot_v1.0_fixed/backtest/performance_analyzer.py:319 | an inserted period goes after every period of its own depth, and each depth's periods keep their order |
| Performance.SortByDepthIsStable | TederBot_v1.0_fixed/backtest/performance_analyzer.py:319 | the sort is stable: for every depth, the periods of that depth come out in their original order |
| Performance.DrawdownPeriods | TederBot_v1.0_fixed/backtest/performance_analyzer.py:278-321 | no curve gives no periods; otherwise a permutation of the scanned periods, deepest first, each one passing the threshold |
| Performance.CompareToBuyAndHold | TederBot_v1.0_fixed/backtest/performance_analyzer.py:323-349 | nothing for an empty price frame; otherwise the first and last closes, the strategy return (0 for a non-positive initial balance), the buy-and-hold return between the closes, and an outperformance that added to the buy-and-hold return gives the strategy return |
| Performance.ComparisonAgreesWithTotalReturn | TederBot_v1.0_fixed/backtest/performance_analyzer.py:332-341 | the comparison's strategy return is the analysis's total return |
| SplitBuy.Fresh | TederBot_Release/src/strategy/split_buy_strategy.py:57-73 | the reset position waits with nothing bought, invested or timestamped |
| SplitBuy.TargetAboveStop | TederBot_Release/src/strategy/split_buy_strategy.py:350-351 | the rounded-up profit target is always exactly 5 won above the rounded-up stop loss |
| SplitBuy.UpdateAfterFill | TederBot_Release/src/strategy/split_buy_strategy.py:331-353 | a fill that leaves no positive quantity changes nothing; otherwise the quantity grows by the fill and the fill is appended to the buy times; the phase and order ids are untouched |
| SplitBuy.FillBooksAverage | TederBot_Release/src/strategy/split_buy_strategy.py:333-351 | after a fill the invested amount grows by quantity times price, the average price times the quantity is the invested amount, the target is the least integer at least 3 above the average, and the stop is 5 below the target |
| SplitBuy.FillKeepsLedger | TederBot_Release/src/strategy/split_buy_strategy.py:331-353 | a fill keeps the position consistent: invested equals average price times quantity, and target is stop plus 5 once something is bought |
| SplitBuy.CeilQuantity | TederBot_Release/src/strategy/split_buy_strategy.py:154-156 | for a positive price, the least whole quantity whose cost covers the amount after the 0.1% fee |
| SplitBuy.WholeUnitsCover | TederBot_Release/src/strategy/split_buy_strategy.py:156 | rounding the quantity up makes its cost cover the amount, and one unit less would not |
| SplitBuy.Phase1Conditions | TederBot_Release/src/strategy/split_buy_strategy.py:96-125 | the first buy signal holds exactly when the last RSI(9) is below 70 and more than 6 above its value two bars back, the RSI EMA rose by more than 1, and the price EMA rose by more than 0.2, all on numbers |
| SplitBuy.ExecutePhase1Buy | TederBot_Release/src/strategy/split_buy_strategy.py:145-192 | fails, leaving the position alone, exactly when the price is zero, there is no best ask, or the order is refused; otherwise a limit buy at the best ask for 30% of the balance, the least whole quantity covering it, PHASE1 with the order id and creation time recorded |
| SplitBuy.ExecutePhase2Buy | TederBot_Release/src/strategy/split_buy_strategy.py:247-287 | fails, leaving the position alone, exactly when the price 2 below average is zero or the order is refused; otherwise a limit buy at average minus 2 for 30% of the balance, the least whole quantity covering it, and PHASE2 with the order id recorded |
| SplitBuy.ExecutePhase3Buy | TederBot_Release/src/strategy/split_buy_strategy.py:289-329 | the same as the second buy with the whole remaining balance, moving to PHASE3 |
| SplitBuy.HandlePhase1Fill | TederBot_Release/src/strategy/split_buy_strategy.py:194-245 | nothing happens when the order id is missing or empty (the falsy test of line 197) or there is no status reply; the phase advances exactly on a full fill, or on a positive partial fill after 10 minutes whose cancel succeeds, booking the fill; any other change is the reset of an empty expired order or a booked fill whose cancel raised |
| SplitBuy.RaisingCancelBooksTwice | TederBot_Release/src/strategy/split_buy_strategy.py:225-245 | when cancelling an expired partial fill raises, two calls book the same fill twice and the phase never moves |
| SplitBuy.CheckSellConditions | TederBot_Release/src/strategy/split_buy_strategy.py:355-395 | the intended rule: exactly one of take profit at or above the target, stop loss in PHASE3 at or below the stop, the first fill 24 hours old, the last RSI(14) above 70, or no sale, in that priority |
| SplitBuy.CheckSellConditionsAsWritten | TederBot_Release/src/strategy/split_buy_strategy.py:355-395 | the rule as the source runs it: the RSI reason is never given, because the RSI call raises and the handler answers no sale |
| SplitBuy.AsWrittenDropsTheRsiReason | TederBot_Release/src/strategy/split_buy_strategy.py:375-395 | the rule as written agrees with the intended rule on every input, except that an intended RSI sale becomes no sale |
| SplitBuy.RsiSellNeverFires | TederBot_Release/src/strategy/split_buy_strategy.py:375-395 | a PHASE1 position below its target with RSI(14) at 80 is sold by the intended rule and kept by the rule as written |
| SplitBuy.ExecuteSellOrder | TederBot_Release/src/strategy/split_buy_strategy.py:397-450 | fails with "No position to sell" when nothing is held and leaves the position alone on any failure; otherwise sells the whole quantity, a limit order at the target (price at or above it) or else the stop, a market order at the current price, and moves to SELLING |
| SplitBuy.StopLossSellsFiveBelowTarget | TederBot_Release/src/strategy/split_buy_strategy.py:367-368 | a stop-loss sale is a limit order 5 won below the profit target |
| SplitBuy.WaitingStep | TederBot_Release/src/strategy/split_buy_strategy.py:505-514 | while waiting the book is untouched, the phase stays WAITING or moves to PHASE1, and a first buy is attempted exactly when the first buy signal holds |
| SplitBuy.Phase1Step | TederBot_Release/src/strategy/split_buy_strategy.py:515-522 | in PHASE1 the position is the fill handler's, the phase stays, advances to PHASE2 or resets, and the second buy is attempted exactly when the handler reports a fill |
| SplitBuy.Phase3Step | TederBot_Release/src/strategy/split_buy_strategy.py:530-539 | in PHASE3 the book is untouched, the phase stays or moves to SELLING, and a sale is attempted exactly when a sell rule fires |
| SplitBuy.RunStrategyCycle | TederBot_Release/src/strategy/split_buy_strategy.py:486-549 | fails exactly with fewer than 20 candles (the market-data guard at lines 81-83) or no balance; SELLING only waits; the phase stays, advances one step, or resets from PHASE1; outside PHASE1 the book is untouched; the third buy spends the whole balance from PHASE2; a sale happens only from PHASE3 when a rule fires |
| SplitBuy.CycleKeepsLedger | TederBot_Release/src/strategy/split_buy_strategy.py:486-549 | a cycle keeps the position consistent |
| SplitBuy.Phase1FillKeepsLedger | TederBot_Release/src/strategy/split_buy_strategy.py:194-245 | handling the first fill keeps the position consistent |
| SplitSim.Open | test_split_strategy.py:137-158 | the first simulated buy invests 30% of the balance at the entry close, which becomes the average price, and leaves the book balanced: invested plus remaining is the initial balance and average times quantity is invested |
| SplitSim.AddBuy | test_split_strategy.py:183-196 | a further buy adds its amount to the invested total, never lowers the quantity, keeps average times quantity equal to invested, and appends one phase record |
| SplitSim.Phase2Step | test_split_strategy.py:180-197 | the second buy happens exactly once, when the close is at or below its trigger and 30% of the initial balance is still available, which it takes from the remaining balance; the book stays balanced |
| SplitSim.Phase3Step | test_split_strategy.py:200-217 | the third buy happens exactly once, after the second, at or below its trigger with money left, and spends all of it, so the whole balance is invested; the book stays balanced |
| SplitSim.FirstDipBuysBoth | test_split_strategy.py:161-217 | a close at least 2 below the entry triggers the second and third buys on the same bar, investing the whole balance in three phases |
| SplitSim.ExitRule | test_split_strategy.py:220-252 | exactly one of: take profit at average plus 3, stop loss at average minus 2 after the third buy, the 24-bar limit at the close, RSI above 70 at the close, or no exit, in that priority |
| SplitSim.RsiHot | test_split_strategy.py:245-248 | when the RSI(14) of the prefix can be computed, the answer is whether its last value is a number above 70 |
| SplitSim.Scan | test_split_strategy.py:173-252 | the book stays balanced; an exit is within the checked bars, never "End of Period", sells a take profit at average plus 3, a stop loss at average minus 2 only after the third buy, and the time limit exactly 24 bars in |
| SplitSim.Settle | test_split_strategy.py:262-281 | the trade's profit is quantity times the margin over the average price, 3 per unit on a take profit and -2 per unit on a stop loss with the whole balance invested, the profit rate is profit over invested in percent, and holding hours count the bars held |
| SplitSim.Finish | test_split_strategy.py:255-281 | the trade is closed: sold within 48 bars of its start and inside the data, no more than the balance invested in one to three phases, and an end-of-period exit at the close of the last bar checked |
| SplitSim.SimulateTrade | test_split_strategy.py:135-282 | a simulated trade starts at its entry bar and sells at or after it, inside the data |
| SplitSim.SimulatedTradeIsClosed | test_split_strategy.py:135-282 | every simulated trade meets all the closing properties listed for Finish |
| SplitSim.ProfitOfExit | test_split_strategy.py:263-264 | the sale value less the invested amount is the quantity times the margin over the average price |
| SplitSim.Phase1At | test_split_strategy.py:100-133 | no entry before bar 20, and an entry only when the RSI, RSI EMA and price EMA series are long enough for their rules |
| SplitSim.BacktestFrom | test_split_strategy.py:293-326 | the balance never falls (losing trades are not deducted); trades start at signals, leave 50 bars of room, and each starts at least 24 bars after the previous sale |
| SplitSim.RunBacktest | test_split_strategy.py:284-326 | the balance never falls below the initial one, every trade starts at or after bar 20 on a first-buy signal with at least 50 bars after it, and data too short gives no trades |
| TradingStrategy.ResetForNewCycle | src/strategy/trading_strategy.py:534-545 | a new cycle starts from the initial context and remembers one more restart |
| TradingStrategy.CreateErrorResult | src/strategy/trading_strategy.py:547-556 | an error moves to ERROR with the message recorded, and changes nothing else |
| TradingStrategy.CheckBuyConditions | src/strategy/trading_strategy.py:240-268 | a buy signal exactly when both the RSI and the EMA buy rules hold; an indicator error means no signal |
| TradingStrategy.CheckLiquidationConditions | src/strategy/trading_strategy.py:270-303 | liquidate exactly when a held position has timed out, or the RSI or the EMA sell rule holds |
| TradingStrategy.BuyQuantity | src/strategy/trading_strategy.py:318-321 | with a positive ask and balance, the rounded-up quantity is positive and costs at least the balance |
| TradingStrategy.CeilCovers | src/strategy/trading_strategy.py:321 | rounding a quantity up to 8 decimals never lowers it |
| TradingStrategy.ExecuteBuyOrder | src/strategy/trading_strategy.py:305-372 | no ask, no balance or a non-positive balance are errors that leave the ledger alone; a buy moves to POSITION_HELD with one more trade: a buy at the ask without fee, of the rounded-up quantity in a dry run and of the positive filled quantity otherwise |
| TradingStrategy.HandleWaitingForBuy | src/strategy/trading_strategy.py:127-142 | without a buy signal nothing changes; with one the buy is executed; the state moves only along the diagram |
| TradingStrategy.ExecuteProfitSellOrder | src/strategy/trading_strategy.py:374-411 | the ledger is untouched; ERROR exactly when a real order is refused; otherwise WAITING_FOR_SELL with the dry-run id, or the accepted order active in the book as a sell of the whole position at the target |
| TradingStrategy.HandlePositionHeld | src/strategy/trading_strategy.py:144-153 | a held position always leaves POSITION_HELD: to WAITING_FOR_SELL with a take-profit order at the average price plus the profit target, or to ERROR |
| TradingStrategy.CancelResting | src/strategy/trading_strategy.py:419-420 | with a resting sell order id, an accepted cancel removes it from the active book and a raising one leaves the book alone; without one the book is untouched |
| TradingStrategy.ExecuteLiquidationSellOrder | src/strategy/trading_strategy.py:413-465 | the resting order is cancelled first; ERROR, with the ledger untouched, exactly when a real market sale is refused; otherwise STRATEGY_COMPLETED stamped now with one more sell trade; a dry run sells the whole position at price 0 |
| TradingStrategy.CompleteProfitableCycle | src/strategy/trading_strategy.py:467-490 | the cycle completes now; a fill no larger than the position adds its proceeds less its cost at the average price to the realised P&L, and the reported profit is the realised P&L |
| TradingStrategy.HandleSellOrderCancelled | src/strategy/trading_strategy.py:492-503 | after a cancelled take-profit order: liquidate when a liquidation signal holds, otherwise place a new take-profit order at the current target |
| TradingStrategy.HandleWaitingForSell | src/strategy/trading_strategy.py:155-183 | liquidation takes priority; staying in WAITING_FOR_SELL never changes the ledger; without a sell order id and without a signal nothing changes |
| TradingStrategy.HandleStrategyCompleted | src/strategy/trading_strategy.py:185-210 | once the restart delay has elapsed since completion the cycle resets with one more restart; until then nothing changes and the remaining wait plus the elapsed time is the delay |
| TradingStrategy.CloseOut | src/strategy/trading_strategy.py:217-229 | every swept order is cancelled and a held position sold at market has its fill booked; an unaccepted sale leaves the ledger alone |
| TradingStrategy.HandleError | src/strategy/trading_strategy.py:212-238 | the close-out followed by a new cycle; the reported previous error is always empty because it is read after the reset |
| TradingStrategy.EmergencyStop | src/strategy/trading_strategy.py:569-588 | the same close-out as error recovery, then ERROR with the emergency-stop message and the rest of the context kept |
| TradingStrategy.EmergencyStopRecovers | src/strategy/trading_strategy.py:569-588 | an emergency stop keeps the strategy coherent, and the next cycle with market data returns to WAITING_FOR_BUY with one more restart |
| TradingStrategy.Handle | src/strategy/trading_strategy.py:106-110 | every handled cycle follows the state diagram; POSITION_HELD is always left and ERROR always recovers to WAITING_FOR_BUY |
| TradingStrategy.Summarize | src/strategy/trading_strategy.py:113-119 | the position summary only refreshes the unrealised P&L; trades, counters and the rest of the position stay |
| TradingStrategy.ExecuteCycle | src/strategy/trading_strategy.py:92-125 | missing market data is an error; otherwise the transition follows the state diagram, POSITION_HELD is always left and ERROR recovers |
| TradingStrategy.BuyKeepsSound | src/strategy/trading_strategy.py:329 | a buy of a positive quantity keeps the ledger identities and leaves a position |
| TradingStrategy.SellKeepsSound | src/strategy/trading_strategy.py:427 | a sale keeps the ledger identities |
| TradingStrategy.CycleKeepsCoherent | src/strategy/trading_strategy.py:92-125 | every cycle keeps the strategy coherent: a completed cycle has a completion time, a position is held while selling, and the ledger identities hold |
| TradingStrategy.SummaryKeepsCoherent | src/strategy/trading_strategy.py:117 | the position summary keeps the strategy coherent |
| TradingStrategy.HandleKeepsCoherent | src/strategy/trading_strategy.py:106-110 | every state's handler keeps the strategy coherent |
| TradingStrategy.WaitingForBuyKeepsSound | src/strategy/trading_strategy.py:127-142 | the WAITING_FOR_BUY handler keeps the strategy coherent |
| TradingStrategy.WaitingForSellKeepsSound | src/strategy/trading_strategy.py:155-183 | the WAITING_FOR_SELL handler keeps the strategy coherent |
| TradingStrategy.CloseOutKeepsSound | src/strategy/trading_strategy.py:217-229 | the close-out keeps the ledger identities |
| TradingStrategy.Run | src/strategy/trading_strategy.py:92-125 | a run of cycles restarts at most once per cycle |
| TradingStrategy.RunKeepsCoherent | src/strategy/trading_strategy.py:92-125 | any run of cycles keeps the strategy coherent |
| TradingStrategy.LiquidationIgnoresSellStatus | src/strategy/trading_strategy.py:160-164 | when a liquidation signal holds, the status of the resting take-profit order does not affect the cycle |
| TradingStrategy.CancelledProfitOrderIsReplaced | src/strategy/trading_strategy.py:174-176 | a cancelled take-profit order is replaced by a new one at the current target when no liquidation signal holds |
| TradingStrategy.DryRunNeverTakesProfit | src/strategy/trading_strategy.py:379-389 | with its sell order id absent from the book, as a dry-run id always is, a waiting sale never completes at the profit target; the cycle completes only by liquidation |
| TradingStrategy.ErrorSweepClearsTheBook | src/strategy/trading_strategy.py:212-217 | when the sweep accepts a cancel for every active order, error recovery leaves no active order |
| Numeric.Ceil | TederBot_Release/src/strategy/split_buy_strategy.py:350-351 | `math.ceil` is the integer at or above its argument by less than 1 |
| Numeric.CeilIsLeast | TederBot_Release/src/strategy/split_buy_strategy.py:350-351 | `math.ceil` is the least integer not below its argument |
| Numeric.CeilShift | TederBot_Release/src/strategy/split_buy_strategy.py:350-351 | adding an integer commutes with `math.ceil` |
| Numeric.RoundTo | TederBot_v1.0_fixed/backtest/get_historical_data.py:210-214 | `round(x, digits)` lies within half a unit of the last digit of `x` |
| Numeric.Round2Monotone | TederBot_v1.0_fixed/backtest/get_historical_data.py:210-214 | rounding to two places never reverses an order |
| Numeric.Round2Idempotent | TederBot_v1.0_fixed/backtest/get_historical_data.py:210-214 | a value rounded to two places rounds to itself |
| Numeric.RoundAwayFromZero | standalone_dist/src/strategy/position_manager.py:432 | `quantize(Decimal('1'), rounding=ROUND_UP)` moves away from zero by less than 1 |

## Left out

### Outside the core
- Exchange I/O and request signing (the REST client, HMAC signing, the API probe scripts): every reply the core uses is a parameter, and an exchange exception is a failed or missing reply.
- The wall clock and blocking waits: `datetime.now` and `time.time` are a `now` parameter in integer seconds. `time.sleep` and the 5-second polling become a finite sequence of status observations. The run loops' sleeps and `KeyboardInterrupt` handling are not modelled.
- Printing, logging, the Rich UI, threads, plotting and report generation: these have no effect on decisions. The formatted message texts of the strategies are abstracted to their reasons. This includes `main_live.py`'s unrealised-P&L log line (lines 417-419).
- pandas_ta RSI/EMA and `np.polyfit` internals: their outputs are inputs. Where the source computes the value itself, the model uses the closed form (the `ewm` recurrence, simple-mean RSI, least-squares slope).
- Random draws (`np.random` in `generate_complete_market_data`, `SampleDataGenerator`, `generate_sample_data` in `test_split_strategy.py`): the draws are arbitrary inputs. Only the OHLC ordering they must respect is proved.
- The network fetchers (`get_complete_april_july_data`, `fetch_upbit_data_comprehensive`, `get_candlestick_data`, and the `_get_market_data` / `get_market_data` helpers of the strategies): they fetch data and decide nothing. The strategies' 20-candle guard is modelled.
- Calendar arithmetic: timestamps are naive whole seconds since 1970-01-01 00:00, read in the Gregorian calendar (hour flooring, month, hour of day and weekday). Time zones and a pandas `NaT` timestamp are not modelled.
- Volatility, Sharpe, Sortino and Calmar ratios, `calculate_monthly_returns`, `calculate_trade_distribution` and `analyze_backtest_performance` in the performance analyzer: they need square roots, powers or calendar grouping.
- Read-only views that only report state:
  - `PositionManager.get_position_summary`, `get_trading_statistics`, `get_recent_trades` and `reset_position`;
  - `OrderManager.get_best_ask_price` (network), `get_active_orders`, `get_order_history`, `has_active_orders`, `has_active_sell_orders` and `get_order_summary`;
  - `TradingStrategy.get_strategy_status`;
  - `SplitBuyStrategy.get_position_status` and `_get_condition_summary`.
- `src/strategy/position_manager.py`: the ledger follows the `standalone_dist` copy, whose buy, sell and clearing rules the cited lines give.

### Preconditions the source leaves to its callers
- Divisions by a price require a positive or non-zero price:
  - LiveBot.BuyQuantity, LiveBot.PlaceBuyOrder and the strategy's ask divide Python floats, so a zero price would raise `ZeroDivisionError`;
  - BacktestEngine.ExecuteBuy, the replay's bar closes and the split simulation's closes divide numpy `float64` values read from the frame, so a zero close gives `inf` or NaN with a runtime warning instead of raising. That result is not modelled.
- BacktestEngine.RunBacktest: requires non-negative slippage and fee rates whose sums stay at most 1. These are the configured constants' ranges, and the cash invariant rests on them.
- ImprovedStrategy.RunBacktest and BasicStrategy.RunBacktest: require the same rates (`SaneRates`) and positive closes, because they hand their bars to BacktestEngine.RunBacktest.
- RsiIndicator.CalculateRsi, the strategy, the simple bot, BasicStrategy.RunBacktest and ImprovedStrategy.RunBacktest: require an RSI period of at least 1, as every configured period is.
- BaseIndicator.BaseSlope: requires `periods >= 1`. `base.py` would also accept 0, which compares the last value with itself; every caller passes 3 or 5.
- Performance.AnalyzeBacktestResult and Performance.DrawdownPeriods: require a positive first equity, because every caller's curve starts at the positive initial balance. With a zero first equity the source's pandas division `(equity - running_max) / running_max` gives NaN or -inf without raising; that result is not modelled.
- Performance.CompareToBuyAndHold: a non-finite buy-and-hold return (zero first close) is shown as `None`.
- DataLoader.GetExtendedData: takes exactly one chart reply per request the loader would issue.
- HistoryCleaner.GeneratedBars: takes exactly one set of standard draws per generated hour (a normal for the price change, two normals for high and low, a log-normal for the volume). `np.random.seed(42)` and the generator are not modelled, so the draws are arbitrary.
- LiveBot.CalculateSlopes: requires `bars >= 2`, as every caller passes.
- TradingStrategy: the sweep of `cancel_all_active_orders` takes the list of active ids as an input, and the best ask is assumed non-negative (`SaneGateway`) for the coherence invariant.
- SplitBuy: a cancel that raises is a `false` reply, and a placement that raises is a missing reply. The RSI(14) series of the intended sell rule is an input; as written the source never computes it (see "## Findings").

### Contracts stated more weakly than the source promises
- SplitBuy.UpdateAfterFill: its contract states the new quantity, the appended fill, and that the phase and the orders are untouched. The average, target and stop it recomputes are stated in SplitBuy.FillBooksAverage.
- SplitSim.SimulateTrade: its contract only bounds the start and sell bars. The budget, average price, exit bar and profit of each exit reason are stated in SplitSim.SimulatedTradeIsClosed.
- SplitBuy.RunStrategyCycle: its contract states the phase order. That the ledger is preserved is stated in SplitBuy.CycleKeepsLedger.
- TradingStrategy.CancelledProfitOrderIsReplaced: a cycle reads the clock once, as `g.now`. In the source the second liquidation check after a cancelled take-profit order reads `datetime.now` again (trading_strategy.py:193, reached from lines 174-176 through `_handle_sell_order_cancelled`). A maximum-hold limit crossed between the two readings would liquidate instead; the lemma does not cover that case.
- BacktestEngine.BookedPnlMissesEntrySlippage: stated for any all-in state. BacktestEngine.BuyIsAllIn shows that `ExecuteBuy` produces one.

### Quirks reproduced rather than fixed
- The basic engine applies slippage twice: once in the execution price and again in the fee.
- In dry-run, the five-state strategy liquidates at price 0, because it reads a `current_price` key that is never set.
- The `previous_error` reported after an error recovery is always `None`: the context is reset before the error is read.
- The split simulation never deducts losses from the running balance.
- In the split-buy strategy, a cancel that raises after a partial phase-1 fill lets the next cycle book that fill a second time.
- NaN slopes pass `is_slopes_positive`, because `NaN <= 0` is false.
- Split-buy phase 3 spends all remaining KRW.

## Findings
| source | as written | input that shows it | evidently intended | confidence | as-written member | corrected member |
|---|---|---|---|---|---|---|
| TederBot_Release/src/strategy/split_buy_strategy.py:17, 32, 375-395 | line 17 imports `RSI` from `indicators/rsi.py`, which defines only `RSICalculator` and `RSIMonitor`. Even with the name bound to `RSICalculator`, line 379 calls `calculate`, which that class lacks (it offers `calculate_rsi`). The handler at 393-395 then answers "no sale", so the fourth reason, RSI(14) above 70, is never given | a PHASE1 position with target 1400 at price 1390, no first-fill time yet, last RSI(14) 80 | sell at market with reason "RSI(14) > 70" | not executed | SplitBuy.CheckSellConditionsAsWritten (SplitBuy.RsiSellNeverFires, SplitBuy.AsWrittenDropsTheRsiReason) | SplitBuy.CheckSellConditions |

=== FILE: api_errors.dfy ===
/** The exchange's error hierarchy: one base error with seven kinds below it, and the
    table that turns a numeric response code into an error of the right kind. */
module ApiErrors {
  import opened Wrappers

  /** The error classes. `Base` is `CoinoneAPIError`; the others derive from it. */
  datatype ErrorKind = Base | Authentication | RateLimit | Network | Validation | InsufficientBalance | OrderFailure | Server

  /** An error value: its class, message, and the optional exchange and HTTP codes. */
  datatype ApiError = ApiError(kind: ErrorKind, message: string, errorCode: Option<int>, statusCode: Option<int>)

  /** The direct superclass of each class; the base class has none. */
  function Parent(k: ErrorKind): (p: Option<ErrorKind>)
    ensures p.None? <==> k == Base
    ensures p.Some? ==> p.value == Base
  {
    if k == Base then None else Some(Base)
  }

  /** An error built from a message alone. */
  function Plain(k: ErrorKind, message: string): ApiError {
    ApiError(k, message, None, None)
  }

  /** `ERROR_CODE_MAPPING`: the template error of each known code. */
  const ErrorCodeMapping: map<int, ApiError> := map[
    10 := Plain(Authentication, "잘못된 access token입니다."),
    11 := Plain(Authentication, "잘못된 서명입니다."),
    12 := Plain(Authentication, "잘못된 nonce입니다."),
    13 := Plain(Authentication, "API 권한이 없습니다."),
    20 := Plain(Validation, "잘못된 요청 파라미터입니다."),
    21 := Plain(Validation, "잘못된 통화 코드입니다."),
    22 := Plain(Validation, "잘못된 주문 유형입니다."),
    23 := Plain(Validation, "잘못된 주문량입니다."),
    24 := Plain(Validation, "잘못된 주문 가격입니다."),
    30 := Plain(InsufficientBalance, "잔고가 부족합니다."),
    31 := Plain(OrderFailure, "주문을 찾을 수 없습니다."),
    32 := Plain(OrderFailure, "이미 취소된 주문입니다."),
    33 := Plain(OrderFailure, "이미 체결된 주문입니다."),
    40 := Plain(RateLimit, "API 호출 한도를 초과했습니다."),
    50 := Plain(Server, "내부 서버 오류입니다."),
    51 := Plain(Server, "거래소 점검 중입니다."),
    52 := Plain(Server, "거래 일시 중단입니다.")
  ]

  /** The code ranges of the table, as an independent reference: 10-13 authentication,
      20-24 validation, 30 insufficient balance, 31-33 orders, 40 rate limit, 50-52
      server; any other code is unknown. */
  function KindOfCode(code: int): ErrorKind {
    if 10 <= code <= 13 then Authentication
    else if 20 <= code <= 24 then Validation
    else if code == 30 then InsufficientBalance
    else if 31 <= code <= 33 then OrderFailure
    else if code == 40 then RateLimit
    else if 50 <= code <= 52 then Server
    else Base
  }

  /** The table knows exactly the codes of the ranges, and files each under its range's
      class; no code yields a network error. */
  lemma MappingFollowsRanges(code: int)
    ensures code in ErrorCodeMapping <==> KindOfCode(code) != Base
    ensures code in ErrorCodeMapping ==> ErrorCodeMapping[code].kind == KindOfCode(code)
    ensures code in ErrorCodeMapping ==> ErrorCodeMapping[code].kind != Network
  {
    if 10 <= code <= 13 || 20 <= code <= 24 || 30 <= code <= 33 || code == 40 || 50 <= code <= 52 {
      assert code in ErrorCodeMapping.Keys;
    } else {
      assert code !in ErrorCodeMapping.Keys;
    }
  }

  /** The character of a decimal digit. */
  function DigitChar(d: nat): (c: char)
    requires d < 10
    ensures '0' <= c <= '9' && c as int - '0' as int == d
  {
    (('0' as int) + d) as char
  }

  predicate AllDigits(s: string) {
    forall i :: 0 <= i < |s| ==> '0' <= s[i] <= '9'
  }

  /** The decimal digits of a natural number, most significant first. */
  function Digits(n: nat): (s: string)
    ensures |s| >= 1 && AllDigits(s)
    decreases n
  {
    if n < 10 then [DigitChar(n)] else Digits(n / 10) + [DigitChar(n % 10)]
  }

  /** The value of a string of decimal digits. */
  function ParseDigits(s: string): (n: nat)
    requires AllDigits(s)
    decreases |s|
  {
    if s == [] then 0 else ParseDigits(s[..|s| - 1]) * 10 + (s[|s| - 1] as int - '0' as int)
  }

  /** Reading the digits back gives the number. */
  lemma {:induction false} DigitsRoundTrip(n: nat)
    ensures ParseDigits(Digits(n)) == n
    decreases n
  {
    if n >= 10 {
      DigitsRoundTrip(n / 10);
      var s := Digits(n);
      assert s[..|s| - 1] == Digits(n / 10);
    }
  }

  /** Python's `str` of an integer. */
  function DecimalText(n: int): (s: string)
    ensures |s| >= 1
    ensures n >= 0 ==> AllDigits(s) && ParseDigits(s) == n
    ensures n < 0 ==> s[0] == '-' && AllDigits(s[1..]) && ParseDigits(s[1..]) == -n
  {
    DigitsRoundTrip(if n < 0 then -n else n);
    if n < 0 then "-" + Digits(-n) else Digits(n)
  }

  /** The text before the code in the unknown-code message. */
  const UnknownPrefix: string := "알 수 없는 에러 (코드: "

  /** The default message of an unknown code. */
  function UnknownMessage(code: int): string {
    UnknownPrefix + DecimalText(code) + ")"
  }

  /** The unknown-code message embeds the code: the text between the prefix and the
      closing parenthesis reads back as the code. */
  lemma UnknownMessageNamesTheCode(code: int)
    ensures var m := UnknownMessage(code);
            && |m| > |UnknownPrefix| + 1
            && m[..|UnknownPrefix|] == UnknownPrefix && m[|m| - 1] == ')'
            && m[|UnknownPrefix|..|m| - 1] == DecimalText(code)
  {
    var m := UnknownMessage(code);
    assert m[|UnknownPrefix|..|m| - 1] == DecimalText(code);
  }

  /** `get_exception_from_code`: a known code yields its table entry's class with the
      code attached, and the caller's message unless it is missing or empty, in which
      case the table's message; an unknown code yields a base error whose default
      message names the code. */
  function GetExceptionFromCode(code: int, message: Option<string>): (r: ApiError)
    ensures r.errorCode == Some(code) && r.statusCode.None?
    ensures r.kind == KindOfCode(code)
    ensures Truthy(message) ==> r.message == message.value
    ensures !Truthy(message) && code in ErrorCodeMapping ==> r.message == ErrorCodeMapping[code].message
    ensures !Truthy(message) && code !in ErrorCodeMapping ==> r.message == UnknownMessage(code)
  {
    MappingFollowsRanges(code);
    if code in ErrorCodeMapping then
      var template := ErrorCodeMapping[code];
      ApiError(template.kind, if Truthy(message) then message.value else template.message, Some(code), None)
    else
      ApiError(Base, if Truthy(message) then message.value else UnknownMessage(code), Some(code), None)
  }
}

=== FILE: backtest_engine.dfy ===
/** The bar-by-bar backtest shared by the basic and the improved engine: configuration,
    the single all-in position, fees with slippage, buy and sell booking, the equity
    curve, the first-match sell rules and the replay that force-closes at the end.
    A strategy supplies, per bar, the two decisions that depend on the indicator frame
    alone (the buy signal and its EMA-declining flag); the rules that depend on the open
    position are decided here. */
module BacktestEngine {
  import opened Wrappers
  import opened Series
  import Numeric

  /** `BacktestConfig`. Timestamps are whole seconds. */
  datatype Config = Config(
    initialBalance: real,
    limitFee: real,
    marketFee: real,
    slippage: real,
    rsiPeriod: nat,
    emaPeriod: nat,
    rsiSlopePeriods: seq<nat>,
    emaSlopeThresholds: seq<real>,
    profitTarget: real,
    maxHoldHours: nat,
    rsiOverbought: real,
    startDate: Option<int>,
    endDate: Option<int>)

  /** The dataclass defaults. */
  const DefaultConfig: Config :=
    Config(1000000.0, 0.0, 0.0002, 0.0001, 14, 20, [3, 5], [0.3, 0.2], 4.0, 24, 70.0, None, None)

  /** Rates under which cash can never go negative: no negative fee or slippage, and no
      sale that costs more than it brings in. */
  predicate SaneRates(cfg: Config) {
    0.0 <= cfg.slippage && 0.0 <= cfg.limitFee && 0.0 <= cfg.marketFee
    && cfg.limitFee + cfg.slippage <= 1.0 && cfg.marketFee + cfg.slippage <= 1.0
  }

  /** The engine's single position. */
  datatype Position = Position(quantity: real, avgPrice: real, entryTime: Option<int>, isOpen: bool)

  /** `Position()` and the result of `close_position`. */
  const Closed: Position := Position(0.0, 0.0, None, false)

  /** `open_position`. */
  function OpenAt(price: real, quantity: real, t: int): (p: Position)
    ensures p.isOpen && p.avgPrice == price && p.quantity == quantity && p.entryTime == Some(t)
  {
    Position(quantity, price, Some(t), true)
  }

  /** The booked sell reasons ("익절", "시간초과", "RSI과매수", "EMA하락", "백테스트종료"). */
  datatype SellReason = ProfitTarget | Timeout | RsiOverbought | EmaDeclining | BacktestEnd

  /** One round trip; the exit fields and the reason are filled in when it is sold. */
  datatype Trade = Trade(
    entryTime: int,
    entryPrice: real,
    exitTime: Option<int>,
    exitPrice: Option<real>,
    quantity: real,
    pnl: real,
    pnlPct: real,
    fee: real,
    reason: Option<SellReason>)

  /** One entry of the equity curve. */
  datatype EquityPoint = EquityPoint(
    timestamp: int,
    price: real,
    balance: real,
    totalEquity: real,
    unrealizedPnl: real,
    positionSize: real)

  /** The engine's mutable state: cash, position, finished trades, equity curve, and the
      trade being held. */
  datatype State = State(
    balance: real,
    position: Position,
    trades: seq<Trade>,
    equity: seq<EquityPoint>,
    current: Option<Trade>)

  /** `reset`. */
  function Reset(cfg: Config): (s: State)
    ensures s.balance == cfg.initialBalance && s.position == Closed
    ensures s.trades == [] && s.equity == [] && s.current == None
  {
    State(cfg.initialBalance, Closed, [], [], None)
  }

  /** A trade that has been sold. */
  predicate Settled(tr: Trade) {
    tr.exitTime.Some? && tr.exitPrice.Some? && tr.reason.Some?
  }

  /** What every reachable state satisfies: a position is open exactly while a trade is
      held, and then it matches that trade and all cash is invested; a closed position is
      all zeros; every booked trade is settled. */
  predicate Good(s: State) {
    (s.position.isOpen <==> s.current.Some?)
    && (!s.position.isOpen ==> s.position == Closed)
    && (s.position.isOpen ==>
          s.position.quantity > 0.0 && s.position.avgPrice > 0.0 && s.balance == 0.0
          && s.position.entryTime == Some(s.current.value.entryTime)
          && s.current.value.entryPrice == s.position.avgPrice
          && s.current.value.quantity == s.position.quantity)
    && forall i :: 0 <= i < |s.trades| ==> Settled(s.trades[i])
  }

  /** The fee rate of an order: the limit rate for a limit order, the market rate
      otherwise. */
  function FeeRate(cfg: Config, isLimit: bool): real {
    if isLimit then cfg.limitFee else cfg.marketFee
  }

  /** `calculate_fees_and_slippage`: fee plus slippage on the traded value. It is charged
      on top of a price that already includes slippage, so slippage is paid twice. */
  function Fees(cfg: Config, price: real, quantity: real, isLimit: bool): (r: real)
    ensures r == price * quantity * (FeeRate(cfg, isLimit) + cfg.slippage)
  {
    var value := price * quantity;
    value * FeeRate(cfg, isLimit) + value * cfg.slippage
  }

  /** `execute_buy`: refused while a position is open or without cash; otherwise buys
      with all cash at the slipped price, so that quantity, price and the limit fee
      rate together spend the balance exactly, and records the fee on the held trade. */
  function ExecuteBuy(cfg: Config, s: State, price: real, t: int): (r: (bool, State))
    requires price > 0.0 && cfg.slippage > -1.0 && cfg.limitFee > -1.0
    ensures r.0 <==> !s.position.isOpen && s.balance > 0.0
    ensures !r.0 ==> r.1 == s
    ensures r.0 ==>
      var p := r.1.position;
      p.isOpen && p.avgPrice == price * (1.0 + cfg.slippage) && p.entryTime == Some(t)
      && p.quantity > 0.0 && p.quantity * (p.avgPrice * (1.0 + cfg.limitFee)) == s.balance
      && r.1.balance == 0.0
      && r.1.current == Some(Trade(t, p.avgPrice, None, None, p.quantity, 0.0, 0.0,
                                   Fees(cfg, p.avgPrice, p.quantity, true), None))
      && r.1.trades == s.trades && r.1.equity == s.equity
  {
    if s.position.isOpen || s.balance <= 0.0 then (false, s)
    else
      var actual := price * (1.0 + cfg.slippage);
      Numeric.MulPositive(price, 1.0 + cfg.slippage);
      Numeric.MulPositive(actual, 1.0 + cfg.limitFee);
      var cost := actual * (1.0 + cfg.limitFee);
      var quantity := Numeric.Div(s.balance, cost);
      Numeric.PositiveFactor(quantity, cost);
      if quantity <= 0.0 then (false, s)
      else
        var fee := Fees(cfg, actual, quantity, true);
        var trade := Trade(t, actual, None, None, quantity, 0.0, 0.0, fee, None);
        (true, s.(position := OpenAt(actual, quantity, t), current := Some(trade), balance := 0.0))
  }

  /** `execute_sell`: refused unless a position is open and a trade is held; otherwise
      sells everything at the price less slippage, at the limit rate only for the profit
      target, books the trade with its P&L against the entry cost including the entry
      fee, and makes the net proceeds the new balance. */
  function ExecuteSell(cfg: Config, s: State, price: real, t: int, reason: SellReason): (r: (bool, State))
    ensures r.0 <==> s.position.isOpen && s.current.Some?
    ensures !r.0 ==> r.1 == s
    ensures r.0 ==>
      var q := s.position.quantity;
      var exit := price * (1.0 - cfg.slippage);
      var fee := Fees(cfg, exit, q, reason == ProfitTarget);
      var held := s.current.value;
      var entryCost := held.entryPrice * q + held.fee;
      r.1.balance == exit * q - fee
      && r.1.position == Closed && r.1.current == None && r.1.equity == s.equity
      && |r.1.trades| == |s.trades| + 1 && r.1.trades[..|s.trades|] == s.trades
      && var tr := r.1.trades[|s.trades|];
         tr.entryTime == held.entryTime && tr.entryPrice == held.entryPrice
         && tr.quantity == held.quantity
         && tr.exitTime == Some(t) && tr.exitPrice == Some(exit)
         && tr.pnl == r.1.balance - entryCost && tr.fee == held.fee + fee
         && tr.reason == Some(reason)
         && tr.pnlPct == PnlPercent(tr.pnl, entryCost)
  {
    if !s.position.isOpen || s.current.None? then (false, s)
    else
      var held := s.current.value;
      var actual := price * (1.0 - cfg.slippage);
      var quantity := s.position.quantity;
      var fee := Fees(cfg, actual, quantity, reason == ProfitTarget);
      var net := actual * quantity - fee;
      var entryCost := held.entryPrice * quantity + held.fee;
      var pnl := net - entryCost;
      var pnlPct := PnlPercent(pnl, entryCost);
      var trade := held.(exitTime := Some(t), exitPrice := Some(actual), pnl := pnl,
                         pnlPct := pnlPct, fee := held.fee + fee, reason := Some(reason));
      (true, s.(trades := s.trades + [trade], balance := net, position := Closed, current := None))
  }

  /** The P&L as a percentage of the entry cost, or 0 when that cost is not positive. */
  function PnlPercent(pnl: real, entryCost: real): (r: real)
    ensures entryCost > 0.0 ==> r * entryCost == pnl * 100.0
    ensures entryCost <= 0.0 ==> r == 0.0
  {
    if entryCost > 0.0 then Numeric.Div(pnl, entryCost) * 100.0 else 0.0
  }

  /** `update_equity_curve`: appends one point; total equity is the market value of the
      position while one is open and the cash balance otherwise. */
  function Equity(s: State, t: int, price: real): (r: State)
    ensures r.balance == s.balance && r.position == s.position && r.trades == s.trades
    ensures r.current == s.current
    ensures |r.equity| == |s.equity| + 1 && r.equity[..|s.equity|] == s.equity
    ensures var e := r.equity[|s.equity|];
      e.timestamp == t && e.price == price && e.balance == s.balance
      && e.totalEquity == (if s.position.isOpen then s.position.quantity * price else s.balance)
      && e.unrealizedPnl == (if s.position.isOpen then s.position.quantity * (price - s.position.avgPrice) else 0.0)
      && e.positionSize == (if s.position.isOpen then s.position.quantity else 0.0)
  {
    var point :=
      if s.position.isOpen then
        var value := s.position.quantity * price;
        EquityPoint(t, price, s.balance, value, value - s.position.quantity * s.position.avgPrice,
                    s.position.quantity)
      else EquityPoint(t, price, s.balance, s.balance, 0.0, 0.0);
    s.(equity := s.equity + [point])
  }

  /** `max(rsi_slope_periods + [3, 5])`: the first row index at which a buy is
      considered. */
  function SlopeWarmup(periods: seq<nat>): (m: nat)
    ensures m >= 5
    ensures forall k :: 0 <= k < |periods| ==> periods[k] <= m
    ensures m == 5 || m in periods
  {
    if |periods| == 0 then 5
    else
      var rest := SlopeWarmup(periods[1..]);
      assert forall k :: 1 <= k < |periods| ==> periods[k] == periods[1..][k - 1];
      if periods[0] > rest then periods[0] else rest
  }

  /** The date filter of `run_backtest`: on or after the start date and on or before
      the end date, each when given. */
  predicate InPeriod(cfg: Config, t: int) {
    (cfg.startDate.None? || t >= cfg.startDate.value) && (cfg.endDate.None? || t <= cfg.endDate.value)
  }

  /** The date filter as positions: the indices of the timestamps that pass it, in
      increasing order. Every index kept passes, every passing index is kept, and
      when every timestamp passes nothing is dropped. */
  function PeriodIndices(cfg: Config, stamps: seq<int>): (keep: seq<nat>)
    ensures |keep| <= |stamps|
    ensures forall k :: 0 <= k < |keep| ==> keep[k] < |stamps| && InPeriod(cfg, stamps[keep[k]])
    ensures forall k, l :: 0 <= k < l < |keep| ==> keep[k] < keep[l]
    ensures forall i :: 0 <= i < |stamps| && InPeriod(cfg, stamps[i]) ==> i in keep
    ensures (forall i :: 0 <= i < |stamps| ==> InPeriod(cfg, stamps[i])) ==>
              |keep| == |stamps| && forall k :: 0 <= k < |keep| ==> keep[k] == k
    decreases |stamps|
  {
    if |stamps| == 0 then []
    else
      var last := |stamps| - 1;
      var rest := PeriodIndices(cfg, stamps[..last]);
      if InPeriod(cfg, stamps[last]) then rest + [last] else rest
  }

  /** One row of the (date-filtered) indicator frame, with the strategy's two decisions
      that depend on the frame alone already taken. */
  datatype Bar = Bar(timestamp: int, close: real, rsi: Value, buySignal: bool, emaDeclining: bool)

  /** The price has reached the average entry price plus the profit target. */
  predicate ProfitReached(cfg: Config, b: Bar, p: Position) {
    b.close >= p.avgPrice + cfg.profitTarget
  }

  /** The position has been held for `max_hold_hours` or longer. */
  predicate HeldTooLong(cfg: Config, b: Bar, p: Position) {
    p.entryTime.Some? && b.timestamp - p.entryTime.value >= cfg.maxHoldHours * 3600
  }

  /** The RSI is a number above the overbought level. */
  predicate Overbought(cfg: Config, b: Bar) {
    Gt(b.rsi, Some(cfg.rsiOverbought))
  }

  /** `check_sell_conditions`: nothing without an open position; otherwise the first
      rule that fires, in the order profit target, holding time, RSI, EMA decline. */
  function CheckSell(cfg: Config, b: Bar, p: Position): (r: Option<SellReason>)
    ensures r == Some(ProfitTarget) <==> p.isOpen && ProfitReached(cfg, b, p)
    ensures r == Some(Timeout) <==> p.isOpen && !ProfitReached(cfg, b, p) && HeldTooLong(cfg, b, p)
    ensures r == Some(RsiOverbought) <==>
      p.isOpen && !ProfitReached(cfg, b, p) && !HeldTooLong(cfg, b, p) && Overbought(cfg, b)
    ensures r == Some(EmaDeclining) <==>
      p.isOpen && !ProfitReached(cfg, b, p) && !HeldTooLong(cfg, b, p) && !Overbought(cfg, b)
      && b.emaDeclining
    ensures r.None? <==>
      !p.isOpen || (!ProfitReached(cfg, b, p) && !HeldTooLong(cfg, b, p) && !Overbought(cfg, b)
                    && !b.emaDeclining)
    ensures r != Some(BacktestEnd)
  {
    if !p.isOpen then None
    else if ProfitReached(cfg, b, p) then Some(ProfitTarget)
    else if HeldTooLong(cfg, b, p) then Some(Timeout)
    else if Overbought(cfg, b) then Some(RsiOverbought)
    else if b.emaDeclining then Some(EmaDeclining)
    else None
  }

  /** One open or one closed position counted as 1 or 0. */
  function Held(s: State): nat {
    if s.position.isOpen then 1 else 0
  }

  /** One iteration of the replay: with a position open, sell if a rule fires; otherwise
      buy on the strategy's signal; then record the equity point. */
  function Step(cfg: Config, s: State, b: Bar): (r: State)
    requires SaneRates(cfg) && b.close > 0.0
    ensures |r.equity| == |s.equity| + 1 && r.equity[..|s.equity|] == s.equity
    ensures r.equity[|s.equity|].timestamp == b.timestamp && r.equity[|s.equity|].price == b.close
    ensures r.trades == s.trades || (|r.trades| == |s.trades| + 1 && r.trades[..|s.trades|] == s.trades)
    ensures Good(s) ==> Good(r)
    ensures Good(s) ==> |r.trades| + Held(r) <= |s.trades| + Held(s) + 1
    ensures Good(s) && s.position.isOpen ==>
      (r.position.isOpen <==> CheckSell(cfg, b, s.position).None?)
      && (r.position.isOpen ==> r.position == s.position && r.trades == s.trades)
      && (!r.position.isOpen ==>
            |r.trades| == |s.trades| + 1 && r.trades[|s.trades|].reason == CheckSell(cfg, b, s.position))
    ensures Good(s) && !s.position.isOpen ==>
      r.trades == s.trades && (r.position.isOpen <==> b.buySignal && s.balance > 0.0)
  {
    var acted :=
      if s.position.isOpen then
        var reason := CheckSell(cfg, b, s.position);
        if reason.Some? then ExecuteSell(cfg, s, b.close, b.timestamp, reason.value).1 else s
      else if b.buySignal then ExecuteBuy(cfg, s, b.close, b.timestamp).1
      else s;
    Equity(acted, b.timestamp, b.close)
  }

  /** Selling an open position at a positive price never leaves negative cash: the
      fee and slippage take at most the whole sale value. */
  lemma SellLeavesCash(cfg: Config, s: State, price: real, t: int, reason: SellReason)
    requires SaneRates(cfg) && price > 0.0 && Good(s) && s.position.isOpen
    ensures ExecuteSell(cfg, s, price, t, reason).1.balance >= 0.0
  {
    var q := s.position.quantity;
    var exit := price * (1.0 - cfg.slippage);
    var rate := FeeRate(cfg, reason == ProfitTarget);
    Numeric.MulNonNegative(price, 1.0 - cfg.slippage);
    Numeric.MulNonNegative(exit, q);
    Numeric.MulNonNegative(exit * q, 1.0 - rate - cfg.slippage);
    assert exit * q - Fees(cfg, exit, q, reason == ProfitTarget) == exit * q * (1.0 - rate - cfg.slippage);
  }

  /** A step from a reachable state with non-negative cash keeps cash non-negative. */
  lemma StepKeepsCash(cfg: Config, s: State, b: Bar)
    requires SaneRates(cfg) && b.close > 0.0 && Good(s) && s.balance >= 0.0
    ensures Step(cfg, s, b).balance >= 0.0
  {
    var reason := CheckSell(cfg, b, s.position);
    if s.position.isOpen && reason.Some? {
      SellLeavesCash(cfg, s, b.close, b.timestamp, reason.value);
    }
  }

  /** The replay as a left fold of `Step` over the bars. */
  function Fold(cfg: Config, s: State, bars: seq<Bar>): (r: State)
    requires SaneRates(cfg)
    requires forall i :: 0 <= i < |bars| ==> bars[i].close > 0.0
    ensures Good(s) ==> Good(r)
    ensures |r.equity| == |s.equity| + |bars| && r.equity[..|s.equity|] == s.equity
    ensures forall j :: 0 <= j < |bars| ==>
      r.equity[|s.equity| + j].timestamp == bars[j].timestamp
      && r.equity[|s.equity| + j].price == bars[j].close
  {
    if |bars| == 0 then s
    else Step(cfg, Fold(cfg, s, bars[..|bars| - 1]), bars[|bars| - 1])
  }

  /** The loop of `run_backtest`: one step per bar. */
  method Replay(cfg: Config, bars: seq<Bar>) returns (s: State)
    requires SaneRates(cfg)
    requires forall i :: 0 <= i < |bars| ==> bars[i].close > 0.0
    ensures s == Fold(cfg, Reset(cfg), bars)
    ensures Good(s)
    ensures |s.equity| == |bars|
    ensures forall i :: 0 <= i < |bars| ==>
      s.equity[i].timestamp == bars[i].timestamp && s.equity[i].price == bars[i].close
    ensures |s.trades| + Held(s) <= |bars|
    ensures cfg.initialBalance >= 0.0 ==> s.balance >= 0.0
  {
    s := Reset(cfg);
    var i := 0;
    while i < |bars|
      invariant 0 <= i <= |bars|
      invariant s == Fold(cfg, Reset(cfg), bars[..i])
      invariant Good(s)
      invariant |s.trades| + Held(s) <= i
      invariant cfg.initialBalance >= 0.0 ==> s.balance >= 0.0
    {
      assert bars[..i + 1][..i] == bars[..i];
      if cfg.initialBalance >= 0.0 {
        StepKeepsCash(cfg, s, bars[i]);
      }
      s := Step(cfg, s, bars[i]);
      i := i + 1;
    }
    assert bars[..|bars|] == bars;
  }

  /** The end of `run_backtest`: a position still open is sold at the last bar's close
      as "backtest end", at the market rate. */
  function ForceClose(cfg: Config, s: State, last: Bar): (r: State)
    requires Good(s)
    ensures Good(r) && !r.position.isOpen && r.equity == s.equity
    ensures !s.position.isOpen ==> r == s
    ensures s.position.isOpen ==>
      |r.trades| == |s.trades| + 1 && r.trades[..|s.trades|] == s.trades
      && r.trades[|s.trades|].reason == Some(BacktestEnd)
      && r.trades[|s.trades|].exitTime == Some(last.timestamp)
  {
    if s.position.isOpen then ExecuteSell(cfg, s, last.close, last.timestamp, BacktestEnd).1 else s
  }

  /** What `run_backtest` returns: the final state (its balance is `final_balance`)
      and the initial balance. */
  datatype Outcome = Outcome(state: State, initialBalance: real)

  /** `run_backtest` over the bars left after the date filter: an error when none are
      left; otherwise the replay followed by the forced close. */
  method RunBacktest(cfg: Config, bars: seq<Bar>) returns (r: Result<Outcome, string>)
    requires SaneRates(cfg)
    requires forall i :: 0 <= i < |bars| ==> bars[i].close > 0.0
    ensures r.Failure? <==> |bars| == 0
    ensures r.Success? ==>
      r.value.state == ForceClose(cfg, Fold(cfg, Reset(cfg), bars), bars[|bars| - 1])
      && r.value.initialBalance == cfg.initialBalance
    ensures r.Success? ==>
      var s := r.value.state;
      !s.position.isOpen && s.current.None? && |s.equity| == |bars| && |s.trades| <= |bars|
      && (forall i :: 0 <= i < |s.trades| ==> Settled(s.trades[i]))
      && (cfg.initialBalance >= 0.0 ==> s.balance >= 0.0)
  {
    if |bars| == 0 {
      return Failure("no backtest data");
    }
    var s := Replay(cfg, bars);
    var last := bars[|bars| - 1];
    if s.position.isOpen {
      SellLeavesCash(cfg, s, last.close, last.timestamp, BacktestEnd);
    }
    s := ForceClose(cfg, s, last);
    r := Success(Outcome(s, cfg.initialBalance));
  }

  /** The state an all-in buy leaves: an open position whose held trade entered at the
      position's price, was charged the limit fee with slippage on it, and whose cost
      with the limit fee is the whole of `spent`. */
  predicate AllIn(cfg: Config, b: State, spent: real) {
    b.position.isOpen && b.current.Some?
    && b.current.value.entryPrice == b.position.avgPrice
    && b.current.value.fee == Fees(cfg, b.position.avgPrice, b.position.quantity, true)
    && b.position.quantity * (b.position.avgPrice * (1.0 + cfg.limitFee)) == spent
  }

  /** A buy from a flat state with cash is all-in on the old balance. */
  lemma BuyIsAllIn(cfg: Config, s: State, price: real, t: int)
    requires price > 0.0 && cfg.slippage > -1.0 && cfg.limitFee > -1.0
    requires !s.position.isOpen && s.balance > 0.0
    ensures AllIn(cfg, ExecuteBuy(cfg, s, price, t).1, s.balance)
  {
  }

  /** Selling an all-in position books a P&L that is short of the actual change in cash
      by the entry slippage counted a second time: the entry fee charges slippage on a
      price that already includes it. */
  lemma BookedPnlMissesEntrySlippage(cfg: Config, b: State, spent: real, price: real, t: int, reason: SellReason)
    requires AllIn(cfg, b, spent)
    ensures var e := ExecuteSell(cfg, b, price, t, reason).1;
      |e.trades| == |b.trades| + 1
      && e.trades[|b.trades|].pnl
         == (e.balance - spent) - b.position.avgPrice * b.position.quantity * cfg.slippage
  {
    var e := ExecuteSell(cfg, b, price, t, reason).1;
    var held := b.current.value;
    PnlAlgebra(b.position.avgPrice, b.position.quantity, cfg.limitFee, cfg.slippage, spent,
               held.fee, e.balance, e.trades[|b.trades|].pnl);
  }

  /** The arithmetic behind the missing slippage: a balance spent as `a*q*(1+fee)`,
      an entry fee of `a*q*(fee+slippage)` and a P&L counted against `a*q` plus that
      entry fee. */
  lemma PnlAlgebra(a: real, q: real, fee: real, slippage: real, balance: real,
                   entryFee: real, net: real, pnl: real)
    requires q * (a * (1.0 + fee)) == balance
    requires entryFee == a * q * (fee + slippage)
    requires pnl == net - (a * q + entryFee)
    ensures pnl == (net - balance) - a * q * slippage
  {
    var aq := a * q;
    assert balance == aq + aq * fee;
    assert entryFee == aq * fee + aq * slippage;
  }

  /** Buying and selling at the same quoted price loses cash whenever slippage is
      positive, whatever the fee rates. */
  lemma FlatRoundTripLoses(cfg: Config, s: State, price: real, t1: int, t2: int, reason: SellReason)
    requires SaneRates(cfg) && cfg.slippage > 0.0 && price > 0.0
    requires !s.position.isOpen && s.balance > 0.0
    ensures ExecuteSell(cfg, ExecuteBuy(cfg, s, price, t1).1, price, t2, reason).1.balance < s.balance
  {
    var b := ExecuteBuy(cfg, s, price, t1).1;
    SellAtQuoteLoses(cfg, b, price, t2, reason, s.balance);
  }

  /** Selling a position bought at `price` (plus slippage) at that same `price` brings in
      less than the purchase cost. */
  lemma SellAtQuoteLoses(cfg: Config, b: State, price: real, t: int, reason: SellReason, cost: real)
    requires SaneRates(cfg) && cfg.slippage > 0.0 && price > 0.0
    requires b.position.isOpen && b.current.Some? && b.position.quantity > 0.0
    requires b.position.avgPrice == price * (1.0 + cfg.slippage)
    requires cost == b.position.quantity * (b.position.avgPrice * (1.0 + cfg.limitFee))
    ensures ExecuteSell(cfg, b, price, t, reason).1.balance < cost
  {
    var q := b.position.quantity;
    var exit := price * (1.0 - cfg.slippage);
    var rate := FeeRate(cfg, reason == ProfitTarget);
    var fee := Fees(cfg, exit, q, reason == ProfitTarget);
    RoundTripAlgebra(price, q, cfg.slippage, rate, cfg.limitFee, b.position.avgPrice, exit, fee,
                     ExecuteSell(cfg, b, price, t, reason).1.balance, cost);
  }

  /** The arithmetic of a flat round trip: what a sale at `p` less slippage and fees
      brings in is less than what a purchase at `p` plus slippage and fee costs. */
  lemma RoundTripAlgebra(p: real, q: real, sl: real, rate: real, lf: real,
                          entry: real, exit: real, fee: real, cashIn: real, cashOut: real)
    requires p > 0.0 && q > 0.0 && 0.0 < sl && 0.0 <= rate && rate + sl <= 1.0 && 0.0 <= lf
    requires entry == p * (1.0 + sl) && exit == p * (1.0 - sl)
    requires fee == exit * q * (rate + sl)
    requires cashIn == exit * q - fee
    requires cashOut == q * (entry * (1.0 + lf))
    ensures cashIn < cashOut
  {
    Numeric.MulPositive(p, q);
    var pq := p * q;
    var gross := pq * (1.0 - sl);
    assert p * (1.0 - sl) * q == gross;
    Numeric.MulPositive(pq, sl);
    assert gross == pq - pq * sl;
    assert gross < pq;
    Numeric.MulNonNegative(pq, 1.0 - sl);
    Numeric.MulNonNegative(gross, rate + sl);
    assert gross - gross * (rate + sl) < pq;
    var paid := pq * (1.0 + sl);
    assert paid == pq + pq * sl;
    assert q * (p * (1.0 + sl) * (1.0 + lf)) == paid + paid * lf;
    Numeric.MulNonNegative(paid, lf);
  }
}

=== FILE: base_indicator.dfy ===
/** The helpers every indicator shares: the undivided slope, the per-period slope
    dictionary, the positivity check, frame validation and the sufficiency check. */
module BaseIndicator {
  import opened Wrappers
  import opened Series
  import ApiErrors

  /** A data frame: a row count and named columns of that length. */
  datatype Frame = Frame(rowCount: nat, columns: map<string, Series>)

  /** Every column has `rowCount` entries. */
  predicate WellFormed(f: Frame) {
    forall c :: c in f.columns ==> |f.columns[c]| == f.rowCount
  }

  /** `DataFrame.empty`: no rows or no columns. */
  predicate Empty(f: Frame) {
    f.rowCount == 0 || |f.columns| == 0
  }

  /** `calculate_slope`: the UNDIVIDED difference `s[-1] - s[-periods]`, or 0.0 when the
      series is shorter than `periods`. */
  function BaseSlope(s: Series, periods: nat): (r: Value)
    requires periods >= 1
    ensures |s| < periods ==> r == Some(0.0)
    ensures |s| >= periods ==>
      (r.Some? <==> s[|s| - 1].Some? && s[|s| - periods].Some?)
    ensures |s| >= periods && r.Some? ==> r.value == s[|s| - 1].value - s[|s| - periods].value
  {
    if |s| < periods then Some(0.0) else Sub(s[|s| - 1], s[|s| - periods])
  }

  /** A Python dict from period to value, as its entries in insertion order. */
  type SlopeDict = seq<(nat, Value)>

  /** `d.get(p)`: the value stored under `p`, if any. */
  function Get(d: SlopeDict, p: nat): Option<Value> {
    if |d| == 0 then None
    else if d[0].0 == p then Some(d[0].1)
    else Get(d[1..], p)
  }

  /** `d[p] = v`: overwrite in place when the key exists, otherwise append. */
  function Put(d: SlopeDict, p: nat, v: Value): (r: SlopeDict)
    ensures Get(r, p) == Some(v)
    ensures forall q :: q != p ==> Get(r, q) == Get(d, q)
    ensures |r| == if Get(d, p).Some? then |d| else |d| + 1
    ensures forall i :: 0 <= i < |d| ==> r[i].0 == d[i].0
    ensures forall i :: 0 <= i < |r| ==> r[i] == (p, v) || (i < |d| && r[i] == d[i])
  {
    if |d| == 0 then [(p, v)]
    else if d[0].0 == p then [(p, v)] + d[1..]
    else [d[0]] + Put(d[1..], p, v)
  }

  /** A key that `Get` finds sits at some position of the dictionary. */
  lemma {:induction false} KeyIndex(d: SlopeDict, p: nat) returns (k: nat)
    requires Get(d, p).Some?
    ensures k < |d| && d[k].0 == p && d[k].1 == Get(d, p).value
    decreases |d|
  {
    if d[0].0 == p {
      k := 0;
    } else {
      var k' := KeyIndex(d[1..], p);
      k := k' + 1;
    }
  }

  /** `max(periods)`, which both trend analyses take to size their input. */
  function MaxPeriod(periods: seq<nat>): (m: nat)
    requires |periods| > 0
    ensures forall i :: 0 <= i < |periods| ==> periods[i] <= m
    ensures m in periods
  {
    if |periods| == 1 then periods[0]
    else
      var m := MaxPeriod(periods[1..]);
      assert m in periods[1..];
      if periods[0] > m then periods[0] else m
  }

  /** `calculate_slopes`: one entry per requested period, keyed by the period
      (the source spells the key `slope_<period>`). A repeated period rewrites its
      entry in place, keeping its first position. */
  function CalculateSlopes(s: Series, periods: seq<nat>): (r: SlopeDict)
    requires forall i :: 0 <= i < |periods| ==> periods[i] >= 1
    ensures forall p :: Get(r, p) == if p in periods then Some(BaseSlope(s, p)) else None
    ensures forall i :: 0 <= i < |r| ==> r[i].0 in periods && r[i].1 == BaseSlope(s, r[i].0)
    ensures |periods| > 0 ==> |r| > 0 && r[0].0 == periods[0]
  {
    if |periods| == 0 then []
    else
      var p := periods[|periods| - 1];
      assert periods == periods[..|periods| - 1] + [p];
      Put(CalculateSlopes(s, periods[..|periods| - 1]), p, BaseSlope(s, p))
  }

  /** One slope passes `is_slopes_positive`. NaN passes both tests, since every
      comparison with NaN is false. */
  predicate SlopePasses(v: Value, excludeZero: bool) {
    if excludeZero then !Le(v, Some(0.0)) else !Lt(v, Some(0.0))
  }

  /** `is_slopes_positive`: scans the values and fails at the first one that is not
      positive (strictly when `excludeZero`). */
  function IsSlopesPositive(slopes: SlopeDict, excludeZero: bool): (r: bool)
    ensures r <==> forall i :: 0 <= i < |slopes| ==> SlopePasses(slopes[i].1, excludeZero)
    ensures |slopes| == 0 ==> r
  {
    if |slopes| == 0 then true
    else if !SlopePasses(slopes[0].1, excludeZero) then false
    else
      assert forall i :: 1 <= i < |slopes| ==> slopes[1..][i - 1] == slopes[i];
      IsSlopesPositive(slopes[1..], excludeZero)
  }

  /** The required columns all present, checked one by one. */
  function AllColumnsPresent(f: Frame, required: seq<string>): (r: bool)
    ensures r <==> forall i :: 0 <= i < |required| ==> required[i] in f.columns
  {
    if |required| == 0 then true
    else required[0] in f.columns && AllColumnsPresent(f, required[1..])
  }

  /** `validate_data`: false for a missing or empty frame, or one missing a column. */
  function ValidateData(data: Option<Frame>, required: seq<string>): (r: bool)
    ensures r <==> data.Some? && !Empty(data.value)
                   && forall i :: 0 <= i < |required| ==> required[i] in data.value.columns
  {
    match data
    case None => false
    case Some(f) => if Empty(f) then false else AllColumnsPresent(f, required)
  }

  /** `create_indicator_series`: the named column, or the ValueError it raises. */
  function CreateIndicatorSeries(f: Frame, column: string): (r: Result<Series, string>)
    ensures r.Success? <==> column in f.columns
    ensures r.Success? ==> r.value == f.columns[column]
    ensures r.Failure? ==> r.error == "Column '" + column + "' not found in data"
  {
    if column !in f.columns then Failure("Column '" + column + "' not found in data")
    else Success(f.columns[column])
  }

  /** The series holds at least one number, found by a scan. */
  function HasObservation(s: Series): (r: bool)
    ensures r <==> !AllNaN(s)
  {
    if |s| == 0 then false
    else s[0].Some? || (assert forall i :: 1 <= i < |s| ==> s[1..][i - 1] == s[i];
                        HasObservation(s[1..]))
  }

  /** `ensure_sufficient_data`: long enough, and not entirely NaN. */
  function EnsureSufficientData(s: Series, minPeriods: nat): (r: bool)
    ensures r <==> |s| >= minPeriods && exists i :: 0 <= i < |s| && s[i].Some?
  {
    |s| >= minPeriods && HasObservation(s)
  }

  const InsufficientPrefix := "Insufficient data. Need at least "
  const InsufficientSuffix := " periods"

  /** The error an indicator raises when `ensure_sufficient_data` fails: the required
      count written in decimal between the prefix and the suffix. */
  function InsufficientData(minPeriods: nat): string {
    InsufficientPrefix + ApiErrors.DecimalText(minPeriods) + InsufficientSuffix
  }

  /** The insufficient-data message names the required count: it is the prefix, the
      count's digits and the suffix, and the digits read back as the count. */
  lemma InsufficientDataNamesTheCount(minPeriods: nat)
    ensures var m := InsufficientData(minPeriods);
            && |m| > |InsufficientPrefix| + |InsufficientSuffix|
            && m[..|InsufficientPrefix|] == InsufficientPrefix
            && m[|m| - |InsufficientSuffix|..] == InsufficientSuffix
            && var digits := m[|InsufficientPrefix|..|m| - |InsufficientSuffix|];
               ApiErrors.AllDigits(digits) && ApiErrors.ParseDigits(digits) == minPeriods
  {
  }

  /** The positivity check is stricter with `excludeZero`: passing the strict test
      implies passing the lenient one, and a zero slope separates them. */
  lemma StrictImpliesLenient(slopes: SlopeDict)
    ensures IsSlopesPositive(slopes, true) ==> IsSlopesPositive(slopes, false)
    ensures !IsSlopesPositive([(3, Some(0.0))], true)
    ensures IsSlopesPositive([(3, Some(0.0))], false)
  {
  }

  /** NaN slopes are never rejected: a dictionary of NaNs counts as positive. */
  lemma NaNSlopesPass(slopes: SlopeDict, excludeZero: bool)
    requires forall i :: 0 <= i < |slopes| ==> slopes[i].1.None?
    ensures IsSlopesPositive(slopes, excludeZero)
  {
  }
}

=== FILE: basic_strategy.dfy ===
/** The basic backtest's strategy: indicator columns with `diff(p) / (p - 1)` slopes,
    the buy rule on the configured RSI slope periods and the EMA thresholds, and the
    EMA-declining sell rule on three consecutive values of the 3-bar EMA slope. */
module BasicStrategy {
  import opened Wrappers
  import opened Series
  import BaseIndicator
  import RsiIndicator
  import EmaIndicator
  import Numeric
  import opened BacktestEngine

  /** A float slope: a number or NaN (`Finite`), or the infinity that a non-zero
      change divided by zero gives. */
  datatype Slope = Finite(v: Value) | Infinite(positive: bool)

  /** NaN. */
  const NaNSlope: Slope := Finite(None)

  /** `s.diff(p) / (p - 1)` at row `i`, for any configured period. `diff(p)` is NaN on
      the first `p` rows and otherwise the change over the last `p` steps (which spans
      `p + 1` bars). From `p = 2` on the change is divided by `p - 1`. At `p = 1` the
      division is by zero: an infinity of the change's sign, or NaN when nothing
      changed. At `p = 0` the change is zero, and so is the slope. */
  function DiffSlope(s: Series, p: nat, i: nat): (r: Slope)
    requires i < |s|
    ensures i < p ==> r == NaNSlope
    ensures p != 1 ==> r.Finite?
    ensures i >= p && p != 1 ==> (r.v.Some? <==> s[i].Some? && s[i - p].Some?)
    ensures i >= p && p != 1 && r.v.Some? ==> r.v.value * (p - 1) as real == s[i].value - s[i - p].value
    ensures p == 0 && r.v.Some? ==> r.v.value == 0.0
    ensures p == 1 <= i ==> (r.Infinite? <==> Gt(s[i], s[i - 1]) || Lt(s[i], s[i - 1]))
    ensures p == 1 <= i && r.Infinite? ==> (r.positive <==> Gt(s[i], s[i - 1]))
    ensures p == 1 && r.Finite? ==> r == NaNSlope
  {
    if i < p then NaNSlope
    else if p == 1 then
      var d := Sub(s[i], s[i - 1]);
      if d.Some? && d.value > 0.0 then Infinite(true)
      else if d.Some? && d.value < 0.0 then Infinite(false)
      else NaNSlope
    else Finite(DivBy(Sub(s[i], s[i - p]), (p - 1) as real))
  }

  /** Python's `slope > 0`: NaN and minus infinity fail, plus infinity passes. */
  predicate Positive(x: Slope) {
    x == Infinite(true) || (x.Finite? && Gt(x.v, Some(0.0)))
  }

  /** One row of the indicator frame: the RSI, one slope column per configured RSI slope
      period (in the configured order) and the 3- and 5-step EMA slopes. */
  datatype Row = Row(
    timestamp: int,
    close: real,
    rsi: Value,
    rsiSlopes: seq<Slope>,
    emaSlope3: Value,
    emaSlope5: Value)

  /** The input frame: the close column of the bars. */
  function PriceFrame(closes: seq<real>): BaseIndicator.Frame {
    BaseIndicator.Frame(|closes|, map["close" := Lift(closes)])
  }

  /** The RSI step of `calculate_indicators`. */
  function RsiOf(cfg: Config, closes: seq<real>): Result<Series, string>
    requires cfg.rsiPeriod >= 1
  {
    RsiIndicator.CalculateRsi(RsiIndicator.RsiCalculator(cfg.rsiPeriod), PriceFrame(closes), "close")
  }

  /** The EMA step of `calculate_indicators`. */
  function EmaOf(cfg: Config, closes: seq<real>): Result<Series, string> {
    EmaIndicator.CalculateEma(EmaIndicator.EmaCalculator(cfg.emaPeriod), PriceFrame(closes), "close")
  }

  /** The row at `i` of the indicator frame built from the RSI and EMA columns. */
  function RowAt(cfg: Config, ts: seq<int>, closes: seq<real>, rsi: Series, ema: Series, i: nat): (r: Row)
    requires i < |ts| == |closes| == |rsi| == |ema|
    ensures r.timestamp == ts[i] && r.close == closes[i]
    ensures |r.rsiSlopes| == |cfg.rsiSlopePeriods|
    ensures forall k :: 0 <= k < |cfg.rsiSlopePeriods| ==> r.rsiSlopes[k] == DiffSlope(rsi, cfg.rsiSlopePeriods[k], i)
    ensures Finite(r.emaSlope3) == DiffSlope(ema, 3, i) && Finite(r.emaSlope5) == DiffSlope(ema, 5, i)
  {
    Row(ts[i], closes[i], rsi[i],
        seq(|cfg.rsiSlopePeriods|, k requires 0 <= k < |cfg.rsiSlopePeriods| =>
              DiffSlope(rsi, cfg.rsiSlopePeriods[k], i)),
        DiffSlope(ema, 3, i).v, DiffSlope(ema, 5, i).v)
  }

  /** `calculate_indicators`: the RSI (whose errors come first), the EMA, and the slope
      columns of every row. */
  function CalculateIndicators(cfg: Config, ts: seq<int>, closes: seq<real>): (r: Result<seq<Row>, string>)
    requires |ts| == |closes| && cfg.rsiPeriod >= 1
    ensures r.Success? <==> RsiOf(cfg, closes).Success? && EmaOf(cfg, closes).Success?
    ensures RsiOf(cfg, closes).Failure? ==> r == Failure(RsiOf(cfg, closes).error)
    ensures r.Success? ==>
      |r.value| == |closes|
      && (forall i :: 0 <= i < |closes| ==> r.value[i].timestamp == ts[i] && r.value[i].close == closes[i])
      && forall i :: 0 <= i < |closes| ==>
           r.value[i] == RowAt(cfg, ts, closes, RsiOf(cfg, closes).value, EmaOf(cfg, closes).value, i)
  {
    var rsi :- RsiOf(cfg, closes);
    var ema :- EmaOf(cfg, closes);
    Success(seq(|closes|, i requires 0 <= i < |closes| => RowAt(cfg, ts, closes, rsi, ema, i)))
  }

  /** `check_buy_conditions`: nothing before the slope warm-up; then the first two
      configured RSI slopes must be numbers above 0 and the EMA slopes numbers at or
      above the two thresholds. A missing slope column or threshold (an `IndexError`)
      means no buy. */
  function CheckBuy(cfg: Config, rows: seq<Row>, idx: nat): (r: bool)
    requires idx < |rows|
    ensures r <==>
      idx >= SlopeWarmup(cfg.rsiSlopePeriods)
      && |rows[idx].rsiSlopes| >= 2 && |cfg.emaSlopeThresholds| >= 2
      && Positive(rows[idx].rsiSlopes[0]) && Positive(rows[idx].rsiSlopes[1])
      && Ge(rows[idx].emaSlope3, Some(cfg.emaSlopeThresholds[0]))
      && Ge(rows[idx].emaSlope5, Some(cfg.emaSlopeThresholds[1]))
  {
    var row := rows[idx];
    if idx < SlopeWarmup(cfg.rsiSlopePeriods) then false
    else if |row.rsiSlopes| < 2 then false
    else
      var s3 := row.rsiSlopes[0];
      var s5 := row.rsiSlopes[1];
      if s3 == NaNSlope || s5 == NaNSlope then false
      else if !Positive(s3) || !Positive(s5) then false
      else if row.emaSlope3.None? || row.emaSlope5.None? then false
      else if |cfg.emaSlopeThresholds| < 1 then false
      else if row.emaSlope3.value < cfg.emaSlopeThresholds[0] then false
      else if |cfg.emaSlopeThresholds| < 2 then false
      else if row.emaSlope5.value < cfg.emaSlopeThresholds[1] then false
      else true
  }

  /** The EMA-declining rule of `check_sell_conditions`: from row 3 on, the 3-step EMA
      slope at this row and the two before it are numbers and strictly decrease towards
      this row. */
  predicate EmaFalling(rows: seq<Row>, idx: nat)
    requires idx < |rows|
  {
    idx >= 3
    && rows[idx].emaSlope3.Some? && rows[idx - 1].emaSlope3.Some? && rows[idx - 2].emaSlope3.Some?
    && rows[idx].emaSlope3.value < rows[idx - 1].emaSlope3.value < rows[idx - 2].emaSlope3.value
  }

  /** The bars the engine replays: each row with its two frame-only decisions. */
  function Bars(cfg: Config, rows: seq<Row>): (r: seq<Bar>)
    ensures |r| == |rows|
    ensures forall i :: 0 <= i < |rows| ==>
      r[i] == Bar(rows[i].timestamp, rows[i].close, rows[i].rsi, CheckBuy(cfg, rows, i), EmaFalling(rows, i))
  {
    seq(|rows|, i requires 0 <= i < |rows| =>
          Bar(rows[i].timestamp, rows[i].close, rows[i].rsi, CheckBuy(cfg, rows, i), EmaFalling(rows, i)))
  }

  /** The rows of the frame inside the date filter, in their original order. */
  function InPeriodRows(cfg: Config, rows: seq<Row>): seq<Row> {
    var keep := PeriodIndices(cfg, seq(|rows|, i requires 0 <= i < |rows| => rows[i].timestamp));
    seq(|keep|, k requires 0 <= k < |keep| => rows[keep[k]])
  }

  /** The date filter keeps only rows of the frame, so every bar replayed has a
      positive close when every input close is positive. */
  lemma PricesStayPositive(cfg: Config, all: seq<Row>, closes: seq<real>)
    requires |all| == |closes|
    requires forall i :: 0 <= i < |all| ==> all[i].close == closes[i] && closes[i] > 0.0
    ensures var bars := Bars(cfg, InPeriodRows(cfg, all));
      forall i :: 0 <= i < |bars| ==> bars[i].close > 0.0
  {
    var rows := InPeriodRows(cfg, all);
    forall i | 0 <= i < |rows|
      ensures rows[i].close > 0.0
    {
      assert rows[i] == all[PeriodIndices(cfg, seq(|all|, j requires 0 <= j < |all| => all[j].timestamp))[i]];
    }
  }

  /** `BacktestEngine.run_backtest`: indicators on the whole frame, then the date filter,
      then the replay; an indicator error or an empty filtered frame is an error. */
  method RunBacktest(cfg: Config, ts: seq<int>, closes: seq<real>) returns (r: Result<Outcome, string>)
    requires |ts| == |closes| && cfg.rsiPeriod >= 1 && SaneRates(cfg)
    requires forall i :: 0 <= i < |closes| ==> closes[i] > 0.0
    ensures CalculateIndicators(cfg, ts, closes).Failure? ==>
      r == Failure(CalculateIndicators(cfg, ts, closes).error)
    ensures CalculateIndicators(cfg, ts, closes).Success? ==>
      var rows := InPeriodRows(cfg, CalculateIndicators(cfg, ts, closes).value);
      (r.Failure? <==> |rows| == 0)
      && (r.Success? ==>
            var bars := Bars(cfg, rows);
            r.value.state == ForceClose(cfg, Fold(cfg, Reset(cfg), bars), bars[|bars| - 1])
            && !r.value.state.position.isOpen && |r.value.state.equity| == |rows|
            && |r.value.state.trades| <= |rows|)
  {
    var indicators := CalculateIndicators(cfg, ts, closes);
    if indicators.Failure? {
      return Failure(indicators.error);
    }
    var rows := InPeriodRows(cfg, indicators.value);
    var bars := Bars(cfg, rows);
    PricesStayPositive(cfg, indicators.value, closes);
    r := BacktestEngine.RunBacktest(cfg, bars);
    assert bars == Bars(cfg, InPeriodRows(cfg, CalculateIndicators(cfg, ts, closes).value));
  }

  /** A buy on the unfiltered frame means the RSI rose over both configured periods
      (a period of 0 never buys) and the EMA rose by at least `2 * thresholds[0]` over
      3 steps and `4 * thresholds[1]` over 5 steps. */
  lemma BuyMeansRising(cfg: Config, ts: seq<int>, closes: seq<real>, idx: nat)
    requires |ts| == |closes| && cfg.rsiPeriod >= 1
    ensures CalculateIndicators(cfg, ts, closes).Success? && idx < |closes|
            && CheckBuy(cfg, CalculateIndicators(cfg, ts, closes).value, idx)
            ==> Rising(cfg, RsiOf(cfg, closes).value, EmaOf(cfg, closes).value, idx)
  {
    if CalculateIndicators(cfg, ts, closes).Success? && idx < |closes|
       && CheckBuy(cfg, CalculateIndicators(cfg, ts, closes).value, idx) {
      var rows := CalculateIndicators(cfg, ts, closes).value;
      RowBuyMeansRising(cfg, rows, ts, closes, RsiOf(cfg, closes).value, EmaOf(cfg, closes).value, idx);
    }
  }

  /** What a buy says about the indicator series at `idx`. */
  predicate Rising(cfg: Config, rsi: Series, ema: Series, idx: nat)
    requires idx < |rsi| && idx < |ema|
  {
    |cfg.rsiSlopePeriods| >= 2 && |cfg.emaSlopeThresholds| >= 2
    && var p0 := cfg.rsiSlopePeriods[0];
    var p1 := cfg.rsiSlopePeriods[1];
    p0 >= 1 && p1 >= 1 && idx >= p0 && idx >= p1 && idx >= 5
    && Gt(rsi[idx], rsi[idx - p0]) && Gt(rsi[idx], rsi[idx - p1])
    && Ge(Sub(ema[idx], ema[idx - 3]), Some(2.0 * cfg.emaSlopeThresholds[0]))
    && Ge(Sub(ema[idx], ema[idx - 5]), Some(4.0 * cfg.emaSlopeThresholds[1]))
  }

  /** The buy rule on a row built from the RSI and EMA columns. */
  lemma RowBuyMeansRising(cfg: Config, rows: seq<Row>, ts: seq<int>, closes: seq<real>,
                          rsi: Series, ema: Series, idx: nat)
    requires idx < |rows| && idx < |ts| == |closes| == |rsi| == |ema|
    requires rows[idx] == RowAt(cfg, ts, closes, rsi, ema, idx)
    requires CheckBuy(cfg, rows, idx)
    ensures Rising(cfg, rsi, ema, idx)
  {
    var row := rows[idx];
    var p0 := cfg.rsiSlopePeriods[0];
    var p1 := cfg.rsiSlopePeriods[1];
    PositiveSlopeMeansRise(rsi, p0, idx);
    PositiveSlopeMeansRise(rsi, p1, idx);
  }

  /** A positive `diff(p) / (p - 1)` slope means the series rose over the last `p`
      steps, with `p` at least 1. */
  lemma PositiveSlopeMeansRise(s: Series, p: nat, i: nat)
    requires i < |s| && Positive(DiffSlope(s, p, i))
    ensures 1 <= p <= i && Gt(s[i], s[i - p])
  {
    var r := DiffSlope(s, p, i);
    if p >= 2 {
      Numeric.MulPositive(r.v.value, (p - 1) as real);
    }
  }
}

=== FILE: candles.dfy ===
/** Hourly OHLCV rows and the table operations the data loader and the cleaner share:
    dropping rows whose timestamp was already seen (keeping the first), sorting by
    timestamp, and keeping a time window. Timestamps are whole seconds; a missing price
    or volume is NaN. */
module CandleTable {
  import opened Series

  datatype Candle = Candle(timestamp: int, open: Value, high: Value, low: Value, close: Value, volume: Value)

  /** The numeric column `k` of a row: 1 = open, 2 = high, 3 = low, 4 = close,
      5 = volume. */
  function Field(c: Candle, k: nat): Value
    requires 1 <= k <= 5
  {
    if k == 1 then c.open else if k == 2 then c.high else if k == 3 then c.low
    else if k == 4 then c.close else c.volume
  }

  /** The set of timestamps of a table. */
  function Stamps(xs: seq<Candle>): set<int> {
    set i | 0 <= i < |xs| :: xs[i].timestamp
  }

  /** No timestamp occurs twice. */
  predicate Distinct(xs: seq<Candle>) {
    forall i, j :: 0 <= i < j < |xs| ==> xs[i].timestamp != xs[j].timestamp
  }

  /** Timestamps strictly increase down the table. */
  predicate Increasing(xs: seq<Candle>) {
    forall i, j :: 0 <= i < j < |xs| ==> xs[i].timestamp < xs[j].timestamp
  }

  /** Row `k` is the first row with its timestamp. */
  predicate FirstOf(xs: seq<Candle>, k: int) {
    0 <= k < |xs| && forall m :: 0 <= m < k ==> xs[m].timestamp != xs[k].timestamp
  }

  lemma StampsOfSnoc(xs: seq<Candle>, x: Candle)
    ensures Stamps(xs + [x]) == Stamps(xs) + {x.timestamp}
  {
    var ys := xs + [x];
    assert forall i :: 0 <= i < |xs| ==> ys[i] == xs[i];
    assert ys[|xs|] == x;
  }

  /** `drop_duplicates(subset=['timestamp'], keep='first')`. */
  function DropDuplicates(xs: seq<Candle>): (r: seq<Candle>)
    ensures Distinct(r) && |r| <= |xs|
    ensures Stamps(r) == Stamps(xs)
    ensures forall j :: 0 <= j < |r| ==> exists k :: FirstOf(xs, k) && r[j] == xs[k]
    decreases |xs|
  {
    if xs == [] then []
    else
      var init := xs[..|xs| - 1];
      var last := xs[|xs| - 1];
      var rest := DropDuplicates(init);
      StampsOfSnoc(init, last);
      assert xs == init + [last];
      assert forall k :: FirstOf(init, k) ==> FirstOf(xs, k);
      if last.timestamp in Stamps(rest) then rest
      else
        StampsOfSnoc(rest, last);
        assert FirstOf(xs, |xs| - 1) by {
          forall m | 0 <= m < |xs| - 1 ensures xs[m].timestamp != last.timestamp {
            assert init[m] == xs[m];
            assert xs[m].timestamp in Stamps(init);
          }
        }
        assert forall j :: 0 <= j < |rest| ==> rest[j].timestamp in Stamps(rest);
        rest + [last]
  }

  /** The positions `keep='first'` keeps: the first row of each timestamp, in input
      order. */
  function KeptIndices(xs: seq<Candle>): (r: seq<nat>)
    ensures forall j :: 0 <= j < |r| ==> FirstOf(xs, r[j])
    ensures forall i, j :: 0 <= i < j < |r| ==> r[i] < r[j]
    decreases |xs|
  {
    if xs == [] then []
    else
      var init := xs[..|xs| - 1];
      var rest := KeptIndices(init);
      assert forall k :: 0 <= k < |init| ==> (FirstOf(init, k) <==> FirstOf(xs, k));
      if FirstOf(xs, |xs| - 1) then rest + [|xs| - 1] else rest
  }

  /** No first row of a timestamp is left out of the kept positions. */
  lemma {:induction false} KeptIndicesComplete(xs: seq<Candle>)
    ensures forall k :: FirstOf(xs, k) ==> k in KeptIndices(xs)
    decreases |xs|
  {
    if xs != [] {
      var init := xs[..|xs| - 1];
      KeptIndicesComplete(init);
      forall k | FirstOf(xs, k) ensures k in KeptIndices(xs) {
        if k < |init| {
          assert FirstOf(init, k);
        }
      }
    }
  }

  /** The last row is the first of its timestamp exactly when no earlier row has it. */
  lemma LastIsFirstOf(xs: seq<Candle>)
    requires xs != []
    ensures FirstOf(xs, |xs| - 1) <==> xs[|xs| - 1].timestamp !in Stamps(xs[..|xs| - 1])
  {
    var init, last := xs[..|xs| - 1], xs[|xs| - 1];
    if last.timestamp in Stamps(init) {
      var m :| 0 <= m < |init| && init[m].timestamp == last.timestamp;
      assert xs[m].timestamp == last.timestamp;
    } else {
      forall m | 0 <= m < |xs| - 1 ensures xs[m].timestamp != last.timestamp {
        assert init[m] == xs[m];
        assert init[m].timestamp in Stamps(init);
      }
    }
  }

  /** The rows `DropDuplicates` keeps are the rows at the kept positions, one for one
      and in the same order, so the surviving rows keep their input order. */
  lemma {:induction false} DropDuplicatesKeepsOrder(xs: seq<Candle>)
    ensures var r := DropDuplicates(xs);
            var idx := KeptIndices(xs);
            |r| == |idx| && forall j :: 0 <= j < |r| ==> r[j] == xs[idx[j]]
    decreases |xs|
  {
    if xs != [] {
      var init := xs[..|xs| - 1];
      var last := xs[|xs| - 1];
      DropDuplicatesKeepsOrder(init);
      DropDuplicatesStep(xs);
      IndexedSnoc(xs, DropDuplicates(init), KeptIndices(init), FirstOf(xs, |xs| - 1));
    }
  }

  /** Rows picked by positions before the last stay picked by them when the table grows
      by its last row, and so does the last row itself when it is picked. */
  lemma IndexedSnoc(xs: seq<Candle>, r0: seq<Candle>, i0: seq<nat>, grow: bool)
    requires xs != [] && |r0| == |i0|
    requires forall j :: 0 <= j < |i0| ==> i0[j] < |xs| - 1 && r0[j] == xs[..|xs| - 1][i0[j]]
    ensures var r := if grow then r0 + [xs[|xs| - 1]] else r0;
            var idx := if grow then i0 + [|xs| - 1] else i0;
            |r| == |idx| && forall j :: 0 <= j < |r| ==> r[j] == xs[idx[j]]
  {
  }

  /** One more row: both views grow by the new row exactly when it is the first of its
      timestamp. */
  lemma DropDuplicatesStep(xs: seq<Candle>)
    requires xs != []
    ensures var init := xs[..|xs| - 1];
            if FirstOf(xs, |xs| - 1) then
              && DropDuplicates(xs) == DropDuplicates(init) + [xs[|xs| - 1]]
              && KeptIndices(xs) == KeptIndices(init) + [|xs| - 1]
            else DropDuplicates(xs) == DropDuplicates(init) && KeptIndices(xs) == KeptIndices(init)
  {
    LastIsFirstOf(xs);
  }

  /** `duplicated().sum()`: the rows whose timestamp occurs earlier in the table. */
  function DuplicatedCount(xs: seq<Candle>): (n: nat)
    decreases |xs|
  {
    if xs == [] then 0
    else
      var init := xs[..|xs| - 1];
      DuplicatedCount(init) + (if xs[|xs| - 1].timestamp in Stamps(init) then 1 else 0)
  }

  /** The duplicated rows are exactly the rows dropping duplicates removes, and there
      are none exactly when the timestamps are distinct. */
  lemma {:induction false} DuplicatedCountIsDropped(xs: seq<Candle>)
    ensures DuplicatedCount(xs) + |DropDuplicates(xs)| == |xs|
    ensures DuplicatedCount(xs) == 0 <==> Distinct(xs)
    decreases |xs|
  {
    if xs != [] {
      var init := xs[..|xs| - 1];
      var last := xs[|xs| - 1];
      DuplicatedCountIsDropped(init);
      assert forall i :: 0 <= i < |init| ==> init[i] == xs[i];
      if last.timestamp in Stamps(init) {
        var i :| 0 <= i < |init| && init[i].timestamp == last.timestamp;
        assert xs[i].timestamp == xs[|xs| - 1].timestamp;
      } else {
        if Distinct(init) {
          forall i, j | 0 <= i < j < |xs| ensures xs[i].timestamp != xs[j].timestamp {
            if j == |xs| - 1 {
              assert xs[i].timestamp in Stamps(init);
            }
          }
        }
      }
    }
  }

  lemma StampsOfCons(x: Candle, xs: seq<Candle>)
    ensures Stamps([x] + xs) == {x.timestamp} + Stamps(xs)
  {
    var ys := [x] + xs;
    assert forall i :: 1 <= i < |ys| ==> ys[i] == xs[i - 1];
    assert forall i :: 0 <= i < |xs| ==> xs[i] == ys[i + 1];
    assert ys[0] == x;
  }

  /** A row earlier than every row of a sorted table can head it. */
  lemma ConsIncreasing(y: Candle, ys: seq<Candle>)
    requires Increasing(ys)
    requires forall t :: t in Stamps(ys) ==> y.timestamp < t
    ensures Increasing([y] + ys)
  {
    var zs := [y] + ys;
    forall i, j | 0 <= i < j < |zs| ensures zs[i].timestamp < zs[j].timestamp {
      assert zs[j] == ys[j - 1];
      if i == 0 {
        assert ys[j - 1].timestamp in Stamps(ys);
      } else {
        assert zs[i] == ys[i - 1];
      }
    }
  }

  /** Insert a row into a table sorted by timestamp, before the first later row. */
  function Insert(x: Candle, xs: seq<Candle>): (r: seq<Candle>)
    requires Increasing(xs) && x.timestamp !in Stamps(xs)
    ensures Increasing(r) && multiset(r) == multiset(xs) + multiset{x}
    ensures Stamps(r) == Stamps(xs) + {x.timestamp}
    decreases |xs|
  {
    if xs == [] then [x]
    else if x.timestamp < xs[0].timestamp then
      InsertFirst(x, xs);
      [x] + xs
    else
      assert xs == [xs[0]] + xs[1..];
      StampsOfCons(xs[0], xs[1..]);
      var rest := Insert(x, xs[1..]);
      InsertAfterHead(x, xs, rest);
      [xs[0]] + rest
  }

  /** A row earlier than the head of a sorted table goes first. */
  lemma InsertFirst(x: Candle, xs: seq<Candle>)
    requires Increasing(xs) && xs != [] && x.timestamp < xs[0].timestamp
    ensures Increasing([x] + xs) && Stamps([x] + xs) == Stamps(xs) + {x.timestamp}
  {
    StampsOfCons(x, xs);
    assert forall t :: t in Stamps(xs) ==> x.timestamp < t by {
      forall t | t in Stamps(xs) ensures x.timestamp < t {
        var i :| 0 <= i < |xs| && xs[i].timestamp == t;
        assert i == 0 || xs[0].timestamp < xs[i].timestamp;
      }
    }
    ConsIncreasing(x, xs);
  }

  /** A row later than the head of a sorted table goes into its tail: keeping the head
      in front of the tail with the row inserted. */
  lemma InsertAfterHead(x: Candle, xs: seq<Candle>, rest: seq<Candle>)
    requires Increasing(xs) && xs != [] && xs[0].timestamp < x.timestamp
    requires Increasing(rest) && multiset(rest) == multiset(xs[1..]) + multiset{x}
    requires Stamps(rest) == Stamps(xs[1..]) + {x.timestamp}
    ensures Increasing([xs[0]] + rest) && multiset([xs[0]] + rest) == multiset(xs) + multiset{x}
    ensures Stamps([xs[0]] + rest) == Stamps(xs) + {x.timestamp}
  {
    var head := xs[0];
    assert xs == [head] + xs[1..];
    StampsOfCons(head, xs[1..]);
    StampsOfCons(head, rest);
    assert forall t :: t in Stamps(rest) ==> head.timestamp < t by {
      forall t | t in Stamps(xs[1..]) ensures head.timestamp < t {
        var i :| 0 <= i < |xs[1..]| && xs[1..][i].timestamp == t;
        assert xs[1..][i] == xs[i + 1];
      }
    }
    ConsIncreasing(head, rest);
  }

  /** `sort_values('timestamp')` on a table without repeated timestamps. */
  function SortByTime(xs: seq<Candle>): (r: seq<Candle>)
    requires Distinct(xs)
    ensures Increasing(r) && multiset(r) == multiset(xs)
    ensures Stamps(r) == Stamps(xs) && |r| == |xs|
    decreases |xs|
  {
    if xs == [] then []
    else
      var init := xs[..|xs| - 1];
      var last := xs[|xs| - 1];
      assert xs == init + [last];
      StampsOfSnoc(init, last);
      assert last.timestamp !in Stamps(init) by {
        forall i | 0 <= i < |init| ensures init[i].timestamp != last.timestamp {
          assert init[i] == xs[i];
        }
      }
      var r := Insert(last, SortByTime(init));
      assert |r| == |multiset(r)|;
      r
  }

  /** Rows of the table whose timestamp is at least `from`, in order. */
  function KeepFrom(xs: seq<Candle>, from: int): (r: seq<Candle>)
    ensures |r| <= |xs|
    ensures forall j :: 0 <= j < |r| ==> r[j].timestamp >= from && r[j] in xs
    ensures forall i :: 0 <= i < |xs| && xs[i].timestamp >= from ==> xs[i] in r
    decreases |xs|
  {
    if xs == [] then []
    else
      var init := xs[..|xs| - 1];
      var last := xs[|xs| - 1];
      var rest := KeepFrom(init, from);
      assert forall i :: 0 <= i < |init| ==> init[i] == xs[i];
      if last.timestamp >= from then rest + [last] else rest
  }

  /** Keeping a window of a sorted table leaves it sorted. */
  lemma {:induction false} KeepFromIncreasing(xs: seq<Candle>, from: int)
    requires Increasing(xs)
    ensures Increasing(KeepFrom(xs, from))
    decreases |xs|
  {
    if xs != [] {
      var init := xs[..|xs| - 1];
      var last := xs[|xs| - 1];
      assert Increasing(init);
      KeepFromIncreasing(init, from);
      var rest := KeepFrom(init, from);
      if last.timestamp >= from {
        assert KeepFrom(xs, from) == rest + [last];
        forall j | 0 <= j < |rest| ensures rest[j].timestamp < last.timestamp {
          assert rest[j] in init;
          var k :| 0 <= k < |init| && init[k] == rest[j];
          assert init[k] == xs[k];
        }
        SnocIncreasing(rest, last);
      }
    }
  }

  /** A row later than every row of a sorted table can end it. */
  lemma SnocIncreasing(ys: seq<Candle>, y: Candle)
    requires Increasing(ys)
    requires forall j :: 0 <= j < |ys| ==> ys[j].timestamp < y.timestamp
    ensures Increasing(ys + [y])
  {
    var zs := ys + [y];
    forall i, j | 0 <= i < j < |zs| ensures zs[i].timestamp < zs[j].timestamp {
      assert zs[i] == ys[i];
      if j < |ys| {
        assert zs[j] == ys[j];
      }
    }
  }

  /** `drop_duplicates(subset=['timestamp'])` followed by `sort_values('timestamp')`. */
  function Normalize(all: seq<Candle>): (r: seq<Candle>)
    ensures Increasing(r) && Stamps(r) == Stamps(all)
    ensures |all| > 0 ==> |r| > 0
  {
    var r := SortByTime(DropDuplicates(all));
    assert |all| > 0 ==> all[0].timestamp in Stamps(r);
    r
  }

  /** Every normalised row is a row of the input. */
  lemma NormalizedRowsFromAll(all: seq<Candle>)
    ensures forall j :: 0 <= j < |Normalize(all)| ==> Normalize(all)[j] in all
  {
    var unique := DropDuplicates(all);
    var sorted := Normalize(all);
    forall j | 0 <= j < |sorted| ensures sorted[j] in all {
      assert sorted[j] in multiset(sorted);
      assert sorted[j] in multiset(unique);
      var k :| 0 <= k < |unique| && unique[k] == sorted[j];
      var m :| FirstOf(all, m) && unique[k] == all[m];
    }
  }

  /** The latest timestamp of a non-empty table. */
  function MaxStamp(xs: seq<Candle>): (m: int)
    requires |xs| > 0
    ensures m in Stamps(xs)
    ensures forall i :: 0 <= i < |xs| ==> xs[i].timestamp <= m
    decreases |xs|
  {
    if |xs| == 1 then xs[0].timestamp
    else
      var rest := MaxStamp(xs[1..]);
      assert forall i :: 1 <= i < |xs| ==> xs[i] == xs[1..][i - 1];
      assert rest in Stamps(xs) by {
        var k :| 0 <= k < |xs[1..]| && xs[1..][k].timestamp == rest;
        assert xs[k + 1].timestamp == rest;
      }
      if xs[0].timestamp >= rest then xs[0].timestamp else rest
  }
}

=== FILE: cleaner.dfy ===
/** The historical-data cleaner: deduplicating and sorting raw candles, forward-filling
    missing numbers, repairing bars whose high and low do not enclose open and close,
    generating synthetic bars whose ordering holds whatever the random draws, and
    reindexing a table onto every hour of a period with interpolation. */
module HistoryCleaner {
  import opened Wrappers
  import opened Series
  import Numeric
  import opened CandleTable

  // ---------------------------------------------------------------------------------
  // Forward and backward filling
  // ---------------------------------------------------------------------------------

  /** The index of the nearest number strictly before position `i`. */
  function PrevKnown(s: Series, i: int): (r: Option<nat>)
    requires 0 <= i <= |s|
    ensures r.Some? ==> r.value < i && s[r.value].Some? && forall m :: r.value < m < i ==> s[m].None?
    ensures r.None? ==> forall m :: 0 <= m < i ==> s[m].None?
    decreases i
  {
    if i == 0 then None else if s[i - 1].Some? then Some(i - 1) else PrevKnown(s, i - 1)
  }

  /** The index of the nearest number strictly after position `i`. */
  function NextKnown(s: Series, i: int): (r: Option<nat>)
    requires -1 <= i < |s|
    ensures r.Some? ==> i < r.value < |s| && s[r.value].Some? && forall m :: i < m < r.value ==> s[m].None?
    ensures r.None? ==> forall m :: i < m < |s| ==> s[m].None?
    decreases |s| - i
  {
    if i + 1 == |s| then None else if s[i + 1].Some? then Some(i + 1) else NextKnown(s, i + 1)
  }

  /** The nearest number at or before position `i`, NaN when there is none. */
  function LastKnownAt(s: Series, i: int): (v: Value)
    requires 0 <= i < |s|
    ensures s[i].Some? ==> v == s[i]
  {
    var p := PrevKnown(s, i + 1);
    if p.Some? then s[p.value] else None
  }

  /** Position `i` stays NaN exactly when no row up to it has a number; otherwise the
      number carried there comes from the nearest row at or before it that has one, and
      every row in between is NaN. */
  lemma LastKnownIsNearest(s: Series, i: int)
    requires 0 <= i < |s|
    ensures LastKnownAt(s, i).None? <==> forall j :: 0 <= j <= i ==> s[j].None?
    ensures LastKnownAt(s, i).Some? ==>
              exists j :: 0 <= j <= i && LastKnownAt(s, i) == s[j] && forall m :: j < m <= i ==> s[m].None?
  {
    var p := PrevKnown(s, i + 1);
    if p.Some? {
      assert LastKnownAt(s, i) == s[p.value];
    }
  }

  /** The nearest number at or after position `i`, NaN when there is none. */
  function NextKnownAt(s: Series, i: int): (v: Value)
    requires 0 <= i < |s|
    ensures s[i].Some? ==> v == s[i]
  {
    var p := NextKnown(s, i - 1);
    if p.Some? then s[p.value] else None
  }

  /** Position `i` stays NaN exactly when no row from it on has a number; otherwise the
      number carried back there comes from the nearest row at or after it that has one,
      and every row in between is NaN. */
  lemma NextKnownIsNearest(s: Series, i: int)
    requires 0 <= i < |s|
    ensures NextKnownAt(s, i).None? <==> forall j :: i <= j < |s| ==> s[j].None?
    ensures NextKnownAt(s, i).Some? ==>
              exists j :: i <= j < |s| && NextKnownAt(s, i) == s[j] && forall m :: i <= m < j ==> s[m].None?
  {
    var p := NextKnown(s, i - 1);
    if p.Some? {
      assert NextKnownAt(s, i) == s[p.value];
    }
  }

  /** `fillna(method='ffill')`: each NaN takes the value of the nearest number before
      it; NaNs before the first number stay NaN. */
  function FillForward(s: Series): (r: Series)
    ensures |r| == |s|
    ensures forall i :: 0 <= i < |s| ==> r[i] == LastKnownAt(s, i)
  {
    seq(|s|, i requires 0 <= i < |s| => LastKnownAt(s, i))
  }

  /** Forward filling as pandas computes it, row by row: the first row is kept, and every
      later NaN repeats the filled row before it. */
  lemma FillForwardRecurrence(s: Series, i: int)
    requires 0 <= i < |s|
    ensures i == 0 ==> FillForward(s)[0] == s[0]
    ensures i > 0 ==> FillForward(s)[i] == if s[i].Some? then s[i] else FillForward(s)[i - 1]
  {
    if i > 0 && s[i].None? {
      assert PrevKnown(s, i + 1) == PrevKnown(s, i);
    }
  }

  /** `fillna(method='bfill')`: each NaN takes the value of the nearest number after it;
      NaNs after the last number stay NaN. */
  function FillBackward(s: Series): (r: Series)
    ensures |r| == |s|
    ensures forall i :: 0 <= i < |s| ==> r[i] == NextKnownAt(s, i)
  {
    seq(|s|, i requires 0 <= i < |s| => NextKnownAt(s, i))
  }

  /** Backward filling row by row from the end: the last row is kept, and every earlier
      NaN repeats the filled row after it. */
  lemma FillBackwardRecurrence(s: Series, i: int)
    requires 0 <= i < |s|
    ensures i == |s| - 1 ==> FillBackward(s)[i] == s[i]
    ensures i < |s| - 1 ==> FillBackward(s)[i] == if s[i].Some? then s[i] else FillBackward(s)[i + 1]
  {
    if i < |s| - 1 && s[i].None? {
      assert NextKnown(s, i - 1) == NextKnown(s, i);
    }
  }

  // ---------------------------------------------------------------------------------
  // The OHLC repair
  // ---------------------------------------------------------------------------------

  /** The rows the repair step selects: the high below open or close, or the low above
      either. Comparisons with NaN are false. */
  predicate Inconsistent(c: Candle) {
    Lt(c.high, c.open) || Lt(c.high, c.close) || Gt(c.low, c.open) || Gt(c.low, c.close)
  }

  /** A bar whose four prices are numbers has its low at or below open and close, and its
      high at or above both. */
  predicate Ordered(c: Candle) {
    c.open.Some? && c.high.Some? && c.low.Some? && c.close.Some? ==>
      c.low.value <= c.open.value && c.low.value <= c.close.value
      && c.open.value <= c.high.value && c.close.value <= c.high.value
  }

  /** Python's two-argument `max`: the second argument replaces the first only when it is
      greater, so a NaN first argument is never replaced and a NaN second one is
      skipped. */
  function PyMax(a: Value, b: Value): (r: Value)
    ensures r == a || r == b
    ensures a.None? ==> r.None?
    ensures a.Some? ==> r.Some? && a.value <= r.value && (b.Some? ==> b.value <= r.value)
  {
    if Gt(b, a) then b else a
  }

  /** Python's two-argument `min`, the mirror of `PyMax`. */
  function PyMin(a: Value, b: Value): (r: Value)
    ensures r == a || r == b
    ensures a.None? ==> r.None?
    ensures a.Some? ==> r.Some? && r.value <= a.value && (b.Some? ==> r.value <= b.value)
  {
    if Lt(b, a) then b else a
  }

  /** `max(row['open'], row['high'], row['low'], row['close'])`. */
  function Max4(o: Value, h: Value, l: Value, c: Value): (r: Value)
    ensures o.Some? ==> r.Some? && o.value <= r.value && (c.Some? ==> c.value <= r.value)
    ensures o.None? ==> r.None?
  {
    PyMax(PyMax(PyMax(o, h), l), c)
  }

  /** `min(row['open'], row['high'], row['low'], row['close'])`. */
  function Min4(o: Value, h: Value, l: Value, c: Value): (r: Value)
    ensures o.Some? ==> r.Some? && r.value <= o.value && (c.Some? ==> r.value <= c.value)
    ensures o.None? ==> r.None?
  {
    PyMin(PyMin(PyMin(o, h), l), c)
  }

  /** The repair of one row: a selected row gets the maximum and the minimum of its four
      prices (both taken from the row as it was) as high and low; any other row is left
      as it is. Open, close, volume and the timestamp never change. */
  function RepairRow(c: Candle): (r: Candle)
    ensures !Inconsistent(c) ==> r == c
    ensures r.timestamp == c.timestamp && r.open == c.open && r.close == c.close && r.volume == c.volume
    ensures Ordered(r)
  {
    if Inconsistent(c) then
      c.(high := Max4(c.open, c.high, c.low, c.close), low := Min4(c.open, c.high, c.low, c.close))
    else c
  }

  /** The catch in the repair: Python's `max` and `min` keep a NaN first argument, so a
      selected row whose open is NaN loses its high and low. */
  lemma RepairWithMissingOpenClearsHighAndLow(c: Candle)
    requires c.open.None? && Inconsistent(c)
    ensures RepairRow(c).high.None? && RepairRow(c).low.None?
  {
  }

  // ---------------------------------------------------------------------------------
  // clean_and_validate_data
  // ---------------------------------------------------------------------------------

  /** Column `k` of a table. */
  function Column(rows: seq<Candle>, k: nat): (s: Series)
    requires 1 <= k <= 5
    ensures |s| == |rows| && forall i :: 0 <= i < |rows| ==> s[i] == Field(rows[i], k)
  {
    seq(|rows|, i requires 0 <= i < |rows| => Field(rows[i], k))
  }

  /** Forward filling every numeric column. */
  function FillColumns(rows: seq<Candle>): (r: seq<Candle>)
    ensures |r| == |rows|
    ensures forall i :: 0 <= i < |r| ==> r[i].timestamp == rows[i].timestamp
  {
    var o := FillForward(Column(rows, 1));
    var h := FillForward(Column(rows, 2));
    var l := FillForward(Column(rows, 3));
    var c := FillForward(Column(rows, 4));
    var v := FillForward(Column(rows, 5));
    seq(|rows|, i requires 0 <= i < |rows| => Candle(rows[i].timestamp, o[i], h[i], l[i], c[i], v[i]))
  }

  /** The repair applied to every row. */
  function RepairAll(rows: seq<Candle>): (r: seq<Candle>)
    ensures |r| == |rows| && forall i :: 0 <= i < |r| ==> r[i] == RepairRow(rows[i])
  {
    seq(|rows|, i requires 0 <= i < |rows| => RepairRow(rows[i]))
  }

  /** `clean_and_validate_data`: an empty table is returned as it is; otherwise rows with
      an already seen timestamp are dropped (the first is kept), the rest are sorted by
      timestamp, each numeric column is forward-filled, and the inconsistent bars are
      repaired. */
  function CleanAndValidate(rows: seq<Candle>): (r: seq<Candle>)
    ensures rows == [] ==> r == []
    ensures Increasing(r) && Stamps(r) == Stamps(rows) && |r| <= |rows|
    ensures forall i :: 0 <= i < |r| ==> Ordered(r[i])
  {
    if rows == [] then rows
    else
      var sorted := Normalize(rows);
      assert |sorted| <= |rows| by {
        assert |sorted| == |DropDuplicates(rows)|;
      }
      RepairedKeepsOrder(sorted);
      RepairAll(FillColumns(sorted))
  }

  /** Filling and repairing keep the timestamps of a sorted table, row by row. */
  lemma RepairedKeepsOrder(sorted: seq<Candle>)
    requires Increasing(sorted)
    ensures var r := RepairAll(FillColumns(sorted));
            |r| == |sorted| && Increasing(r) && Stamps(r) == Stamps(sorted)
  {
    var r := RepairAll(FillColumns(sorted));
    assert forall i :: 0 <= i < |r| ==> r[i].timestamp == sorted[i].timestamp;
  }

  /** Open, close and volume of a cleaned row are the nearest number at or before that
      row in the sorted column (so a present number is kept); the repair touches only
      high and low. */
  lemma CleanCarriesLastKnown(rows: seq<Candle>, k: nat)
    requires rows != [] && (k == 1 || k == 4 || k == 5)
    ensures forall i :: 0 <= i < |CleanAndValidate(rows)| ==>
              Field(CleanAndValidate(rows)[i], k) == LastKnownAt(Column(Normalize(rows), k), i)
  {
    var sorted := Normalize(rows);
    var filled := FillColumns(sorted);
    CleanIsRepairOfFilled(rows);
    forall i | 0 <= i < |CleanAndValidate(rows)|
      ensures Field(CleanAndValidate(rows)[i], k) == LastKnownAt(Column(sorted, k), i)
    {
      RepairKeepsField(filled[i], k);
      FillColumnsCarry(sorted, i, k);
    }
  }

  /** A non-empty table is cleaned by filling the sorted table and repairing each row. */
  lemma CleanIsRepairOfFilled(rows: seq<Candle>)
    requires rows != []
    ensures var filled := FillColumns(Normalize(rows));
            CleanAndValidate(rows) == RepairAll(filled) && |filled| == |RepairAll(filled)|
  {
  }

  /** The repair leaves open, close and volume alone. */
  lemma RepairKeepsField(c: Candle, k: nat)
    requires k == 1 || k == 4 || k == 5
    ensures Field(RepairRow(c), k) == Field(c, k)
  {
  }

  /** Each column of the filled table carries the nearest number at or before the row. */
  lemma FillColumnsCarry(rows: seq<Candle>, i: int, k: nat)
    requires 0 <= i < |rows| && 1 <= k <= 5
    ensures Field(FillColumns(rows)[i], k) == LastKnownAt(Column(rows, k), i)
  {
    var col := Column(rows, k);
    assert FillForward(col)[i] == LastKnownAt(col, i);
  }

  // ---------------------------------------------------------------------------------
  // Generated bars
  // ---------------------------------------------------------------------------------

  /** The start of hour `i` counted from `first`, in seconds. */
  function HourAt(first: int, i: int): int {
    first + 3600 * i
  }

  /** `replace(minute=0, second=0, microsecond=0)` on a timestamp in seconds. */
  function HourFloor(t: int): (h: int)
    ensures h <= t < h + 3600 && h % 3600 == 0
  {
    t - t % 3600
  }

  /** The number of hours `pd.date_range(first, last, freq='H')` yields: every whole
      hour from `first` up to `last`. */
  function HourCount(first: int, last: int): (n: nat)
    ensures n == 0 <==> last < first
  {
    if last < first then 0 else (last - first) / 3600 + 1
  }

  /** The hours counted are exactly those up to `last`: the last counted hour is at or
      before it and the next one after it. */
  lemma HourCountBounds(first: int, last: int)
    ensures var n := HourCount(first, last);
            n > 0 ==> HourAt(first, n - 1) <= last < HourAt(first, n)
  {
  }

  /** Gregorian leap years. */
  predicate IsLeap(y: int) {
    y % 4 == 0 && (y % 100 != 0 || y % 400 == 0)
  }

  function YearLength(y: int): nat {
    if IsLeap(y) then 366 else 365
  }

  /** Days in month `m` of year `y`. */
  function MonthLength(y: int, m: int): (n: nat)
    ensures 28 <= n <= 31
  {
    if m == 2 then (if IsLeap(y) then 29 else 28)
    else if m == 4 || m == 6 || m == 9 || m == 11 then 30
    else 31
  }

  /** Day `d` counted from 1 January of year `y`, as a year and a day within it. */
  function YearAndDay(y: int, d: nat): (r: (int, nat))
    ensures r.0 >= y && r.1 < YearLength(r.0)
    decreases d
  {
    if d < YearLength(y) then (y, d) else YearAndDay(y + 1, d - YearLength(y))
  }

  /** The month holding day `d` of year `y`, with `d` counted from the start of month `m`. */
  function MonthOfDay(y: int, m: int, d: nat): (r: int)
    requires 1 <= m <= 12
    ensures m <= r <= 12
    ensures d < MonthLength(y, m) ==> r == m
    decreases 12 - m
  {
    if m == 12 || d < MonthLength(y, m) then m else MonthOfDay(y, m + 1, d - MonthLength(y, m))
  }

  const SecondsPerDay: int := 86400

  /** Days in the 400-year Gregorian cycle, after which the calendar repeats. */
  const DaysPer400Years: int := 146097

  /** `timestamp.month` of a time in seconds since 1970-01-01 00:00. */
  function MonthOf(t: int): (m: int)
    ensures 1 <= m <= 12
  {
    var yd := YearAndDay(1970, (t / SecondsPerDay) % DaysPer400Years);
    MonthOfDay(yd.0, 1, yd.1)
  }

  /** `timestamp.hour`. */
  function HourOfDay(t: int): (h: int)
    ensures 0 <= h < 24
  {
    (t % SecondsPerDay) / 3600
  }

  /** `timestamp.weekday()`, Monday being 0: 1 January 1970 was a Thursday. */
  function Weekday(t: int): (w: int)
    ensures 0 <= w < 7
  {
    (t / SecondsPerDay + 3) % 7
  }

  /** Python's `max` and `min` of two numbers. */
  function RealMax(a: real, b: real): (r: real)
    ensures r >= a && r >= b && (r == a || r == b)
  {
    if b > a then b else a
  }

  function RealMin(a: real, b: real): (r: real)
    ensures r <= a && r <= b && (r == a || r == b)
  {
    if b < a then b else a
  }

  /** `round(x, 2)`. */
  function Round2(x: real): real {
    Numeric.RoundTo(x, 2)
  }

  /** A month's market parameters: base price, volatility, trend and base volume. */
  datatype MarketParams = MarketParams(basePrice: real, volatility: real, trend: real, volumeBase: real)

  /** `market_params.get(month, market_params[7])`: April to July have their own
      parameters, and every other month uses July's. */
  function ParamsOf(month: int): (p: MarketParams)
    ensures 1340.0 <= p.basePrice <= 1390.0 && p.volatility > 0.0 && p.volumeBase > 0.0
    ensures month == 4 <==> p.basePrice == 1340.0
    ensures !(4 <= month <= 6) ==> p == JulyParams
  {
    if month == 4 then MarketParams(1340.0, 0.008, 0.0001, 45000.0)
    else if month == 5 then MarketParams(1365.0, 0.012, 0.0002, 65000.0)
    else if month == 6 then MarketParams(1385.0, 0.015, 0.0001, 85000.0)
    else JulyParams
  }

  /** July's parameters, the fallback for every month without its own. */
  const JulyParams: MarketParams := MarketParams(1390.0, 0.010, -0.0001, 55000.0)

  /** The activity multiplier of an hour: busier from 9 to 11 and 14 to 16 o'clock,
      quieter from 22 to 6 o'clock, and reduced to 40% on Saturdays and Sundays. */
  function ActivityMultiplier(hour: int, weekday: int): (m: real)
    ensures 0.24 <= m <= 1.5
    ensures weekday >= 5 ==> m <= 0.6
    ensures weekday < 5 && (9 <= hour <= 11 || 14 <= hour <= 16) ==> m == 1.5
  {
    var byHour := if 9 <= hour <= 11 || 14 <= hour <= 16 then 1.5 else if 22 <= hour || hour <= 6 then 0.6 else 1.0;
    if weekday >= 5 then byHour * 0.4 else byHour
  }

  /** `max(price_min, min(price_max, price))` with the band from 95% to 108% of the base
      price. */
  function Clamp(price: real, basePrice: real): (r: real)
    requires basePrice >= 0.0
    ensures basePrice * 0.95 <= r <= basePrice * 1.08
    ensures basePrice * 0.95 <= price <= basePrice * 1.08 ==> r == price
  {
    RealMax(basePrice * 0.95, RealMin(basePrice * 1.08, price))
  }

  /** The hourly price walk: starting from April's base price, each hour's price is the
      previous one times one plus the month's trend and a random change, clamped into
      the month's band. The random changes are arbitrary. */
  function PriceWalk(months: seq<int>, changes: seq<real>): (r: seq<real>)
    requires |changes| == |months|
    ensures |r| == |months|
    ensures forall i :: 0 <= i < |r| ==>
              ParamsOf(months[i]).basePrice * 0.95 <= r[i] <= ParamsOf(months[i]).basePrice * 1.08
    decreases |months|
  {
    if months == [] then []
    else
      var n := |months| - 1;
      var rest := PriceWalk(months[..n], changes[..n]);
      var current := if n == 0 then ParamsOf(4).basePrice else rest[n - 1];
      var p := ParamsOf(months[n]);
      rest + [Clamp(current * (1.0 + p.trend + changes[n]), p.basePrice)]
  }

  /** The floor on the generated volume. */
  const MinVolume: real := 1000.0

  /** One generated bar: the high is the larger of open and close plus one absolute draw,
      the low the smaller minus another, both corrected to enclose open and close, and
      every price and the volume (at least 1000) rounded to two places. The draws and the
      raw volume are arbitrary. */
  function GeneratedBar(timestamp: int, openPrice: real, closePrice: real, draw1: real, draw2: real, volume: real): Candle {
    var high := RealMax(RealMax(RealMax(openPrice, closePrice) + Numeric.Abs(draw1), openPrice), closePrice);
    var low := RealMin(RealMin(RealMin(openPrice, closePrice) - Numeric.Abs(draw2), openPrice), closePrice);
    Candle(timestamp, Some(Round2(openPrice)), Some(Round2(high)), Some(Round2(low)),
           Some(Round2(closePrice)), Some(Round2(RealMax(MinVolume, volume))))
  }

  /** Whatever the draws, a generated bar is ordered, complete, and has a volume of at
      least 1000. */
  lemma GeneratedBarIsOrdered(timestamp: int, openPrice: real, closePrice: real, draw1: real, draw2: real, volume: real)
    ensures var c := GeneratedBar(timestamp, openPrice, closePrice, draw1, draw2, volume);
            && c.open.Some? && c.high.Some? && c.low.Some? && c.close.Some? && c.volume.Some?
            && Ordered(c) && c.volume.value >= MinVolume
  {
    var high := RealMax(RealMax(RealMax(openPrice, closePrice) + Numeric.Abs(draw1), openPrice), closePrice);
    var low := RealMin(RealMin(RealMin(openPrice, closePrice) - Numeric.Abs(draw2), openPrice), closePrice);
    Numeric.Round2Monotone(openPrice, high);
    Numeric.Round2Monotone(closePrice, high);
    Numeric.Round2Monotone(low, openPrice);
    Numeric.Round2Monotone(low, closePrice);
    Numeric.Round2Monotone(MinVolume, RealMax(MinVolume, volume));
    Numeric.Round2OfInt(1000);
  }

  /** The activity multiplier of the hour starting at `t`. */
  function Activity(t: int): (m: real)
    ensures 0.24 <= m <= 1.5
  {
    ActivityMultiplier(HourOfDay(t), Weekday(t))
  }

  /** The month's volatility scaled by the hour's activity. */
  function Volatility(t: int): (v: real)
    ensures var base := ParamsOf(MonthOf(t)).volatility;
            base * 0.24 <= v <= base * 1.5 && (Weekday(t) >= 5 ==> v <= base * 0.6)
  {
    var base := ParamsOf(MonthOf(t)).volatility;
    var m := Activity(t);
    Numeric.MulNonNegative(base, m - 0.24);
    Numeric.MulNonNegative(base, 1.5 - m);
    if Weekday(t) >= 5 then
      Numeric.MulNonNegative(base, 0.6 - m);
      base * m
    else base * m
  }

  /** The random inputs of one generated hour, as standard draws: the normal draw of
      the price change, the two normal intra-hour draws, and the log-normal volume
      noise. They are scaled by the hour's volatility and volume base. */
  datatype HourDraw = HourDraw(noise: real, highNoise: real, lowNoise: real, volumeNoise: real)

  /** The month of each generated hour. */
  function Months(first: int, n: nat): (ms: seq<int>)
    ensures |ms| == n && forall i :: 0 <= i < n ==> ms[i] == MonthOf(HourAt(first, i))
  {
    seq(n, i requires 0 <= i < n => MonthOf(HourAt(first, i)))
  }

  /** The random price change of each generated hour: a normal draw with the hour's
      volatility as its deviation. */
  function Changes(first: int, draws: seq<HourDraw>): (cs: seq<real>)
    ensures |cs| == |draws|
    ensures forall i :: 0 <= i < |draws| ==> cs[i] == Change(HourAt(first, i), draws[i])
  {
    seq(|draws|, i requires 0 <= i < |draws| => Change(HourAt(first, i), draws[i]))
  }

  /** The normal draw scaled by the volatility of the hour starting at `t`. */
  function Change(t: int, d: HourDraw): real {
    Volatility(t) * d.noise
  }

  /** The intra-hour draws and the volume of the hour starting at `t`: the two draws
      have a deviation of 30% of the open-to-close move plus half the hour's volatility
      times the price, and the volume is the month's base times the hour's activity
      times the noise. */
  function ScaledDraws(t: int, openPrice: real, closePrice: real, d: HourDraw): (real, real, real) {
    var intra := Numeric.Abs(closePrice - openPrice) + Volatility(t) * closePrice * 0.5;
    (intra * 0.3 * d.highNoise, intra * 0.3 * d.lowNoise, ParamsOf(MonthOf(t)).volumeBase * Activity(t) * d.volumeNoise)
  }

  /** The bar of the hour starting at `t`. */
  function HourBar(t: int, openPrice: real, closePrice: real, d: HourDraw): (c: Candle)
    ensures c.timestamp == t && c.close == Some(Round2(closePrice)) && c.open == Some(Round2(openPrice))
  {
    var s := ScaledDraws(t, openPrice, closePrice, d);
    GeneratedBar(t, openPrice, closePrice, s.0, s.1, s.2)
  }

  /** Whatever the draws, the bar of an hour is ordered, complete, and has a volume of
      at least 1000. */
  lemma HourBarIsOrdered(t: int, openPrice: real, closePrice: real, d: HourDraw)
    ensures var c := HourBar(t, openPrice, closePrice, d);
            && c.open.Some? && c.high.Some? && c.low.Some? && c.close.Some? && c.volume.Some?
            && Ordered(c) && c.volume.value >= MinVolume
  {
    var s := ScaledDraws(t, openPrice, closePrice, d);
    GeneratedBarIsOrdered(t, openPrice, closePrice, s.0, s.1, s.2);
  }

  /** The bar of hour `i`: the first bar opens at its own price, every later bar at the
      stored (rounded) close of the bar before. */
  function BarOfHour(first: int, closes: seq<real>, draws: seq<HourDraw>, i: int): Candle
    requires |closes| == |draws| && 0 <= i < |draws|
  {
    HourBar(HourAt(first, i), if i == 0 then closes[0] else Round2(closes[i - 1]), closes[i], draws[i])
  }

  /** `generate_complete_market_data`: one bar for every hour from the start's hour to
      the end's hour, with prices from the clamped walk. */
  function GeneratedBars(start: int, end: int, draws: seq<HourDraw>): (r: seq<Candle>)
    requires |draws| == HourCount(HourFloor(start), HourFloor(end))
    ensures |r| == |draws|
    ensures forall i :: 0 <= i < |r| ==> r[i].timestamp == HourAt(HourFloor(start), i)
  {
    var closes := PriceWalk(Months(HourFloor(start), |draws|), Changes(HourFloor(start), draws));
    seq(|draws|, i requires 0 <= i < |draws| => BarOfHour(HourFloor(start), closes, draws, i))
  }

  /** A generated bar is complete and ordered with a volume of at least 1000, and its
      close lies in the rounded price band of `month`. */
  predicate GoodBar(c: Candle, month: int) {
    && Ordered(c) && c.open.Some? && c.close.Some? && c.volume.Some?
    && c.volume.value >= MinVolume
    && Round2(ParamsOf(month).basePrice * 0.95) <= c.close.value
    && c.close.value <= Round2(ParamsOf(month).basePrice * 1.08)
  }

  /** Every generated bar is complete and ordered with a volume of at least 1000, and
      its close lies in the rounded price band of its hour's month. */
  lemma GeneratedBarsAreOrdered(start: int, end: int, draws: seq<HourDraw>)
    requires |draws| == HourCount(HourFloor(start), HourFloor(end))
    ensures var r := GeneratedBars(start, end, draws);
            forall i :: 0 <= i < |r| ==> GoodBar(r[i], MonthOf(HourAt(HourFloor(start), i)))
  {
    var r := GeneratedBars(start, end, draws);
    var first := HourFloor(start);
    var months := Months(first, |draws|);
    var closes := PriceWalk(months, Changes(first, draws));
    forall i | 0 <= i < |r|
      ensures GoodBar(r[i], MonthOf(HourAt(first, i)))
    {
      assert months[i] == MonthOf(HourAt(first, i));
      BarIsOrdered(first, closes, draws, i);
      assert r[i] == BarOfHour(first, closes, draws, i);
    }
  }

  /** The bar of one hour is ordered, with its close in its month's rounded band. */
  lemma BarIsOrdered(first: int, closes: seq<real>, draws: seq<HourDraw>, i: int)
    requires |closes| == |draws| && 0 <= i < |draws|
    requires ParamsOf(MonthOf(HourAt(first, i))).basePrice * 0.95 <= closes[i] <= ParamsOf(MonthOf(HourAt(first, i))).basePrice * 1.08
    ensures GoodBar(BarOfHour(first, closes, draws, i), MonthOf(HourAt(first, i)))
  {
    var openPrice := if i == 0 then closes[0] else Round2(closes[i - 1]);
    HourBarIsOrdered(HourAt(first, i), openPrice, closes[i], draws[i]);
    var base := ParamsOf(MonthOf(HourAt(first, i))).basePrice;
    Numeric.Round2Monotone(base * 0.95, closes[i]);
    Numeric.Round2Monotone(closes[i], base * 1.08);
  }

  /** Generated bars follow each other hour by hour, and each bar opens exactly at the
      close of the bar before. */
  lemma GeneratedBarsAreContinuous(start: int, end: int, draws: seq<HourDraw>)
    requires |draws| == HourCount(HourFloor(start), HourFloor(end))
    ensures var r := GeneratedBars(start, end, draws);
            && Increasing(r)
            && forall i :: 0 < i < |r| ==> r[i].open == r[i - 1].close
  {
    var r := GeneratedBars(start, end, draws);
    var first := HourFloor(start);
    var closes := PriceWalk(Months(HourFloor(start), |draws|), Changes(HourFloor(start), draws));
    forall i | 0 < i < |r| ensures r[i].open == r[i - 1].close {
      assert r[i] == BarOfHour(first, closes, draws, i);
      assert r[i - 1] == BarOfHour(first, closes, draws, i - 1);
      Numeric.Round2Idempotent(closes[i - 1]);
    }
  }

  // ---------------------------------------------------------------------------------
  // _fill_missing_hours
  // ---------------------------------------------------------------------------------

  /** The row of a table with the given timestamp, if there is one. */
  function FindRow(rows: seq<Candle>, t: int): (r: Option<Candle>)
    ensures r.Some? ==> r.value in rows && r.value.timestamp == t
    ensures r.None? ==> t !in Stamps(rows)
    decreases |rows|
  {
    if rows == [] then None
    else if rows[0].timestamp == t then Some(rows[0])
    else
      var rest := FindRow(rows[1..], t);
      assert forall i :: 1 <= i < |rows| ==> rows[i] == rows[1..][i - 1];
      if rest.None? then
        assert t !in Stamps(rows) by {
          forall i | 0 <= i < |rows| ensures rows[i].timestamp != t {
            if i > 0 {
              assert rows[i] == rows[1..][i - 1];
              assert rows[1..][i - 1].timestamp in Stamps(rows[1..]);
            }
          }
        }
        None
      else rest
  }

  /** In a table without repeated timestamps the row found is the only one. */
  lemma FindRowIsUnique(rows: seq<Candle>, x: Candle)
    requires Distinct(rows) && x in rows
    ensures FindRow(rows, x.timestamp) == Some(x)
  {
    var i :| 0 <= i < |rows| && rows[i] == x;
    assert x.timestamp in Stamps(rows);
    var f := FindRow(rows, x.timestamp);
    var j :| 0 <= j < |rows| && rows[j] == f.value;
  }

  /** The value `t` of the way from `a` to `b`, for `0 < t < 1`, lies between them. */
  lemma BetweenEnds(a: real, b: real, t: real)
    requires 0.0 <= t <= 1.0
    ensures RealMin(a, b) <= a + (b - a) * t <= RealMax(a, b)
  {
    if a <= b {
      Numeric.MulNonNegative(b - a, t);
      Numeric.MulNonNegative(b - a, 1.0 - t);
    } else {
      Numeric.MulNonNegative(a - b, t);
      Numeric.MulNonNegative(a - b, 1.0 - t);
    }
  }

  /** `interpolate(method='linear')` on positions: a NaN between two numbers gets the
      value on the straight line between them; a NaN after the last number gets that
      number; NaNs before the first number stay NaN. */
  function Interpolate(s: Series): (r: Series)
    ensures |r| == |s|
    ensures forall i :: 0 <= i < |s| ==> r[i] == InterpolateAt(s, i)
  {
    seq(|s|, i requires 0 <= i < |s| => InterpolateAt(s, i))
  }

  /** The interpolated value at position `i`. */
  function InterpolateAt(s: Series, i: int): (v: Value)
    requires 0 <= i < |s|
    ensures s[i].Some? ==> v == s[i]
  {
    if s[i].Some? then s[i]
    else
      match PrevKnown(s, i)
      case None => None
      case Some(a) =>
        match NextKnown(s, i)
        case None => s[a]
        case Some(b) =>
          Some(Lerp(s[a].value, s[b].value, (b - a) as real, (i - a) as real))
  }

  /** The point `k / d` of the way from `va` to `vb`: it rises `(vb - va) * k` over `d`. */
  function Lerp(va: real, vb: real, d: real, k: real): (v: real)
    requires d != 0.0
    ensures (v - va) * d == (vb - va) * k
  {
    var t := Numeric.Div(k, d);
    OnTheLine(va, vb, t, d, k);
    va + (vb - va) * t
  }

  /** Interpolation leaves a position NaN exactly when no row up to it has a number. */
  lemma InterpolateKeepsLeadingNaN(s: Series, i: int)
    requires 0 <= i < |s|
    ensures InterpolateAt(s, i).None? <==> forall j :: 0 <= j <= i ==> s[j].None?
  {
  }

  /** Interpolation, position by position: a number stays; a NaN with numbers on both
      sides takes the point on the straight line through the nearest two (`Lerp`: its
      rise from the earlier one is in proportion to its distance from it); a NaN after
      the last number carries that number; a NaN before the first number stays NaN. */
  lemma InterpolateIsLinear(s: Series, i: int)
    requires 0 <= i < |s|
    ensures s[i].Some? ==> Interpolate(s)[i] == s[i]
    ensures s[i].None? && PrevKnown(s, i).None? ==> Interpolate(s)[i].None?
    ensures s[i].None? && PrevKnown(s, i).Some? && NextKnown(s, i).None? ==>
              Interpolate(s)[i] == s[PrevKnown(s, i).value]
    ensures s[i].None? && PrevKnown(s, i).Some? && NextKnown(s, i).Some? ==>
              var a := PrevKnown(s, i).value;
              var b := NextKnown(s, i).value;
              Interpolate(s)[i] == Some(Lerp(s[a].value, s[b].value, (b - a) as real, (i - a) as real))
  {
  }

  /** A point a fraction `t = k / d` of the way from `va` to `vb` rises `(vb - va) * k`
      over `d`. */
  lemma OnTheLine(va: real, vb: real, t: real, d: real, k: real)
    requires t * d == k
    ensures (va + (vb - va) * t - va) * d == (vb - va) * k
  {
    calc {
      (va + (vb - va) * t - va) * d;
      ((vb - va) * t) * d;
      (vb - va) * (t * d);
    }
  }

  /** An interpolated value lies between the two numbers around it, or equals the last
      number when none follows. */
  lemma InterpolateAtIsBetween(s: Series, i: int)
    requires 0 <= i < |s| && InterpolateAt(s, i).Some?
    ensures exists a, b :: 0 <= a < |s| && 0 <= b < |s| && s[a].Some? && s[b].Some?
                           && s[a].value <= InterpolateAt(s, i).value <= s[b].value
  {
    var v := InterpolateAt(s, i);
    if s[i].Some? {
      assert s[i].value <= v.value <= s[i].value;
    } else {
      var a := PrevKnown(s, i).value;
      match NextKnown(s, i)
      case None =>
        assert s[a].value <= v.value <= s[a].value;
      case Some(b) =>
        var va := s[a].value;
        var vb := s[b].value;
        var t := Numeric.Div((i - a) as real, (b - a) as real);
        assert t * (b - a) as real == (i - a) as real;
        assert 0.0 <= t <= 1.0 by {
          if t < 0.0 { Numeric.MulPositive(-t, (b - a) as real); }
          if t > 1.0 { Numeric.MulPositive(t - 1.0, (b - a) as real); }
        }
        BetweenEnds(va, vb, t);
        if va <= vb {
          assert va <= v.value <= vb;
        } else {
          assert vb <= v.value <= va;
        }
    }
  }

  /** The values of one column over the full hourly range: the row's number where the
      table has a row for that hour, NaN otherwise (`reindex`). */
  function Reindexed(rows: seq<Candle>, first: int, n: nat, k: nat): (s: Series)
    requires 1 <= k <= 5
    ensures |s| == n
    ensures forall i :: 0 <= i < n ==> s[i] == match FindRow(rows, HourAt(first, i))
                                                  case Some(x) => Field(x, k)
                                                  case None => None
  {
    seq(n, i requires 0 <= i < n => match FindRow(rows, HourAt(first, i))
                                     case Some(x) => Field(x, k)
                                     case None => None)
  }

  /** One column after reindexing, interpolating, forward filling and backward filling. */
  function FilledColumn(rows: seq<Candle>, first: int, n: nat, k: nat): (s: Series)
    requires 1 <= k <= 5
    ensures |s| == n
  {
    FillBackward(FillForward(Interpolate(Reindexed(rows, first, n, k))))
  }

  /** The error pandas raises when reindexing a table with repeated timestamps. */
  const DuplicateLabels: string := "cannot reindex on an axis with duplicate labels"

  /** `_fill_missing_hours`: an empty table is returned as it is; otherwise the table is
      laid onto every hour from the start's hour to the end's hour (rows at other times
      are dropped), and each numeric column is linearly interpolated and then forward-
      and backward-filled. */
  function FillMissingHours(rows: seq<Candle>, start: int, end: int): (r: Result<seq<Candle>, string>)
    ensures rows == [] ==> r == Success([])
    ensures rows != [] ==> (r.Success? <==> Distinct(rows))
    ensures r.Success? && rows != [] ==>
              |r.value| == HourCount(HourFloor(start), HourFloor(end))
              && forall i :: 0 <= i < |r.value| ==> r.value[i].timestamp == HourAt(HourFloor(start), i)
  {
    if rows == [] then Success([])
    else if !Distinct(rows) then Failure(DuplicateLabels)
    else
      var first := HourFloor(start);
      var n := HourCount(first, HourFloor(end));
      var o := FilledColumn(rows, first, n, 1);
      var h := FilledColumn(rows, first, n, 2);
      var l := FilledColumn(rows, first, n, 3);
      var c := FilledColumn(rows, first, n, 4);
      var v := FilledColumn(rows, first, n, 5);
      Success(seq(n, i requires 0 <= i < n => Candle(HourAt(first, i), o[i], h[i], l[i], c[i], v[i])))
  }

  /** A whole hour at or before `t` is at or before the hour `t` falls in. */
  lemma WholeHourBelow(t: int, end: int)
    requires t % 3600 == 0 && t <= end
    ensures t <= HourFloor(end)
  {
    var h := HourFloor(end);
    assert t == 3600 * (t / 3600) && h == 3600 * (h / 3600);
  }

  /** Hour `i` of the range lies on a whole hour inside the range. */
  lemma HourOfIndex(first: int, last: int, i: int)
    requires first % 3600 == 0 && 0 <= i < HourCount(first, last)
    ensures HourAt(first, i) % 3600 == 0 && first <= HourAt(first, i) <= last
  {
    HourCountBounds(first, last);
    assert HourAt(first, i) <= HourAt(first, HourCount(first, last) - 1);
  }

  /** Every whole hour of the range is hour `(t - first) / 3600` of it. */
  lemma IndexOfHour(first: int, last: int, t: int)
    requires first % 3600 == 0 && t % 3600 == 0 && first <= t <= last
    ensures 0 <= (t - first) / 3600 < HourCount(first, last)
    ensures HourAt(first, (t - first) / 3600) == t
  {
    assert t - first == 3600 * ((t - first) / 3600);
  }

  /** The filled table has exactly one row per hour of the period, in order, each on a
      whole hour. */
  lemma FillMissingHoursCoversEveryHour(rows: seq<Candle>, start: int, end: int)
    requires rows != [] && Distinct(rows)
    ensures var r := FillMissingHours(rows, start, end).value;
            && Increasing(r)
            && (forall i :: 0 <= i < |r| ==> r[i].timestamp % 3600 == 0
                                              && HourFloor(start) <= r[i].timestamp <= end)
            && forall t :: HourFloor(start) <= t <= end && t % 3600 == 0 ==> t in Stamps(r)
  {
    var r := FillMissingHours(rows, start, end).value;
    var first := HourFloor(start);
    var last := HourFloor(end);
    forall i, j | 0 <= i < j < |r| ensures r[i].timestamp < r[j].timestamp {
      assert r[i].timestamp == HourAt(first, i) && r[j].timestamp == HourAt(first, j);
    }
    forall i | 0 <= i < |r| ensures r[i].timestamp % 3600 == 0 && first <= r[i].timestamp <= end {
      HourOfIndex(first, last, i);
    }
    forall t | first <= t <= end && t % 3600 == 0 ensures t in Stamps(r) {
      WholeHourBelow(t, end);
      IndexOfHour(first, last, t);
      var i := (t - first) / 3600;
      assert r[i].timestamp == t;
    }
  }

  /** Each column of the filled table is the column filled on its own. */
  lemma FillMissingHoursColumn(rows: seq<Candle>, start: int, end: int, i: int, k: nat)
    requires rows != [] && Distinct(rows) && 1 <= k <= 5
    requires 0 <= i < |FillMissingHours(rows, start, end).value|
    ensures Field(FillMissingHours(rows, start, end).value[i], k)
            == FilledColumn(rows, HourFloor(start), HourCount(HourFloor(start), HourFloor(end)), k)[i]
  {
    var first := HourFloor(start);
    var n := HourCount(first, HourFloor(end));
    var c := FillMissingHours(rows, start, end).value[i];
    if k == 1 {
      assert c.open == FilledColumn(rows, first, n, 1)[i];
    } else if k == 2 {
      assert c.high == FilledColumn(rows, first, n, 2)[i];
    } else if k == 3 {
      assert c.low == FilledColumn(rows, first, n, 3)[i];
    } else if k == 4 {
      assert c.close == FilledColumn(rows, first, n, 4)[i];
    } else {
      assert k == 5;
      assert c.volume == FilledColumn(rows, first, n, 5)[i];
    }
  }

  /** A number the table has for a whole hour of the period is kept at that hour. */
  lemma FillMissingHoursKeepsKnownValues(rows: seq<Candle>, start: int, end: int, x: Candle, k: nat)
    requires rows != [] && Distinct(rows) && x in rows && 1 <= k <= 5 && Field(x, k).Some?
    requires HourFloor(start) <= x.timestamp <= end && x.timestamp % 3600 == 0
    ensures var r := FillMissingHours(rows, start, end).value;
            exists i :: 0 <= i < |r| && r[i].timestamp == x.timestamp && Field(r[i], k) == Field(x, k)
  {
    var i := HourIndex(HourFloor(start), end, x.timestamp);
    KeptAtHour(rows, start, end, x, k, i);
  }

  /** The position of a whole hour of the period in the hourly range. */
  lemma HourIndex(first: int, end: int, t: int) returns (i: int)
    requires first % 3600 == 0 && t % 3600 == 0 && first <= t <= end
    ensures 0 <= i < HourCount(first, HourFloor(end)) && HourAt(first, i) == t
  {
    WholeHourBelow(t, end);
    IndexOfHour(first, HourFloor(end), t);
    i := (t - first) / 3600;
  }

  /** The row of hour `i` carries the numbers of the table's row for that hour. */
  lemma KeptAtHour(rows: seq<Candle>, start: int, end: int, x: Candle, k: nat, i: int)
    requires rows != [] && Distinct(rows) && x in rows && 1 <= k <= 5 && Field(x, k).Some?
    requires 0 <= i < HourCount(HourFloor(start), HourFloor(end)) && HourAt(HourFloor(start), i) == x.timestamp
    ensures var r := FillMissingHours(rows, start, end).value;
            i < |r| && r[i].timestamp == x.timestamp && Field(r[i], k) == Field(x, k)
  {
    var first := HourFloor(start);
    var n := HourCount(first, HourFloor(end));
    ReindexedAtRow(rows, first, n, k, x, i);
    FilledColumnKeeps(rows, first, n, k, i);
    FillMissingHoursColumn(rows, start, end, i, k);
  }

  /** Reindexing puts a row's numbers at the hour of its timestamp. */
  lemma ReindexedAtRow(rows: seq<Candle>, first: int, n: nat, k: nat, x: Candle, i: int)
    requires Distinct(rows) && x in rows && 1 <= k <= 5 && 0 <= i < n && HourAt(first, i) == x.timestamp
    ensures Reindexed(rows, first, n, k)[i] == Field(x, k)
  {
    FindRowIsUnique(rows, x);
  }

  /** Interpolating and filling never change a number the reindexed column has. */
  lemma FilledColumnKeeps(rows: seq<Candle>, first: int, n: nat, k: nat, i: int)
    requires 1 <= k <= 5 && 0 <= i < n && Reindexed(rows, first, n, k)[i].Some?
    ensures FilledColumn(rows, first, n, k)[i] == Reindexed(rows, first, n, k)[i]
  {
    var raw := Reindexed(rows, first, n, k);
    var a := Interpolate(raw);
    var b := FillForward(a);
    assert a[i] == raw[i];
    assert b[i] == a[i];
    assert FillBackward(b)[i] == b[i];
  }

  /** After interpolating and both fills, a value is NaN only when the reindexed column
      has no number at any hour: one number anywhere fills the whole column. */
  lemma {:induction false} FilledColumnNaNOnlyWhenEmpty(rows: seq<Candle>, first: int, n: nat, k: nat, i: int)
    requires 1 <= k <= 5 && 0 <= i < n
    ensures FilledColumn(rows, first, n, k)[i].None?
            <==> forall j :: 0 <= j < n ==> Reindexed(rows, first, n, k)[j].None?
  {
    var raw := Reindexed(rows, first, n, k);
    var a := Interpolate(raw);
    var b := FillForward(a);
    assert FilledColumn(rows, first, n, k)[i] == NextKnownAt(b, i);
    NextKnownIsNearest(b, i);
    if forall j :: 0 <= j < n ==> raw[j].None? {
      forall j | i <= j < n ensures b[j].None? {
        LastKnownIsNearest(a, j);
        forall m | 0 <= m <= j ensures a[m].None? {
          InterpolateKeepsLeadingNaN(raw, m);
        }
      }
    } else {
      var j :| 0 <= j < n && raw[j].Some?;
      InterpolateKeepsLeadingNaN(raw, n - 1);
      LastKnownIsNearest(a, n - 1);
      assert b[n - 1].Some?;
    }
  }

  /** A filled hour is NaN in a column only when the table has no number in that column
      at any whole hour of the period. */
  lemma FillMissingHoursNaNOnlyWhenEmpty(rows: seq<Candle>, start: int, end: int, i: int, k: nat)
    requires rows != [] && Distinct(rows) && 1 <= k <= 5
    requires 0 <= i < |FillMissingHours(rows, start, end).value|
    ensures var first := HourFloor(start);
            var n := HourCount(first, HourFloor(end));
            Field(FillMissingHours(rows, start, end).value[i], k).None?
            <==> forall j :: 0 <= j < n ==> Reindexed(rows, first, n, k)[j].None?
  {
    FillMissingHoursColumn(rows, start, end, i, k);
    FilledColumnNaNOnlyWhenEmpty(rows, HourFloor(start), HourCount(HourFloor(start), HourFloor(end)), k, i);
  }
}

=== FILE: data_loader.dfy ===
/** The backtest data loader: the OHLCV validator, the merge of several chart replies
    into one deduplicated, sorted window of history, and the fallback to generated
    sample data. Chart replies and the generated sample are inputs. */
module DataLoader {
  import opened Wrappers
  import opened Series
  import opened CandleTable

  /** The columns every OHLCV table must have, in the order the validator reports them. */
  const RequiredColumns: seq<string> := ["timestamp", "open", "high", "low", "close", "volume"]

  /** A table as the validator sees it: which columns exist, whether the timestamp column
      has a datetime type, and the rows. */
  datatype Table = Table(columns: set<string>, timestampIsDatetime: bool, rows: seq<Candle>)

  /** One entry of the validator's error list. `NullValues` carries the per-column null
      counts in the order of `RequiredColumns`. */
  datatype Problem =
    | MissingColumns(missing: seq<string>)
    | TimestampNotDatetime
    | InvalidOhlc(count: nat)
    | NullValues(counts: seq<nat>)
    | DuplicateTimestamps(count: nat)

  /** The required columns absent from `columns`, in order. */
  function MissingFrom(required: seq<string>, columns: set<string>): (r: seq<string>)
    ensures forall c :: c in r <==> c in required && c !in columns
    ensures |r| <= |required|
  {
    if required == [] then []
    else
      var rest := MissingFrom(required[1..], columns);
      assert forall c :: c in required <==> c == required[0] || c in required[1..];
      if required[0] in columns then rest else [required[0]] + rest
  }

  /** The row-wise OHLC check. Comparisons with NaN are false, so a NaN price alone never
      makes a row invalid here (the null check reports it). */
  predicate BadRow(c: Candle) {
    Lt(c.high, c.open) || Lt(c.high, c.close) || Gt(c.low, c.open) || Gt(c.low, c.close)
    || Le(c.open, Some(0.0)) || Le(c.high, Some(0.0)) || Le(c.low, Some(0.0)) || Le(c.close, Some(0.0))
  }

  /** `invalid_ohlc.sum()`. */
  function CountBad(rows: seq<Candle>): (n: nat)
    ensures n <= |rows|
    decreases |rows|
  {
    if rows == [] then 0
    else CountBad(rows[..|rows| - 1]) + (if BadRow(rows[|rows| - 1]) then 1 else 0)
  }

  /** No invalid row is counted exactly when no row is invalid. */
  lemma {:induction false} CountBadZero(rows: seq<Candle>)
    ensures CountBad(rows) == 0 <==> forall i :: 0 <= i < |rows| ==> !BadRow(rows[i])
    decreases |rows|
  {
    if rows != [] {
      var init := rows[..|rows| - 1];
      CountBadZero(init);
      assert forall i :: 0 <= i < |init| ==> init[i] == rows[i];
    }
  }

  /** The nulls of column `k` (1 to 5). */
  function CountNull(rows: seq<Candle>, k: nat): (n: nat)
    requires 1 <= k <= 5
    ensures n <= |rows|
    decreases |rows|
  {
    if rows == [] then 0
    else CountNull(rows[..|rows| - 1], k) + (if Field(rows[|rows| - 1], k).None? then 1 else 0)
  }

  /** A column has no null exactly when its count is zero. */
  lemma {:induction false} CountNullZero(rows: seq<Candle>, k: nat)
    requires 1 <= k <= 5
    ensures CountNull(rows, k) == 0 <==> forall i :: 0 <= i < |rows| ==> Field(rows[i], k).Some?
    decreases |rows|
  {
    if rows != [] {
      var init := rows[..|rows| - 1];
      CountNullZero(init, k);
      assert forall i :: 0 <= i < |init| ==> init[i] == rows[i];
    }
  }

  /** `df[required_columns].isnull().sum()`. A timestamp is never null in this model. */
  function NullCounts(rows: seq<Candle>): (r: seq<nat>)
    ensures |r| == |RequiredColumns|
  {
    [0, CountNull(rows, 1), CountNull(rows, 2), CountNull(rows, 3), CountNull(rows, 4), CountNull(rows, 5)]
  }

  /** `null_counts.any()`. */
  predicate AnyPositive(counts: seq<nat>) {
    exists i :: 0 <= i < |counts| && counts[i] > 0
  }

  /** Every price and the volume of the row are numbers. */
  predicate Complete(c: Candle) {
    c.open.Some? && c.high.Some? && c.low.Some? && c.close.Some? && c.volume.Some?
  }

  /** The null counts report something exactly when some row has a null. */
  lemma NullCountsReportNulls(rows: seq<Candle>)
    ensures AnyPositive(NullCounts(rows)) <==> exists i :: 0 <= i < |rows| && !Complete(rows[i])
  {
    var counts := NullCounts(rows);
    CountNullZero(rows, 1);
    CountNullZero(rows, 2);
    CountNullZero(rows, 3);
    CountNullZero(rows, 4);
    CountNullZero(rows, 5);
    if AnyPositive(counts) {
      var k :| 0 <= k < |counts| && counts[k] > 0;
      var i :| 0 <= i < |rows| && Field(rows[i], k).None?;
      assert !Complete(rows[i]);
    } else {
      assert counts[1] == 0 && counts[2] == 0 && counts[3] == 0 && counts[4] == 0 && counts[5] == 0;
      forall i | 0 <= i < |rows| ensures Complete(rows[i]) {
        assert Field(rows[i], 1) == rows[i].open && Field(rows[i], 2) == rows[i].high;
        assert Field(rows[i], 3) == rows[i].low && Field(rows[i], 4) == rows[i].close;
        assert Field(rows[i], 5) == rows[i].volume;
      }
    }
  }

  /** `validate_ohlcv_data`: missing columns end the check at once with a single error;
      otherwise the timestamp type, the OHLC rule, nulls and duplicate timestamps each
      add an error, and the table is valid exactly when the list is empty. */
  function ValidateOhlcvData(t: Table): (r: (bool, seq<Problem>))
    ensures r.0 <==> r.1 == []
    ensures MissingFrom(RequiredColumns, t.columns) != [] ==> !r.0 && |r.1| == 1 && r.1[0].MissingColumns?
    ensures !t.timestampIsDatetime ==> TimestampNotDatetime in r.1 || r.1 == [MissingColumns(MissingFrom(RequiredColumns, t.columns))]
  {
    var missing := MissingFrom(RequiredColumns, t.columns);
    if missing != [] then (false, [MissingColumns(missing)])
    else
      var typeErrors := if t.timestampIsDatetime then [] else [TimestampNotDatetime];
      var bad := CountBad(t.rows);
      var ohlcErrors := if bad > 0 then [InvalidOhlc(bad)] else [];
      var nulls := NullCounts(t.rows);
      var nullErrors := if AnyPositive(nulls) then [NullValues(nulls)] else [];
      var duplicates := DuplicatedCount(t.rows);
      var duplicateErrors := if duplicates > 0 then [DuplicateTimestamps(duplicates)] else [];
      var errors := typeErrors + ohlcErrors + nullErrors + duplicateErrors;
      assert !t.timestampIsDatetime ==> errors[0] == TimestampNotDatetime;
      (|errors| == 0, errors)
  }

  /** A valid table, stated independently of the error list: every column present, a
      datetime timestamp, no invalid or incomplete row, and no repeated timestamp. */
  predicate WellFormed(t: Table) {
    (forall c :: c in RequiredColumns ==> c in t.columns)
    && t.timestampIsDatetime
    && (forall i :: 0 <= i < |t.rows| ==> !BadRow(t.rows[i]) && Complete(t.rows[i]))
    && Distinct(t.rows)
  }

  /** The validator accepts exactly the well-formed tables. */
  lemma ValidIffWellFormed(t: Table)
    ensures ValidateOhlcvData(t).0 <==> WellFormed(t)
  {
    var missing := MissingFrom(RequiredColumns, t.columns);
    if missing == [] {
      CountBadZero(t.rows);
      NullCountsReportNulls(t.rows);
      DuplicatedCountIsDropped(t.rows);
      assert (forall c :: c in RequiredColumns ==> c in t.columns);
    } else {
      assert missing[0] in RequiredColumns && missing[0] !in t.columns;
    }
  }

  /** The rows of a valid table are ordered bars: positive prices with the low at or below
      open and close and the high at or above both. */
  lemma ValidRowsAreOrdered(t: Table, i: int)
    requires ValidateOhlcvData(t).0 && 0 <= i < |t.rows|
    ensures var c := t.rows[i];
            && Complete(c)
            && 0.0 < c.low.value <= c.open.value <= c.high.value
            && c.low.value <= c.close.value <= c.high.value
  {
    ValidIffWellFormed(t);
  }

  /** The number of 200-candle requests covering `days` of hourly candles,
      `(days * 24 + 199) // 200`. */
  function RequestsNeeded(days: int): (r: int)
    ensures r * 200 >= days * 24 > (r - 1) * 200
  {
    (days * 24 + 199) / 200
  }

  /** `pd.Timedelta(days=days)` in seconds. */
  function DaySpan(days: int): int {
    days * 86400
  }

  /** The replies of the successful requests, in order (`all_data`). */
  function Concat(replies: seq<seq<Candle>>): (r: seq<Candle>)
    ensures forall x :: x in r <==> exists k :: 0 <= k < |replies| && x in replies[k]
    ensures |r| == 0 <==> forall k :: 0 <= k < |replies| ==> replies[k] == []
    decreases |replies|
  {
    if replies == [] then []
    else
      var init := replies[..|replies| - 1];
      var rest := Concat(init);
      assert forall k :: 0 <= k < |init| ==> init[k] == replies[k];
      rest + replies[|replies| - 1]
  }

  /** The first failing reply, if any. */
  function FirstFailure(responses: seq<Result<seq<Candle>, string>>): (r: Option<nat>)
    ensures r.Some? ==> r.value < |responses| && responses[r.value].Failure?
                        && forall k :: 0 <= k < r.value ==> responses[k].Success?
    ensures r.None? ==> forall k :: 0 <= k < |responses| ==> responses[k].Success?
    decreases |responses|
  {
    if responses == [] then None
    else if responses[0].Failure? then Some(0)
    else
      var rest := FirstFailure(responses[1..]);
      assert forall k :: 1 <= k < |responses| ==> responses[k] == responses[1..][k - 1];
      if rest.Some? then Some(rest.value + 1) else None
  }

  /** The successful replies of a list of replies none of which failed. */
  function Payloads(responses: seq<Result<seq<Candle>, string>>): (r: seq<seq<Candle>>)
    requires forall k :: 0 <= k < |responses| ==> responses[k].Success?
    ensures |r| == |responses| && forall k :: 0 <= k < |r| ==> r[k] == responses[k].value
  {
    seq(|responses|, k requires 0 <= k < |responses| => responses[k].value)
  }

  /** The message raised when no reply held data. */
  const NoDataMessage: string := "데이터를 가져올 수 없습니다"

  /** The timestamps of `xs` at or after `from`. */
  function StampsFrom(xs: seq<Candle>, from: int): set<int> {
    set t | t in Stamps(xs) && t >= from
  }

  /** Keeping a window keeps exactly the timestamps at or after its start. */
  lemma KeepFromStamps(xs: seq<Candle>, from: int)
    ensures Stamps(KeepFrom(xs, from)) == StampsFrom(xs, from)
  {
    var r := KeepFrom(xs, from);
    forall t | t in Stamps(r) ensures t in StampsFrom(xs, from) {
      var j :| 0 <= j < |r| && r[j].timestamp == t;
      var k :| 0 <= k < |xs| && xs[k] == r[j];
    }
    forall t | t in StampsFrom(xs, from) ensures t in Stamps(r) {
      var k :| 0 <= k < |xs| && xs[k].timestamp == t;
      var j :| 0 <= j < |r| && r[j] == xs[k];
    }
  }

  /** Two tables with the same timestamps have the same latest timestamp. */
  lemma MaxStampByStamps(a: seq<Candle>, b: seq<Candle>)
    requires |a| > 0 && |b| > 0 && Stamps(a) == Stamps(b)
    ensures MaxStamp(a) == MaxStamp(b)
  {
    var ma := MaxStamp(a);
    var mb := MaxStamp(b);
    assert ma in Stamps(b);
    var i :| 0 <= i < |b| && b[i].timestamp == ma;
    assert mb in Stamps(a);
    var k :| 0 <= k < |a| && a[k].timestamp == mb;
  }

  /** Tables with the same timestamps have the same timestamps in any window. */
  lemma StampsFromSame(a: seq<Candle>, b: seq<Candle>, from: int)
    requires Stamps(a) == Stamps(b)
    ensures StampsFrom(a, from) == StampsFrom(b, from)
  {
  }

  /** The earliest timestamp kept: the latest one less `days` days. */
  function WindowStart(all: seq<Candle>, days: int): int
    requires |all| > 0
  {
    MaxStamp(all) - DaySpan(days)
  }

  /** The window of the normalised table starting `days` days before its latest
      timestamp holds exactly the merged replies' timestamps from that start on. */
  lemma WindowStamps(all: seq<Candle>, days: int, sorted: seq<Candle>, from: int, r: seq<Candle>)
    requires |all| > 0 && sorted == Normalize(all)
    requires from == MaxStamp(sorted) - DaySpan(days) && r == KeepFrom(sorted, from)
    ensures Stamps(r) == StampsFrom(all, WindowStart(all, days))
  {
    MaxStampByStamps(sorted, all);
    assert MaxStamp(sorted) == MaxStamp(all);
    KeepFromStamps(sorted, from);
    assert Stamps(r) == StampsFrom(sorted, from);
    StampsFromSame(sorted, all, from);
    assert StampsFrom(sorted, from) == StampsFrom(all, from);
  }

  /** Normalising and keeping the last `days` days before the latest timestamp. */
  function Window(all: seq<Candle>, days: int): (r: seq<Candle>)
    requires |all| > 0
    ensures Increasing(r)
    ensures Stamps(r) == StampsFrom(all, WindowStart(all, days))
  {
    var sorted := Normalize(all);
    var from := MaxStamp(sorted) - DaySpan(days);
    var r := KeepFrom(sorted, from);
    WindowStamps(all, days, sorted, from, r);
    KeepFromIncreasing(sorted, from);
    r
  }

  /** Every row of the window is a row of the merged replies, within `days` days of the
      latest timestamp. */
  lemma WindowRows(all: seq<Candle>, days: int)
    requires |all| > 0
    ensures forall j :: 0 <= j < |Window(all, days)| ==>
              Window(all, days)[j] in all
              && WindowStart(all, days) <= Window(all, days)[j].timestamp <= MaxStamp(all)
  {
    var r := Window(all, days);
    NormalizedRowsFromAll(all);
    forall j | 0 <= j < |r| ensures r[j] in all && WindowStart(all, days) <= r[j].timestamp <= MaxStamp(all) {
      assert r[j].timestamp in Stamps(r);
      var sorted := Normalize(all);
      MaxStampByStamps(sorted, all);
      assert r[j] in sorted;
      var k :| 0 <= k < |all| && all[k] == r[j];
    }
  }

  /** The rows of all replies of a fetch in which no request failed, in order. */
  function Merged(responses: seq<Result<seq<Candle>, string>>): seq<Candle>
    requires FirstFailure(responses).None?
  {
    Concat(Payloads(responses))
  }

  /** `get_extended_data`: one reply per request; the first failing request aborts the
      whole fetch with its error, no data at all is an error, and otherwise the merged
      rows are deduplicated on timestamp, sorted, and cut to the `days` days before the
      latest timestamp. */
  function GetExtendedData(responses: seq<Result<seq<Candle>, string>>, days: int): (r: Result<seq<Candle>, string>)
    requires |responses| == if RequestsNeeded(days) < 0 then 0 else RequestsNeeded(days)
    ensures FirstFailure(responses).Some? ==> r == Failure(responses[FirstFailure(responses).value].error)
    ensures r.Success? ==> days > 0 && FirstFailure(responses).None? && |Merged(responses)| > 0
    ensures r.Success? ==> Increasing(r.value)
  {
    var failure := FirstFailure(responses);
    if failure.Some? then Failure(responses[failure.value].error)
    else
      var all := Merged(responses);
      if |all| == 0 then
        Failure(NoDataMessage)
      else
        assert days > 0 by {
          assert |responses| > 0;
        }
        Success(Window(all, days))
  }

  /** Without a failed request, the fetch succeeds exactly when some reply holds data,
      and fails with the no-data message otherwise. */
  lemma ExtendedDataNeedsSomeData(responses: seq<Result<seq<Candle>, string>>, days: int)
    requires |responses| == if RequestsNeeded(days) < 0 then 0 else RequestsNeeded(days)
    requires FirstFailure(responses).None?
    ensures GetExtendedData(responses, days).Success? <==> exists k :: 0 <= k < |responses| && responses[k].value != []
    ensures GetExtendedData(responses, days).Failure? ==> GetExtendedData(responses, days).error == NoDataMessage
  {
    var payloads := Payloads(responses);
    assert forall k :: 0 <= k < |responses| ==> payloads[k] == responses[k].value;
  }

  /** The fetched history keeps, for each timestamp of the replies in the last `days`
      days before the latest one, one row, and no row for any other timestamp; each row
      comes from one of the replies and lies within the window. */
  lemma ExtendedDataKeepsTheWindow(responses: seq<Result<seq<Candle>, string>>, days: int)
    requires |responses| == if RequestsNeeded(days) < 0 then 0 else RequestsNeeded(days)
    ensures GetExtendedData(responses, days).Success? ==>
              FirstFailure(responses).None? && |Merged(responses)| > 0
              && Stamps(GetExtendedData(responses, days).value) == StampsFrom(Merged(responses), WindowStart(Merged(responses), days))
  {
    if GetExtendedData(responses, days).Success? {
      var all := Merged(responses);
      assert GetExtendedData(responses, days) == Success(Window(all, days));
    }
  }

  /** Every row of the fetched history is a row of one of the replies, within `days` days
      of the latest timestamp. */
  lemma ExtendedDataRowsFromReplies(responses: seq<Result<seq<Candle>, string>>, days: int)
    requires |responses| == if RequestsNeeded(days) < 0 then 0 else RequestsNeeded(days)
    ensures GetExtendedData(responses, days).Success? ==>
            var r := GetExtendedData(responses, days).value;
            forall j :: 0 <= j < |r| ==>
              (exists k :: 0 <= k < |responses| && r[j] in responses[k].value)
              && WindowStart(Merged(responses), days) <= r[j].timestamp <= MaxStamp(Merged(responses))
  {
    if GetExtendedData(responses, days).Success? {
      var all := Merged(responses);
      var r := GetExtendedData(responses, days).value;
      assert r == Window(all, days);
      WindowRows(all, days);
      var payloads := Payloads(responses);
      forall j | 0 <= j < |r| ensures exists k :: 0 <= k < |responses| && r[j] in responses[k].value {
        assert r[j] in all;
        var k :| 0 <= k < |payloads| && r[j] in payloads[k];
        assert payloads[k] == responses[k].value;
      }
    }
  }

  /** Where the backtest data came from. */
  datatype Source = Fetched | Generated

  /** `load_backtest_data`: fetched history when real data is asked for, the fetch
      succeeds, and the validator accepts it; the generated sample in every other case.
      A fetched table has every required column and datetime timestamps. */
  function LoadBacktestData(useRealData: bool, responses: seq<Result<seq<Candle>, string>>, days: int, sample: Table): (r: (Source, Table))
    requires |responses| == if RequestsNeeded(days) < 0 then 0 else RequestsNeeded(days)
    ensures r.0 == Generated ==> r.1 == sample
    ensures r.0 == Fetched <==> useRealData && GetExtendedData(responses, days).Success?
                                && WellFormed(FetchedTable(GetExtendedData(responses, days).value))
    ensures r.0 == Fetched ==> r.1.rows == GetExtendedData(responses, days).value && WellFormed(r.1)
  {
    if !useRealData then (Generated, sample)
    else
      var fetched := GetExtendedData(responses, days);
      if fetched.Failure? then (Generated, sample)
      else
        var t := FetchedTable(fetched.value);
        ValidIffWellFormed(t);
        if ValidateOhlcvData(t).0 then (Fetched, t) else (Generated, sample)
  }

  /** The table built from chart replies: all columns, datetime timestamps. */
  function FetchedTable(rows: seq<Candle>): Table {
    Table(set c | c in RequiredColumns, true, rows)
  }
}

=== FILE: ema.dfy ===
/** pandas `ewm(span=period, adjust=False).mean()` and the EMA calculator built on it:
    insufficient-data errors, per-period thresholds, the declining-trend rule and the
    monitor's distance report. */
module EmaIndicator {
  import opened Wrappers
  import opened Series
  import Numeric
  import opened BaseIndicator

  /** The smoothing factor `2 / (span + 1)`. */
  function Alpha(span: nat): (a: real)
    requires span >= 1
    ensures 0.0 < a <= 1.0
    ensures a * (span as real + 1.0) == 2.0
  {
    Numeric.Div(2.0, span as real + 1.0)
  }

  /** The running state of the recursion: the current mean (NaN before the first
      observation) and the weight of the old mean. */
  datatype EwmState = EwmState(weighted: Value, oldWeight: real)

  /** The new mean after an observation `x`: the old mean `w` weighted by `decayed`
      against `x` weighted by `alpha` (unchanged when they are equal). */
  function Blend(decayed: real, w: real, x: real, alpha: real): (r: real)
    requires decayed >= 0.0 && alpha > 0.0
    ensures r * (decayed + alpha) == decayed * w + alpha * x
  {
    if w == x then w else Numeric.Div(decayed * w + alpha * x, decayed + alpha)
  }

  /** One input of the `adjust=False`, `ignore_na=False` recursion. The old weight
      decays at every position once a mean exists, NaN or not; an observation blends
      into the mean and resets the weight to 1. */
  function EwmStep(st: EwmState, x: Value, alpha: real): (r: EwmState)
    requires 0.0 < alpha <= 1.0 && st.oldWeight >= 0.0
    ensures r.oldWeight >= 0.0
    ensures r.weighted.Some? <==> st.weighted.Some? || x.Some?
    ensures x.None? ==> r.weighted == st.weighted
  {
    if st.weighted.Some? then
      var decayed := st.oldWeight * (1.0 - alpha);
      assert decayed >= 0.0 by { Numeric.MulNonNegative(st.oldWeight, 1.0 - alpha); }
      if x.Some? then EwmState(Some(Blend(decayed, st.weighted.value, x.value, alpha)), 1.0)
      else EwmState(st.weighted, decayed)
    else if x.Some? then EwmState(x, st.oldWeight)
    else st
  }

  /** The outputs of the recursion from state `st` over `xs`. */
  function EwmRun(st: EwmState, xs: Series, alpha: real): (r: Series)
    requires 0.0 < alpha <= 1.0 && st.oldWeight >= 0.0
    ensures |r| == |xs|
    decreases |xs|
  {
    if |xs| == 0 then []
    else
      var next := EwmStep(st, xs[0], alpha);
      [next.weighted] + EwmRun(next, xs[1..], alpha)
  }

  /** `series.ewm(span=span, adjust=False).mean()`. */
  function Ewm(xs: Series, span: nat): (r: Series)
    requires span >= 1
    ensures |r| == |xs|
  {
    EwmRun(EwmState(None, 1.0), xs, Alpha(span))
  }

  /** The textbook recursion `e_i = a x_i + (1 - a) e_(i-1)` continued from `prev`. */
  function Classic(prev: real, xs: seq<real>, alpha: real): (r: seq<real>)
    ensures |r| == |xs|
    decreases |xs|
  {
    if |xs| == 0 then []
    else
      var e := alpha * xs[0] + (1.0 - alpha) * prev;
      [e] + Classic(e, xs[1..], alpha)
  }

  /** From unit weight, one observation gives exactly `a x + (1 - a) w`. */
  lemma StepFromUnitWeight(w: real, x: real, alpha: real)
    requires 0.0 < alpha <= 1.0
    ensures EwmStep(EwmState(Some(w), 1.0), Some(x), alpha)
            == EwmState(Some(alpha * x + (1.0 - alpha) * w), 1.0)
  {
    var d := 1.0 * (1.0 - alpha);
    var b := Blend(d, w, x, alpha);
    assert d + alpha == 1.0;
    assert b * 1.0 == d * w + alpha * x;
    assert b == alpha * x + (1.0 - alpha) * w;
    assert EwmStep(EwmState(Some(w), 1.0), Some(x), alpha) == EwmState(Some(b), 1.0);
  }

  /** Once a mean exists and the weight is 1, NaN-free input follows the textbook
      recursion exactly. */
  lemma {:induction false} EwmRunIsClassic(w: real, xs: seq<real>, alpha: real)
    requires 0.0 < alpha <= 1.0
    ensures EwmRun(EwmState(Some(w), 1.0), Lift(xs), alpha) == Lift(Classic(w, xs, alpha))
    decreases |xs|
  {
    if |xs| > 0 {
      var e := alpha * xs[0] + (1.0 - alpha) * w;
      StepFromUnitWeight(w, xs[0], alpha);
      var st := EwmState(Some(w), 1.0);
      var next := EwmState(Some(e), 1.0);
      assert Lift(xs)[0] == Some(xs[0]);
      assert Lift(xs)[1..] == Lift(xs[1..]);
      assert EwmRun(st, Lift(xs), alpha) == [Some(e)] + EwmRun(next, Lift(xs[1..]), alpha);
      EwmRunIsClassic(e, xs[1..], alpha);
      assert Lift(Classic(w, xs, alpha)) == [Some(e)] + Lift(Classic(e, xs[1..], alpha));
    }
  }

  /** With no NaN in the input, pandas' EMA starts at the first price and then
      follows `e_i = a x_i + (1 - a) e_(i-1)` with `a = 2 / (span + 1)`. */
  lemma EwmWithoutNaN(xs: seq<real>, span: nat)
    requires span >= 1 && |xs| > 0
    ensures Ewm(Lift(xs), span) == Lift([xs[0]] + Classic(xs[0], xs[1..], Alpha(span)))
  {
    var a := Alpha(span);
    var first := EwmStep(EwmState(None, 1.0), Some(xs[0]), a);
    assert first == EwmState(Some(xs[0]), 1.0);
    assert Lift(xs)[1..] == Lift(xs[1..]);
    EwmRunIsClassic(xs[0], xs[1..], a);
  }

  /** Once a mean exists, every later output is a number. */
  lemma {:induction false} EwmRunStaysDefined(st: EwmState, xs: Series, alpha: real)
    requires 0.0 < alpha <= 1.0 && st.oldWeight >= 0.0 && st.weighted.Some?
    ensures forall i :: 0 <= i < |xs| ==> EwmRun(st, xs, alpha)[i].Some?
    decreases |xs|
  {
    if |xs| > 0 {
      EwmRunStaysDefined(EwmStep(st, xs[0], alpha), xs[1..], alpha);
    }
  }

  /** Before the first observation the output is NaN; from it on, a number. */
  lemma {:induction false} EwmRunDefinedFrom(xs: Series, alpha: real, i: nat)
    requires 0.0 < alpha <= 1.0 && i < |xs|
    ensures EwmRun(EwmState(None, 1.0), xs, alpha)[i].Some?
            <==> exists j :: 0 <= j <= i && xs[j].Some?
    decreases |xs|
  {
    var st := EwmState(None, 1.0);
    var next := EwmStep(st, xs[0], alpha);
    if xs[0].Some? {
      if i > 0 {
        EwmRunStaysDefined(next, xs[1..], alpha);
        assert EwmRun(st, xs, alpha)[i] == EwmRun(next, xs[1..], alpha)[i - 1];
      }
    } else {
      assert next == st;
      if i > 0 {
        EwmRunDefinedFrom(xs[1..], alpha, i - 1);
        assert EwmRun(st, xs, alpha)[i] == EwmRun(next, xs[1..], alpha)[i - 1];
        if exists j :: 0 <= j <= i && xs[j].Some? {
          var j :| 0 <= j <= i && xs[j].Some?;
          assert j >= 1 && xs[1..][j - 1].Some?;
        }
        if exists j :: 0 <= j <= i - 1 && xs[1..][j].Some? {
          var j :| 0 <= j <= i - 1 && xs[1..][j].Some?;
          assert xs[j + 1].Some?;
        }
      }
    }
  }

  /** The EMA calculator's configuration. */
  datatype EmaCalculator = EmaCalculator(period: nat)

  /** At least `period + 5` prices are required. */
  function MinRequired(c: EmaCalculator): nat { c.period + 5 }

  /** The buy thresholds: 0.3 for the 3-bar slope, 0.2 for the 5-bar slope, and 0.0
      for any other period. */
  function BuyThreshold(period: nat): (t: real)
    ensures period == 3 ==> t == 0.3
    ensures period == 5 ==> t == 0.2
    ensures period != 3 && period != 5 ==> t == 0.0
  {
    if period == 3 then 0.3 else if period == 5 then 0.2 else 0.0
  }

  /** `calculate_ema`: the column must exist and hold at least `period + 5` values,
      not all NaN. pandas rejects a span below 1. */
  function CalculateEma(c: EmaCalculator, data: Frame, column: string): (r: Result<Series, string>)
    ensures r.Success? <==>
      column in data.columns && c.period >= 1
      && EnsureSufficientData(data.columns[column], MinRequired(c))
    ensures r.Success? ==> r.value == Ewm(data.columns[column], c.period)
    ensures column in data.columns && !EnsureSufficientData(data.columns[column], MinRequired(c))
            ==> r == Failure(InsufficientData(MinRequired(c)))
  {
    var prices :- CreateIndicatorSeries(data, column);
    if !EnsureSufficientData(prices, MinRequired(c)) then
      Failure(InsufficientData(MinRequired(c)))
    else if c.period < 1 then Failure("span must satisfy: span >= 1")
    else
      var ema := Ewm(prices, c.period);
      EmaNeverAllNaN(prices, c.period);
      if AllNaN(ema) then Failure("Failed to calculate EMA") else Success(ema)
  }

  /** The "Failed to calculate EMA" error cannot occur: input with an observation has
      an EMA with one too. */
  lemma EmaNeverAllNaN(xs: Series, span: nat)
    requires span >= 1 && !AllNaN(xs)
    ensures !AllNaN(Ewm(xs, span))
  {
    var i :| 0 <= i < |xs| && xs[i].Some?;
    EwmRunDefinedFrom(xs, Alpha(span), i);
  }

  /** A threshold dictionary: period to pass/fail, in slope order. */
  type CheckDict = seq<(nat, bool)>

  /** `check_buy_thresholds`: slope >= its period's threshold; NaN fails. */
  function CheckBuyThresholds(slopes: SlopeDict): (r: CheckDict)
    ensures |r| == |slopes|
    ensures forall i :: 0 <= i < |r| ==>
      r[i].0 == slopes[i].0 && (r[i].1 <==> Ge(slopes[i].1, Some(BuyThreshold(slopes[i].0))))
  {
    if |slopes| == 0 then []
    else
      var (p, v) := slopes[0];
      [(p, Ge(v, Some(BuyThreshold(p))))] + CheckBuyThresholds(slopes[1..])
  }

  /** `all(d.values())`. */
  function AllPass(d: CheckDict): (r: bool)
    ensures r <==> forall i :: 0 <= i < |d| ==> d[i].1
  {
    if |d| == 0 then true else d[0].1 && AllPass(d[1..])
  }

  /** `is_declining_trend`: the last `lookback + 1` values; false as soon as one is
      `>=` its predecessor. A NaN pair never compares `>=`, so it does not stop the trend. */
  function IsDecliningTrend(s: Series, lookback: nat): (r: bool)
    ensures |s| < lookback + 1 ==> !r
    ensures |s| >= lookback + 1 ==>
      (r <==> forall i :: |s| - lookback <= i < |s| ==> !Ge(s[i], s[i - 1]))
  {
    if |s| < lookback + 1 then false
    else NoRise(s, |s| - lookback)
  }

  /** No value from index `from` on is `>=` its predecessor. */
  function NoRise(s: Series, from: nat): (r: bool)
    requires 1 <= from
    ensures r <==> forall i :: from <= i < |s| ==> !Ge(s[i], s[i - 1])
    decreases |s| - from
  {
    if from >= |s| then true
    else !Ge(s[from], s[from - 1]) && NoRise(s, from + 1)
  }

  /** On NaN-free values the declining rule is exactly a strict decrease over the
      last `lookback + 1` values, and a NaN inside the window does not block it. */
  lemma DecliningMeansStrictDecrease(xs: seq<real>, lookback: nat)
    requires |xs| >= lookback + 1
    ensures IsDecliningTrend(Lift(xs), lookback)
            <==> forall i :: |xs| - lookback <= i < |xs| ==> xs[i] < xs[i - 1]
    ensures IsDecliningTrend([Some(1.0), None, Some(5.0), None], 3)
  {
    var s: Series := [Some(1.0), None, Some(5.0), None];
    assert forall i :: 1 <= i < 4 ==> !Ge(s[i], s[i - 1]);
  }

  /** The outcome of `analyze_ema_trend`. `currentValue` and the rounded slopes are the
      figures `round(_, 4)` reports. */
  datatype EmaAnalysis = EmaAnalysis(
    currentEma: Value,
    currentValue: Value,
    slopes: SlopeDict,
    thresholdChecks: CheckDict,
    buySignal: bool,
    sellSignal: bool)

  /** `analyze_ema_trend`: needs `max(periods)` values; buy when every threshold is
      met, sell when the last four values strictly decline. */
  function AnalyzeEmaTrend(ema: Series, periods: seq<nat>): (r: Result<EmaAnalysis, string>)
    requires forall i :: 0 <= i < |periods| ==> periods[i] >= 1
    ensures r.Success? <==> |periods| > 0 && |ema| >= MaxPeriod(periods)
    ensures r.Success? ==> r.value.currentEma == ema[|ema| - 1]
    ensures r.Success? ==>
      (r.value.buySignal <==> forall p :: p in periods ==> Ge(BaseSlope(ema, p), Some(BuyThreshold(p))))
    ensures r.Success? ==> (r.value.sellSignal <==> IsDecliningTrend(ema, 3))
  {
    if |periods| == 0 then Failure("max() arg is an empty sequence")
    else if |ema| < MaxPeriod(periods) then Failure("Insufficient data for slope analysis")
    else
      var current := ema[|ema| - 1];
      var slopes := CalculateSlopes(ema, periods);
      var checks := CheckBuyThresholds(slopes);
      var buy := AllPass(checks);
      ThresholdsMeanAllPeriods(ema, periods);
      Success(EmaAnalysis(current, Round4(current), slopes, checks, buy, IsDecliningTrend(ema, 3)))
  }

  /** Every threshold in the dictionary passes exactly when every requested period's
      undivided slope meets its threshold. */
  lemma ThresholdsMeanAllPeriods(ema: Series, periods: seq<nat>)
    requires forall i :: 0 <= i < |periods| ==> periods[i] >= 1
    ensures AllPass(CheckBuyThresholds(CalculateSlopes(ema, periods)))
            <==> forall p :: p in periods ==> Ge(BaseSlope(ema, p), Some(BuyThreshold(p)))
  {
    var slopes := CalculateSlopes(ema, periods);
    var checks := CheckBuyThresholds(slopes);
    if AllPass(checks) {
      forall p | p in periods
        ensures Ge(BaseSlope(ema, p), Some(BuyThreshold(p)))
      {
        var k := KeyIndex(slopes, p);
        assert checks[k].1;
      }
    }
  }

  /** `check_buy_condition` / `check_sell_condition`: the signal, or False with the
      error text when any step raises. */
  datatype Checked = Checked(signal: bool, analysis: Result<EmaAnalysis, string>)

  /** `get_ema_signals`: the EMA of the column, analysed at periods 3 and 5. The EMA
      needs `period + 5` values, so the analysis never lacks data: the signals fail
      exactly when the EMA does. */
  function GetEmaSignals(c: EmaCalculator, data: Frame, column: string): (r: Result<EmaAnalysis, string>)
    ensures r.Success? <==> CalculateEma(c, data, column).Success?
    ensures r.Success? ==>
      var ema := Ewm(data.columns[column], c.period);
      && r.value.currentEma == ema[|ema| - 1]
      && (r.value.buySignal <==> Ge(BaseSlope(ema, 3), Some(0.3)) && Ge(BaseSlope(ema, 5), Some(0.2)))
      && (r.value.sellSignal <==> IsDecliningTrend(ema, 3))
  {
    var ema :- CalculateEma(c, data, column);
    assert MaxPeriod([3, 5]) == 5 by {
      assert MaxPeriod([5]) == 5;
    }
    assert forall p :: p in [3, 5] ==> p == 3 || p == 5;
    AnalyzeEmaTrend(ema, [3, 5])
  }

  /** `check_buy_condition`: never raises; an error yields False. */
  function CheckBuyCondition(c: EmaCalculator, data: Frame, column: string): (r: Checked)
    ensures r.analysis == GetEmaSignals(c, data, column)
    ensures r.signal <==> r.analysis.Success? && r.analysis.value.buySignal
  {
    var a := GetEmaSignals(c, data, column);
    if a.Failure? then Checked(false, a) else Checked(a.value.buySignal, a)
  }

  /** `check_sell_condition`: never raises; an error yields False. */
  function CheckSellCondition(c: EmaCalculator, data: Frame, column: string): (r: Checked)
    ensures r.analysis == GetEmaSignals(c, data, column)
    ensures r.signal <==> r.analysis.Success? && r.analysis.value.sellSignal
  {
    var a := GetEmaSignals(c, data, column);
    if a.Failure? then Checked(false, a) else Checked(a.value.sellSignal, a)
  }

  /** The monitor's report: the ROUNDED EMA, the price, and their distance. */
  datatype EmaStatus =
    | EmaReport(emaValue: Value, currentPrice: Value, distance: Value,
                distancePercentage: Value, aboveEma: bool, buySignal: bool, sellSignal: bool)
    | EmaStatusError(message: string)

  /** `distance / ema * 100`, or 0 when the EMA is exactly zero. */
  function DistancePercentage(distance: Value, ema: Value): (r: Value)
    ensures ema == Some(0.0) ==> r == Some(0.0)
    ensures ema.Some? && ema.value != 0.0 && distance.Some? ==>
      r.Some? && r.value * ema.value == distance.value * 100.0
  {
    if ema == Some(0.0) then Some(0.0)
    else if ema.None? || distance.None? then None
    else
      var q := Numeric.Div(distance.value, ema.value);
      Some(q * 100.0)
  }

  /** `EMAMonitor.get_current_status`: the distance is measured from the rounded EMA,
      as a percentage of it unless it is exactly zero (then 0). */
  function GetCurrentStatus(c: EmaCalculator, data: Frame): (r: EmaStatus)
    ensures r.EmaStatusError? <==> GetEmaSignals(c, data, "close").Failure?
    ensures r.EmaReport? ==>
      r.emaValue == GetEmaSignals(c, data, "close").value.currentValue
      && r.distance == Sub(r.currentPrice, r.emaValue)
      && r.distancePercentage == DistancePercentage(r.distance, r.emaValue)
      && (r.aboveEma <==> Gt(r.distance, Some(0.0)))
    ensures r.EmaReport? ==>
      var closes := data.columns["close"];
      |closes| > 0 && r.currentPrice == closes[|closes| - 1]
  {
    var signals := GetEmaSignals(c, data, "close");
    if signals.Failure? then EmaStatusError(signals.error)
    else
      var closes := data.columns["close"];
      var ema := signals.value.currentValue;
      var price := closes[|closes| - 1];
      var distance := Sub(price, ema);
      var pct := DistancePercentage(distance, ema);
      EmaReport(ema, price, distance, pct, Gt(distance, Some(0.0)),
                signals.value.buySignal, signals.value.sellSignal)
  }
}

=== FILE: improved_strategy.dfy ===
/** The improved backtest's strategy: the divided endpoint slope
    `(s[-1] - s[-bars]) / (bars - 1)`, three overlapping sliding 3-bar slopes for the
    EMA-declining rule, slope columns left NaN on the first 10 rows, and the buy rule on
    the fixed 3- and 5-bar columns. The booking and replay are the shared engine's. */
module ImprovedStrategy {
  import opened Wrappers
  import opened Series
  import Numeric
  import RsiIndicator
  import EmaIndicator
  import BasicStrategy
  import opened BacktestEngine

  /** `calculate_slope`: NaN with fewer than `bars` values, otherwise the change from
      the value `bars - 1` steps back to the last one, divided by `bars - 1`. */
  function CalculateSlope(s: Series, bars: nat): (r: Value)
    requires bars >= 2
    ensures |s| < bars ==> r.None?
    ensures |s| >= bars ==> (r.Some? <==> s[|s| - 1].Some? && s[|s| - bars].Some?)
    ensures |s| >= bars && r.Some? ==>
      r.value * (bars - 1) as real == s[|s| - 1].value - s[|s| - bars].value
  {
    if |s| < bars then None
    else DivBy(Sub(s[|s| - 1], s[|s| - bars]), (bars - 1) as real)
  }

  /** `calculate_sliding_slopes`: all NaN unless `window + count - 1` values are there;
      otherwise slope `i` is `calculate_slope` over the `window` values ending
      `count - 1 - i` bars before the last, so the last slope ends at the last value. */
  function SlidingSlopes(s: Series, window: nat, count: nat): (r: seq<Value>)
    requires window >= 2
    ensures |r| == count
    ensures |s| < window + count - 1 ==> forall i :: 0 <= i < count ==> r[i].None?
  {
    var required := window + count - 1;
    if |s| < required then seq(count, _ => None)
    else
      seq(count, i requires 0 <= i < count =>
            CalculateSlope(s[|s| - (required - i)..|s| - (count - i - 1)], window))
  }

  /** Slope `i` of the sliding slopes spans the `window` values that end `count - 1 - i`
      bars before the last. */
  lemma SlidingSlopeSpan(s: Series, window: nat, count: nat, i: nat)
    requires window >= 2 && i < count && |s| >= window + count - 1
    ensures SlidingSlopes(s, window, count)[i]
            == DivBy(Sub(s[|s| - count + i], s[|s| - count + i - (window - 1)]), (window - 1) as real)
  {
    var required := window + count - 1;
    var segment := s[|s| - (required - i)..|s| - (count - i - 1)];
    assert |segment| == window;
    assert segment[window - 1] == s[|s| - count + i];
    assert segment[0] == s[|s| - count + i - (window - 1)];
    assert SlidingSlopes(s, window, count)[i] == CalculateSlope(segment, window);
  }

  /** The improved EMA-declining rule: the three sliding 3-bar slopes are numbers and
      strictly decrease from the oldest to the newest. */
  predicate SlidingDecline(ema: Series) {
    var slopes := SlidingSlopes(ema, 3, 3);
    slopes[0].Some? && slopes[1].Some? && slopes[2].Some?
    && slopes[0].value > slopes[1].value > slopes[2].value
  }

  /** One row of the improved indicator frame. */
  datatype Row = Row(
    timestamp: int,
    close: real,
    rsi: Value,
    ema: Value,
    rsiSlope3: Value,
    rsiSlope5: Value,
    emaSlope3: Value,
    emaSlope5: Value,
    emaSlopeDeclining: bool)

  /** The row at `i`: NaN slopes and no decline on the first 10 rows, otherwise the
      slopes and the decline over the columns up to and including row `i`. */
  function RowAt(ts: seq<int>, closes: seq<real>, rsi: Series, ema: Series, i: nat): (r: Row)
    requires i < |ts| == |closes| == |rsi| == |ema|
    ensures r.timestamp == ts[i] && r.close == closes[i]
    ensures i < 10 ==> !r.emaSlopeDeclining && r.rsiSlope3.None? && r.rsiSlope5.None?
                       && r.emaSlope3.None? && r.emaSlope5.None?
    ensures i >= 10 ==> r.emaSlopeDeclining == SlidingDecline(ema[..i + 1])
  {
    if i < 10 then Row(ts[i], closes[i], rsi[i], ema[i], None, None, None, None, false)
    else
      var rsiSoFar := rsi[..i + 1];
      var emaSoFar := ema[..i + 1];
      Row(ts[i], closes[i], rsi[i], ema[i],
          CalculateSlope(rsiSoFar, 3), CalculateSlope(rsiSoFar, 5),
          CalculateSlope(emaSoFar, 3), CalculateSlope(emaSoFar, 5),
          SlidingDecline(emaSoFar))
  }

  /** `calculate_indicators`: the RSI, the EMA, and the per-row slopes. */
  function CalculateIndicators(cfg: Config, ts: seq<int>, closes: seq<real>): (r: Result<seq<Row>, string>)
    requires |ts| == |closes| && cfg.rsiPeriod >= 1
    ensures r.Success? <==>
      BasicStrategy.RsiOf(cfg, closes).Success? && BasicStrategy.EmaOf(cfg, closes).Success?
    ensures BasicStrategy.RsiOf(cfg, closes).Failure? ==>
      r == Failure(BasicStrategy.RsiOf(cfg, closes).error)
    ensures r.Success? ==>
      |r.value| == |closes|
      && (forall i :: 0 <= i < |closes| ==> r.value[i].timestamp == ts[i] && r.value[i].close == closes[i])
      && forall i :: 0 <= i < |closes| ==>
           r.value[i] == RowAt(ts, closes, BasicStrategy.RsiOf(cfg, closes).value,
                               BasicStrategy.EmaOf(cfg, closes).value, i)
  {
    var rsi :- BasicStrategy.RsiOf(cfg, closes);
    var ema :- BasicStrategy.EmaOf(cfg, closes);
    Success(seq(|closes|, i requires 0 <= i < |closes| => RowAt(ts, closes, rsi, ema, i)))
  }

  /** `check_buy_conditions`: nothing before the warm-up of the configured periods; the
      slopes read are always the 3- and 5-bar columns, whatever periods are configured.
      Both RSI slopes must be numbers above 0 and the EMA slopes numbers at or above the
      thresholds; a missing threshold means no buy. */
  function CheckBuy(cfg: Config, rows: seq<Row>, idx: nat): (r: bool)
    requires idx < |rows|
    ensures r <==>
      idx >= SlopeWarmup(cfg.rsiSlopePeriods) && |cfg.emaSlopeThresholds| >= 2
      && Gt(rows[idx].rsiSlope3, Some(0.0)) && Gt(rows[idx].rsiSlope5, Some(0.0))
      && Ge(rows[idx].emaSlope3, Some(cfg.emaSlopeThresholds[0]))
      && Ge(rows[idx].emaSlope5, Some(cfg.emaSlopeThresholds[1]))
  {
    var row := rows[idx];
    if idx < SlopeWarmup(cfg.rsiSlopePeriods) then false
    else if row.rsiSlope3.None? || row.rsiSlope5.None? then false
    else if row.rsiSlope3.value <= 0.0 || row.rsiSlope5.value <= 0.0 then false
    else if row.emaSlope3.None? || row.emaSlope5.None? then false
    else if |cfg.emaSlopeThresholds| < 1 then false
    else if row.emaSlope3.value < cfg.emaSlopeThresholds[0] then false
    else if |cfg.emaSlopeThresholds| < 2 then false
    else if row.emaSlope5.value < cfg.emaSlopeThresholds[1] then false
    else true
  }

  /** The bars the engine replays: the EMA-declining flag is read from the row. */
  function Bars(cfg: Config, rows: seq<Row>): (r: seq<Bar>)
    ensures |r| == |rows|
    ensures forall i :: 0 <= i < |rows| ==>
      r[i] == Bar(rows[i].timestamp, rows[i].close, rows[i].rsi, CheckBuy(cfg, rows, i),
                  rows[i].emaSlopeDeclining)
  {
    seq(|rows|, i requires 0 <= i < |rows| =>
          Bar(rows[i].timestamp, rows[i].close, rows[i].rsi, CheckBuy(cfg, rows, i),
              rows[i].emaSlopeDeclining))
  }

  /** The rows of the frame inside the date filter, in their original order. */
  function InPeriodRows(cfg: Config, rows: seq<Row>): seq<Row> {
    var keep := PeriodIndices(cfg, seq(|rows|, i requires 0 <= i < |rows| => rows[i].timestamp));
    seq(|keep|, k requires 0 <= k < |keep| => rows[keep[k]])
  }

  /** The date filter keeps only rows of the frame, so every bar replayed has a
      positive close when every input close is positive. */
  lemma PricesStayPositive(cfg: Config, all: seq<Row>, closes: seq<real>)
    requires |all| == |closes|
    requires forall i :: 0 <= i < |all| ==> all[i].close == closes[i] && closes[i] > 0.0
    ensures var bars := Bars(cfg, InPeriodRows(cfg, all));
      forall i :: 0 <= i < |bars| ==> bars[i].close > 0.0
  {
    var rows := InPeriodRows(cfg, all);
    forall i | 0 <= i < |rows|
      ensures rows[i].close > 0.0
    {
      assert rows[i] == all[PeriodIndices(cfg, seq(|all|, j requires 0 <= j < |all| => all[j].timestamp))[i]];
    }
  }

  /** `ImprovedBacktestEngine.run_backtest`: indicators, date filter, replay and forced
      close, as in the basic engine. */
  method RunBacktest(cfg: Config, ts: seq<int>, closes: seq<real>) returns (r: Result<Outcome, string>)
    requires |ts| == |closes| && cfg.rsiPeriod >= 1 && SaneRates(cfg)
    requires forall i :: 0 <= i < |closes| ==> closes[i] > 0.0
    ensures CalculateIndicators(cfg, ts, closes).Failure? ==>
      r == Failure(CalculateIndicators(cfg, ts, closes).error)
    ensures CalculateIndicators(cfg, ts, closes).Success? ==>
      var rows := InPeriodRows(cfg, CalculateIndicators(cfg, ts, closes).value);
      (r.Failure? <==> |rows| == 0)
      && (r.Success? ==>
            var bars := Bars(cfg, rows);
            r.value.state == ForceClose(cfg, Fold(cfg, Reset(cfg), bars), bars[|bars| - 1])
            && !r.value.state.position.isOpen && |r.value.state.equity| == |rows|
            && |r.value.state.trades| <= |rows|)
  {
    var indicators := CalculateIndicators(cfg, ts, closes);
    if indicators.Failure? {
      return Failure(indicators.error);
    }
    var rows := InPeriodRows(cfg, indicators.value);
    var bars := Bars(cfg, rows);
    PricesStayPositive(cfg, indicators.value, closes);
    r := BacktestEngine.RunBacktest(cfg, bars);
    assert bars == Bars(cfg, InPeriodRows(cfg, CalculateIndicators(cfg, ts, closes).value));
  }

  /** The sliding decline says the EMA's 2-step rises shrink: over the last five values
      `e`, `e[2] - e[0] > e[3] - e[1] > e[4] - e[2]`. */
  lemma SlidingDeclineMeansShrinkingRises(ema: Series)
    requires |ema| >= 5
    ensures var n := |ema|;
      SlidingDecline(ema) <==>
        Gt(Sub(ema[n - 3], ema[n - 5]), Sub(ema[n - 2], ema[n - 4]))
        && Gt(Sub(ema[n - 2], ema[n - 4]), Sub(ema[n - 1], ema[n - 3]))
  {
    var n := |ema|;
    SlidingSlopeSpan(ema, 3, 3, 0);
    SlidingSlopeSpan(ema, 3, 3, 1);
    SlidingSlopeSpan(ema, 3, 3, 2);
  }
}

=== FILE: live_bot.dfy ===
/** The live bot (`LiveTradingBot` in `main_live.py`): its slope helper, the buy rule,
    the first-match sell rule with the disjoint-segment EMA-declining test, order
    placement, the pending-order check and one strategy cycle. The clock and every
    exchange reply are parameters; amounts are exact reals. */
module LiveBot {
  import opened Wrappers
  import opened Series
  import Numeric
  import BacktestEngine

  /** `calculate_slopes` on a NaN-free list: 0 with fewer than `bars` values, otherwise
      the change over the last `bars` values divided by `bars - 1`. */
  function CalculateSlopes(xs: seq<real>, bars: nat): (r: real)
    requires bars >= 2
    ensures |xs| < bars ==> r == 0.0
    ensures |xs| >= bars ==> r * (bars - 1) as real == xs[|xs| - 1] - xs[|xs| - bars]
  {
    if |xs| < bars then 0.0
    else
      var segment := xs[|xs| - bars..];
      Numeric.Div(segment[bars - 1] - segment[0], (bars - 1) as real)
  }

  /** The candle frame the cycle reads: closes and the RSI and EMA columns. */
  datatype Candles = Candles(closes: seq<real>, rsi: Series, ema: Series)

  /** The indicator columns are as long as the frame. */
  predicate Aligned(df: Candles) {
    |df.rsi| == |df.closes| && |df.ema| == |df.closes|
  }

  datatype Side = BuySide | SellSide

  /** `self.position`: the entry price, the time it was taken (seconds) and the size. */
  datatype LivePosition = LivePosition(entryPrice: real, entryTime: int, quantity: real, orderId: Option<string>)

  /** `self.pending_order`: a resting limit order. */
  datatype PendingOrder = PendingOrder(orderId: Option<string>, side: Side, price: real, quantity: real, time: int)

  datatype Bot = Bot(
    dryRun: bool,
    position: Option<LivePosition>,
    pending: Option<PendingOrder>,
    balanceKrw: real,
    balanceUsdt: real)

  /** Rows the frame needs before a buy is considered. */
  const MinRows: nat := 20

  /** The four slope tests of the buy rule on the NaN-free RSI and EMA values. */
  predicate SlopesRising(rsi: seq<real>, ema: seq<real>) {
    CalculateSlopes(rsi, 3) > 0.0 && CalculateSlopes(rsi, 5) > 0.0
    && CalculateSlopes(ema, 3) >= 0.3 && CalculateSlopes(ema, 5) >= 0.2
  }

  /** `check_buy_conditions`: 20 rows, no position, five RSI and five EMA numbers, the
      RSI above its values 2 and 4 numbers back, and the EMA up by at least 0.6 over 2
      steps and 0.8 over 4 steps (slopes of 0.3 and 0.2 per step). */
  function CheckBuy(bot: Bot, df: Candles): (r: bool)
    ensures r <==>
      |df.closes| >= MinRows && bot.position.None?
      && var rsi := DropNaN(df.rsi);
      var ema := DropNaN(df.ema);
      |rsi| >= 5 && |ema| >= 5
      && rsi[|rsi| - 1] > rsi[|rsi| - 3] && rsi[|rsi| - 1] > rsi[|rsi| - 5]
      && ema[|ema| - 1] - ema[|ema| - 3] >= 0.6 && ema[|ema| - 1] - ema[|ema| - 5] >= 0.8
  {
    if |df.closes| < MinRows || bot.position.Some? then false
    else
      var rsi := DropNaN(df.rsi);
      var ema := DropNaN(df.ema);
      |rsi| >= 5 && |ema| >= 5 && SlopesRising(rsi, ema)
  }

  /** The sell reasons; the timeout and RSI reasons carry the value their message shows. */
  datatype LiveReason = ProfitTarget | Timeout(holdHours: real) | RsiOverbought(rsi: real) | EmaDeclining

  /** Hours between two clock readings in seconds. */
  function HoldHours(now: int, entry: int): (h: real)
    ensures h * 3600.0 == (now - entry) as real
  {
    Numeric.Div((now - entry) as real, 3600.0)
  }

  /** The live bot's EMA-declining test: with 9 EMA numbers, the 3-value slopes of the
      three disjoint segments `[-9:-6]`, `[-6:-3]` and `[-3:]` strictly decrease. */
  predicate DisjointDecline(ema: seq<real>) {
    |ema| >= 9
    && var n := |ema|;
    CalculateSlopes(ema[n - 9..n - 6], 3) > CalculateSlopes(ema[n - 6..n - 3], 3) > CalculateSlopes(ema[n - 3..], 3)
  }

  /** The disjoint-segment test compares the 2-step rises ending 6 bars back, 3 bars
      back and at the last value. */
  lemma DisjointDeclineMeansShrinkingRises(ema: seq<real>)
    requires |ema| >= 9
    ensures var n := |ema|;
      DisjointDecline(ema) <==>
        ema[n - 7] - ema[n - 9] > ema[n - 4] - ema[n - 6] > ema[n - 1] - ema[n - 3]
  {
    var n := |ema|;
    assert ema[n - 9..n - 6][2] == ema[n - 7] && ema[n - 9..n - 6][0] == ema[n - 9];
    assert ema[n - 6..n - 3][2] == ema[n - 4] && ema[n - 6..n - 3][0] == ema[n - 6];
    assert ema[n - 3..][2] == ema[n - 1] && ema[n - 3..][0] == ema[n - 3];
  }

  /** `check_sell_conditions`: nothing without a position; otherwise the first of
      profit target (last close at or above entry + target), timeout (held for
      `max_hold_hours` or longer), RSI above the overbought level (a NaN RSI never is),
      and the disjoint-segment EMA decline. */
  function CheckSell(cfg: BacktestEngine.Config, bot: Bot, df: Candles, now: int): (r: Option<LiveReason>)
    requires Aligned(df) && |df.closes| >= 1
    ensures bot.position.None? ==> r.None?
    ensures bot.position.Some? ==>
      var p := bot.position.value;
      var n := |df.closes|;
      var profit := df.closes[n - 1] >= p.entryPrice + cfg.profitTarget;
      var late := now - p.entryTime >= cfg.maxHoldHours * 3600;
      var hot := Gt(df.rsi[n - 1], Some(cfg.rsiOverbought));
      var falling := DisjointDecline(DropNaN(df.ema));
      (r == Some(ProfitTarget) <==> profit)
      && (r.Some? && r.value.Timeout? <==> !profit && late)
      && (r.Some? && r.value.RsiOverbought? <==> !profit && !late && hot)
      && (r == Some(EmaDeclining) <==> !profit && !late && !hot && falling)
      && (r.None? <==> !profit && !late && !hot && !falling)
    ensures r.Some? && r.value.Timeout? ==> r.value.holdHours * 3600.0 == (now - bot.position.value.entryTime) as real
    ensures r.Some? && r.value.RsiOverbought? ==> Some(r.value.rsi) == df.rsi[|df.rsi| - 1]
  {
    if bot.position.None? then None
    else
      var p := bot.position.value;
      var price := df.closes[|df.closes| - 1];
      var hold := HoldHours(now, p.entryTime);
      var rsi := df.rsi[|df.rsi| - 1];
      if price >= p.entryPrice + cfg.profitTarget then Some(ProfitTarget)
      else if hold >= cfg.maxHoldHours as real then Some(Timeout(hold))
      else if rsi.Some? && rsi.value > cfg.rsiOverbought then Some(RsiOverbought(rsi.value))
      else if DisjointDecline(DropNaN(df.ema)) then Some(EmaDeclining)
      else None
  }

  /** The exchange's answer to an order request; a failed request or an exception is
      `NotPlaced`. */
  datatype PlaceReply = Placed(orderId: Option<string>) | NotPlaced

  /** The smallest KRW balance a buy is attempted with. */
  const MinOrderKrw: real := 10000.0

  /** `round(balance * 0.999 / price, 4)`: the size bought with 99.9% of the balance.
      The 0.1% margin pays for rounding the size up as long as the price is at most 20
      times the balance: the order's value then never exceeds the balance. */
  function BuyQuantity(balance: real, price: real): (q: real)
    requires price != 0.0
    ensures price > 0.0 ==> Numeric.Abs(q * price - balance * 0.999) * 10000.0 <= 0.5 * price
    ensures 0.0 < price <= 20.0 * balance ==> q * price <= balance
  {
    var x := Numeric.Div(balance * 0.999, price);
    var q := Numeric.RoundTo(x, 4);
    assert price > 0.0 ==> Numeric.Abs(q * price - x * price) * 10000.0 <= 0.5 * price by {
      if price > 0.0 {
        RoundingScales(q, x, price);
      }
    }
    q
  }

  /** Scaling a rounding error by a positive price. */
  lemma RoundingScales(q: real, x: real, price: real)
    requires price > 0.0 && Numeric.Abs(q - x) * 10000.0 <= 0.5
    ensures Numeric.Abs(q * price - x * price) * 10000.0 <= 0.5 * price
  {
    assert q * price - x * price == (q - x) * price;
    if q >= x {
      Numeric.MulNonNegative(0.5 - (q - x) * 10000.0, price);
    } else {
      Numeric.MulNonNegative(0.5 - (x - q) * 10000.0, price);
    }
  }

  /** The bot after an order attempt, and whether the attempt succeeded. */
  datatype Placement = Placement(bot: Bot, ok: bool)

  /** `place_buy_order`: refused below 10,000 KRW. A dry run opens the position at once;
      a live run records the accepted order as pending and changes nothing when it is
      refused. */
  function PlaceBuyOrder(bot: Bot, price: real, now: int, reply: PlaceReply): (r: Placement)
    requires price != 0.0
    ensures r.ok <==> bot.balanceKrw >= MinOrderKrw && (bot.dryRun || reply.Placed?)
    ensures !r.ok ==> r.bot == bot
    ensures r.ok ==> r.bot.balanceKrw == bot.balanceKrw && r.bot.dryRun == bot.dryRun
    ensures r.ok && bot.dryRun ==>
      r.bot.pending == bot.pending && r.bot.position.Some?
      && r.bot.position.value.entryPrice == price && r.bot.position.value.entryTime == now
      && r.bot.position.value.quantity == BuyQuantity(bot.balanceKrw, price)
    ensures r.ok && !bot.dryRun ==>
      r.bot.position == bot.position && r.bot.pending.Some?
      && r.bot.pending.value == PendingOrder(reply.orderId, BuySide, price, BuyQuantity(bot.balanceKrw, price), now)
  {
    if bot.balanceKrw < MinOrderKrw then Placement(bot, false)
    else
      var quantity := BuyQuantity(bot.balanceKrw, price);
      if bot.dryRun then
        Placement(bot.(position := Some(LivePosition(price, now, quantity, Some("DRY_RUN_BUY")))), true)
      else if reply.Placed? then
        Placement(bot.(pending := Some(PendingOrder(reply.orderId, BuySide, price, quantity, now))), true)
      else Placement(bot, false)
  }

  /** The order a live sell sends: a limit order at the sell price, or a market order. */
  datatype SellRequest = LimitSell(price: real, quantity: real) | MarketSell(quantity: real)

  datatype SellPlacement = SellPlacement(bot: Bot, ok: bool, request: Option<SellRequest>)

  /** `place_sell_order`: nothing without a position. The percentage P&L it logs divides
      by the entry price, so a zero entry price raises before anything happens. A dry run
      drops the position; a live run sends a limit order for the profit target and a
      market order otherwise, and drops the position only when the order is accepted. */
  function PlaceSellOrder(bot: Bot, price: real, reason: LiveReason, reply: PlaceReply): (r: Result<SellPlacement, string>)
    ensures r.Failure? <==> bot.position.Some? && bot.position.value.entryPrice == 0.0
    ensures r.Success? && bot.position.None? ==> r.value == SellPlacement(bot, false, None)
    ensures r.Success? && bot.position.Some? ==>
      var q := bot.position.value.quantity;
      (r.value.ok <==> bot.dryRun || reply.Placed?)
      && (r.value.ok ==> r.value.bot == bot.(position := None))
      && (!r.value.ok ==> r.value.bot == bot)
      && (r.value.request.Some? <==> !bot.dryRun)
      && (r.value.request.Some? ==>
            r.value.request.value == if reason == ProfitTarget then LimitSell(price, q) else MarketSell(q))
  {
    if bot.position.None? then Success(SellPlacement(bot, false, None))
    else
      var p := bot.position.value;
      if p.entryPrice == 0.0 then Failure("float division by zero")
      else if bot.dryRun then Success(SellPlacement(bot.(position := None), true, None))
      else
        var request := if reason == ProfitTarget then LimitSell(price, p.quantity) else MarketSell(p.quantity);
        if reply.Placed? then Success(SellPlacement(bot.(position := None), true, Some(request)))
        else Success(SellPlacement(bot, false, Some(request)))
  }

  /** The exchange's answer to an order-status query; any status other than "filled",
      and any error, is `NotFilled`. */
  datatype StatusReply = Filled | NotFilled

  /** How long an order may rest before it is cancelled, in seconds. */
  const PendingTimeout: int := 600

  /** The bot after the pending-order check, whether the cycle goes on, and whether a
      cancel request was sent. */
  datatype PendingCheck = PendingCheck(bot: Bot, proceed: bool, cancelSent: bool)

  /** `check_pending_order`: with no pending order the cycle goes on. An order resting
      more than 600 seconds is cancelled (live only), forgotten, and the cycle stops.
      Otherwise a live run asks for its status: a filled buy becomes the position at the
      order's price and size, stamped now, and any filled order is forgotten. */
  function CheckPendingOrder(bot: Bot, now: int, status: StatusReply): (r: PendingCheck)
    ensures bot.pending.None? ==> r == PendingCheck(bot, true, false)
    ensures bot.pending.Some? && now - bot.pending.value.time > PendingTimeout ==>
      r == PendingCheck(bot.(pending := None), false, !bot.dryRun)
    ensures !r.proceed <==> bot.pending.Some? && now - bot.pending.value.time > PendingTimeout
    ensures r.proceed ==> !r.cancelSent
    ensures r.bot.dryRun == bot.dryRun && r.bot.balanceKrw == bot.balanceKrw
    ensures r.proceed && r.bot != bot ==>
      !bot.dryRun && status == Filled && bot.pending.Some? && r.bot.pending.None?
    ensures r.proceed && bot.pending.Some? && !bot.dryRun && status == Filled ==>
      var o := bot.pending.value;
      r.bot.pending.None?
      && r.bot.position == if o.side == BuySide then Some(LivePosition(o.price, now, o.quantity, o.orderId))
                           else bot.position
  {
    if bot.pending.None? then PendingCheck(bot, true, false)
    else
      var o := bot.pending.value;
      if now - o.time > PendingTimeout then PendingCheck(bot.(pending := None), false, !bot.dryRun)
      else if !bot.dryRun && status == Filled then
        var position := if o.side == BuySide then Some(LivePosition(o.price, now, o.quantity, o.orderId))
                        else bot.position;
        PendingCheck(bot.(position := position, pending := None), true, false)
      else PendingCheck(bot, true, false)
  }

  /** What one cycle observes: the balance reply (KRW, USDT), the candle frame (`None`
      when it could not be built), the clock, the pending order's status, the best ask,
      and the reply to the order the cycle sends, if it sends one. */
  datatype Observation = Observation(
    balance: Option<(real, real)>,
    candles: Option<Candles>,
    now: int,
    status: StatusReply,
    ask: Option<real>,
    reply: PlaceReply)

  /** The order a cycle placed. */
  datatype Action = NoOrder | BuyPlaced(price: real) | SellPlaced(reason: LiveReason, price: real)

  datatype Cycle = Cycle(bot: Bot, action: Action)

  /** The bot's bookkeeping is consistent: a position and a pending order never coexist,
      only buys rest, and a dry run never has a pending order. */
  predicate Consistent(bot: Bot) {
    !(bot.position.Some? && bot.pending.Some?)
    && (bot.pending.Some? ==> bot.pending.value.side == BuySide)
    && (bot.dryRun ==> bot.pending.None?)
  }

  /** The price a sell is placed at: entry + target for the profit target (a limit
      order), the last close otherwise. */
  function SellPrice(cfg: BacktestEngine.Config, p: LivePosition, reason: LiveReason, close: real): (r: real)
    ensures reason == ProfitTarget ==> r == p.entryPrice + cfg.profitTarget
    ensures reason != ProfitTarget ==> r == close
  {
    if reason == ProfitTarget then p.entryPrice + cfg.profitTarget else close
  }

  /** The bot a cycle trades with: the balance refreshed from the reply, then the
      pending-order check applied. */
  function AfterPendingCheck(bot: Bot, obs: Observation): (r: PendingCheck)
    requires obs.balance.Some?
    ensures r.bot.balanceKrw == obs.balance.value.0 && r.bot.balanceUsdt == obs.balance.value.1
    ensures r.bot.dryRun == bot.dryRun
  {
    CheckPendingOrder(bot.(balanceKrw := obs.balance.value.0, balanceUsdt := obs.balance.value.1), obs.now, obs.status)
  }

  /** `run_strategy`: refresh the balance (stop if that fails), read the candles (stop
      if there are none), check the pending order (stop if it timed out); then, flat with
      nothing pending, buy at a non-zero best ask on a buy signal, or, holding a
      position, sell for the first sell reason. An exception while selling ends the
      cycle with the bot as it was before the sell. */
  function RunStrategy(cfg: BacktestEngine.Config, bot: Bot, obs: Observation): (r: Cycle)
    requires obs.candles.Some? ==> Aligned(obs.candles.value)
    ensures obs.balance.None? ==> r == Cycle(bot, NoOrder)
    ensures obs.balance.Some? ==>
      r.bot.balanceKrw == obs.balance.value.0 && r.bot.balanceUsdt == obs.balance.value.1
    ensures r.bot.dryRun == bot.dryRun
    ensures Consistent(bot) ==> Consistent(r.bot)
    ensures r.action.BuyPlaced? ==>
      bot.position.None? && obs.candles.Some? && obs.ask == Some(r.action.price)
      && (r.bot.position.Some? || r.bot.pending.Some?)
    ensures r.action.SellPlaced? ==>
      r.bot.position.None? && obs.candles.Some? && |obs.candles.value.closes| >= 1
    ensures r.action.SellPlaced? && r.action.reason != ProfitTarget ==>
      var closes := obs.candles.value.closes;
      r.action.price == closes[|closes| - 1]
    ensures r.action.BuyPlaced? ==>
      obs.balance.Some? && AfterPendingCheck(bot, obs).proceed
      && AfterPendingCheck(bot, obs).bot.pending.None?
      && CheckBuy(AfterPendingCheck(bot, obs).bot, obs.candles.value)
    ensures r.action.SellPlaced? ==>
      obs.balance.Some? && AfterPendingCheck(bot, obs).proceed
      && CheckSell(cfg, AfterPendingCheck(bot, obs).bot, obs.candles.value, obs.now) == Some(r.action.reason)
    ensures obs.balance.Some? && obs.candles.Some? && obs.ask.Some? && obs.ask.value != 0.0 ==>
      var c := AfterPendingCheck(bot, obs);
      c.proceed && c.bot.pending.None? && CheckBuy(c.bot, obs.candles.value)
      && c.bot.balanceKrw >= MinOrderKrw && (bot.dryRun || obs.reply.Placed?)
      ==> r.action == BuyPlaced(obs.ask.value)
    ensures obs.balance.Some? && obs.candles.Some? && |obs.candles.value.closes| >= 1 ==>
      var c := AfterPendingCheck(bot, obs);
      var df := obs.candles.value;
      c.proceed && c.bot.position.Some? && c.bot.position.value.entryPrice != 0.0
      && CheckSell(cfg, c.bot, df, obs.now).Some? && (bot.dryRun || obs.reply.Placed?)
      ==> r.action == SellPlaced(CheckSell(cfg, c.bot, df, obs.now).value,
                                 SellPrice(cfg, c.bot.position.value, CheckSell(cfg, c.bot, df, obs.now).value,
                                           df.closes[|df.closes| - 1]))
  {
    if obs.balance.None? then Cycle(bot, NoOrder)
    else
      var refreshed := bot.(balanceKrw := obs.balance.value.0, balanceUsdt := obs.balance.value.1);
      if obs.candles.None? || |obs.candles.value.closes| == 0 then Cycle(refreshed, NoOrder)
      else
        var df := obs.candles.value;
        var close := df.closes[|df.closes| - 1];
        var checked := AfterPendingCheck(bot, obs);
        var b := checked.bot;
        if !checked.proceed then Cycle(b, NoOrder)
        else if b.position.None? && b.pending.None? then
          if CheckBuy(b, df) && obs.ask.Some? && obs.ask.value != 0.0 then
            var placed := PlaceBuyOrder(b, obs.ask.value, obs.now, obs.reply);
            Cycle(placed.bot, if placed.ok then BuyPlaced(obs.ask.value) else NoOrder)
          else Cycle(b, NoOrder)
        else if b.position.Some? then
          var reason := CheckSell(cfg, b, df, obs.now);
          if reason.None? then Cycle(b, NoOrder)
          else
            var price := SellPrice(cfg, b.position.value, reason.value, close);
            var sold := PlaceSellOrder(b, price, reason.value, obs.reply);
            if sold.Failure? then Cycle(b, NoOrder)
            else Cycle(sold.value.bot, if sold.value.ok then SellPlaced(reason.value, price) else NoOrder)
        else Cycle(b, NoOrder)
  }
}

=== FILE: numeric.dfy ===
/** Exact counterparts of the float rounding helpers the bot relies on:
    `math.ceil`, Python's `round(x, n)` (round half to even) and
    `Decimal.quantize(..., ROUND_UP)` (round away from zero). */
module Numeric {

  /** 10^n as a positive integer. */
  function Pow10(n: nat): (r: int)
    ensures r >= 1
  {
    if n == 0 then 1 else 10 * Pow10(n - 1)
  }

  /** Absolute value of a real. */
  function Abs(x: real): (r: real)
    ensures r >= 0.0
    ensures r == x || r == -x
  {
    if x < 0.0 then -x else x
  }

  /** `math.ceil`: the least integer not below `x`. */
  function Ceil(x: real): (r: int)
    ensures x <= r as real < x + 1.0
  {
    if x.Floor as real == x then x.Floor else x.Floor + 1
  }

  /** `Ceil` is the LEAST integer bound: every integer at or above `x` is at or above it. */
  lemma CeilIsLeast(x: real, k: int)
    requires x <= k as real
    ensures Ceil(x) <= k
  {
  }

  /** Ceil commutes with adding an integer: `ceil(x + n) == ceil(x) + n`. */
  lemma CeilShift(x: real, n: int)
    ensures Ceil(x + n as real) == Ceil(x) + n
  {
    var a := Ceil(x + n as real);
    var b := Ceil(x) + n;
    assert x + n as real <= b as real < x + n as real + 1.0;
    CeilIsLeast(x + n as real, b);
    CeilIsLeast(x, a - n);
  }

  /** Round a real to the nearest integer, ties to the even neighbour
      (the rule Python's built-in `round` uses). */
  function RoundHalfEvenInt(y: real): (r: int)
    ensures Abs(y - r as real) <= 0.5
    ensures y - r as real == 0.5 ==> r % 2 == 0
    ensures r as real - y == 0.5 ==> r % 2 == 0
  {
    var f := y.Floor;
    var frac := y - f as real;
    if frac < 0.5 then f
    else if frac > 0.5 then f + 1
    else if f % 2 == 0 then f
    else f + 1
  }

  /** 10^digits as a real: the scale `round(x, digits)` works at. */
  function Scale(digits: nat): (s: real)
    ensures s >= 1.0
  {
    Pow10(digits) as real
  }

  /** Python `round(x, digits)` on exact values: the nearest multiple of 10^-digits,
      ties to the even multiple. */
  function RoundTo(x: real, digits: nat): (r: real)
    ensures Abs(r - x) * Scale(digits) <= 0.5
  {
    var k := RoundHalfEvenInt(x * Scale(digits));
    assert Abs(x * Scale(digits) - k as real) <= 0.5;
    assert (k as real / Scale(digits) - x) * Scale(digits) == k as real - x * Scale(digits);
    k as real / Scale(digits)
  }

  /** Scaling a rounded value back gives the integer it was rounded to. */
  lemma RoundToScaled(x: real, digits: nat)
    ensures RoundTo(x, digits) * Scale(digits) == RoundHalfEvenInt(x * Scale(digits)) as real
  {
  }

  /** Rounding to the nearest integer never reverses an order. */
  lemma RoundHalfEvenIntMonotone(x: real, y: real)
    requires x <= y
    ensures RoundHalfEvenInt(x) <= RoundHalfEvenInt(y)
  {
    var fx := x.Floor;
    var fy := y.Floor;
    if fx < fy {
      assert RoundHalfEvenInt(x) <= fx + 1 <= fy <= RoundHalfEvenInt(y);
    }
  }

  /** An integer rounds to itself. */
  lemma RoundHalfEvenIntOfInt(n: int)
    ensures RoundHalfEvenInt(n as real) == n
  {
    assert (n as real).Floor == n;
  }

  /** `round(x, 2)` never reverses an order. */
  lemma Round2Monotone(x: real, y: real)
    requires x <= y
    ensures RoundTo(x, 2) <= RoundTo(y, 2)
  {
    assert Scale(2) == 100.0;
    RoundToScaled(x, 2);
    RoundToScaled(y, 2);
    RoundHalfEvenIntMonotone(x * 100.0, y * 100.0);
  }

  /** A value rounded to two places rounds to itself. */
  lemma Round2Idempotent(x: real)
    ensures RoundTo(RoundTo(x, 2), 2) == RoundTo(x, 2)
  {
    assert Scale(2) == 100.0;
    var v := RoundTo(x, 2);
    RoundToScaled(x, 2);
    RoundHalfEvenIntOfInt(RoundHalfEvenInt(x * 100.0));
    RoundToScaled(v, 2);
  }

  /** A whole number keeps its value when rounded to two places. */
  lemma Round2OfInt(n: int)
    ensures RoundTo(n as real, 2) == n as real
  {
    assert Scale(2) == 100.0;
    RoundToScaled(n as real, 2);
    assert (n as real) * 100.0 == (n * 100) as real;
    RoundHalfEvenIntOfInt(n * 100);
  }

  /** `Decimal(x).quantize(Decimal('1'), rounding=ROUND_UP)`: round away from zero. */
  function RoundAwayFromZero(y: real): (r: int)
    ensures y >= 0.0 ==> y <= r as real < y + 1.0
    ensures y < 0.0 ==> y - 1.0 < r as real <= y
  {
    if y >= 0.0 then Ceil(y) else -Ceil(-y)
  }

  /** Real division by a non-zero divisor, characterised by multiplying back. Every
      division by a computed quantity in the model goes through here. */
  function Div(x: real, k: real): (r: real)
    requires k != 0.0
    ensures r * k == x
  {
    x / k
  }

  /** An integer strictly below `m + 1` is at most `m`. */
  lemma IntBelowSuccessor(n: int, m: int)
    requires n as real < m as real + 1.0
    ensures n <= m
  {
  }

  /** The product of two non-negative reals is non-negative. */
  lemma MulNonNegative(a: real, b: real)
    requires a >= 0.0 && b >= 0.0
    ensures a * b >= 0.0
  {
  }

  /** A non-negative real divided by a positive one stays non-negative. */
  lemma DivNonNegative(x: real, k: real)
    requires x >= 0.0 && k > 0.0
    ensures Div(x, k) >= 0.0
  {
    var r := Div(x, k);
    assert r * k == x;
  }

  /** `100 / (1 + rs)` lies in (0, 100] for `rs >= 0`. */
  lemma DivOfHundred(rs: real)
    requires rs >= 0.0
    ensures 0.0 < Div(100.0, 1.0 + rs) <= 100.0
  {
    var q := Div(100.0, 1.0 + rs);
    assert q * (1.0 + rs) == 100.0;
    assert q * rs >= 0.0 ==> q <= 100.0;
  }

  /** A product with a non-zero factor vanishes only when the other factor does. */
  lemma ZeroProduct(a: real, k: real)
    requires k != 0.0 && a * k == 0.0
    ensures a == 0.0
  {
  }

  /** A product with a positive factor is positive only when the other factor is. */
  lemma PositiveFactor(a: real, k: real)
    requires k > 0.0 && a * k > 0.0
    ensures a > 0.0
  {
  }

  /** The product of two positive reals is positive. */
  lemma MulPositive(a: real, b: real)
    requires a > 0.0 && b > 0.0
    ensures a * b > 0.0
  {
  }

  /** A positive factor cancels from both sides of an equation. */
  lemma CancelPositive(a: real, b: real, k: real)
    requires k > 0.0 && a * k == b * k
    ensures a == b
  {
    ZeroProduct(a - b, k);
  }
}

=== FILE: orders.dfy ===
/** The order lifecycle (`OrderManager`): orders live in an `active` map until a fill or a
    cancel moves them to an append-only `history`. Exchange replies are inputs: each
    gateway call is replaced by the reply it produced (or the exception it raised). */
module OrderLifecycle {
  import opened Wrappers

  datatype OrderStatus = Pending | Submitted | PartiallyFilled | Filled | Cancelled | Failed
  datatype OrderSide = BuyOrder | SellOrder
  datatype OrderType = Limit | Market

  datatype OrderInfo = OrderInfo(
    orderId: Option<string>,
    side: OrderSide,
    orderType: OrderType,
    quantity: real,
    price: Option<real>,
    status: OrderStatus,
    filledQuantity: real,
    remainingQuantity: real,
    averagePrice: real,
    createdTime: Option<real>,
    updatedTime: Option<real>,
    errorMessage: Option<string>)

  /** The manager's state plus the two configuration values it reads. */
  datatype Book = Book(
    active: map<string, OrderInfo>,
    history: seq<OrderInfo>,
    maxOrderAmount: real,
    partialFillWaitTime: real)

  /** Reply to a place-order call: a body with an `orderId` (and possibly a fill `price`),
      a body without one, or a raised exception carrying its message. */
  datatype PlaceReply = Accepted(id: string, fillPrice: Option<real>) | NoOrderId | PlaceRaised(message: string)

  /** Reply to an order-info query: the `status` text with the optional `filledQty` and
      `avgPrice` fields, or a raised exception. */
  datatype StatusReply = StatusBody(status: string, filledQty: Option<real>, avgPrice: Option<real>) | StatusRaised

  /** Reply to a cancel call. */
  datatype CancelReply = CancelAccepted | CancelRaised

  predicate IsTerminal(s: OrderStatus) {
    s == Filled || s == Cancelled
  }

  /** `_validate_order_amount`. */
  function ValidateOrderAmount(b: Book, amount: real): (r: bool)
    ensures r <==> 0.0 < amount <= b.maxOrderAmount
  {
    if amount <= 0.0 then false
    else if amount > b.maxOrderAmount then false
    else true
  }

  function NewOrder(side: OrderSide, orderType: OrderType, quantity: real, price: Option<real>, now: real): OrderInfo {
    OrderInfo(None, side, orderType, quantity, price, Pending, 0.0, quantity, 0.0, Some(now), None, None)
  }

  /** Shared tail of the two limit-order calls: an `orderId` in the reply submits the order
      and registers it as active; anything else marks it failed. */
  function SubmitLimit(b: Book, order: OrderInfo, reply: PlaceReply, now: real): (r: (bool, OrderInfo, Book))
    ensures r.0 <==> reply.Accepted?
    ensures r.0 ==> r.1.status == Submitted && r.1.orderId == Some(reply.id)
                    && r.2 == b.(active := b.active[reply.id := r.1])
    ensures !r.0 ==> r.1.status == Failed && r.2 == b
  {
    match reply
    case Accepted(id, _) =>
      var o := order.(orderId := Some(id), status := Submitted, updatedTime := Some(now));
      (true, o, b.(active := b.active[id := o]))
    case NoOrderId =>
      (false, order.(status := Failed, errorMessage := Some("No order ID in response")), b)
    case PlaceRaised(msg) =>
      (false, order.(status := Failed, errorMessage := Some(msg)), b)
  }

  /** `place_limit_buy_order`: the amount quantity*price is validated first; an invalid
      amount fails without contacting the exchange (the reply is then never read). */
  function PlaceLimitBuy(b: Book, quantity: real, price: real, reply: PlaceReply, now: real): (r: (bool, OrderInfo, Book))
    ensures !ValidateOrderAmount(b, quantity * price) ==>
              !r.0 && r.1.status == Failed && r.2 == b
              && r.1.errorMessage == Some("Order amount validation failed")
    ensures r.0 <==> ValidateOrderAmount(b, quantity * price) && reply.Accepted?
    ensures r.0 ==> r.1.status == Submitted && r.1.orderId == Some(reply.id)
                    && r.2.active == b.active[reply.id := r.1] && r.2.history == b.history
    ensures !r.0 ==> r.2 == b && r.1.status == Failed
    ensures r.1.side == BuyOrder && r.1.orderType == Limit && r.1.quantity == quantity
  {
    var order := NewOrder(BuyOrder, Limit, quantity, Some(price), now);
    if !ValidateOrderAmount(b, quantity * price) then
      (false, order.(status := Failed, errorMessage := Some("Order amount validation failed")), b)
    else SubmitLimit(b, order, reply, now)
  }

  /** `place_limit_sell_order`: like the buy, but with no amount validation. */
  function PlaceLimitSell(b: Book, quantity: real, price: real, reply: PlaceReply, now: real): (r: (bool, OrderInfo, Book))
    ensures r.0 <==> reply.Accepted?
    ensures r.0 ==> r.1.status == Submitted && r.1.orderId == Some(reply.id)
                    && r.2.active == b.active[reply.id := r.1] && r.2.history == b.history
    ensures !r.0 ==> r.2 == b && r.1.status == Failed
    ensures r.1.side == SellOrder && r.1.orderType == Limit && r.1.quantity == quantity
  {
    SubmitLimit(b, NewOrder(SellOrder, Limit, quantity, Some(price), now), reply, now)
  }

  /** `place_market_sell_order`: an accepted market order counts as filled at once and is
      never registered as active. */
  function PlaceMarketSell(b: Book, quantity: real, reply: PlaceReply, now: real): (r: (bool, OrderInfo, Book))
    ensures r.2 == b
    ensures r.0 <==> reply.Accepted?
    ensures r.0 ==> && r.1.status == Filled && r.1.filledQuantity == quantity
                    && r.1.remainingQuantity == 0.0 && r.1.orderId == Some(reply.id)
                    && r.1.averagePrice == reply.fillPrice.GetOr(0.0)
    ensures !r.0 ==> r.1.status == Failed
  {
    var order := NewOrder(SellOrder, Market, quantity, None, now);
    match reply
    case Accepted(id, fill) =>
      var o := order.(orderId := Some(id), status := Filled, filledQuantity := quantity,
                      remainingQuantity := 0.0, updatedTime := Some(now));
      (true, if fill.Some? then o.(averagePrice := fill.value) else o, b)
    case NoOrderId =>
      (false, order.(status := Failed, errorMessage := Some("No order ID in response")), b)
    case PlaceRaised(msg) =>
      (false, order.(status := Failed, errorMessage := Some(msg)), b)
  }

  /** `cancel_order`: an accepted cancel reports success even for an id that is not active;
      an active order is marked cancelled and moved to the history. A raised error changes
      nothing. */
  function CancelOrder(b: Book, id: string, reply: CancelReply, now: real): (r: (bool, Book))
    ensures r.0 <==> reply.CancelAccepted?
    ensures !r.0 ==> r.1 == b
    ensures r.0 && id in b.active ==>
              && r.1.active == b.active - {id}
              && r.1.history == b.history + [b.active[id].(status := Cancelled, updatedTime := Some(now))]
    ensures r.0 && id !in b.active ==> r.1 == b
    ensures r.1.maxOrderAmount == b.maxOrderAmount && r.1.partialFillWaitTime == b.partialFillWaitTime
  {
    if reply.CancelRaised? then (false, b)
    else if id in b.active then
      var o := b.active[id].(status := Cancelled, updatedTime := Some(now));
      (true, b.(active := b.active - {id}, history := b.history + [o]))
    else (true, b)
  }

  /** How an order-info body rewrites the stored order: `filled`, `partially_filled` and
      `cancelled` set the status (the first two also the fill counts); any other status
      text leaves status and counts alone. `avgPrice`, when present, is copied. */
  function ApplyStatusBody(o: OrderInfo, status: string, filledQty: Option<real>, avgPrice: Option<real>, now: real): (r: OrderInfo)
    ensures status == "filled" ==>
              r.status == Filled && r.filledQuantity == filledQty.GetOr(0.0) && r.remainingQuantity == 0.0
    ensures status == "partially_filled" ==>
              && r.status == PartiallyFilled && r.filledQuantity == filledQty.GetOr(0.0)
              && r.remainingQuantity + r.filledQuantity == o.quantity
    ensures status == "cancelled" ==>
              r.status == Cancelled && r.filledQuantity == o.filledQuantity && r.remainingQuantity == o.remainingQuantity
    ensures status != "filled" && status != "partially_filled" && status != "cancelled" ==>
              r.status == o.status && r.filledQuantity == o.filledQuantity && r.remainingQuantity == o.remainingQuantity
    ensures r.averagePrice == avgPrice.GetOr(o.averagePrice)
    ensures r.quantity == o.quantity && r.orderId == o.orderId && r.side == o.side
  {
    var o1 :=
      if status == "filled" then
        o.(status := Filled, filledQuantity := filledQty.GetOr(0.0), remainingQuantity := 0.0)
      else if status == "partially_filled" then
        var f := filledQty.GetOr(0.0);
        o.(status := PartiallyFilled, filledQuantity := f, remainingQuantity := o.quantity - f)
      else if status == "cancelled" then
        o.(status := Cancelled)
      else o;
    var o2 := if avgPrice.Some? then o1.(averagePrice := avgPrice.value) else o1;
    o2.(updatedTime := Some(now))
  }

  /** `update_order_status`: `None` for a raised query or an id that is not active;
      otherwise the rewritten order, which leaves `active` for `history` exactly when it
      has become filled or cancelled. */
  function UpdateOrderStatus(b: Book, id: string, reply: StatusReply, now: real): (r: (Option<OrderInfo>, Book))
    ensures r.0.None? <==> reply.StatusRaised? || id !in b.active
    ensures r.0.None? ==> r.1 == b
    ensures r.0.Some? && IsTerminal(r.0.value.status) ==>
              r.1.active == b.active - {id} && r.1.history == b.history + [r.0.value]
    ensures r.0.Some? && !IsTerminal(r.0.value.status) ==>
              r.1.active == b.active[id := r.0.value] && r.1.history == b.history
    ensures r.0.Some? ==>
              r.0.value == ApplyStatusBody(b.active[id], reply.status, reply.filledQty, reply.avgPrice, now)
    ensures r.1.maxOrderAmount == b.maxOrderAmount && r.1.partialFillWaitTime == b.partialFillWaitTime
  {
    if reply.StatusRaised? || id !in b.active then (None, b)
    else
      var o := ApplyStatusBody(b.active[id], reply.status, reply.filledQty, reply.avgPrice, now);
      if IsTerminal(o.status) then
        (Some(o), b.(active := b.active - {id}, history := b.history + [o]))
      else
        (Some(o), b.(active := b.active[id := o]))
  }

  /** Once an update has moved an order to the history, any later update of the same id
      answers `None` and leaves the history alone: an order is archived exactly once. */
  lemma ArchivedExactlyOnce(b: Book, id: string, first: StatusReply, later: StatusReply, t1: real, t2: real)
    requires UpdateOrderStatus(b, id, first, t1).0.Some?
    requires IsTerminal(UpdateOrderStatus(b, id, first, t1).0.value.status)
    ensures var b1 := UpdateOrderStatus(b, id, first, t1).1;
            && |b1.history| == |b.history| + 1
            && UpdateOrderStatus(b1, id, later, t2) == (None, b1)
  {
  }

  /** One poll of the waiting loop: the reply and the clock reading when it came. */
  datatype Poll = Poll(at: real, reply: StatusReply)

  /** What `wait_for_partial_fill_timeout` decides. */
  datatype WaitOutcome = WaitOutcome(filled: bool, quantity: real, book: Book)

  /** The book after the first `k` polls, each applied as a status update. */
  function BookAfter(b: Book, id: string, polls: seq<Poll>, k: nat): Book
    requires k <= |polls|
    decreases k
  {
    if k == 0 then b
    else UpdateOrderStatus(BookAfter(b, id, polls, k - 1), id, polls[k - 1].reply, polls[k - 1].at).1
  }

  /** What poll `k` answers when it is applied to the book the earlier polls left. */
  function PollAt(b: Book, id: string, polls: seq<Poll>, k: nat): Option<OrderInfo>
    requires k < |polls|
  {
    UpdateOrderStatus(BookAfter(b, id, polls, k), id, polls[k].reply, polls[k].at).0
  }

  /** Poll `k` reports the order FILLED or CANCELLED. */
  predicate EndsAt(b: Book, id: string, polls: seq<Poll>, k: nat)
    requires k < |polls|
  {
    PollAt(b, id, polls, k).Some? && IsTerminal(PollAt(b, id, polls, k).value.status)
  }

  /** Poll `k` is the first poll that reports a terminal status. */
  predicate FirstEnd(b: Book, id: string, polls: seq<Poll>, k: nat) {
    k < |polls| && EndsAt(b, id, polls, k) && forall j :: 0 <= j < k ==> !EndsAt(b, id, polls, j)
  }

  /** The filled quantity the book shows for `id`, 0 when it is not active. */
  function ActiveFilled(b: Book, id: string): real {
    if id in b.active then b.active[id].filledQuantity else 0.0
  }

  /** Reference definition of the waiting loop over the replies observed before the
      deadline, by recursion on the polls: the first poll that reports FILLED or
      CANCELLED ends it; if none does, the order is cancelled and the filled-so-far
      quantity is reported. */
  function WaitSpec(b: Book, id: string, polls: seq<Poll>, cancel: CancelReply, deadline: real): WaitOutcome
    decreases |polls|
  {
    if polls == [] then
      WaitOutcome(false, ActiveFilled(b, id), CancelOrder(b, id, cancel, deadline).1)
    else
      var u := UpdateOrderStatus(b, id, polls[0].reply, polls[0].at);
      if u.0.Some? && u.0.value.status == Filled then WaitOutcome(true, u.0.value.filledQuantity, u.1)
      else if u.0.Some? && u.0.value.status == Cancelled then WaitOutcome(false, u.0.value.filledQuantity, u.1)
      else WaitSpec(u.1, id, polls[1..], cancel, deadline)
  }

  /** `wait_for_partial_fill_timeout` as the polling loop itself. `polls` are the replies
      the loop sees before the wait time runs out; `deadline` is the clock reading at the
      timeout cancel. The loop ends at the first terminal poll, reporting whether it was
      a fill and its filled quantity; with no terminal poll it cancels what the polls left
      and reports the quantity filled so far. */
  method WaitForPartialFill(b: Book, id: string, polls: seq<Poll>, cancel: CancelReply, deadline: real)
    returns (filled: bool, quantity: real, book: Book)
    ensures filled <==> exists k: nat :: FirstEnd(b, id, polls, k) && PollAt(b, id, polls, k).value.status == Filled
    ensures forall k: nat :: FirstEnd(b, id, polls, k) ==>
              && filled == (PollAt(b, id, polls, k).value.status == Filled)
              && quantity == PollAt(b, id, polls, k).value.filledQuantity
              && book == BookAfter(b, id, polls, k + 1)
    ensures (forall k :: 0 <= k < |polls| ==> !EndsAt(b, id, polls, k)) ==>
              && !filled
              && quantity == ActiveFilled(BookAfter(b, id, polls, |polls|), id)
              && book == CancelOrder(BookAfter(b, id, polls, |polls|), id, cancel, deadline).1
    ensures WaitOutcome(filled, quantity, book) == WaitSpec(b, id, polls, cancel, deadline)
  {
    var i := 0;
    book := b;
    while i < |polls|
      invariant 0 <= i <= |polls|
      invariant book == BookAfter(b, id, polls, i)
      invariant forall j :: 0 <= j < i ==> !EndsAt(b, id, polls, j)
      invariant WaitSpec(book, id, polls[i..], cancel, deadline) == WaitSpec(b, id, polls, cancel, deadline)
    {
      var u := UpdateOrderStatus(book, id, polls[i].reply, polls[i].at);
      assert u.0 == PollAt(b, id, polls, i);
      assert polls[i..][0] == polls[i] && polls[i..][1..] == polls[i + 1..];
      if u.0.Some? && IsTerminal(u.0.value.status) {
        assert FirstEnd(b, id, polls, i);
        return u.0.value.status == Filled, u.0.value.filledQuantity, u.1;
      }
      book := u.1;
      i := i + 1;
    }
    quantity := ActiveFilled(book, id);
    var c := CancelOrder(book, id, cancel, deadline);
    filled, book := false, c.1;
  }

  /** Dropping the first poll: the polls after it see the book it left. */
  lemma {:induction false} BookAfterShift(b: Book, id: string, polls: seq<Poll>, k: nat)
    requires k < |polls|
    ensures BookAfter(b, id, polls, k + 1)
            == BookAfter(UpdateOrderStatus(b, id, polls[0].reply, polls[0].at).1, id, polls[1..], k)
    decreases k
  {
    if k > 0 {
      BookAfterShift(b, id, polls, k - 1);
      assert polls[1..][k - 1] == polls[k];
    }
  }

  /** Any terminal poll is preceded by, or is, a first one. */
  lemma {:induction false} FirstEndExists(b: Book, id: string, polls: seq<Poll>, k: nat) returns (m: nat)
    requires k < |polls| && EndsAt(b, id, polls, k)
    ensures m <= k && FirstEnd(b, id, polls, m)
    decreases k
  {
    if j :| 0 <= j < k && EndsAt(b, id, polls, j) {
      m := FirstEndExists(b, id, polls, j);
    } else {
      m := k;
    }
  }

  /** The reference wait ends at the first terminal poll: a fill reports success, a
      cancel reports none, both with that poll's filled quantity and the book it left. */
  lemma {:induction false} WaitEndsAtFirstTerminal(b: Book, id: string, polls: seq<Poll>, cancel: CancelReply, deadline: real, k: nat)
    requires FirstEnd(b, id, polls, k)
    ensures WaitSpec(b, id, polls, cancel, deadline)
            == WaitOutcome(PollAt(b, id, polls, k).value.status == Filled,
                           PollAt(b, id, polls, k).value.filledQuantity,
                           BookAfter(b, id, polls, k + 1))
    decreases k
  {
    var u := UpdateOrderStatus(b, id, polls[0].reply, polls[0].at);
    if k == 0 {
      assert PollAt(b, id, polls, 0) == u.0;
    } else {
      assert !EndsAt(b, id, polls, 0) && PollAt(b, id, polls, 0) == u.0;
      forall j | 0 <= j < |polls| - 1
        ensures PollAt(u.1, id, polls[1..], j) == PollAt(b, id, polls, j + 1)
      {
        BookAfterShift(b, id, polls, j);
        assert polls[1..][j] == polls[j + 1];
      }
      assert FirstEnd(u.1, id, polls[1..], k - 1) by {
        forall j | 0 <= j < k - 1 ensures !EndsAt(u.1, id, polls[1..], j) {
          assert !EndsAt(b, id, polls, j + 1);
        }
      }
      WaitEndsAtFirstTerminal(u.1, id, polls[1..], cancel, deadline, k - 1);
      BookAfterShift(b, id, polls, k);
    }
  }

  /** With no poll reporting a terminal status, the reference wait times out: it cancels
      the order in the book the polls left, reports no fill, and returns the quantity
      filled so far (0 when the order is no longer active). */
  lemma {:induction false} WaitTimeoutCancels(b: Book, id: string, polls: seq<Poll>, cancel: CancelReply, deadline: real)
    requires forall k :: 0 <= k < |polls| ==> !EndsAt(b, id, polls, k)
    ensures WaitSpec(b, id, polls, cancel, deadline)
            == WaitOutcome(false, ActiveFilled(BookAfter(b, id, polls, |polls|), id),
                           CancelOrder(BookAfter(b, id, polls, |polls|), id, cancel, deadline).1)
    decreases |polls|
  {
    if polls != [] {
      var u := UpdateOrderStatus(b, id, polls[0].reply, polls[0].at);
      assert !EndsAt(b, id, polls, 0) && PollAt(b, id, polls, 0) == u.0;
      forall j | 0 <= j < |polls| - 1 ensures !EndsAt(u.1, id, polls[1..], j) {
        BookAfterShift(b, id, polls, j);
        assert polls[1..][j] == polls[j + 1];
        assert !EndsAt(b, id, polls, j + 1);
      }
      WaitTimeoutCancels(u.1, id, polls[1..], cancel, deadline);
      BookAfterShift(b, id, polls, |polls| - 1);
    }
  }

  /** The wait reports success exactly when the first terminal poll reported the order
      filled. */
  lemma WaitFilledOnlyOnFill(b: Book, id: string, polls: seq<Poll>, cancel: CancelReply, deadline: real)
    ensures WaitSpec(b, id, polls, cancel, deadline).filled
            <==> exists k: nat :: FirstEnd(b, id, polls, k) && PollAt(b, id, polls, k).value.status == Filled
  {
    if k :| 0 <= k < |polls| && EndsAt(b, id, polls, k) {
      var m := FirstEndExists(b, id, polls, k);
      WaitEndsAtFirstTerminal(b, id, polls, cancel, deadline, m);
    } else {
      WaitTimeoutCancels(b, id, polls, cancel, deadline);
    }
  }

  /** An external cancel ends the wait at the poll that sees it, provided no earlier
      poll was terminal and the order is still active then: no fill is reported, the
      quantity is the one filled so far, and the order is archived as cancelled at that
      poll's time. */
  lemma WaitStopsOnExternalCancel(b: Book, id: string, polls: seq<Poll>, cancel: CancelReply, deadline: real, k: nat)
    requires k < |polls| && forall j :: 0 <= j < k ==> !EndsAt(b, id, polls, j)
    requires id in BookAfter(b, id, polls, k).active
    requires polls[k].reply == StatusBody("cancelled", None, None)
    ensures var before := BookAfter(b, id, polls, k);
            var w := WaitSpec(b, id, polls, cancel, deadline);
            && !w.filled
            && w.quantity == before.active[id].filledQuantity
            && w.book.active == before.active - {id}
            && w.book.history == before.history + [before.active[id].(status := Cancelled, updatedTime := Some(polls[k].at))]
  {
    assert FirstEnd(b, id, polls, k);
    WaitEndsAtFirstTerminal(b, id, polls, cancel, deadline, k);
  }

  /** Number of accepted cancel replies. */
  function CountAccepted(replies: seq<CancelReply>): (n: nat)
    ensures n <= |replies|
  {
    if replies == [] then 0
    else (if replies[0].CancelAccepted? then 1 else 0) + CountAccepted(replies[1..])
  }

  /** Reference definition of `cancel_all_active_orders` over a snapshot `ids` of the
      active keys, with the reply each cancel call received. */
  function CancelAllSpec(b: Book, ids: seq<string>, replies: seq<CancelReply>, now: real): (nat, Book)
    requires |ids| == |replies|
    decreases |ids|
  {
    if ids == [] then (0, b)
    else
      var c := CancelOrder(b, ids[0], replies[0], now);
      var rest := CancelAllSpec(c.1, ids[1..], replies[1..], now);
      ((if c.0 then 1 else 0) + rest.0, rest.1)
  }

  /** `cancel_all_active_orders`: cancel every id of a snapshot of the active keys (in
      dictionary order, given as `ids`) and count the accepted cancels. */
  method CancelAllActiveOrders(b: Book, ids: seq<string>, replies: seq<CancelReply>, now: real)
    returns (count: nat, book: Book)
    requires |ids| == |replies|
    ensures (count, book) == CancelAllSpec(b, ids, replies, now)
  {
    count := 0;
    book := b;
    var i := 0;
    while i < |ids|
      invariant 0 <= i <= |ids|
      invariant count + CancelAllSpec(book, ids[i..], replies[i..], now).0 == CancelAllSpec(b, ids, replies, now).0
      invariant CancelAllSpec(book, ids[i..], replies[i..], now).1 == CancelAllSpec(b, ids, replies, now).1
    {
      assert ids[i..][1..] == ids[i + 1..] && replies[i..][1..] == replies[i + 1..];
      var c := CancelOrder(book, ids[i], replies[i], now);
      if c.0 {
        count := count + 1;
      }
      book := c.1;
      i := i + 1;
    }
  }

  /** The count is the number of accepted cancels, and each accepted cancel of an active
      order adds one history entry; the count never exceeds the number of ids. */
  lemma {:induction false} CancelAllCounts(b: Book, ids: seq<string>, replies: seq<CancelReply>, now: real)
    requires |ids| == |replies|
    ensures CancelAllSpec(b, ids, replies, now).0 == CountAccepted(replies)
    ensures CancelAllSpec(b, ids, replies, now).0 <= |ids|
    decreases |ids|
  {
    if ids != [] {
      var c := CancelOrder(b, ids[0], replies[0], now);
      CancelAllCounts(c.1, ids[1..], replies[1..], now);
    }
  }

  /** After the sweep an order is still active exactly when it was active and every
      cancel aimed at it raised an error. */
  lemma {:induction false} CancelAllRemaining(b: Book, ids: seq<string>, replies: seq<CancelReply>, now: real, k: string)
    requires |ids| == |replies|
    ensures k in CancelAllSpec(b, ids, replies, now).1.active <==>
              k in b.active && forall j :: 0 <= j < |ids| && ids[j] == k ==> replies[j].CancelRaised?
    decreases |ids|
  {
    if ids != [] {
      var c := CancelOrder(b, ids[0], replies[0], now);
      CancelAllRemaining(c.1, ids[1..], replies[1..], now, k);
      assert forall j :: 1 <= j < |ids| ==> ids[j] == ids[1..][j - 1] && replies[j] == replies[1..][j - 1];
    }
  }

  /** With `ids` the distinct active keys, the count is at most the number of active
      orders before the sweep. */
  lemma CancelAllBoundedByActive(b: Book, ids: seq<string>, replies: seq<CancelReply>, now: real)
    requires |ids| == |replies|
    requires forall i, j :: 0 <= i < j < |ids| ==> ids[i] != ids[j]
    requires forall i :: 0 <= i < |ids| ==> ids[i] in b.active
    ensures CancelAllSpec(b, ids, replies, now).0 <= |b.active|
  {
    CancelAllCounts(b, ids, replies, now);
    DistinctIdsFitKeys(ids, b.active.Keys);
  }

  lemma {:induction false} DistinctIdsFitKeys(ids: seq<string>, keys: set<string>)
    requires forall i, j :: 0 <= i < j < |ids| ==> ids[i] != ids[j]
    requires forall i :: 0 <= i < |ids| ==> ids[i] in keys
    ensures |ids| <= |keys|
    decreases |ids|
  {
    if ids != [] {
      var last := ids[|ids| - 1];
      var rest := ids[..|ids| - 1];
      assert forall i :: 0 <= i < |rest| ==> rest[i] != last;
      DistinctIdsFitKeys(rest, keys - {last});
    }
  }
}

=== FILE: performance.dfy ===
/** The backtest performance analyzer: trade statistics (win rate, average win and loss,
    profit factor, expectancy, holding time), the drawdown of the equity curve, the
    list of drawdown periods, and the comparison with buying and holding. Volatility and
    the Sharpe, Sortino and Calmar ratios need square roots and powers and are not part
    of this model. */
module Performance {
  import opened Wrappers
  import opened Series
  import Numeric
  import opened BacktestEngine

  // ---------------------------------------------------------------------------------
  // Sums, means and extremes
  // ---------------------------------------------------------------------------------

  /** Python's `sum`. */
  function Sum(xs: seq<real>): real
    decreases |xs|
  {
    if xs == [] then 0.0 else Sum(xs[..|xs| - 1]) + xs[|xs| - 1]
  }

  /** A sum of positive numbers is positive unless empty. */
  lemma {:induction false} SumOfPositives(xs: seq<real>)
    requires forall i :: 0 <= i < |xs| ==> xs[i] > 0.0
    ensures Sum(xs) >= 0.0 && (xs != [] ==> Sum(xs) > 0.0)
    decreases |xs|
  {
    if xs != [] {
      SumOfPositives(xs[..|xs| - 1]);
    }
  }

  /** A sum of negative numbers is negative unless empty. */
  lemma {:induction false} SumOfNegatives(xs: seq<real>)
    requires forall i :: 0 <= i < |xs| ==> xs[i] < 0.0
    ensures Sum(xs) <= 0.0 && (xs != [] ==> Sum(xs) < 0.0)
    decreases |xs|
  {
    if xs != [] {
      SumOfNegatives(xs[..|xs| - 1]);
    }
  }

  /** A sum of numbers that are all at most `b` is at most `b` times their count. */
  lemma {:induction false} SumAtMostCountTimesBound(xs: seq<real>, b: real)
    requires forall i :: 0 <= i < |xs| ==> xs[i] <= b
    ensures Sum(xs) <= b * |xs| as real
    decreases |xs|
  {
    if xs != [] {
      SumAtMostCountTimesBound(xs[..|xs| - 1], b);
    }
  }

  /** `q` is `num / den`, stated without division. */
  predicate IsRatio(q: real, num: real, den: real) {
    den != 0.0 && q * den == num
  }

  /** `num / den` for a non-zero denominator. */
  function Ratio(num: real, den: real): (q: real)
    requires den != 0.0
    ensures IsRatio(q, num, den)
  {
    Numeric.Div(num, den)
  }

  /** `np.mean` of a non-empty list. */
  function Mean(xs: seq<real>): (m: real)
    requires |xs| > 0
    ensures IsRatio(m, Sum(xs), |xs| as real)
  {
    Ratio(Sum(xs), |xs| as real)
  }

  /** Python's `max` of a non-empty list. */
  function MaxOf(xs: seq<real>): (m: real)
    requires |xs| > 0
    ensures m in xs && forall i :: 0 <= i < |xs| ==> xs[i] <= m
    decreases |xs|
  {
    if |xs| == 1 then xs[0]
    else
      var rest := MaxOf(xs[..|xs| - 1]);
      assert forall i :: 0 <= i < |xs| - 1 ==> xs[..|xs| - 1][i] == xs[i];
      if xs[|xs| - 1] > rest then xs[|xs| - 1] else rest
  }

  /** Python's `min` of a non-empty list. */
  function MinOf(xs: seq<real>): (m: real)
    requires |xs| > 0
    ensures m in xs && forall i :: 0 <= i < |xs| ==> m <= xs[i]
    decreases |xs|
  {
    if |xs| == 1 then xs[0]
    else
      var rest := MinOf(xs[..|xs| - 1]);
      assert forall i :: 0 <= i < |xs| - 1 ==> xs[..|xs| - 1][i] == xs[i];
      if xs[|xs| - 1] < rest then xs[|xs| - 1] else rest
  }

  /** A non-negative multiple of a positive number has a non-negative factor. */
  lemma NonNegativeFactor(a: real, k: real)
    requires k > 0.0 && a * k >= 0.0
    ensures a >= 0.0
  {
    if a < 0.0 {
      Numeric.MulPositive(-a, k);
    }
  }

  /** Dividing both sides by a positive number keeps an inequality. */
  lemma ScaledBelow(a: real, b: real, k: real)
    requires k > 0.0 && a * k <= b * k
    ensures a <= b
  {
    if a > b {
      Numeric.MulPositive(a - b, k);
    }
  }

  /** The mean of numbers that are all at most `b` is at most `b`. */
  lemma MeanAtMost(xs: seq<real>, b: real)
    requires |xs| > 0 && forall i :: 0 <= i < |xs| ==> xs[i] <= b
    ensures Mean(xs) <= b
  {
    SumAtMostCountTimesBound(xs, b);
    ScaledBelow(Mean(xs), b, |xs| as real);
  }

  // ---------------------------------------------------------------------------------
  // Winners and losers
  // ---------------------------------------------------------------------------------

  /** `[x for x in xs if x > 0]`. */
  function Positives(xs: seq<real>): (r: seq<real>)
    ensures |r| <= |xs|
    ensures forall i :: 0 <= i < |r| ==> r[i] > 0.0
    ensures forall i :: 0 <= i < |xs| && xs[i] > 0.0 ==> xs[i] in r
    decreases |xs|
  {
    if xs == [] then []
    else
      var init := xs[..|xs| - 1];
      var rest := Positives(init);
      assert forall i :: 0 <= i < |init| ==> init[i] == xs[i];
      if xs[|xs| - 1] > 0.0 then rest + [xs[|xs| - 1]] else rest
  }

  /** `[x for x in xs if x < 0]`. */
  function Negatives(xs: seq<real>): (r: seq<real>)
    ensures |r| <= |xs|
    ensures forall i :: 0 <= i < |r| ==> r[i] < 0.0
    ensures forall i :: 0 <= i < |xs| && xs[i] < 0.0 ==> xs[i] in r
    decreases |xs|
  {
    if xs == [] then []
    else
      var init := xs[..|xs| - 1];
      var rest := Negatives(init);
      assert forall i :: 0 <= i < |init| ==> init[i] == xs[i];
      if xs[|xs| - 1] < 0.0 then rest + [xs[|xs| - 1]] else rest
  }

  /** The number of exact zeros: trades that neither won nor lost. */
  function ZeroCount(xs: seq<real>): nat
    decreases |xs|
  {
    if xs == [] then 0 else ZeroCount(xs[..|xs| - 1]) + (if xs[|xs| - 1] == 0.0 then 1 else 0)
  }

  /** Every trade is a winner, a loser or break-even, so winners and losers together
      number the trades exactly when none broke even. */
  lemma {:induction false} SignsPartition(xs: seq<real>)
    ensures |Positives(xs)| + |Negatives(xs)| + ZeroCount(xs) == |xs|
    decreases |xs|
  {
    if xs != [] {
      SignsPartition(xs[..|xs| - 1]);
    }
  }

  /** The profit and loss of each trade. */
  function Pnls(trades: seq<Trade>): (r: seq<real>)
    ensures |r| == |trades| && forall i :: 0 <= i < |trades| ==> r[i] == trades[i].pnl
  {
    seq(|trades|, i requires 0 <= i < |trades| => trades[i].pnl)
  }

  /** The time from entry to exit of a closed trade, in hours (seconds over 3600). */
  function Duration(t: Trade): real
    requires t.exitTime.Some?
  {
    (t.exitTime.value - t.entryTime) as real / 3600.0
  }

  /** The holding time in hours of every trade that has an exit time, in trade order. */
  function HoldingHours(trades: seq<Trade>): (r: seq<real>)
    ensures |r| <= |trades|
    ensures r == [] <==> forall i :: 0 <= i < |trades| ==> trades[i].exitTime.None?
    ensures forall i :: 0 <= i < |trades| && trades[i].exitTime.Some? ==> Duration(trades[i]) in r
    ensures forall j :: 0 <= j < |r| ==>
              exists i :: 0 <= i < |trades| && trades[i].exitTime.Some? && r[j] == Duration(trades[i])
    decreases |trades|
  {
    if trades == [] then []
    else
      var init := trades[..|trades| - 1];
      var last := trades[|trades| - 1];
      var rest := HoldingHours(init);
      assert forall i :: 0 <= i < |init| ==> init[i] == trades[i];
      if last.exitTime.Some? then rest + [Duration(last)] else rest
  }

  /** Holding periods are collected trade by trade: those of a concatenation are those
      of its two parts, one after the other, so together with the single-trade case
      this fixes the order of the periods. */
  lemma {:induction false} HoldingHoursAppend(a: seq<Trade>, b: seq<Trade>)
    ensures HoldingHours(a + b) == HoldingHours(a) + HoldingHours(b)
    decreases |b|
  {
    if b == [] {
      assert a + b == a;
    } else {
      var init := b[..|b| - 1];
      assert (a + b)[..|a + b| - 1] == a + init;
      assert (a + b)[|a + b| - 1] == b[|b| - 1];
      HoldingHoursAppend(a, init);
    }
  }

  /** A single trade contributes its duration if it has exited and nothing otherwise. */
  lemma HoldingHoursOfOne(t: Trade)
    ensures HoldingHours([t]) == if t.exitTime.Some? then [Duration(t)] else []
  {
    assert [t][..0] == [];
  }

  // ---------------------------------------------------------------------------------
  // The metrics
  // ---------------------------------------------------------------------------------

  /** The metrics this model computes; percentages are in percent. */
  datatype Metrics = Metrics(
    totalReturn: real,
    totalReturnAbs: real,
    totalTrades: nat,
    winningTrades: nat,
    losingTrades: nat,
    winRate: real,
    avgWin: real,
    avgLoss: real,
    profitFactor: real,
    avgTradePnl: real,
    maxDrawdown: real,
    maxDrawdownAbs: real,
    avgHoldingPeriod: real,
    maxHoldingPeriod: real,
    recoveryFactor: real,
    expectancy: real)

  /** `PerformanceMetrics()`: every field zero. */
  const Fresh: Metrics := Metrics(0.0, 0.0, 0, 0, 0, 0.0, 0.0, 0.0, 0.0, 0.0, 0.0, 0.0, 0.0, 0.0, 0.0, 0.0)

  /** `pct` percent is the return from `from` to `to`. */
  predicate IsReturnPct(pct: real, from: real, to: real) {
    from != 0.0 && (pct / 100.0 + 1.0) * from == to
  }

  /** `((final / initial) - 1) * 100`. */
  function ReturnPct(final: real, initial: real): (r: real)
    requires initial != 0.0
    ensures IsReturnPct(r, initial, final)
  {
    (Numeric.Div(final, initial) - 1.0) * 100.0
  }

  /** The mean of a list, or `fallback` for an empty one. */
  function MeanOr(xs: seq<real>, fallback: real): (a: real)
    ensures xs != [] ==> IsRatio(a, Sum(xs), |xs| as real)
    ensures xs == [] ==> a == fallback
  {
    if xs != [] then Mean(xs) else fallback
  }

  /** The mean of a non-empty list of positive numbers is positive. */
  lemma MeanOfPositives(xs: seq<real>)
    requires xs != [] && forall i :: 0 <= i < |xs| ==> xs[i] > 0.0
    ensures Mean(xs) > 0.0
  {
    SumOfPositives(xs);
    Numeric.PositiveFactor(Mean(xs), |xs| as real);
  }

  /** The mean of a non-empty list of negative numbers is negative. */
  lemma MeanOfNegatives(xs: seq<real>)
    requires xs != [] && forall i :: 0 <= i < |xs| ==> xs[i] < 0.0
    ensures Mean(xs) < 0.0
  {
    SumOfNegatives(xs);
    var m := Mean(xs);
    assert (-m) * |xs| as real == -Sum(xs);
    Numeric.PositiveFactor(-m, |xs| as real);
  }

  /** `winning_trades / total_trades * 100`. */
  function WinRate(winning: nat, total: nat): (w: real)
    requires winning <= total && total > 0
    ensures 0.0 <= w <= 100.0
    ensures IsRatio(w, 100.0 * winning as real, total as real)
  {
    var w := Ratio(100.0 * winning as real, total as real);
    assert 0.0 <= w <= 100.0 by {
      NonNegativeFactor(w, total as real);
      NonNegativeFactor(100.0 - w, total as real);
    }
    w
  }

  /** `gross_profit / gross_loss` when some trade lost, else `fallback`. */
  function ProfitFactor(wins: seq<real>, losses: seq<real>, fallback: real): (pf: real)
    requires forall i :: 0 <= i < |wins| ==> wins[i] > 0.0
    requires forall i :: 0 <= i < |losses| ==> losses[i] < 0.0
    ensures losses != [] ==> IsRatio(pf, Sum(wins), -Sum(losses)) && pf >= 0.0
    ensures losses == [] ==> pf == fallback
  {
    SumOfPositives(wins);
    SumOfNegatives(losses);
    var grossLoss := Numeric.Abs(Sum(losses));
    if grossLoss > 0.0 then
      var pf := Ratio(Sum(wins), grossLoss);
      NonNegativeFactor(pf, grossLoss);
      pf
    else fallback
  }

  /** The win statistics of `_analyze_trades`: counts, win rate, averages and profit
      factor; fields without data keep their previous values. */
  function WinStats(pnls: seq<real>, m: Metrics): (r: Metrics)
    requires |pnls| > 0
    ensures var wins := Positives(pnls);
            var losses := Negatives(pnls);
            && r.winningTrades == |wins| && r.losingTrades == |losses|
            && r.winningTrades + r.losingTrades + ZeroCount(pnls) == |pnls|
            && IsRatio(r.winRate, 100.0 * |wins| as real, |pnls| as real) && 0.0 <= r.winRate <= 100.0
            && (wins != [] ==> IsRatio(r.avgWin, Sum(wins), |wins| as real) && r.avgWin > 0.0)
            && (wins == [] ==> r.avgWin == m.avgWin)
            && (losses != [] ==> IsRatio(r.avgLoss, Sum(losses), |losses| as real) && r.avgLoss < 0.0)
            && (losses == [] ==> r.avgLoss == m.avgLoss)
            && (losses != [] ==> IsRatio(r.profitFactor, Sum(wins), -Sum(losses)) && r.profitFactor >= 0.0)
            && (losses == [] ==> r.profitFactor == m.profitFactor)
    ensures r.(winningTrades := m.winningTrades, losingTrades := m.losingTrades, winRate := m.winRate,
               avgWin := m.avgWin, avgLoss := m.avgLoss, profitFactor := m.profitFactor) == m
  {
    var wins := Positives(pnls);
    var losses := Negatives(pnls);
    SignsPartition(pnls);
    assert wins != [] ==> Mean(wins) > 0.0 by {
      if wins != [] {
        MeanOfPositives(wins);
      }
    }
    assert losses != [] ==> Mean(losses) < 0.0 by {
      if losses != [] {
        MeanOfNegatives(losses);
      }
    }
    m.(winningTrades := |wins|, losingTrades := |losses|, winRate := WinRate(|wins|, |pnls|),
       avgWin := MeanOr(wins, m.avgWin), avgLoss := MeanOr(losses, m.avgLoss),
       profitFactor := ProfitFactor(wins, losses, m.profitFactor))
  }

  /** `_analyze_trades`: the trade count always; for a non-empty list also the win
      statistics, the mean profit and loss, the holding times of trades with an exit, and
      the expectancy when the average win is positive and the average loss negative. The
      return and drawdown fields are not touched. */
  function AnalyzeTrades(trades: seq<Trade>, m: Metrics): (r: Metrics)
    ensures r.totalTrades == |trades|
    ensures trades == [] ==> r == m.(totalTrades := 0)
    ensures trades != [] ==>
              && r.winningTrades == |Positives(Pnls(trades))| && r.losingTrades == |Negatives(Pnls(trades))|
              && r.winningTrades + r.losingTrades <= r.totalTrades
              && 0.0 <= r.winRate <= 100.0
              && (r.winningTrades > 0 ==> r.avgWin > 0.0) && (r.winningTrades == 0 ==> r.avgWin == m.avgWin)
              && (r.losingTrades > 0 ==> r.avgLoss < 0.0) && (r.losingTrades == 0 ==> r.avgLoss == m.avgLoss)
              && IsRatio(r.avgTradePnl, Sum(Pnls(trades)), |trades| as real)
    ensures trades != [] && r.avgWin > 0.0 && r.avgLoss < 0.0 ==> r.expectancy == Expectancy(r.winRate, r.avgWin, r.avgLoss)
    ensures !(trades != [] && r.avgWin > 0.0 && r.avgLoss < 0.0) ==> r.expectancy == m.expectancy
    ensures var hours := HoldingHours(trades);
            trades != [] && hours != [] ==> r.avgHoldingPeriod <= r.maxHoldingPeriod && r.maxHoldingPeriod in hours
    ensures r.totalReturn == m.totalReturn && r.totalReturnAbs == m.totalReturnAbs
    ensures r.maxDrawdown == m.maxDrawdown && r.maxDrawdownAbs == m.maxDrawdownAbs
    ensures r.recoveryFactor == m.recoveryFactor
  {
    if trades == [] then m.(totalTrades := 0)
    else
      var pnls := Pnls(trades);
      var s := WinStats(pnls, m).(totalTrades := |trades|, avgTradePnl := Mean(pnls));
      var hours := HoldingHours(trades);
      var t := WithHoldingPeriods(s, hours);
      if t.avgWin > 0.0 && t.avgLoss < 0.0 then t.(expectancy := Expectancy(t.winRate, t.avgWin, t.avgLoss))
      else t
  }

  /** The win statistics `AnalyzeTrades` records, as ratios of the trades' sums: the
      win rate over all trades, the average win and loss over the winners and losers,
      and the profit factor only when some trade lost. */
  lemma AnalyzeTradesWinStatistics(trades: seq<Trade>, m: Metrics)
    ensures var r := AnalyzeTrades(trades, m);
            trades != [] ==>
              var wins := Positives(Pnls(trades));
              var losses := Negatives(Pnls(trades));
              && IsRatio(r.winRate, 100.0 * |wins| as real, |trades| as real)
              && (wins != [] ==> IsRatio(r.avgWin, Sum(wins), |wins| as real))
              && (losses != [] ==> IsRatio(r.avgLoss, Sum(losses), |losses| as real))
              && (losses != [] ==> IsRatio(r.profitFactor, Sum(wins), -Sum(losses)))
              && (losses == [] ==> r.profitFactor == m.profitFactor)
  {
    if trades != [] {
      var pnls := Pnls(trades);
      var w := WinStats(pnls, m);
      var s := w.(totalTrades := |trades|, avgTradePnl := Mean(pnls));
      var t := WithHoldingPeriods(s, HoldingHours(trades));
      var r := AnalyzeTrades(trades, m);
      assert r.winRate == t.winRate == w.winRate;
      assert r.avgWin == t.avgWin == w.avgWin;
      assert r.avgLoss == t.avgLoss == w.avgLoss;
      assert r.profitFactor == t.profitFactor == w.profitFactor;
    }
  }

  /** The holding periods `AnalyzeTrades` records: their mean and their maximum when
      some trade has exited, and the fields left as they were when none has. */
  lemma AnalyzeTradesHoldingPeriods(trades: seq<Trade>, m: Metrics)
    ensures var r := AnalyzeTrades(trades, m);
            var hours := HoldingHours(trades);
            && (trades != [] && hours != [] ==>
                  && IsRatio(r.avgHoldingPeriod, Sum(hours), |hours| as real)
                  && forall j :: 0 <= j < |hours| ==> hours[j] <= r.maxHoldingPeriod)
            && (hours == [] ==> r.avgHoldingPeriod == m.avgHoldingPeriod && r.maxHoldingPeriod == m.maxHoldingPeriod)
  {
    if trades != [] {
      var pnls := Pnls(trades);
      var w := WinStats(pnls, m);
      var s := w.(totalTrades := |trades|, avgTradePnl := Mean(pnls));
      var t := WithHoldingPeriods(s, HoldingHours(trades));
      var r := AnalyzeTrades(trades, m);
      assert r.avgHoldingPeriod == t.avgHoldingPeriod && r.maxHoldingPeriod == t.maxHoldingPeriod;
      assert s.avgHoldingPeriod == w.avgHoldingPeriod == m.avgHoldingPeriod;
      assert s.maxHoldingPeriod == w.maxHoldingPeriod == m.maxHoldingPeriod;
    }
  }

  /** Records the mean and the longest of the holding periods, if there are any. */
  function WithHoldingPeriods(s: Metrics, hours: seq<real>): (r: Metrics)
    ensures hours != [] ==>
              && IsRatio(r.avgHoldingPeriod, Sum(hours), |hours| as real)
              && r.maxHoldingPeriod in hours && (forall j :: 0 <= j < |hours| ==> hours[j] <= r.maxHoldingPeriod)
              && r.avgHoldingPeriod <= r.maxHoldingPeriod
    ensures r.(avgHoldingPeriod := s.avgHoldingPeriod, maxHoldingPeriod := s.maxHoldingPeriod) == s
  {
    if hours == [] then s
    else
      MeanAtMost(hours, MaxOf(hours));
      s.(avgHoldingPeriod := Mean(hours), maxHoldingPeriod := MaxOf(hours))
  }

  /** `win_prob * avg_win + loss_prob * avg_loss` with `win_prob = win_rate / 100` and
      `loss_prob = 1 - win_prob`: a weighted average of the two, so it lies between
      them, equal to the average win when every trade won and to the average loss when
      none did. */
  function Expectancy(winRate: real, avgWin: real, avgLoss: real): (e: real)
    requires 0.0 <= winRate <= 100.0 && avgLoss <= avgWin
    ensures avgLoss <= e <= avgWin
    ensures winRate == 100.0 ==> e == avgWin
    ensures winRate == 0.0 ==> e == avgLoss
  {
    var p := winRate / 100.0;
    var spread := avgWin - avgLoss;
    Numeric.MulNonNegative(p, spread);
    Numeric.MulNonNegative(1.0 - p, spread);
    assert p * avgWin + (1.0 - p) * avgLoss - avgLoss == p * spread;
    assert avgWin - (p * avgWin + (1.0 - p) * avgLoss) == (1.0 - p) * spread;
    p * avgWin + (1.0 - p) * avgLoss
  }

  /** With the fresh averages (zero), the expectancy is set exactly when some trade won
      and some trade lost, and then lies between the average loss and the average win.
      Break-even trades count toward the loss probability, which is one minus the win
      probability. */
  lemma ExpectancyNeedsWinnerAndLoser(trades: seq<Trade>, m: Metrics)
    requires trades != [] && m.avgWin <= 0.0 && m.avgLoss >= 0.0
    ensures var r := AnalyzeTrades(trades, m);
            && (r.winningTrades > 0 && r.losingTrades > 0 ==>
                  r.expectancy == Expectancy(r.winRate, r.avgWin, r.avgLoss) && r.avgLoss <= r.expectancy <= r.avgWin)
            && (r.winningTrades == 0 || r.losingTrades == 0 ==> r.expectancy == m.expectancy)
  {
  }

  // ---------------------------------------------------------------------------------
  // The equity curve
  // ---------------------------------------------------------------------------------

  /** The `total_equity` column. */
  function Equities(curve: seq<EquityPoint>): (xs: seq<real>)
    ensures |xs| == |curve| && forall i :: 0 <= i < |curve| ==> xs[i] == curve[i].totalEquity
  {
    seq(|curve|, i requires 0 <= i < |curve| => curve[i].totalEquity)
  }

  /** `expanding().max()` at position `i`: the highest value up to it. */
  function Peak(xs: seq<real>, i: int): (p: real)
    requires 0 <= i < |xs|
    ensures forall j :: 0 <= j <= i ==> xs[j] <= p
    ensures exists j :: 0 <= j <= i && p == xs[j]
    decreases i
  {
    if i == 0 then xs[0]
    else
      var before := Peak(xs, i - 1);
      if xs[i] > before then xs[i] else before
  }

  /** The running peak never falls. */
  lemma PeakGrows(xs: seq<real>, i: int, j: int)
    requires 0 <= i <= j < |xs|
    ensures Peak(xs, i) <= Peak(xs, j)
  {
    var k :| 0 <= k <= i && Peak(xs, i) == xs[k];
  }

  /** The drawdown at position `i` as a fraction of the running peak; a curve starting
      above zero keeps a positive peak. */
  function Fraction(xs: seq<real>, i: int): (f: real)
    requires 0 <= i < |xs| && xs[0] > 0.0
    ensures f <= 0.0
    ensures f == 0.0 <==> xs[i] == Peak(xs, i)
    ensures xs[i] >= 0.0 ==> f >= -1.0
  {
    var p := Peak(xs, i);
    var f := Numeric.Div(xs[i] - p, p);
    FractionBounds(xs[i], p, f);
    f
  }

  /** The relative fall `f` of a value `x` below a positive peak `p`. */
  lemma FractionBounds(x: real, p: real, f: real)
    requires p > 0.0 && x <= p && f * p == x - p
    ensures f <= 0.0 && (f == 0.0 <==> x == p) && (x >= 0.0 ==> f >= -1.0)
  {
    if f > 0.0 {
      Numeric.MulPositive(f, p);
    }
    if x - p == 0.0 {
      Numeric.ZeroProduct(f, p);
    }
    if x >= 0.0 && f < -1.0 {
      Numeric.MulPositive(-1.0 - f, p);
    }
  }

  /** `(equity - running_max) / running_max * 100` for the whole curve. */
  function DrawdownPcts(xs: seq<real>): (ds: seq<real>)
    requires |xs| > 0 && xs[0] > 0.0
    ensures |ds| == |xs| && forall i :: 0 <= i < |xs| ==> ds[i] == Fraction(xs, i) * 100.0
  {
    seq(|xs|, i requires 0 <= i < |xs| => Fraction(xs, i) * 100.0)
  }

  /** `abs(drawdown.min())`: the deepest drawdown in percent. */
  function MaxDrawdown(xs: seq<real>): (d: real)
    requires |xs| > 0 && xs[0] > 0.0
    ensures d >= 0.0
  {
    Numeric.Abs(MinOf(DrawdownPcts(xs)))
  }

  /** `equity - running_max` for the whole curve: each point's fall below its peak, in money. */
  function Falls(xs: seq<real>): (fs: seq<real>)
    ensures |fs| == |xs| && forall i :: 0 <= i < |xs| ==> fs[i] == xs[i] - Peak(xs, i)
  {
    seq(|xs|, i requires 0 <= i < |xs| => xs[i] - Peak(xs, i))
  }

  /** `abs((equity - running_max).min())`: the deepest drawdown in money. */
  function MaxDrawdownAbs(xs: seq<real>): (d: real)
    requires |xs| > 0
    ensures d >= 0.0
  {
    Numeric.Abs(MinOf(Falls(xs)))
  }

  /** The money drawdown is the deepest fall below the running peak: no point falls
      further, and one point falls exactly that far. */
  lemma MaxDrawdownAbsIsDeepest(xs: seq<real>)
    requires |xs| > 0
    ensures forall i :: 0 <= i < |xs| ==> Peak(xs, i) - xs[i] <= MaxDrawdownAbs(xs)
    ensures exists i :: 0 <= i < |xs| && Peak(xs, i) - xs[i] == MaxDrawdownAbs(xs)
  {
    var fs := Falls(xs);
    var low := MinOf(fs);
    assert low <= 0.0 by {
      assert fs[0] == xs[0] - Peak(xs, 0);
    }
    assert MaxDrawdownAbs(xs) == -low;
    forall i | 0 <= i < |xs| ensures Peak(xs, i) - xs[i] <= -low {
      assert low <= fs[i];
    }
    var k :| 0 <= k < |fs| && fs[k] == low;
    assert Peak(xs, k) - xs[k] == -low;
  }

  /** The maximum drawdown is the deepest fall below the running peak: no point is
      deeper, one point reaches it, and it is at most 100% while equity stays
      non-negative. */
  lemma MaxDrawdownIsDeepest(xs: seq<real>)
    requires |xs| > 0 && xs[0] > 0.0
    ensures forall i :: 0 <= i < |xs| ==> -Fraction(xs, i) * 100.0 <= MaxDrawdown(xs)
    ensures exists i :: 0 <= i < |xs| && -Fraction(xs, i) * 100.0 == MaxDrawdown(xs)
    ensures (forall i :: 0 <= i < |xs| ==> xs[i] >= 0.0) ==> MaxDrawdown(xs) <= 100.0
  {
    var ds := DrawdownPcts(xs);
    var low := MinOf(ds);
    assert low <= 0.0 by {
      assert ds[0] == Fraction(xs, 0) * 100.0;
    }
    var k :| 0 <= k < |ds| && ds[k] == low;
    assert -Fraction(xs, k) * 100.0 == MaxDrawdown(xs);
  }

  /** The maximum drawdown is zero exactly when the equity never falls. */
  lemma MaxDrawdownZeroIffNeverFalls(xs: seq<real>)
    requires |xs| > 0 && xs[0] > 0.0
    ensures MaxDrawdown(xs) == 0.0 <==> forall i, j :: 0 <= i < j < |xs| ==> xs[i] <= xs[j]
  {
    var ds := DrawdownPcts(xs);
    if forall i, j :: 0 <= i < j < |xs| ==> xs[i] <= xs[j] {
      forall i | 0 <= i < |xs| ensures ds[i] == 0.0 {
        var k :| 0 <= k <= i && Peak(xs, i) == xs[k];
        assert xs[i] == Peak(xs, i);
      }
      var low := MinOf(ds);
      assert low == 0.0;
    } else {
      var i, j :| 0 <= i < j < |xs| && xs[i] > xs[j];
      assert Peak(xs, j) >= xs[i];
      assert Fraction(xs, j) < 0.0;
      MaxDrawdownIsDeepest(xs);
    }
  }

  /** The drawdown part of `_analyze_equity_curve`: nothing for a curve with fewer than two
      points (no returns); otherwise the maximum drawdown in percent and in money, and
      the recovery factor (total return over maximum drawdown) when the drawdown is
      positive. Every other field is kept. */
  function AnalyzeEquityCurve(curve: seq<EquityPoint>, m: Metrics): (r: Metrics)
    requires curve != [] ==> curve[0].totalEquity > 0.0
    ensures |curve| < 2 ==> r == m
    ensures |curve| >= 2 ==>
              && r.maxDrawdown == MaxDrawdown(Equities(curve)) && r.maxDrawdownAbs == MaxDrawdownAbs(Equities(curve))
              && (r.maxDrawdown > 0.0 ==> IsRatio(r.recoveryFactor, m.totalReturn, r.maxDrawdown))
              && (r.maxDrawdown == 0.0 ==> r.recoveryFactor == m.recoveryFactor)
    ensures r.(maxDrawdown := m.maxDrawdown, maxDrawdownAbs := m.maxDrawdownAbs, recoveryFactor := m.recoveryFactor) == m
  {
    if |curve| < 2 then m
    else
      var xs := Equities(curve);
      var dd := MaxDrawdown(xs);
      m.(maxDrawdown := dd, maxDrawdownAbs := MaxDrawdownAbs(xs),
         recoveryFactor := if dd > 0.0 then Ratio(m.totalReturn, dd) else m.recoveryFactor)
  }

  /** `analyze_backtest_result`: the total return when the initial balance is positive,
      then the trade analysis for a non-empty trade list, then the equity-curve analysis
      for a non-empty curve. */
  function AnalyzeBacktestResult(trades: seq<Trade>, curve: seq<EquityPoint>, initial: real, final: real): (r: Metrics)
    requires curve != [] ==> curve[0].totalEquity > 0.0
    ensures initial > 0.0 ==> IsReturnPct(r.totalReturn, initial, final) && r.totalReturnAbs == final - initial
    ensures initial <= 0.0 ==> r.totalReturn == 0.0 && r.totalReturnAbs == 0.0
    ensures r.totalTrades == |trades| && r.maxDrawdown >= 0.0
    ensures |curve| >= 2 ==> r.maxDrawdown == MaxDrawdown(Equities(curve))
                             && r.maxDrawdownAbs == MaxDrawdownAbs(Equities(curve))
    ensures trades == [] ==> r.winningTrades == 0 && r.losingTrades == 0 && r.expectancy == 0.0
  {
    var withReturn := if initial > 0.0 then Fresh.(totalReturn := ReturnPct(final, initial), totalReturnAbs := final - initial) else Fresh;
    var withTrades := if trades != [] then AnalyzeTrades(trades, withReturn) else withReturn;
    if curve != [] then AnalyzeEquityCurve(curve, withTrades) else withTrades
  }

  // ---------------------------------------------------------------------------------
  // Drawdown periods
  // ---------------------------------------------------------------------------------

  /** One entry of `analyze_drawdown_periods`. */
  datatype DrawdownPeriod = DrawdownPeriod(
    startTime: int,
    endTime: int,
    durationHours: real,
    maxDrawdownPct: real,
    startEquity: real,
    minEquity: real,
    endEquity: real)

  /** The drawdown fractions from position `s` to `e` inclusive. */
  function Fractions(xs: seq<real>, s: int, e: int): (fs: seq<real>)
    requires 0 <= s <= e < |xs| && xs[0] > 0.0
    ensures |fs| == e - s + 1 && forall k :: 0 <= k < |fs| ==> fs[k] == Fraction(xs, s + k)
  {
    seq(e - s + 1, k requires 0 <= k < e - s + 1 => Fraction(xs, s + k))
  }

  /** The record of a period that opened at `s` and closed at `e`. */
  function PeriodOf(curve: seq<EquityPoint>, s: int, e: int): DrawdownPeriod
    requires 0 <= s <= e < |curve| && curve[0].totalEquity > 0.0
  {
    var xs := Equities(curve);
    DrawdownPeriod(curve[s].timestamp, curve[e].timestamp, (curve[e].timestamp - curve[s].timestamp) as real / 3600.0,
                   Numeric.Abs(MinOf(Fractions(xs, s, e))) * 100.0, xs[s], MinOf(xs[s..e + 1]), xs[e])
  }

  /** A period deeper than 1% that recovered: its depth exceeds 1%, its lowest equity is
      at most its opening equity, and it closed at a new peak above where it opened. */
  predicate Recorded(p: DrawdownPeriod) {
    p.maxDrawdownPct > 1.0 && p.minEquity <= p.startEquity && p.startEquity < p.endEquity
  }

  /** A period that opened below -1% and closed back at its running peak passes the
      recording threshold and opens below where it closes. */
  lemma PeriodIsRecorded(curve: seq<EquityPoint>, s: int, e: int)
    requires 0 <= s <= e < |curve| && curve[0].totalEquity > 0.0
    requires Fraction(Equities(curve), s) < -0.01 && Fraction(Equities(curve), e) >= 0.0
    ensures Numeric.Abs(MinOf(Fractions(Equities(curve), s, e))) > 0.01
    ensures Recorded(PeriodOf(curve, s, e))
  {
    var xs := Equities(curve);
    var fs := Fractions(xs, s, e);
    assert fs[0] == Fraction(xs, s);
    assert xs[s] in xs[s..e + 1];
    assert xs[s] < Peak(xs, s);
    PeakGrows(xs, s, e);
    assert xs[s] < xs[e];
  }

  /** Every period in the list was recorded. */
  predicate AllRecorded(ps: seq<DrawdownPeriod>) {
    forall k :: 0 <= k < |ps| ==> Recorded(ps[k])
  }

  lemma AllRecordedConcat(a: seq<DrawdownPeriod>, b: seq<DrawdownPeriod>)
    requires AllRecorded(a) && AllRecorded(b)
    ensures AllRecorded(a + b)
  {
    forall k | 0 <= k < |a + b| ensures Recorded((a + b)[k]) {
      if k >= |a| {
        assert (a + b)[k] == b[k - |a|];
      }
    }
  }

  /** The periods a closing drawdown yields: its record if deeper than 1%. A period
      that opened below -1% is always deeper than that, so the filter never drops one. */
  function Closed(curve: seq<EquityPoint>, s: int, e: int): (ps: seq<DrawdownPeriod>)
    requires 0 <= s <= e < |curve| && curve[0].totalEquity > 0.0
    requires Fraction(Equities(curve), s) < -0.01 && Fraction(Equities(curve), e) >= 0.0
    ensures ps == [PeriodOf(curve, s, e)] && AllRecorded(ps)
  {
    PeriodIsRecorded(curve, s, e);
    if Numeric.Abs(MinOf(Fractions(Equities(curve), s, e))) > 0.01 then [PeriodOf(curve, s, e)] else []
  }

  /** The scan of `analyze_drawdown_periods` from position `i`, with the index of the
      open period if one is open: a period opens when the drawdown falls below -1%
      while none is open, and closes when the drawdown is back at zero; a closed period
      deeper than 1% is recorded, and one still open at the end is dropped. */
  function Scan(curve: seq<EquityPoint>, i: int, open: Option<nat>): (ps: seq<DrawdownPeriod>)
    requires 0 <= i <= |curve| && curve != [] && curve[0].totalEquity > 0.0
    requires open.Some? ==> open.value < i && Fraction(Equities(curve), open.value) < -0.01
    ensures AllRecorded(ps)
    decreases |curve| - i
  {
    if i == |curve| then []
    else
      var dd := Fraction(Equities(curve), i);
      if dd < -0.01 && open.None? then Scan(curve, i + 1, Some(i))
      else if dd >= 0.0 && open.Some? then
        var closed := Closed(curve, open.value, i);
        var rest := Scan(curve, i + 1, None);
        AllRecordedConcat(closed, rest);
        closed + rest
      else Scan(curve, i + 1, open)
  }

  /** A period open at the end is dropped: if the equity never regains its running peak
      from position `i` on, the open period yields nothing. */
  lemma {:induction false} OpenPeriodIsDropped(curve: seq<EquityPoint>, i: int, s: nat)
    requires 0 <= i <= |curve| && curve != [] && curve[0].totalEquity > 0.0
    requires s < i && Fraction(Equities(curve), s) < -0.01
    requires forall j :: i <= j < |curve| ==> Fraction(Equities(curve), j) < 0.0
    ensures Scan(curve, i, Some(s)) == []
    decreases |curve| - i
  {
    if i < |curve| {
      OpenPeriodIsDropped(curve, i + 1, s);
    }
  }

  /** Periods are ordered by depth, deepest first. */
  predicate DeepestFirst(ps: seq<DrawdownPeriod>) {
    forall i, j :: 0 <= i < j < |ps| ==> ps[i].maxDrawdownPct >= ps[j].maxDrawdownPct
  }

  /** Insert a period after every period at least as deep: `sort(reverse=True)` is
      stable, so equally deep periods stay in their original order. */
  function InsertByDepth(p: DrawdownPeriod, ps: seq<DrawdownPeriod>): (r: seq<DrawdownPeriod>)
    requires DeepestFirst(ps)
    ensures DeepestFirst(r) && multiset(r) == multiset(ps) + multiset{p}
    ensures |r| == |ps| + 1 && (r[0] == p || (ps != [] && r[0] == ps[0]))
    decreases |ps|
  {
    if ps == [] then [p]
    else if ps[0].maxDrawdownPct < p.maxDrawdownPct then
      DeepestFirstCons(p, ps);
      [p] + ps
    else
      var rest := InsertByDepth(p, ps[1..]);
      assert ps == [ps[0]] + ps[1..];
      DeepestFirstCons(ps[0], rest);
      [ps[0]] + rest
  }

  /** A period at least as deep as the head of a deepest-first list can go in front. */
  lemma DeepestFirstCons(p: DrawdownPeriod, ps: seq<DrawdownPeriod>)
    requires DeepestFirst(ps) && (ps != [] ==> p.maxDrawdownPct >= ps[0].maxDrawdownPct)
    ensures DeepestFirst([p] + ps)
  {
    var r := [p] + ps;
    assert forall j :: 1 <= j < |r| ==> r[j] == ps[j - 1];
  }

  /** `drawdown_periods.sort(key=max_drawdown_pct, reverse=True)`. */
  function SortByDepth(ps: seq<DrawdownPeriod>): (r: seq<DrawdownPeriod>)
    ensures DeepestFirst(r) && multiset(r) == multiset(ps) && |r| == |ps|
    decreases |ps|
  {
    if ps == [] then []
    else
      var init := ps[..|ps| - 1];
      assert ps == init + [ps[|ps| - 1]];
      var r := InsertByDepth(ps[|ps| - 1], SortByDepth(init));
      assert |r| == |multiset(r)|;
      r
  }

  /** The periods of depth `d`, in their order. */
  function OfDepth(ps: seq<DrawdownPeriod>, d: real): seq<DrawdownPeriod>
    decreases |ps|
  {
    if ps == [] then [] else (if ps[0].maxDrawdownPct == d then [ps[0]] else []) + OfDepth(ps[1..], d)
  }

  /** Appending a period extends the periods of its depth by it and no others. */
  lemma {:induction false} OfDepthAppend(ps: seq<DrawdownPeriod>, p: DrawdownPeriod, d: real)
    ensures OfDepth(ps + [p], d) == OfDepth(ps, d) + (if p.maxDrawdownPct == d then [p] else [])
    decreases |ps|
  {
    if ps != [] {
      assert (ps + [p])[1..] == ps[1..] + [p];
      OfDepthAppend(ps[1..], p, d);
    }
  }

  /** A list whose periods are all shallower than `d` has none of depth `d`. */
  lemma {:induction false} OfDepthShallower(ps: seq<DrawdownPeriod>, d: real)
    requires forall k :: 0 <= k < |ps| ==> ps[k].maxDrawdownPct < d
    ensures OfDepth(ps, d) == []
    decreases |ps|
  {
    if ps != [] {
      OfDepthShallower(ps[1..], d);
    }
  }

  /** Inserting a period keeps every depth's periods in order, with the new one last
      among its depth. */
  lemma {:induction false} InsertByDepthIsStable(p: DrawdownPeriod, ps: seq<DrawdownPeriod>, d: real)
    requires DeepestFirst(ps)
    ensures OfDepth(InsertByDepth(p, ps), d) == OfDepth(ps, d) + (if p.maxDrawdownPct == d then [p] else [])
    decreases |ps|
  {
    if ps == [] {
    } else if ps[0].maxDrawdownPct < p.maxDrawdownPct {
      if p.maxDrawdownPct == d {
        OfDepthShallower(ps, d);
      }
      assert ([p] + ps)[1..] == ps;
    } else {
      var rest := InsertByDepth(p, ps[1..]);
      InsertByDepthIsStable(p, ps[1..], d);
      assert ([ps[0]] + rest)[1..] == rest;
    }
  }

  /** The sort is stable: the periods of any one depth keep their original order. */
  lemma {:induction false} SortByDepthIsStable(ps: seq<DrawdownPeriod>, d: real)
    ensures OfDepth(SortByDepth(ps), d) == OfDepth(ps, d)
    decreases |ps|
  {
    if ps != [] {
      var init := ps[..|ps| - 1];
      assert ps == init + [ps[|ps| - 1]];
      SortByDepthIsStable(init, d);
      InsertByDepthIsStable(ps[|ps| - 1], SortByDepth(init), d);
      OfDepthAppend(init, ps[|ps| - 1], d);
    }
  }

  /** `analyze_drawdown_periods`: nothing for an empty curve; otherwise every recorded
      period, deepest first. */
  function DrawdownPeriods(curve: seq<EquityPoint>): (r: seq<DrawdownPeriod>)
    requires curve != [] ==> curve[0].totalEquity > 0.0
    ensures curve == [] ==> r == []
    ensures curve != [] ==> multiset(r) == multiset(Scan(curve, 0, None))
    ensures DeepestFirst(r)
    ensures AllRecorded(r)
  {
    if curve == [] then []
    else
      var found := Scan(curve, 0, None);
      var r := SortByDepth(found);
      assert AllRecorded(r) by {
        forall k | 0 <= k < |r| ensures Recorded(r[k]) {
          assert r[k] in multiset(found);
        }
      }
      r
  }

  // ---------------------------------------------------------------------------------
  // Buy and hold
  // ---------------------------------------------------------------------------------

  /** The result of `compare_to_buy_and_hold`. A buy-and-hold return that is not a finite
      number (a NaN price or a zero start price) is NaN here. */
  datatype Comparison = Comparison(
    strategyReturnPct: real,
    buyHoldReturnPct: Value,
    outperformancePct: Value,
    startPrice: Value,
    endPrice: Value)

  /** `compare_to_buy_and_hold`: nothing for empty price data; otherwise the return from
      the first to the last close, the strategy return (zero unless the initial balance
      is positive) and their difference. */
  function CompareToBuyAndHold(initial: real, final: real, closes: Series): (r: Option<Comparison>)
    ensures r.None? <==> closes == []
    ensures r.Some? ==> r.value.startPrice == closes[0] && r.value.endPrice == closes[|closes| - 1]
    ensures r.Some? && initial <= 0.0 ==> r.value.strategyReturnPct == 0.0
    ensures r.Some? && initial > 0.0 ==> IsReturnPct(r.value.strategyReturnPct, initial, final)
    ensures r.Some? && r.value.buyHoldReturnPct.Some? ==>
              closes[0].Some? && closes[|closes| - 1].Some?
              && IsReturnPct(r.value.buyHoldReturnPct.value, closes[0].value, closes[|closes| - 1].value)
    ensures r.Some? ==> (r.value.outperformancePct.Some? <==> r.value.buyHoldReturnPct.Some?)
    ensures r.Some? && r.value.outperformancePct.Some? ==>
              r.value.outperformancePct.value + r.value.buyHoldReturnPct.value == r.value.strategyReturnPct
  {
    if closes == [] then None
    else
      var start := closes[0];
      var end := closes[|closes| - 1];
      var buyHold := if start.Some? && end.Some? && start.value != 0.0 then Some(ReturnPct(end.value, start.value)) else None;
      var strategy := if initial > 0.0 then ReturnPct(final, initial) else 0.0;
      Some(Comparison(strategy, buyHold, Sub(Some(strategy), buyHold), start, end))
  }

  /** The comparison's strategy return is the analysis' total return. */
  lemma ComparisonAgreesWithTotalReturn(trades: seq<Trade>, curve: seq<EquityPoint>, initial: real, final: real, closes: Series)
    requires closes != [] && (curve != [] ==> curve[0].totalEquity > 0.0)
    ensures CompareToBuyAndHold(initial, final, closes).value.strategyReturnPct
            == AnalyzeBacktestResult(trades, curve, initial, final).totalReturn
  {
  }
}

=== FILE: position.dfy ===
/** The position ledger (`PositionManager`): a weighted-average cost basis with fees
    folded in, sells booked at average cost, and complete clearing of dust below 1e-8.
    Wall-clock readings (`datetime.now`) are passed in as `now`, in seconds. */
module PositionLedger {
  import opened Wrappers
  import Numeric

  datatype Side = BuySide | SellSide

  /** One booked fill; `cost` is quantity times price, before the fee. */
  datatype TradeRecord = TradeRecord(side: Side, quantity: real, price: real, cost: real, fee: real, timestamp: real)

  datatype Position = Position(
    totalQuantity: real,
    averagePrice: real,
    totalCost: real,
    unrealizedPnl: real,
    realizedPnl: real,
    entryTime: Option<real>,
    lastUpdate: Option<real>)

  /** The manager's whole state: the position, the trade list and the running statistics. */
  datatype Ledger = Ledger(
    position: Position,
    trades: seq<TradeRecord>,
    totalTrades: nat,
    winningTrades: nat,
    losingTrades: nat,
    totalFees: real)

  /** Remaining quantity at or below this is treated as a closed position. */
  const DustThreshold: real := 0.00000001

  const EmptyPosition: Position := Position(0.0, 0.0, 0.0, 0.0, 0.0, None, None)

  const InitialLedger: Ledger := Ledger(EmptyPosition, [], 0, 0, 0, 0.0)

  predicate HasPosition(l: Ledger) {
    l.position.totalQuantity > 0.0
  }

  /** The cost-basis identity the ledger is meant to keep. */
  predicate CostConsistent(p: Position) {
    p.totalCost == p.totalQuantity * p.averagePrice
  }

  /** The bookkeeping identity between the counters and the trade list. */
  predicate CountersConsistent(l: Ledger) {
    l.totalTrades == |l.trades| && l.winningTrades + l.losingTrades <= l.totalTrades
  }

  /** Seconds since the first buy of the open position, if there is one. */
  function PositionDuration(l: Ledger, now: real): (r: Option<real>)
    ensures r.Some? <==> HasPosition(l) && l.position.entryTime.Some?
    ensures r.Some? ==> r.value + l.position.entryTime.value == now
  {
    if !HasPosition(l) || l.position.entryTime.None? then None
    else Some(now - l.position.entryTime.value)
  }

  /** A held position has timed out once its age reaches `timeout` seconds. */
  function IsPositionTimeout(l: Ledger, now: real, timeout: real): (r: bool)
    ensures r <==> HasPosition(l) && l.position.entryTime.Some?
                   && now - l.position.entryTime.value >= timeout
  {
    var d := PositionDuration(l, now);
    if d.None? then false else d.value >= timeout
  }

  /** Book a buy fill. The fee joins the cost basis; the entry time is set only by the
      first buy of a position. The source always reports success. */
  function AddBuyTrade(l: Ledger, quantity: real, price: real, fee: real, now: real): (r: Ledger)
    ensures r.position.totalQuantity == l.position.totalQuantity + quantity
    ensures r.position.totalCost == l.position.totalCost + quantity * price + fee
    ensures r.position.totalQuantity > 0.0 ==>
              r.position.averagePrice * r.position.totalQuantity == r.position.totalCost
    ensures r.position.totalQuantity <= 0.0 ==> r.position.averagePrice == price
    ensures r.position.entryTime == if l.position.entryTime.None? then Some(now) else l.position.entryTime
    ensures r.position.realizedPnl == l.position.realizedPnl
    ensures r.trades == l.trades + [TradeRecord(BuySide, quantity, price, quantity * price, fee, now)]
    ensures r.totalTrades == l.totalTrades + 1 && r.totalFees == l.totalFees + fee
    ensures r.winningTrades == l.winningTrades && r.losingTrades == l.losingTrades
  {
    var p := l.position;
    var cost := quantity * price;
    var newCost := p.totalCost + cost + fee;
    var newQuantity := p.totalQuantity + quantity;
    var newAverage := if newQuantity > 0.0 then Numeric.Div(newCost, newQuantity) else price;
    var entry := if p.entryTime.None? then Some(now) else p.entryTime;
    var p' := p.(totalQuantity := newQuantity, averagePrice := newAverage, totalCost := newCost,
                 lastUpdate := Some(now), entryTime := entry);
    Ledger(p', l.trades + [TradeRecord(BuySide, quantity, price, cost, fee, now)],
           l.totalTrades + 1, l.winningTrades, l.losingTrades, l.totalFees + fee)
  }

  /** Book a sell fill at average cost. Selling more than is held is refused with the
      ledger unchanged; a remainder at or below 1e-8 clears the position. */
  function AddSellTrade(l: Ledger, quantity: real, price: real, fee: real, now: real): (r: (bool, Ledger))
    ensures !r.0 <==> l.position.totalQuantity < quantity
    ensures !r.0 ==> r.1 == l
    ensures r.0 ==> r.1.position.realizedPnl
                      == l.position.realizedPnl + (quantity * price - fee - quantity * l.position.averagePrice)
    ensures r.0 && l.position.totalQuantity - quantity > DustThreshold ==>
              && r.1.position.totalQuantity == l.position.totalQuantity - quantity
              && r.1.position.averagePrice == l.position.averagePrice
              && r.1.position.totalCost == l.position.totalCost - quantity * l.position.averagePrice
              && r.1.position.entryTime == l.position.entryTime
    ensures r.0 && l.position.totalQuantity - quantity <= DustThreshold ==>
              && r.1.position.totalQuantity == 0.0
              && r.1.position.averagePrice == 0.0
              && r.1.position.totalCost == 0.0
              && r.1.position.entryTime.None?
    ensures r.0 ==> r.1.trades == l.trades + [TradeRecord(SellSide, quantity, price, quantity * price, fee, now)]
    ensures r.0 ==> r.1.totalTrades == l.totalTrades + 1 && r.1.totalFees == l.totalFees + fee
    ensures r.0 ==> r.1.winningTrades + r.1.losingTrades == l.winningTrades + l.losingTrades + 1
    ensures r.0 ==> (r.1.winningTrades == l.winningTrades + 1
                     <==> quantity * price - fee > quantity * l.position.averagePrice)
  {
    var p := l.position;
    if p.totalQuantity < quantity then (false, l)
    else
      var cost := quantity * price;
      var costBasis := quantity * p.averagePrice;
      var realized := cost - fee - costBasis;
      var remaining := p.totalQuantity - quantity;
      var p1 := p.(totalQuantity := remaining, totalCost := p.totalCost - costBasis,
                   realizedPnl := p.realizedPnl + realized, lastUpdate := Some(now));
      var p2 := if remaining <= DustThreshold
                then p1.(totalQuantity := 0.0, averagePrice := 0.0, totalCost := 0.0, entryTime := None)
                else p1;
      var won := realized > 0.0;
      (true, Ledger(p2, l.trades + [TradeRecord(SellSide, quantity, price, cost, fee, now)],
                    l.totalTrades + 1,
                    if won then l.winningTrades + 1 else l.winningTrades,
                    if won then l.losingTrades else l.losingTrades + 1,
                    l.totalFees + fee))
  }

  /** Unrealised P&L at `price`; the source also stores it on the position. */
  function CalculateUnrealizedPnl(l: Ledger, price: real): (r: (real, Ledger))
    ensures !HasPosition(l) ==> r == (0.0, l)
    ensures HasPosition(l) ==> r.0 + l.position.totalCost == l.position.totalQuantity * price
    ensures HasPosition(l) ==> r.1 == l.(position := l.position.(unrealizedPnl := r.0))
  {
    if !HasPosition(l) then (0.0, l)
    else
      var pnl := l.position.totalQuantity * price - l.position.totalCost;
      (pnl, l.(position := l.position.(unrealizedPnl := pnl)))
  }

  /** The take-profit price: average cost plus the configured margin, or 0 when flat. */
  function ProfitTargetPrice(l: Ledger, profitTarget: real): (r: real)
    ensures !HasPosition(l) ==> r == 0.0
    ensures HasPosition(l) ==> r - l.position.averagePrice == profitTarget
  {
    if !HasPosition(l) then 0.0 else l.position.averagePrice + profitTarget
  }

  /** Percentage return of `price` over the average cost; 0 when flat or at zero cost. */
  function ReturnPercentage(l: Ledger, price: real): (r: real)
    ensures !HasPosition(l) || l.position.averagePrice == 0.0 ==> r == 0.0
    ensures HasPosition(l) && l.position.averagePrice != 0.0 ==>
              r * l.position.averagePrice == (price - l.position.averagePrice) * 100.0
  {
    if !HasPosition(l) || l.position.averagePrice == 0.0 then 0.0
    else Numeric.Div(price - l.position.averagePrice, l.position.averagePrice) * 100.0
  }

  /** A trade amount is acceptable when positive, within the cap, and, for a sell,
      within the held quantity. */
  function ValidateTradeAmount(l: Ledger, amount: real, side: Side, maxAmount: real): (r: bool)
    ensures r <==> 0.0 < amount <= maxAmount && (side == SellSide ==> amount <= l.position.totalQuantity)
  {
    if amount <= 0.0 then false
    else if amount > maxAmount then false
    else if side == SellSide && amount > l.position.totalQuantity then false
    else true
  }

  /** The quantity measured in units of 10^-precision, rounded away from zero: for a
      non-negative quantity the least whole number of units covering it. */
  function CeilUnits(quantity: real, precision: nat): (n: int)
    ensures var y := quantity * Numeric.Pow10(precision) as real;
            && (quantity >= 0.0 ==> y <= n as real < y + 1.0)
            && (quantity < 0.0 ==> y - 1.0 < n as real <= y)
  {
    Numeric.RoundAwayFromZero(quantity * Numeric.Pow10(precision) as real)
  }

  /** Quantity rounded UP (away from zero) to `precision` decimal places: exactly
      `CeilUnits` units of 10^-precision. */
  function CeilQuantity(quantity: real, precision: nat): (r: real)
    ensures r * Numeric.Pow10(precision) as real == CeilUnits(quantity, precision) as real
  {
    Numeric.Div(CeilUnits(quantity, precision) as real, Numeric.Pow10(precision) as real)
  }

  /** For a non-negative quantity, no whole number of 10^-precision units below
      `CeilUnits` covers the quantity, so `CeilQuantity` is the least such multiple. */
  lemma CeilUnitsIsLeast(quantity: real, precision: nat, m: int)
    requires quantity >= 0.0
    requires quantity * Numeric.Pow10(precision) as real <= m as real
    ensures CeilUnits(quantity, precision) <= m
  {
    var y := quantity * Numeric.Pow10(precision) as real;
    Numeric.CeilIsLeast(y, m);
  }

  /** A buy keeps the cost-basis identity whenever it leaves a positive quantity. */
  lemma BuyKeepsCostConsistent(l: Ledger, quantity: real, price: real, fee: real, now: real)
    requires l.position.totalQuantity + quantity > 0.0
    ensures CostConsistent(AddBuyTrade(l, quantity, price, fee, now).position)
  {
  }

  /** A sell keeps the cost-basis identity, whether or not it clears the position. */
  lemma SellKeepsCostConsistent(l: Ledger, quantity: real, price: real, fee: real, now: real)
    requires CostConsistent(l.position)
    ensures CostConsistent(AddSellTrade(l, quantity, price, fee, now).1.position)
  {
    var p := l.position;
    if p.totalQuantity >= quantity && p.totalQuantity - quantity > DustThreshold {
      calc {
        p.totalCost - quantity * p.averagePrice;
        p.totalQuantity * p.averagePrice - quantity * p.averagePrice;
        (p.totalQuantity - quantity) * p.averagePrice;
      }
    }
  }

  /** One call into the ledger, as recorded in a replayable history. */
  datatype LedgerOp = Buy(quantity: real, price: real, fee: real, at: real)
                    | Sell(quantity: real, price: real, fee: real, at: real)

  function Apply(l: Ledger, op: LedgerOp): Ledger {
    match op
    case Buy(q, p, f, t) => AddBuyTrade(l, q, p, f, t)
    case Sell(q, p, f, t) => AddSellTrade(l, q, p, f, t).1
  }

  function ApplyAll(l: Ledger, ops: seq<LedgerOp>): Ledger
    decreases |ops|
  {
    if ops == [] then l else ApplyAll(Apply(l, ops[0]), ops[1..])
  }

  /** Buys of positive quantity never leave the quantity negative. */
  predicate WellFormedOp(op: LedgerOp) {
    op.Buy? ==> op.quantity > 0.0
  }

  /** Over any history of positive buys and arbitrary sells, starting from a consistent
      ledger with a non-negative quantity, the cost-basis identity, the non-negative
      quantity and the counter bookkeeping all hold at the end. */
  lemma {:induction false} HistoryKeepsInvariants(l: Ledger, ops: seq<LedgerOp>)
    requires CostConsistent(l.position) && l.position.totalQuantity >= 0.0 && CountersConsistent(l)
    requires forall i :: 0 <= i < |ops| ==> WellFormedOp(ops[i])
    ensures CostConsistent(ApplyAll(l, ops).position)
    ensures ApplyAll(l, ops).position.totalQuantity >= 0.0
    ensures CountersConsistent(ApplyAll(l, ops))
    decreases |ops|
  {
    if ops != [] {
      var l' := Apply(l, ops[0]);
      match ops[0] {
        case Buy(q, p, f, t) =>
          BuyKeepsCostConsistent(l, q, p, f, t);
        case Sell(q, p, f, t) =>
          SellKeepsCostConsistent(l, q, p, f, t);
      }
      assert forall i :: 0 <= i < |ops[1..]| ==> WellFormedOp(ops[1..][i]) by {
        forall i | 0 <= i < |ops[1..]| ensures WellFormedOp(ops[1..][i]) {
          assert ops[1..][i] == ops[i + 1];
        }
      }
      HistoryKeepsInvariants(l', ops[1..]);
    }
  }

  /** The trade list only grows: a history appends exactly one record per accepted
      operation and never rewrites an earlier one. */
  lemma {:induction false} HistoryAppendsOnly(l: Ledger, ops: seq<LedgerOp>)
    ensures |l.trades| <= |ApplyAll(l, ops).trades| <= |l.trades| + |ops|
    ensures ApplyAll(l, ops).trades[..|l.trades|] == l.trades
    decreases |ops|
  {
    if ops != [] {
      var l' := Apply(l, ops[0]);
      assert l'.trades[..|l.trades|] == l.trades;
      HistoryAppendsOnly(l', ops[1..]);
      var t := ApplyAll(l, ops).trades;
      assert t[..|l'.trades|] == l'.trades;
      assert t[..|l.trades|] == t[..|l'.trades|][..|l.trades|];
    }
  }
}

=== FILE: rsi.dfy ===
/** The RSI calculator: RSI from simple rolling means of gains and losses (not Wilder
    smoothing), the slope-based buy signal, the overbought sell signal and the
    monitor's alert level. */
module RsiIndicator {
  import opened Wrappers
  import opened Series
  import Numeric
  import opened BaseIndicator

  /** `price_series.diff()` at `i`: NaN at the first row or next to a NaN. */
  function Delta(xs: Series, i: nat): (r: Value)
    requires i < |xs|
    ensures i == 0 ==> r.None?
    ensures i > 0 ==> r == Sub(xs[i], xs[i - 1])
  {
    if i == 0 then None else Sub(xs[i], xs[i - 1])
  }

  /** `delta.where(delta > 0, 0)`: the rise, with NaN replaced by 0. */
  function Gain(xs: Series, i: nat): (r: real)
    requires i < |xs|
    ensures r >= 0.0
    ensures Gt(Delta(xs, i), Some(0.0)) ==> r == Delta(xs, i).value
    ensures !Gt(Delta(xs, i), Some(0.0)) ==> r == 0.0
  {
    var d := Delta(xs, i);
    if Gt(d, Some(0.0)) then d.value else 0.0
  }

  /** `-delta.where(delta < 0, 0)`: the fall, with NaN replaced by 0. */
  function Loss(xs: Series, i: nat): (r: real)
    requires i < |xs|
    ensures r >= 0.0
    ensures Lt(Delta(xs, i), Some(0.0)) ==> r == -Delta(xs, i).value
    ensures !Lt(Delta(xs, i), Some(0.0)) ==> r == 0.0
  {
    var d := Delta(xs, i);
    if Lt(d, Some(0.0)) then -d.value else 0.0
  }

  /** Sum of the gains at rows `lo .. hi-1`. */
  function GainSum(xs: Series, lo: nat, hi: nat): (r: real)
    requires lo <= hi <= |xs|
    ensures r >= 0.0
    decreases hi - lo
  {
    if lo == hi then 0.0 else GainSum(xs, lo, hi - 1) + Gain(xs, hi - 1)
  }

  /** Sum of the losses at rows `lo .. hi-1`. */
  function LossSum(xs: Series, lo: nat, hi: nat): (r: real)
    requires lo <= hi <= |xs|
    ensures r >= 0.0
    decreases hi - lo
  {
    if lo == hi then 0.0 else LossSum(xs, lo, hi - 1) + Loss(xs, hi - 1)
  }

  /** `100 - 100 / (1 + gain / loss)` on the two means, with pandas' float division:
      a zero loss makes `rs` infinite (RSI 100) unless the gain is zero too (NaN). */
  function RsiFromMeans(gain: real, loss: real): (r: Value)
    requires gain >= 0.0 && loss >= 0.0
    ensures loss == 0.0 ==> (r.Some? <==> gain > 0.0)
    ensures loss == 0.0 && gain > 0.0 ==> r == Some(100.0)
    ensures loss > 0.0 ==> r.Some? && r.value * (gain + loss) == 100.0 * gain
    ensures r.Some? ==> 0.0 <= r.value <= 100.0
  {
    if loss == 0.0 then (if gain > 0.0 then Some(100.0) else None)
    else
      var rs := Numeric.Div(gain, loss);
      assert rs >= 0.0 by { Numeric.DivNonNegative(gain, loss); }
      var q := Numeric.Div(100.0, 1.0 + rs);
      assert 0.0 < q <= 100.0 by { Numeric.DivOfHundred(rs); }
      assert (100.0 - q) * (gain + loss) == 100.0 * gain by {
        assert rs * loss == gain;
        assert q * (1.0 + rs) == 100.0;
        assert q * (loss + gain) == 100.0 * loss by {
          calc {
            q * (loss + gain);
            == q * (loss + rs * loss);
            == (q * (1.0 + rs)) * loss;
            == 100.0 * loss;
          }
        }
      }
      Some(100.0 - q)
  }

  /** `gain.rolling(window=period).mean()` at row `i` (a full window ends at `i`). */
  function MeanGain(xs: Series, period: nat, i: nat): (r: real)
    requires period >= 1 && period <= i + 1 <= |xs|
    ensures r >= 0.0
    ensures r * (period as real) == GainSum(xs, i + 1 - period, i + 1)
  {
    Numeric.DivNonNegative(GainSum(xs, i + 1 - period, i + 1), period as real);
    Numeric.Div(GainSum(xs, i + 1 - period, i + 1), period as real)
  }

  /** `loss.rolling(window=period).mean()` at row `i`. */
  function MeanLoss(xs: Series, period: nat, i: nat): (r: real)
    requires period >= 1 && period <= i + 1 <= |xs|
    ensures r >= 0.0
    ensures r * (period as real) == LossSum(xs, i + 1 - period, i + 1)
  {
    Numeric.DivNonNegative(LossSum(xs, i + 1 - period, i + 1), period as real);
    Numeric.Div(LossSum(xs, i + 1 - period, i + 1), period as real)
  }

  /** The RSI at row `i`: NaN until a full window of `period` rows exists. */
  function RsiAt(xs: Series, period: nat, i: nat): (r: Value)
    requires period >= 1 && i < |xs|
    ensures i + 1 < period ==> r.None?
    ensures i + 1 >= period ==> r == RsiFromMeans(MeanGain(xs, period, i), MeanLoss(xs, period, i))
    ensures r.Some? ==> 0.0 <= r.value <= 100.0
  {
    if i + 1 < period then None
    else RsiFromMeans(MeanGain(xs, period, i), MeanLoss(xs, period, i))
  }

  /** `_calculate_rsi_manual`: the RSI at every row. */
  function RsiManual(xs: Series, period: nat): (r: Series)
    requires period >= 1
    ensures |r| == |xs|
    ensures forall i :: 0 <= i < |r| ==> r[i] == RsiAt(xs, period, i)
  {
    seq(|xs|, i requires 0 <= i < |xs| => RsiAt(xs, period, i))
  }

  /** Every value the calculator produces lies in [0, 100]. */
  lemma RsiBounded(xs: Series, period: nat)
    requires period >= 1
    ensures forall i :: 0 <= i < |xs| && RsiManual(xs, period)[i].Some? ==>
      0.0 <= RsiManual(xs, period)[i].value <= 100.0
  {
  }

  /** No losses in a window of strictly rising prices. */
  lemma {:induction false} RisingHasNoLoss(xs: seq<real>, lo: nat, hi: nat)
    requires lo <= hi <= |xs|
    requires forall i :: 1 <= i < |xs| ==> xs[i - 1] < xs[i]
    ensures LossSum(Lift(xs), lo, hi) == 0.0
    ensures hi > lo && hi >= 2 ==> GainSum(Lift(xs), lo, hi) > 0.0
    decreases hi - lo
  {
    if hi > lo {
      RisingHasNoLoss(xs, lo, hi - 1);
      if hi - 1 >= 1 {
        assert Delta(Lift(xs), hi - 1) == Some(xs[hi - 1] - xs[hi - 2]);
      }
    }
  }

  /** A window mean is zero exactly when its sum is, and positive when its sum is. */
  lemma WindowMeans(xs: Series, period: nat, i: nat)
    requires period >= 1 && period <= i + 1 <= |xs|
    ensures GainSum(xs, i + 1 - period, i + 1) == 0.0 ==> MeanGain(xs, period, i) == 0.0
    ensures GainSum(xs, i + 1 - period, i + 1) > 0.0 ==> MeanGain(xs, period, i) > 0.0
    ensures LossSum(xs, i + 1 - period, i + 1) == 0.0 ==> MeanLoss(xs, period, i) == 0.0
  {
    var g := MeanGain(xs, period, i);
    var l := MeanLoss(xs, period, i);
    if GainSum(xs, i + 1 - period, i + 1) == 0.0 {
      Numeric.ZeroProduct(g, period as real);
    }
    if GainSum(xs, i + 1 - period, i + 1) > 0.0 {
      Numeric.PositiveFactor(g, period as real);
    }
    if LossSum(xs, i + 1 - period, i + 1) == 0.0 {
      Numeric.ZeroProduct(l, period as real);
    }
  }

  /** On strictly rising prices every defined RSI value is exactly 100. */
  lemma RisingPricesGiveHundred(xs: seq<real>, period: nat, i: nat)
    requires period >= 2 && i < |xs| && i + 1 >= period
    requires forall k :: 1 <= k < |xs| ==> xs[k - 1] < xs[k]
    ensures RsiAt(Lift(xs), period, i) == Some(100.0)
  {
    RisingHasNoLoss(xs, i + 1 - period, i + 1);
    WindowMeans(Lift(xs), period, i);
  }

  /** No gains and no losses in a window of constant prices. */
  lemma {:induction false} ConstantHasNoMoves(x: real, xs: seq<real>, lo: nat, hi: nat)
    requires lo <= hi <= |xs|
    requires forall i :: 0 <= i < |xs| ==> xs[i] == x
    ensures GainSum(Lift(xs), lo, hi) == 0.0 && LossSum(Lift(xs), lo, hi) == 0.0
    decreases hi - lo
  {
    if hi > lo {
      ConstantHasNoMoves(x, xs, lo, hi - 1);
    }
  }

  /** On a constant price series the RSI at any row is NaN (0/0). */
  lemma ConstantRsiIsNaN(x: real, xs: seq<real>, period: nat, i: nat)
    requires period >= 1 && i < |xs|
    requires forall k :: 0 <= k < |xs| ==> xs[k] == x
    ensures RsiAt(Lift(xs), period, i).None?
  {
    if i + 1 >= period {
      ConstantHasNoMoves(x, xs, i + 1 - period, i + 1);
      WindowMeans(Lift(xs), period, i);
    }
  }

  /** On a constant price series every RSI value is NaN. */
  lemma ConstantPricesAllNaN(x: real, xs: seq<real>, period: nat)
    requires period >= 1
    requires forall i :: 0 <= i < |xs| ==> xs[i] == x
    ensures AllNaN(RsiManual(Lift(xs), period))
  {
    forall i | 0 <= i < |xs|
      ensures RsiAt(Lift(xs), period, i).None?
    {
      ConstantRsiIsNaN(x, xs, period, i);
    }
  }

  /** The RSI calculator's configuration; `period + 5` prices are required. */
  datatype RsiCalculator = RsiCalculator(period: nat)

  function MinRequired(c: RsiCalculator): nat { c.period + 5 }

  /** `calculate_rsi`: the column must exist and hold `period + 5` values, not all NaN;
      an RSI that is NaN everywhere is an error as well. */
  function CalculateRsi(c: RsiCalculator, data: Frame, column: string): (r: Result<Series, string>)
    requires c.period >= 1
    ensures r.Success? ==>
      column in data.columns && EnsureSufficientData(data.columns[column], MinRequired(c))
      && r.value == RsiManual(data.columns[column], c.period) && !AllNaN(r.value)
    ensures (column in data.columns && EnsureSufficientData(data.columns[column], MinRequired(c))
             && AllNaN(RsiManual(data.columns[column], c.period))) ==> r == Failure("Failed to calculate RSI")
    ensures column in data.columns && !EnsureSufficientData(data.columns[column], MinRequired(c))
            ==> r == Failure(InsufficientData(MinRequired(c)))
    ensures column !in data.columns ==> r.Failure?
  {
    var prices :- CreateIndicatorSeries(data, column);
    if !EnsureSufficientData(prices, MinRequired(c)) then
      Failure(InsufficientData(MinRequired(c)))
    else
      var rsi := RsiManual(prices, c.period);
      if AllNaN(rsi) then Failure("Failed to calculate RSI") else Success(rsi)
  }

  /** A flat market makes `calculate_rsi` raise "Failed to calculate RSI" even with
      plenty of data. */
  lemma FlatMarketFails(c: RsiCalculator, x: real, n: nat)
    requires c.period >= 1 && n >= MinRequired(c)
    ensures CalculateRsi(c, Frame(n, map["close" := Lift(seq(n, _ => x))]), "close")
            == Failure("Failed to calculate RSI")
  {
    var xs := seq(n, _ => x);
    ConstantPricesAllNaN(x, xs, c.period);
    assert Lift(xs)[0].Some?;
  }

  /** The outcome of `analyze_rsi_trend`. */
  datatype RsiAnalysis = RsiAnalysis(
    currentRsi: Value,
    currentValue: Value,
    slopes: SlopeDict,
    buySignal: bool,
    sellSignal: bool)

  /** The strict positivity test over the slope dictionary is the strict positivity
      of every requested period's undivided slope. */
  lemma PositiveMeansAllPeriods(rsi: Series, periods: seq<nat>)
    requires forall i :: 0 <= i < |periods| ==> periods[i] >= 1
    ensures IsSlopesPositive(CalculateSlopes(rsi, periods), true)
            <==> forall p :: p in periods ==> SlopePasses(BaseSlope(rsi, p), true)
  {
    var slopes := CalculateSlopes(rsi, periods);
    if IsSlopesPositive(slopes, true) {
      forall p | p in periods
        ensures SlopePasses(BaseSlope(rsi, p), true)
      {
        var k := KeyIndex(slopes, p);
      }
    }
  }

  /** `analyze_rsi_trend`: needs `max(periods)` values; buy when every slope is
      strictly positive (NaN counts as positive), sell when the current RSI > 70. */
  function AnalyzeRsiTrend(rsi: Series, periods: seq<nat>): (r: Result<RsiAnalysis, string>)
    requires forall i :: 0 <= i < |periods| ==> periods[i] >= 1
    ensures r.Success? <==> |periods| > 0 && |rsi| >= MaxPeriod(periods)
    ensures r.Success? ==> r.value.currentRsi == rsi[|rsi| - 1]
    ensures r.Success? ==>
      (r.value.buySignal <==> forall p :: p in periods ==> SlopePasses(BaseSlope(rsi, p), true))
    ensures r.Success? ==> (r.value.sellSignal <==> Gt(rsi[|rsi| - 1], Some(70.0)))
  {
    if |periods| == 0 then Failure("max() arg is an empty sequence")
    else if |rsi| < MaxPeriod(periods) then Failure("Insufficient data for slope analysis")
    else
      var current := rsi[|rsi| - 1];
      var slopes := CalculateSlopes(rsi, periods);
      PositiveMeansAllPeriods(rsi, periods);
      Success(RsiAnalysis(current, Round4(current), slopes,
                          IsSlopesPositive(slopes, true), Gt(current, Some(70.0))))
  }

  /** `get_rsi_signals`: the RSI of the column, analysed at periods 3 and 5. */
  function GetRsiSignals(c: RsiCalculator, data: Frame, column: string): (r: Result<RsiAnalysis, string>)
    requires c.period >= 1
    ensures r.Success? <==> CalculateRsi(c, data, column).Success?
    ensures r.Failure? ==> r.error == CalculateRsi(c, data, column).error
    ensures r.Success? ==>
      var rsi := RsiManual(data.columns[column], c.period);
      && r.value.currentRsi == rsi[|rsi| - 1]
      && (r.value.buySignal <==> SlopePasses(BaseSlope(rsi, 3), true) && SlopePasses(BaseSlope(rsi, 5), true))
      && (r.value.sellSignal <==> Gt(rsi[|rsi| - 1], Some(70.0)))
  {
    var rsi :- CalculateRsi(c, data, column);
    assert MaxPeriod([3, 5]) == 5 by {
      assert MaxPeriod([5]) == 5;
    }
    assert forall p :: p in [3, 5] ==> p == 3 || p == 5;
    AnalyzeRsiTrend(rsi, [3, 5])
  }

  /** `check_buy_condition`: never raises; an error yields False. */
  function CheckBuyCondition(c: RsiCalculator, data: Frame, column: string): (r: (bool, Result<RsiAnalysis, string>))
    requires c.period >= 1
    ensures r.1 == GetRsiSignals(c, data, column)
    ensures r.0 <==> r.1.Success? && r.1.value.buySignal
  {
    var a := GetRsiSignals(c, data, column);
    if a.Failure? then (false, a) else (a.value.buySignal, a)
  }

  /** `check_sell_condition`: never raises; an error yields False. */
  function CheckSellCondition(c: RsiCalculator, data: Frame, column: string): (r: (bool, Result<RsiAnalysis, string>))
    requires c.period >= 1
    ensures r.1 == GetRsiSignals(c, data, column)
    ensures r.0 <==> r.1.Success? && r.1.value.sellSignal
  {
    var a := GetRsiSignals(c, data, column);
    if a.Failure? then (false, a) else (a.value.sellSignal, a)
  }

  /** The monitor's alert levels. */
  datatype AlertLevel = Normal | Overbought | Oversold

  /** Overbought at >= 70, else oversold at <= 30, else normal; NaN is normal. */
  function Alert(rsi: Value): (a: AlertLevel)
    ensures a == Overbought <==> Ge(rsi, Some(70.0))
    ensures a == Oversold <==> Le(rsi, Some(30.0))
    ensures a == Normal <==> rsi.None? || 30.0 < rsi.value < 70.0
  {
    if Ge(rsi, Some(70.0)) then Overbought
    else if Le(rsi, Some(30.0)) then Oversold
    else Normal
  }

  /** The monitor's report, classified on the ROUNDED RSI. */
  datatype RsiStatus =
    | RsiReport(rsiValue: Value, alertLevel: AlertLevel, buySignal: bool, sellSignal: bool)
    | RsiStatusError(message: string)

  /** `RSIMonitor.get_current_status`. */
  function GetCurrentStatus(c: RsiCalculator, data: Frame): (r: RsiStatus)
    requires c.period >= 1
    ensures r.RsiStatusError? <==> GetRsiSignals(c, data, "close").Failure?
    ensures r.RsiReport? ==>
      var a := GetRsiSignals(c, data, "close").value;
      r.rsiValue == a.currentValue && r.alertLevel == Alert(a.currentValue)
      && r.buySignal == a.buySignal && r.sellSignal == a.sellSignal
  {
    var signals := GetRsiSignals(c, data, "close");
    if signals.Failure? then RsiStatusError(signals.error)
    else RsiReport(signals.value.currentValue, Alert(signals.value.currentValue),
                   signals.value.buySignal, signals.value.sellSignal)
  }

  /** The alert uses the rounded value while the sell signal uses the exact one:
      an RSI of 69.99996 is reported overbought, yet does not signal a sell. */
  lemma RoundedAlertDisagreesWithSell()
    ensures Alert(Round4(Some(69.99996))) == Overbought
    ensures !Gt(Some(69.99996), Some(70.0))
  {
    var k := Numeric.RoundHalfEvenInt(69.99996 * 10000.0);
    assert 69.99996 * 10000.0 == 699999.6;
    assert k == 700000;
  }
}

=== FILE: rsi_ema.dfy ===
/** The EMA of the RSI: its calculation chain, the momentum and trend classifications
    of its slopes, and the monitor's alert priority. The threshold, declining-trend and
    analysis rules are the EMA calculator's, applied to the RSI-EMA series. */
module RsiEmaIndicator {
  import opened Wrappers
  import opened Series
  import opened BaseIndicator
  import RsiIndicator
  import EmaIndicator

  /** The calculator's two periods; `rsi + ema + 5` prices are required. */
  datatype RsiEmaCalculator = RsiEmaCalculator(rsiPeriod: nat, emaPeriod: nat)

  function MinRequired(c: RsiEmaCalculator): nat { c.rsiPeriod + c.emaPeriod + 5 }

  /** `calculate_rsi_ema`: the price check, then the RSI, then its EMA. */
  function CalculateRsiEma(c: RsiEmaCalculator, data: Frame, column: string): (r: Result<Series, string>)
    requires c.rsiPeriod >= 1
    ensures r.Success? <==>
      column in data.columns && c.emaPeriod >= 1
      && EnsureSufficientData(data.columns[column], MinRequired(c))
      && RsiIndicator.CalculateRsi(RsiIndicator.RsiCalculator(c.rsiPeriod), data, column).Success?
    ensures r.Success? ==>
      r.value == EmaIndicator.Ewm(RsiIndicator.RsiManual(data.columns[column], c.rsiPeriod), c.emaPeriod)
    ensures column in data.columns && !EnsureSufficientData(data.columns[column], MinRequired(c))
            ==> r == Failure(InsufficientData(MinRequired(c)))
  {
    var prices :- CreateIndicatorSeries(data, column);
    if !EnsureSufficientData(prices, MinRequired(c)) then
      Failure(InsufficientData(MinRequired(c)))
    else
      var rsi :- RsiIndicator.CalculateRsi(RsiIndicator.RsiCalculator(c.rsiPeriod), data, column);
      if c.emaPeriod < 1 then Failure("span must satisfy: span >= 1")
      else
        var e := EmaIndicator.Ewm(rsi, c.emaPeriod);
        EmaIndicator.EmaNeverAllNaN(rsi, c.emaPeriod);
        if AllNaN(e) then Failure("Failed to calculate RSI-EMA") else Success(e)
  }

  /** With enough prices, only a flat market (an RSI that is NaN everywhere) can make
      the RSI-EMA fail: "Failed to calculate RSI-EMA" itself never occurs. */
  lemma RsiEmaFailsOnlyOnRsi(c: RsiEmaCalculator, data: Frame, column: string)
    requires c.rsiPeriod >= 1 && c.emaPeriod >= 1
    requires column in data.columns
    requires EnsureSufficientData(data.columns[column], MinRequired(c))
    ensures CalculateRsiEma(c, data, column).Failure? <==>
      AllNaN(RsiIndicator.RsiManual(data.columns[column], c.rsiPeriod))
  {
    var prices := data.columns[column];
    assert EnsureSufficientData(prices, RsiIndicator.MinRequired(RsiIndicator.RsiCalculator(c.rsiPeriod)));
  }

  /** Momentum strength of the two slopes. */
  datatype Momentum = Strong | Moderate | Weak | Negative

  /** `_assess_momentum_strength`: Strong at (0.5, 0.3), Moderate at (0.3, 0.2), Weak when
      both are positive, Negative otherwise; NaN slopes are Negative. */
  function AssessMomentum(s3: Value, s5: Value): (m: Momentum)
    ensures m == Strong <==> Ge(s3, Some(0.5)) && Ge(s5, Some(0.3))
    ensures m == Moderate <==> !(Ge(s3, Some(0.5)) && Ge(s5, Some(0.3)))
                               && Ge(s3, Some(0.3)) && Ge(s5, Some(0.2))
    ensures m == Negative <==> !(Gt(s3, Some(0.0)) && Gt(s5, Some(0.0)))
  {
    if Ge(s3, Some(0.5)) && Ge(s5, Some(0.3)) then Strong
    else if Ge(s3, Some(0.3)) && Ge(s5, Some(0.2)) then Moderate
    else if Gt(s3, Some(0.0)) && Gt(s5, Some(0.0)) then Weak
    else Negative
  }

  /** Trend direction of the two slopes. */
  datatype Trend = Uptrend | Downtrend | Sideways

  /** `_assess_trend_direction`: up when both slopes are positive, down when both are
      negative, sideways otherwise (including any NaN). */
  function AssessTrend(s3: Value, s5: Value): (t: Trend)
    ensures t == Uptrend <==> Gt(s3, Some(0.0)) && Gt(s5, Some(0.0))
    ensures t == Downtrend <==> Lt(s3, Some(0.0)) && Lt(s5, Some(0.0))
  {
    if Gt(s3, Some(0.0)) && Gt(s5, Some(0.0)) then Uptrend
    else if Lt(s3, Some(0.0)) && Lt(s5, Some(0.0)) then Downtrend
    else Sideways
  }

  /** Momentum is anything but Negative exactly when the trend is up, and a downtrend
      always has Negative momentum. */
  lemma MomentumMatchesTrend(s3: Value, s5: Value)
    ensures AssessMomentum(s3, s5) != Negative <==> AssessTrend(s3, s5) == Uptrend
    ensures AssessTrend(s3, s5) == Downtrend ==> AssessMomentum(s3, s5) == Negative
  {
  }

  /** `slopes.get(key, 0.0)` on the rounded slope dictionary. */
  function SlopeOr0(d: SlopeDict, p: nat): Value {
    var v := Get(d, p);
    if v.Some? then v.value else Some(0.0)
  }

  /** The rounded slope dictionary `{k: round(v, 4)}` of the analysis. */
  function RoundSlopes(d: SlopeDict): (r: SlopeDict)
    ensures |r| == |d|
    ensures forall i :: 0 <= i < |d| ==> r[i] == (d[i].0, Round4(d[i].1))
  {
    if |d| == 0 then [] else [(d[0].0, Round4(d[0].1))] + RoundSlopes(d[1..])
  }

  /** `get_detailed_analysis`. */
  datatype Detailed = Detailed(
    rsiValue: Value,
    rsiEmaValue: Value,
    difference: Value,
    buySignal: bool,
    sellSignal: bool,
    rsiAboveEma: bool,
    momentum: Momentum,
    trend: Trend)

  /** `get_detailed_analysis`: RSI, RSI-EMA and the analysis of the RSI-EMA; the
      momentum and trend are judged on the ROUNDED slopes the analysis reports. */
  function DetailedAnalysis(c: RsiEmaCalculator, data: Frame, column: string): (r: Result<Detailed, string>)
    requires c.rsiPeriod >= 1
    ensures r.Success? <==> CalculateRsiEma(c, data, column).Success?
    ensures RsiIndicator.CalculateRsi(RsiIndicator.RsiCalculator(c.rsiPeriod), data, column).Failure? ==>
      r == Failure(RsiIndicator.CalculateRsi(RsiIndicator.RsiCalculator(c.rsiPeriod), data, column).error)
    ensures RsiIndicator.CalculateRsi(RsiIndicator.RsiCalculator(c.rsiPeriod), data, column).Success? && r.Failure? ==>
      r.error == CalculateRsiEma(c, data, column).error
    ensures r.Success? ==>
      var rsi := RsiIndicator.RsiManual(data.columns[column], c.rsiPeriod);
      var e := EmaIndicator.Ewm(rsi, c.emaPeriod);
      && r.value.rsiValue == Round4(rsi[|rsi| - 1])
      && r.value.rsiEmaValue == Round4(e[|e| - 1])
      && r.value.difference == Round4(Sub(rsi[|rsi| - 1], e[|e| - 1]))
      && (r.value.rsiAboveEma <==> Gt(rsi[|rsi| - 1], e[|e| - 1]))
    ensures r.Success? ==>
      var e := CalculateRsiEma(c, data, column).value;
      var a := EmaIndicator.AnalyzeEmaTrend(e, [3, 5]).value;
      r.value.buySignal == a.buySignal && r.value.sellSignal == a.sellSignal
      && r.value.momentum == AssessMomentum(Round4(BaseSlope(e, 3)), Round4(BaseSlope(e, 5)))
      && r.value.trend == AssessTrend(Round4(BaseSlope(e, 3)), Round4(BaseSlope(e, 5)))
  {
    var rsi :- RsiIndicator.CalculateRsi(RsiIndicator.RsiCalculator(c.rsiPeriod), data, column);
    var currentRsi := rsi[|rsi| - 1];
    var e :- CalculateRsiEma(c, data, column);
    assert rsi == RsiIndicator.RsiManual(data.columns[column], c.rsiPeriod);
    assert e == EmaIndicator.Ewm(rsi, c.emaPeriod);
    assert |e| == |rsi| == |data.columns[column]| >= MinRequired(c) >= 5;
    var currentEma := e[|e| - 1];
    assert MaxPeriod([3, 5]) == 5 by {
      assert MaxPeriod([5]) == 5;
    }
    var a := EmaIndicator.AnalyzeEmaTrend(e, [3, 5]).value;
    var rounded := RoundSlopes(a.slopes);
    RoundedLookup(e, a.slopes);
    Success(Detailed(Round4(currentRsi), Round4(currentEma), Round4(Sub(currentRsi, currentEma)),
                     a.buySignal, a.sellSignal, Gt(currentRsi, currentEma),
                     AssessMomentum(SlopeOr0(rounded, 3), SlopeOr0(rounded, 5)),
                     AssessTrend(SlopeOr0(rounded, 3), SlopeOr0(rounded, 5))))
  }

  /** Looking up 3 and 5 in the rounded dictionary gives the rounded slopes. */
  lemma RoundedLookup(e: Series, d: SlopeDict)
    requires d == CalculateSlopes(e, [3, 5])
    ensures SlopeOr0(RoundSlopes(d), 3) == Round4(BaseSlope(e, 3))
    ensures SlopeOr0(RoundSlopes(d), 5) == Round4(BaseSlope(e, 5))
  {
    RoundedGet(d, 3);
    RoundedGet(d, 5);
  }

  /** `Get` commutes with rounding the values. */
  lemma {:induction false} RoundedGet(d: SlopeDict, p: nat)
    ensures Get(RoundSlopes(d), p) == (if Get(d, p).Some? then Some(Round4(Get(d, p).value)) else None)
    decreases |d|
  {
    if |d| > 0 {
      RoundedGet(d[1..], p);
      assert RoundSlopes(d)[1..] == RoundSlopes(d[1..]);
    }
  }

  /** The monitor's alert levels. */
  datatype AlertLevel = Normal | Overbought | Oversold | StrongMomentum

  /** Overbought (rounded RSI >= 70) beats oversold (<= 30), which beats strong momentum. */
  function Alert(rsiValue: Value, momentum: Momentum): (a: AlertLevel)
    ensures a == Overbought <==> Ge(rsiValue, Some(70.0))
    ensures a == Oversold <==> !Ge(rsiValue, Some(70.0)) && Le(rsiValue, Some(30.0))
    ensures a == StrongMomentum <==>
      !Ge(rsiValue, Some(70.0)) && !Le(rsiValue, Some(30.0)) && momentum == Strong
  {
    if Ge(rsiValue, Some(70.0)) then Overbought
    else if Le(rsiValue, Some(30.0)) then Oversold
    else if momentum == Strong then StrongMomentum
    else Normal
  }

  /** The monitor's report or the error the analysis raised. */
  datatype RsiEmaStatus =
    | RsiEmaReport(detail: Detailed, alertLevel: AlertLevel)
    | RsiEmaStatusError(message: string)

  /** `RSIEMAMonitor.get_current_status`. */
  function GetCurrentStatus(c: RsiEmaCalculator, data: Frame): (r: RsiEmaStatus)
    requires c.rsiPeriod >= 1
    ensures r.RsiEmaStatusError? <==> DetailedAnalysis(c, data, "close").Failure?
    ensures r.RsiEmaReport? ==>
      r.detail == DetailedAnalysis(c, data, "close").value
      && r.alertLevel == Alert(r.detail.rsiValue, r.detail.momentum)
  {
    var d := DetailedAnalysis(c, data, "close");
    if d.Failure? then RsiEmaStatusError(d.error)
    else RsiEmaReport(d.value, Alert(d.value.rsiValue, d.value.momentum))
  }
}

=== FILE: series.dfy ===
/** Float series with NaN. A pandas value is `Some(x)` for a number and `None` for NaN.
    Every comparison involving NaN is false; arithmetic involving NaN gives NaN. */
module Series {
  import opened Wrappers
  import Numeric

  type Value = Option<real>
  type Series = seq<Value>

  /** `a - b`, NaN if either side is NaN. */
  function Sub(a: Value, b: Value): (r: Value)
    ensures r.Some? <==> a.Some? && b.Some?
    ensures r.Some? ==> r.value + b.value == a.value
  {
    if a.Some? && b.Some? then Some(a.value - b.value) else None
  }

  /** `a / k` for a non-zero number `k`, NaN when `a` is NaN. */
  function DivBy(a: Value, k: real): (r: Value)
    requires k != 0.0
    ensures r.Some? <==> a.Some?
    ensures r.Some? ==> r.value * k == a.value
  {
    if a.Some? then Some(Numeric.Div(a.value, k)) else None
  }

  /** Python's `a > b` on floats. */
  predicate Gt(a: Value, b: Value) { a.Some? && b.Some? && a.value > b.value }
  /** Python's `a >= b` on floats. */
  predicate Ge(a: Value, b: Value) { a.Some? && b.Some? && a.value >= b.value }
  /** Python's `a < b` on floats. */
  predicate Lt(a: Value, b: Value) { a.Some? && b.Some? && a.value < b.value }
  /** Python's `a <= b` on floats. */
  predicate Le(a: Value, b: Value) { a.Some? && b.Some? && a.value <= b.value }

  /** `Series.isna().all()`: true for an empty series as well. */
  predicate AllNaN(s: Series) {
    forall i :: 0 <= i < |s| ==> s[i].None?
  }

  /** `Series.isna().any()`. */
  predicate AnyNaN(s: Series) {
    exists i :: 0 <= i < |s| && s[i].None?
  }

  /** The last `n` entries (`s.iloc[-n:]`; the whole series when it is shorter). */
  function Tail(s: Series, n: nat): (r: Series)
    ensures |r| == if |s| < n then |s| else n
    ensures forall i :: 0 <= i < |r| ==> r[i] == s[|s| - |r| + i]
  {
    if |s| < n then s else s[|s| - n..]
  }

  /** Lift a NaN-free list of numbers into a series. */
  function Lift(xs: seq<real>): (r: Series)
    ensures |r| == |xs|
    ensures forall i :: 0 <= i < |xs| ==> r[i] == Some(xs[i])
  {
    seq(|xs|, i requires 0 <= i < |xs| => Some(xs[i]))
  }

  /** Python's `round(x, 4)` applied to a float that may be NaN. */
  function Round4(a: Value): (r: Value)
    ensures r.Some? <==> a.Some?
    ensures r.Some? ==> Numeric.Abs(r.value - a.value) * 10000.0 <= 0.5
  {
    if a.Some? then Some(Numeric.RoundTo(a.value, 4)) else None
  }

  /** `Series.dropna()`: the numbers of the series, in order. */
  function DropNaN(s: Series): (r: seq<real>)
    ensures |r| <= |s|
    ensures !AnyNaN(s) ==> |r| == |s| && forall i :: 0 <= i < |s| ==> s[i] == Some(r[i])
    ensures forall i :: 0 <= i < |r| ==> Some(r[i]) in s
  {
    if |s| == 0 then []
    else
      var rest := DropNaN(s[..|s| - 1]);
      if s[|s| - 1].Some? then rest + [s[|s| - 1].value] else rest
  }
}

=== FILE: short_indicators.dfy ===
/** The short-window indicators of the split-buy strategy: the price EMA(5), RSI(9) and
    the EMA(5) of RSI(9). Their slopes are least-squares fits against 0..n-1 (the
    closed form of a degree-1 `np.polyfit`), or the endpoint difference divided by
    n - 1. The EMA and RSI series themselves come from pandas_ta and are inputs here. */
module ShortIndicators {
  import opened Wrappers
  import opened Series
  import Numeric
  import ApiErrors

  /** Sum of x for x = 0..n-1. */
  function SumX(n: nat): real {
    if n == 0 then 0.0 else SumX(n - 1) + (n - 1) as real
  }

  /** Sum of x*x for x = 0..n-1. */
  function SumXX(n: nat): real {
    if n == 0 then 0.0 else SumXX(n - 1) + ((n - 1) as real) * ((n - 1) as real)
  }

  /** Closed forms of the two sums of positions. */
  lemma {:induction false} SumsClosedForm(n: nat)
    ensures 2.0 * SumX(n) == (n as real) * ((n as real) - 1.0)
    ensures 6.0 * SumXX(n) == (n as real) * ((n as real) - 1.0) * (2.0 * (n as real) - 1.0)
  {
    if n > 0 {
      SumsClosedForm(n - 1);
      var m := (n - 1) as real;
      assert 2.0 * SumX(n) == m * (m - 1.0) + 2.0 * m;
      assert 6.0 * SumXX(n) == m * (m - 1.0) * (2.0 * m - 1.0) + 6.0 * m * m;
    }
  }

  /** Sum of the y values. */
  function SumY(ys: seq<real>): real
    decreases |ys|
  {
    if |ys| == 0 then 0.0 else SumY(ys[..|ys| - 1]) + ys[|ys| - 1]
  }

  /** Sum of x*y with x the position of y. */
  function SumXY(ys: seq<real>): real
    decreases |ys|
  {
    if |ys| == 0 then 0.0 else SumXY(ys[..|ys| - 1]) + ((|ys| - 1) as real) * ys[|ys| - 1]
  }

  /** The normal-equation denominator n*Sxx - Sx*Sx is n^2 (n^2 - 1) / 12. */
  lemma DenominatorClosedForm(n: nat)
    ensures 12.0 * ((n as real) * SumXX(n) - SumX(n) * SumX(n))
            == (n as real) * (n as real) * ((n as real) - 1.0) * ((n as real) + 1.0)
  {
    SumsClosedForm(n);
    var k := n as real;
    var sx := SumX(n);
    var sxx := SumXX(n);
    assert 12.0 * (k * sxx - sx * sx) == 2.0 * k * (6.0 * sxx) - 3.0 * (2.0 * sx) * (2.0 * sx);
    assert 12.0 * (k * sxx - sx * sx) == 2.0 * k * (k * (k - 1.0) * (2.0 * k - 1.0)) - 3.0 * (k * (k - 1.0)) * (k * (k - 1.0));
  }

  /** From two points on the denominator is positive, so the fit is unique. */
  lemma DenominatorPositive(n: nat)
    requires n >= 2
    ensures (n as real) * SumXX(n) - SumX(n) * SumX(n) > 0.0
  {
    DenominatorClosedForm(n);
    var k := n as real;
    assert (k - 1.0) * (k + 1.0) > 0.0 by { Numeric.MulPositive(k - 1.0, k + 1.0); }
    assert k * k > 0.0 by { Numeric.MulPositive(k, k); }
    Numeric.MulPositive(k * k, (k - 1.0) * (k + 1.0));
    assert k * k * (k - 1.0) * (k + 1.0) == (k * k) * ((k - 1.0) * (k + 1.0));
  }

  /** The slope solving the normal equations, given the count `n` and the sums
      Sx, Sxx, Sy and Sxy of the points. */
  function FitOfSums(n: real, sx: real, sxx: real, sy: real, sxy: real): (r: real)
    requires n * sxx - sx * sx > 0.0
    ensures r * (n * sxx - sx * sx) == n * sxy - sx * sy
  {
    Numeric.Div(n * sxy - sx * sy, n * sxx - sx * sx)
  }

  /** The least-squares slope of the points (i, ys[i]). `np.polyfit` gives 0 for a single
      point (the minimum-norm fit) and raises on none, which the source turns into 0. */
  function LeastSquaresSlope(ys: seq<real>): (r: real)
    ensures |ys| >= 2 ==>
      (|ys| as real) * SumXX(|ys|) - SumX(|ys|) * SumX(|ys|) > 0.0
      && r == FitOfSums(|ys| as real, SumX(|ys|), SumXX(|ys|), SumY(ys), SumXY(ys))
    ensures |ys| < 2 ==> r == 0.0
  {
    if |ys| < 2 then 0.0
    else
      DenominatorPositive(|ys|);
      FitOfSums(|ys| as real, SumX(|ys|), SumXX(|ys|), SumY(ys), SumXY(ys))
  }

  /** The plain sum of a line a + b*i. */
  lemma {:induction false} LineSumY(ys: seq<real>, a: real, b: real)
    requires forall i :: 0 <= i < |ys| ==> ys[i] == a + b * (i as real)
    ensures SumY(ys) == (|ys| as real) * a + b * SumX(|ys|)
    decreases |ys|
  {
    if |ys| > 0 {
      var init := ys[..|ys| - 1];
      LineSumY(init, a, b);
      var m := (|ys| - 1) as real;
      var sx := SumX(|ys| - 1);
      assert SumY(ys) == m * a + b * sx + (a + b * m);
      assert b * (sx + m) == b * sx + b * m;
    }
  }

  /** The position-weighted sum of a line a + b*i. */
  lemma {:induction false} LineSumXY(ys: seq<real>, a: real, b: real)
    requires forall i :: 0 <= i < |ys| ==> ys[i] == a + b * (i as real)
    ensures SumXY(ys) == a * SumX(|ys|) + b * SumXX(|ys|)
    decreases |ys|
  {
    if |ys| > 0 {
      var init := ys[..|ys| - 1];
      LineSumXY(init, a, b);
      var m := (|ys| - 1) as real;
      var sx := SumX(|ys| - 1);
      var sxx := SumXX(|ys| - 1);
      assert SumXY(ys) == a * sx + b * sxx + m * (a + b * m);
      assert m * (a + b * m) == a * m + b * (m * m);
      assert a * (sx + m) == a * sx + a * m;
      assert b * (sxx + m * m) == b * sxx + b * (m * m);
    }
  }

  /** The normal equations of a line: with Sy = n a + b Sx and Sxy = a Sx + b Sxx the
      numerator is b times the denominator, so the fitted slope is b. */
  lemma FitOfLine(n: real, sx: real, sxx: real, sy: real, sxy: real, a: real, b: real)
    requires n * sxx - sx * sx > 0.0
    requires sy == n * a + b * sx && sxy == a * sx + b * sxx
    ensures FitOfSums(n, sx, sxx, sy, sxy) == b
  {
    var d := n * sxx - sx * sx;
    var r := FitOfSums(n, sx, sxx, sy, sxy);
    assert n * sxy - sx * sy == b * d;
    Numeric.CancelPositive(r, b, d);
  }

  /** Sums in the shape a line produces give the line's slope. */
  lemma FitOfLineSums(n: nat, sy: real, sxy: real, a: real, b: real)
    requires (n as real) * SumXX(n) - SumX(n) * SumX(n) > 0.0
    requires sy == (n as real) * a + b * SumX(n)
    requires sxy == a * SumX(n) + b * SumXX(n)
    ensures FitOfSums(n as real, SumX(n), SumXX(n), sy, sxy) == b
  {
    FitOfLine(n as real, SumX(n), SumXX(n), sy, sxy, a, b);
  }

  /** Sums in the shape a line produces, as the fit of the points. */
  lemma LeastSquaresOfLineSums(ys: seq<real>, a: real, b: real)
    requires |ys| >= 2
    requires SumY(ys) == (|ys| as real) * a + b * SumX(|ys|)
    requires SumXY(ys) == a * SumX(|ys|) + b * SumXX(|ys|)
    ensures LeastSquaresSlope(ys) == b
  {
    DenominatorPositive(|ys|);
    FitOfLineSums(|ys|, SumY(ys), SumXY(ys), a, b);
  }

  /** A fit through points on a line recovers the line's slope. */
  lemma LeastSquaresOfLine(ys: seq<real>, a: real, b: real)
    requires |ys| >= 2
    requires forall i :: 0 <= i < |ys| ==> ys[i] == a + b * (i as real)
    ensures LeastSquaresSlope(ys) == b
  {
    LineSumY(ys, a, b);
    LineSumXY(ys, a, b);
    LeastSquaresOfLineSums(ys, a, b);
  }

  /** Two points: the fit is the difference. */
  lemma LeastSquaresOfTwo(y0: real, y1: real)
    ensures LeastSquaresSlope([y0, y1]) == y1 - y0
  {
    var ys := [y0, y1];
    assert ys[..1] == [y0];
    assert [y0][..0] == [];
    assert SumX(2) == 1.0 && SumXX(2) == 1.0;
    assert SumY([y0]) == y0 && SumXY([y0]) == 0.0;
    assert SumY(ys) == SumY([y0]) + y1;
    assert SumXY(ys) == SumXY([y0]) + 1.0 * y1;
    var r := FitOfSums(2.0, 1.0, 1.0, y0 + y1, y1);
    assert r * 1.0 == 2.0 * y1 - (y0 + y1);
  }

  /** Three points: the fit is half the end-to-end difference; the middle point does
      not matter. */
  lemma LeastSquaresOfThree(y0: real, y1: real, y2: real)
    ensures LeastSquaresSlope([y0, y1, y2]) == (y2 - y0) / 2.0
  {
    var ys := [y0, y1, y2];
    assert ys[..2] == [y0, y1];
    assert [y0, y1][..1] == [y0];
    assert [y0][..0] == [];
    assert SumX(2) == 1.0 && SumXX(2) == 1.0;
    assert SumX(3) == 3.0 && SumXX(3) == 5.0;
    assert SumY([y0]) == y0 && SumXY([y0]) == 0.0;
    assert SumY([y0, y1]) == SumY([y0]) + y1;
    assert SumXY([y0, y1]) == SumXY([y0]) + 1.0 * y1;
    assert SumY(ys) == SumY([y0, y1]) + y2;
    assert SumXY(ys) == SumXY([y0, y1]) + 2.0 * y2;
    var r := FitOfSums(3.0, 3.0, 5.0, y0 + y1 + y2, y1 + 2.0 * y2);
    assert r * 6.0 == 3.0 * (y1 + 2.0 * y2) - 3.0 * (y0 + y1 + y2);
  }

  /** The numbers of a NaN-free window. */
  function Numbers(s: Series): (r: seq<real>)
    requires !AnyNaN(s)
    ensures |r| == |s|
    ensures forall i :: 0 <= i < |s| ==> s[i] == Some(r[i])
  {
    seq(|s|, i requires 0 <= i < |s| => s[i].value)
  }

  /** `calculate_slope` (all three classes): 0.0 when the series is shorter than the
      window or the window holds a NaN, otherwise the least-squares slope of the window. */
  function WindowSlope(s: Series, periods: nat): (r: real)
    ensures |s| < periods || AnyNaN(Tail(s, periods)) ==> r == 0.0
    ensures |s| >= periods && !AnyNaN(Tail(s, periods)) ==>
      r == LeastSquaresSlope(Numbers(Tail(s, periods)))
  {
    if |s| < periods then 0.0
    else
      var w := Tail(s, periods);
      if AnyNaN(w) then 0.0 else LeastSquaresSlope(Numbers(w))
  }

  /** `calculate_simple_slope`: 0.0 on a short or NaN window, otherwise
      (last - first) / (periods - 1). With fewer than two values the source divides
      zero by zero or indexes an empty window; both end in 0.0. */
  function SimpleSlope(s: Series, periods: nat): (r: real)
    ensures |s| < periods || periods < 2 || AnyNaN(Tail(s, periods)) ==> r == 0.0
    ensures periods >= 2 && |s| >= periods && !AnyNaN(Tail(s, periods)) ==>
      r * ((periods - 1) as real) == s[|s| - 1].value - s[|s| - periods].value
  {
    if |s| < periods || periods < 2 then 0.0
    else
      var w := Tail(s, periods);
      if AnyNaN(w) then 0.0
      else Numeric.Div(w[periods - 1].value - w[0].value, (periods - 1) as real)
  }

  /** On windows of two or three values the least-squares and simple slopes agree. */
  lemma FitAgreesWithSimpleOnShortWindows(s: Series, periods: nat)
    requires periods == 2 || periods == 3
    ensures WindowSlope(s, periods) == SimpleSlope(s, periods)
  {
    if |s| >= periods && !AnyNaN(Tail(s, periods)) {
      var w := Tail(s, periods);
      var ys := Numbers(w);
      if periods == 2 {
        assert ys == [ys[0], ys[1]];
        LeastSquaresOfTwo(ys[0], ys[1]);
      } else {
        assert ys == [ys[0], ys[1], ys[2]];
        LeastSquaresOfThree(ys[0], ys[1], ys[2]);
      }
    }
  }

  /** The fit of a late jump 0, 0, 0, 3 is 0.9. */
  lemma FitOfLateJump()
    ensures LeastSquaresSlope([0.0, 0.0, 0.0, 3.0]) == 0.9
  {
    var ys := [0.0, 0.0, 0.0, 3.0];
    assert ys[..3] == [0.0, 0.0, 0.0];
    assert [0.0, 0.0, 0.0][..2] == [0.0, 0.0];
    assert [0.0, 0.0][..1] == [0.0];
    assert [0.0][..0] == [];
    assert SumY([0.0, 0.0, 0.0]) == 0.0 && SumXY([0.0, 0.0, 0.0]) == 0.0;
    assert SumY(ys) == 3.0 && SumXY(ys) == 9.0;
    assert SumX(2) == 1.0 && SumXX(2) == 1.0;
    assert SumX(3) == 3.0 && SumXX(3) == 5.0;
    assert SumX(4) == 6.0 && SumXX(4) == 14.0;
    var r := FitOfSums(4.0, 6.0, 14.0, 3.0, 9.0);
    assert r * 20.0 == 4.0 * 9.0 - 6.0 * 3.0;
  }

  /** The window 0, 0, 0, 3 as a series. */
  function LateJump(): Series {
    [Some(0.0), Some(0.0), Some(0.0), Some(3.0)]
  }

  /** The fitted slope of the late jump is its fit. */
  lemma WindowOfLateJump()
    ensures WindowSlope(LateJump(), 4) == LeastSquaresSlope([0.0, 0.0, 0.0, 3.0])
  {
    var s := LateJump();
    var w := Tail(s, 4);
    assert w == s;
    assert forall i :: 0 <= i < |w| ==> w[i].Some?;
    var ys := Numbers(w);
    assert |ys| == 4 && ys[0] == 0.0 && ys[1] == 0.0 && ys[2] == 0.0 && ys[3] == 3.0;
    assert ys == [0.0, 0.0, 0.0, 3.0];
  }

  /** The simple slope of the late jump is 1. */
  lemma SimpleOfLateJump()
    ensures SimpleSlope(LateJump(), 4) == 1.0
  {
    var s := LateJump();
    assert Tail(s, 4) == s;
    var r := SimpleSlope(s, 4);
    assert r * 3.0 == 3.0;
  }

  /** From four values on they differ: a late jump weighs less in the fit. */
  lemma FitDiffersFromSimpleOnFour()
    ensures WindowSlope(LateJump(), 4) == 0.9
    ensures SimpleSlope(LateJump(), 4) == 1.0
  {
    WindowOfLateJump();
    FitOfLateJump();
    SimpleOfLateJump();
  }

  /** `calculate`: an empty series with fewer rows than the period, otherwise the
      pandas_ta series `computed`, which is an input. */
  function Calculate(rows: nat, period: nat, computed: Series): (r: Series)
    ensures rows < period ==> r == []
    ensures rows >= period ==> r == computed
  {
    if rows < period then [] else computed
  }

  /** `|x|` in thousandths, rounded half to even: the digits `f"{x:.3f}"` prints. */
  function Thousandths(x: real): (n: nat)
    ensures Numeric.Abs(n as real - Numeric.Abs(x) * 1000.0) <= 0.5
  {
    Numeric.RoundHalfEvenInt(Numeric.Abs(x) * 1000.0)
  }

  /** Three decimal digits, zero-padded. */
  function ThreeDigits(m: nat): (t: string)
    requires m < 1000
    ensures |t| == 3 && ApiErrors.AllDigits(t)
  {
    [ApiErrors.DigitChar(m / 100), ApiErrors.DigitChar(m / 10 % 10), ApiErrors.DigitChar(m % 10)]
  }

  /** `f"{x:.3f}"` on an exact value: a minus sign for a negative `x`, the whole part, a
      point and three decimals. */
  function Fixed3(x: real): string {
    var n := Thousandths(x);
    (if x < 0.0 then "-" else "") + ApiErrors.Digits(n / 1000) + "." + ThreeDigits(n % 1000)
  }

  /** The three-decimal text reads back as `x` to within half a thousandth: a sign exactly
      for a negative value, digits, a point and three digits whose value, taken together,
      is the rounded magnitude. */
  lemma Fixed3ReadsBack(x: real)
    ensures var t := Fixed3(x);
            var sign := if x < 0.0 then 1 else 0;
            && |t| >= sign + 5 && (t[0] == '-' <==> x < 0.0) && t[|t| - 4] == '.'
            && ApiErrors.AllDigits(t[sign..|t| - 4]) && ApiErrors.AllDigits(t[|t| - 3..])
            && var whole := ApiErrors.ParseDigits(t[sign..|t| - 4]);
               var frac := ApiErrors.ParseDigits(t[|t| - 3..]);
               Numeric.Abs((whole * 1000 + frac) as real - Numeric.Abs(x) * 1000.0) <= 0.5
  {
    var n := Thousandths(x);
    var t := Fixed3(x);
    var sign := if x < 0.0 then 1 else 0;
    var w := ApiErrors.Digits(n / 1000);
    var f := ThreeDigits(n % 1000);
    assert t == (if x < 0.0 then "-" else "") + w + "." + f;
    assert t[sign..|t| - 4] == w;
    assert t[|t| - 3..] == f;
    ApiErrors.DigitsRoundTrip(n / 1000);
    ThreeDigitsRoundTrip(n % 1000);
  }

  /** The padded digits read back as the number. */
  lemma ThreeDigitsRoundTrip(m: nat)
    requires m < 1000
    ensures ApiErrors.ParseDigits(ThreeDigits(m)) == m
  {
    var t := ThreeDigits(m);
    assert t[..2][..1] == t[..1] && t[..1][..0] == [];
    assert ApiErrors.ParseDigits(t[..1]) == m / 100;
    assert ApiErrors.ParseDigits(t[..2]) == m / 100 * 10 + m / 10 % 10;
    assert m / 10 == m / 100 * 10 + m / 10 % 10 && m == m / 10 * 10 + m % 10;
  }

  /** The result of `PriceEMA.check_buy_condition`. */
  datatype PriceEmaCheck = PriceEmaCheck(conditionMet: bool, emaValue: Option<Value>, slope2: real, reason: string)

  /** `PriceEMA.check_buy_condition`: at least two EMA values and a 2-bar fitted slope
      above 0.2. */
  function PriceEmaBuy(ema: Series): (r: PriceEmaCheck)
    ensures |ema| < 2 ==> r == PriceEmaCheck(false, None, 0.0, "Insufficient data")
    ensures |ema| >= 2 ==> r.emaValue == Some(ema[|ema| - 1])
    ensures r.conditionMet <==> r.slope2 > 0.2 && |ema| >= 2
    ensures r.conditionMet ==> r.reason == "Price EMA slope > 0.2"
    ensures |ema| >= 2 && !r.conditionMet ==> r.reason == "Price EMA slope " + Fixed3(r.slope2) + " <= 0.2"
  {
    if |ema| < 2 then PriceEmaCheck(false, None, 0.0, "Insufficient data")
    else
      var slope := WindowSlope(ema, 2);
      var met := slope > 0.2;
      PriceEmaCheck(met, Some(ema[|ema| - 1]), slope,
                    if met then "Price EMA slope > 0.2" else "Price EMA slope " + Fixed3(slope) + " <= 0.2")
  }

  /** The price EMA buy condition is a rise of more than 0.2 between the last two EMA
      values, both of them numbers. */
  lemma PriceEmaBuyMeansRise(ema: Series)
    ensures PriceEmaBuy(ema).conditionMet <==>
      |ema| >= 2 && ema[|ema| - 1].Some? && ema[|ema| - 2].Some?
      && ema[|ema| - 1].value - ema[|ema| - 2].value > 0.2
  {
    if |ema| >= 2 {
      FitAgreesWithSimpleOnShortWindows(ema, 2);
      var w := Tail(ema, 2);
      assert w[0] == ema[|ema| - 2] && w[1] == ema[|ema| - 1];
      if !AnyNaN(w) {
        var d := SimpleSlope(ema, 2);
        assert d * 1.0 == ema[|ema| - 1].value - ema[|ema| - 2].value;
      } else {
        assert w[0].None? || w[1].None?;
      }
    }
  }

  /** The result of `get_current_price_info`; `diff` is absent for empty data. */
  datatype PriceInfo = PriceInfo(currentPrice: Option<Value>, emaValue: Option<Value>,
                                 priceAboveEma: bool, diff: Option<Value>)

  /** `get_current_price_info`: nothing for empty data; otherwise the last close against
      the last EMA value, when the EMA series has one. A NaN EMA value is present but
      compares false. */
  function CurrentPriceInfo(closes: Series, ema: Series): (r: PriceInfo)
    ensures |closes| == 0 ==> r == PriceInfo(None, None, false, None)
    ensures |closes| > 0 ==> r.currentPrice == Some(closes[|closes| - 1]) && r.diff.Some?
    ensures r.priceAboveEma <==> |closes| > 0 && |ema| > 0 && Gt(closes[|closes| - 1], ema[|ema| - 1])
    ensures |closes| > 0 && |ema| == 0 ==> r.emaValue == None && r.diff == Some(Some(0.0))
  {
    if |closes| == 0 then PriceInfo(None, None, false, None)
    else
      var price := closes[|closes| - 1];
      if |ema| == 0 then PriceInfo(Some(price), None, false, Some(Some(0.0)))
      else
        var e := ema[|ema| - 1];
        PriceInfo(Some(price), Some(e), Gt(price, e), Some(Sub(price, e)))
  }

  /** The result of `RSIShort.check_buy_condition`. */
  datatype RsiShortCheck = RsiShortCheck(conditionMet: bool, rsiValue: Option<Value>, slope3: real,
                                         rsiBelow70: bool, slopeAbove3: bool, reason: string)

  /** `_get_condition_reason`. */
  function ConditionReason(rsiCondition: bool, slopeCondition: bool): string {
    if !rsiCondition && !slopeCondition then "RSI >= 70 and slope <= 3"
    else if !rsiCondition then "RSI >= 70"
    else if !slopeCondition then "RSI slope <= 3"
    else "All conditions met"
  }

  /** The four reasons are distinct, so the reason names the failing combination;
      "All conditions met" exactly when both conditions hold. */
  lemma ReasonsAreExclusive(a: bool, b: bool, c: bool, d: bool)
    ensures ConditionReason(a, b) == "All conditions met" <==> a && b
    ensures ConditionReason(a, b) == ConditionReason(c, d) <==> a == c && b == d
  {
    var all := ["RSI >= 70 and slope <= 3", "RSI >= 70", "RSI slope <= 3", "All conditions met"];
    assert all[0] != all[1] && all[0] != all[2] && all[0] != all[3];
    assert all[1] != all[2] && all[1] != all[3] && all[2] != all[3] by {
      assert all[1][4] != all[2][4];
      assert all[1][0] != all[3][0];
      assert all[2][0] != all[3][0];
    }
  }

  /** `RSIShort.check_buy_condition`: at least three RSI values, the current one below 70
      (a NaN is not) and a 3-bar fitted slope above 3. */
  function RsiShortBuy(rsi: Series): (r: RsiShortCheck)
    ensures |rsi| < 3 ==> !r.conditionMet && r.rsiValue == None && r.reason == "Insufficient data"
    ensures |rsi| >= 3 ==> r.rsiBelow70 == Lt(rsi[|rsi| - 1], Some(70.0)) && r.slopeAbove3 == (r.slope3 > 3.0)
    ensures |rsi| >= 3 ==> r.reason == ConditionReason(r.rsiBelow70, r.slopeAbove3)
    ensures r.conditionMet <==> |rsi| >= 3 && r.rsiBelow70 && r.slopeAbove3
  {
    if |rsi| < 3 then RsiShortCheck(false, None, 0.0, false, false, "Insufficient data")
    else
      var current := rsi[|rsi| - 1];
      var slope := WindowSlope(rsi, 3);
      var rsiCondition := Lt(current, Some(70.0));
      var slopeCondition := slope > 3.0;
      RsiShortCheck(rsiCondition && slopeCondition, Some(current), slope, rsiCondition, slopeCondition,
                    ConditionReason(rsiCondition, slopeCondition))
  }

  /** The RSI(9) buy condition in terms of the series: the last three values are
      numbers, the last is below 70, and it is more than 6 above the one two bars back. */
  lemma RsiShortBuyMeansRise(rsi: Series)
    ensures RsiShortBuy(rsi).conditionMet <==>
      |rsi| >= 3 && rsi[|rsi| - 1].Some? && rsi[|rsi| - 2].Some? && rsi[|rsi| - 3].Some?
      && rsi[|rsi| - 1].value < 70.0 && rsi[|rsi| - 1].value - rsi[|rsi| - 3].value > 6.0
  {
    if |rsi| >= 3 {
      FitAgreesWithSimpleOnShortWindows(rsi, 3);
      var w := Tail(rsi, 3);
      assert w[0] == rsi[|rsi| - 3] && w[1] == rsi[|rsi| - 2] && w[2] == rsi[|rsi| - 1];
      if !AnyNaN(w) {
        var d := SimpleSlope(rsi, 3);
        assert d * 2.0 == rsi[|rsi| - 1].value - rsi[|rsi| - 3].value;
      } else {
        assert w[0].None? || w[1].None? || w[2].None?;
      }
    }
  }

  /** `RSIEMAShort.calculate`: empty when the RSI has fewer than `emaPeriod` values,
      otherwise the pandas_ta EMA of the RSI, an input. */
  function RsiEmaShortCalculate(rsi: Series, emaPeriod: nat, computed: Series): (r: Series)
    ensures |rsi| < emaPeriod ==> r == []
    ensures |rsi| >= emaPeriod ==> r == computed
  {
    Calculate(|rsi|, emaPeriod, computed)
  }

  /** The result of `RSIEMAShort.check_buy_condition`. */
  datatype RsiEmaShortCheck = RsiEmaShortCheck(conditionMet: bool, rsiEmaValue: Option<Value>, slope2: real, reason: string)

  /** `RSIEMAShort.check_buy_condition`: at least two values and a 2-bar fitted slope
      above 1. */
  function RsiEmaShortBuy(rsiEma: Series): (r: RsiEmaShortCheck)
    ensures |rsiEma| < 2 ==> r == RsiEmaShortCheck(false, None, 0.0, "Insufficient data")
    ensures r.conditionMet <==> |rsiEma| >= 2 && r.slope2 > 1.0
    ensures |rsiEma| >= 2 ==> r.reason == (if r.conditionMet then "RSI EMA slope > 1" else "RSI EMA slope <= 1")
  {
    if |rsiEma| < 2 then RsiEmaShortCheck(false, None, 0.0, "Insufficient data")
    else
      var slope := WindowSlope(rsiEma, 2);
      var met := slope > 1.0;
      RsiEmaShortCheck(met, Some(rsiEma[|rsiEma| - 1]), slope,
                       if met then "RSI EMA slope > 1" else "RSI EMA slope <= 1")
  }

  /** The RSI-EMA buy condition is a rise of more than 1 between its last two values. */
  lemma RsiEmaShortBuyMeansRise(rsiEma: Series)
    ensures RsiEmaShortBuy(rsiEma).conditionMet <==>
      |rsiEma| >= 2 && rsiEma[|rsiEma| - 1].Some? && rsiEma[|rsiEma| - 2].Some?
      && rsiEma[|rsiEma| - 1].value - rsiEma[|rsiEma| - 2].value > 1.0
  {
    if |rsiEma| >= 2 {
      FitAgreesWithSimpleOnShortWindows(rsiEma, 2);
      var w := Tail(rsiEma, 2);
      assert w[0] == rsiEma[|rsiEma| - 2] && w[1] == rsiEma[|rsiEma| - 1];
      if !AnyNaN(w) {
        var d := SimpleSlope(rsiEma, 2);
        assert d * 1.0 == rsiEma[|rsiEma| - 1].value - rsiEma[|rsiEma| - 2].value;
      } else {
        assert w[0].None? || w[1].None?;
      }
    }
  }
}

=== FILE: simple_bot.dfy ===
/** The simple bot (`SimpleTradingBot` in `main_simple.py`): hard-coded 2- and 4-step
    slopes for the buy signal, a three-reason sell signal without the EMA rule, dry-run
    execution, and a main loop fed by a constant "simulated" price frame. */
module SimpleBot {
  import opened Wrappers
  import opened Series
  import Numeric
  import BaseIndicator
  import RsiIndicator
  import EmaIndicator
  import BacktestEngine
  import LiveBot

  datatype SimplePosition = SimplePosition(entryPrice: real, entryTime: int, quantity: real)

  datatype SimpleBot = SimpleBot(dryRun: bool, position: Option<SimplePosition>, balanceKrw: real, balanceUsdt: real)

  /** `update_balance`: a successful reply (KRW, USDT) replaces both balances; a failed
      one leaves them. */
  function UpdateBalance(bot: SimpleBot, reply: Option<(real, real)>): (r: SimpleBot)
    ensures reply.None? ==> r == bot
    ensures reply.Some? ==>
      r.balanceKrw == reply.value.0 && r.balanceUsdt == reply.value.1
      && r.position == bot.position && r.dryRun == bot.dryRun
  {
    if reply.None? then bot else bot.(balanceKrw := reply.value.0, balanceUsdt := reply.value.1)
  }

  /** `get_market_data`: `hours` rows all at the ticker price, with the RSI and EMA of
      that flat column; any failure (no ticker, an indicator error) yields nothing. */
  function GetMarketData(cfg: BacktestEngine.Config, ticker: Option<real>, hours: nat): (r: Option<LiveBot.Candles>)
    requires cfg.rsiPeriod >= 1
    ensures r.Some? ==> ticker.Some? && |r.value.closes| == hours
  {
    if ticker.None? then None
    else
      var closes := seq(hours, _ => ticker.value);
      var frame := BaseIndicator.Frame(hours, map["close" := Lift(closes)]);
      var rsi := RsiIndicator.CalculateRsi(RsiIndicator.RsiCalculator(cfg.rsiPeriod), frame, "close");
      var ema := EmaIndicator.CalculateEma(EmaIndicator.EmaCalculator(cfg.emaPeriod), frame, "close");
      if rsi.Failure? || ema.Failure? then None
      else Some(LiveBot.Candles(closes, rsi.value, ema.value))
  }

  /** The flat frame never gets past the RSI: with fewer than `period + 5` rows it is
      too short, and with enough rows every RSI value is 0/0, so `calculate_rsi` raises
      either way and the market data is always missing. */
  lemma MarketDataNeverArrives(cfg: BacktestEngine.Config, ticker: Option<real>, hours: nat)
    requires cfg.rsiPeriod >= 1
    ensures GetMarketData(cfg, ticker, hours).None?
  {
    if ticker.Some? {
      var c := RsiIndicator.RsiCalculator(cfg.rsiPeriod);
      if hours >= RsiIndicator.MinRequired(c) {
        RsiIndicator.FlatMarketFails(c, ticker.value, hours);
      }
    }
  }

  /** `check_buy_signal`: 20 rows, five RSI and five EMA numbers, RSI slopes
      `(x[-1] - x[-3]) / 2` and `(x[-1] - x[-5]) / 4` above 0, EMA slopes at or above 0.3
      and 0.2. It agrees with the live bot's buy rule on every flat live bot. */
  function CheckBuySignal(df: LiveBot.Candles): (r: bool)
    ensures forall bot: LiveBot.Bot :: bot.position.None? ==> (r <==> LiveBot.CheckBuy(bot, df))
  {
    if |df.closes| < 20 then false
    else
      var rsi := DropNaN(df.rsi);
      var ema := DropNaN(df.ema);
      if |rsi| < 5 || |ema| < 5 then false
      else
        var rsi3 := Numeric.Div(rsi[|rsi| - 1] - rsi[|rsi| - 3], 2.0);
        var rsi5 := Numeric.Div(rsi[|rsi| - 1] - rsi[|rsi| - 5], 4.0);
        var ema3 := Numeric.Div(ema[|ema| - 1] - ema[|ema| - 3], 2.0);
        var ema5 := Numeric.Div(ema[|ema| - 1] - ema[|ema| - 5], 4.0);
        rsi3 > 0.0 && rsi5 > 0.0 && ema3 >= 0.3 && ema5 >= 0.2
  }

  /** The simple bot's three sell reasons. */
  datatype SimpleReason = ProfitTarget | Timeout | RsiOverbought

  /** `check_sell_signal`: nothing without a position; otherwise the first of profit
      target, timeout and an RSI above the overbought level. */
  function CheckSellSignal(cfg: BacktestEngine.Config, bot: SimpleBot, df: LiveBot.Candles,
                           entryPrice: real, entryTime: int, now: int): (r: Option<SimpleReason>)
    requires |df.closes| >= 1 && |df.rsi| == |df.closes|
    ensures bot.position.None? ==> r.None?
    ensures bot.position.Some? ==>
      var n := |df.closes|;
      var profit := df.closes[n - 1] >= entryPrice + cfg.profitTarget;
      var late := now - entryTime >= cfg.maxHoldHours * 3600;
      var hot := Gt(df.rsi[n - 1], Some(cfg.rsiOverbought));
      (r == Some(ProfitTarget) <==> profit)
      && (r == Some(Timeout) <==> !profit && late)
      && (r == Some(RsiOverbought) <==> !profit && !late && hot)
      && (r.None? <==> !profit && !late && !hot)
  {
    if bot.position.None? then None
    else
      var price := df.closes[|df.closes| - 1];
      if price >= entryPrice + cfg.profitTarget then Some(ProfitTarget)
      else if LiveBot.HoldHours(now, entryTime) >= cfg.maxHoldHours as real then Some(Timeout)
      else if Gt(df.rsi[|df.rsi| - 1], Some(cfg.rsiOverbought)) then Some(RsiOverbought)
      else None
  }

  /** The live bot's reason with the EMA rule dropped. */
  function WithoutEma(r: Option<LiveBot.LiveReason>): Option<SimpleReason> {
    if r.None? then None
    else if r.value.ProfitTarget? then Some(ProfitTarget)
    else if r.value.Timeout? then Some(Timeout)
    else if r.value.RsiOverbought? then Some(RsiOverbought)
    else None
  }

  /** On the same position and frame, the simple bot's sell signal is the live bot's
      sell reason with the EMA-declining rule removed. */
  lemma SellIsLiveWithoutEma(cfg: BacktestEngine.Config, bot: SimpleBot, live: LiveBot.Bot,
                             df: LiveBot.Candles, now: int)
    requires LiveBot.Aligned(df) && |df.closes| >= 1
    requires bot.position.Some? && live.position.Some?
    requires live.position.value.entryPrice == bot.position.value.entryPrice
    requires live.position.value.entryTime == bot.position.value.entryTime
    ensures CheckSellSignal(cfg, bot, df, bot.position.value.entryPrice, bot.position.value.entryTime, now)
            == WithoutEma(LiveBot.CheckSell(cfg, live, df, now))
  {
    var l := LiveBot.CheckSell(cfg, live, df, now);
    if l.Some? && l.value.Timeout? {
      assert WithoutEma(l) == Some(Timeout);
    }
    if l.Some? && l.value.RsiOverbought? {
      assert WithoutEma(l) == Some(RsiOverbought);
    }
  }

  /** `execute_buy`: a dry run puts the whole KRW balance into a position at `price`
      (dividing by a zero price raises); a live run never trades. */
  function ExecuteBuy(bot: SimpleBot, price: real, now: int): (r: Result<(SimpleBot, bool), string>)
    ensures r.Failure? <==> bot.dryRun && price == 0.0
    ensures r.Success? && !bot.dryRun ==> r.value == (bot, false)
    ensures r.Success? && bot.dryRun ==>
      var (b, ok) := r.value;
      ok && b.balanceKrw == bot.balanceKrw && b.position.Some?
      && b.position.value.entryPrice == price && b.position.value.entryTime == now
      && b.position.value.quantity * price == bot.balanceKrw
  {
    if !bot.dryRun then Success((bot, false))
    else if price == 0.0 then Failure("float division by zero")
    else Success((bot.(position := Some(SimplePosition(price, now, Numeric.Div(bot.balanceKrw, price)))), true))
  }

  /** `execute_sell`: a dry run drops the position (reading a missing position, or
      dividing by a zero entry price for the logged percentage, raises first); a live
      run never trades. */
  function ExecuteSell(bot: SimpleBot, price: real, reason: SimpleReason): (r: Result<(SimpleBot, bool), string>)
    ensures r.Failure? <==> bot.dryRun && (bot.position.None? || bot.position.value.entryPrice == 0.0)
    ensures r.Success? && !bot.dryRun ==> r.value == (bot, false)
    ensures r.Success? && bot.dryRun ==> r.value == (bot.(position := None), true)
  {
    if !bot.dryRun then Success((bot, false))
    else if bot.position.None? then Failure("'NoneType' object is not subscriptable")
    else if bot.position.value.entryPrice == 0.0 then Failure("float division by zero")
    else Success((bot.(position := None), true))
  }

  /** One pass of `run`: fetch the market data (wait for the next pass without it),
      buy on a buy signal when flat, sell on a sell signal when holding; an exception
      leaves the bot as it was. */
  function RunOnce(cfg: BacktestEngine.Config, bot: SimpleBot, ticker: Option<real>, now: int): (r: SimpleBot)
    requires cfg.rsiPeriod >= 1
    ensures GetMarketData(cfg, ticker, 24).None? ==> r == bot
    ensures r.dryRun == bot.dryRun && r.balanceKrw == bot.balanceKrw
    ensures r.position.Some? && bot.position.None? ==> bot.dryRun
    ensures r.position.None? && bot.position.Some? ==> bot.dryRun
  {
    var data := GetMarketData(cfg, ticker, 24);
    if data.None? then bot
    else
      var df := data.value;
      var price := ticker.value;
      if bot.position.None? then
        if CheckBuySignal(df) then
          var bought := ExecuteBuy(bot, price, now);
          if bought.Success? then bought.value.0 else bot
        else bot
      else
        var p := bot.position.value;
        var reason := CheckSellSignal(cfg, bot, df, p.entryPrice, p.entryTime, now);
        if reason.None? then bot
        else
          var sold := ExecuteSell(bot, price, reason.value);
          if sold.Success? then sold.value.0 else bot
  }

  /** The flat frame never yields market data, so no pass of the main loop ever
      changes the bot: the simple bot never trades. */
  lemma RunOnceNeverTrades(cfg: BacktestEngine.Config, bot: SimpleBot, ticker: Option<real>, now: int)
    requires cfg.rsiPeriod >= 1
    ensures RunOnce(cfg, bot, ticker, now) == bot
  {
    MarketDataNeverArrives(cfg, ticker, 24);
  }
}

=== FILE: slope_rules.dfy ===
/** How the repository's slope definitions and "EMA declining" rules relate. The slopes
    are the base indicator's undivided difference, the improved engine's endpoint slope,
    the basic engine's `diff(p) / (p - 1)`, the live bot's segment slope and the
    least-squares window slope. The declining rules are the basic engine's three
    consecutive slopes, the improved engine's sliding slopes, the live bot's disjoint
    segments and the EMA calculator's strictly falling values. */
module SlopeRules {
  import opened Wrappers
  import opened Series
  import Numeric
  import BaseIndicator
  import EmaIndicator
  import ShortIndicators
  import BasicStrategy
  import ImprovedStrategy
  import LiveBot

  /** `n` points of the line `a + b * i`. */
  function Line(a: real, b: real, n: nat): (ys: seq<real>)
    ensures |ys| == n
    ensures forall i :: 0 <= i < n ==> ys[i] == a + b * (i as real)
  {
    seq(n, i requires 0 <= i < n => a + b * (i as real))
  }

  /** Two points `k` apart on a line differ by `k` times the slope. */
  lemma LineRise(a: real, b: real, n: nat, i: nat, k: nat)
    requires k <= i < n
    ensures Line(a, b, n)[i] - Line(a, b, n)[i - k] == b * (k as real)
  {
    StepRise(a, b, i, i - k);
  }

  /** The rise of `a + b * x` from `x = j` to `x = i`. */
  lemma StepRise(a: real, b: real, i: nat, j: nat)
    requires j <= i
    ensures (a + b * (i as real)) - (a + b * (j as real)) == b * ((i - j) as real)
  {
    assert (i - j) as real == (i as real) - (j as real);
  }

  /** Two values of a line, lifted into a series, and their difference. */
  lemma LiftedRise(a: real, b: real, n: nat, i: nat, j: nat) returns (hi: real, lo: real)
    requires j <= i < n
    ensures Lift(Line(a, b, n))[i] == Some(hi) && Lift(Line(a, b, n))[j] == Some(lo)
    ensures Line(a, b, n)[i] == hi && Line(a, b, n)[j] == lo
    ensures hi - lo == b * ((i - j) as real)
  {
    var ys := Line(a, b, n);
    hi := ys[i];
    lo := ys[j];
    StepRise(a, b, i, j);
  }

  /** The last value of a line and the first of its last `p` values differ by
      `p - 1` steps. */
  lemma WindowRise(a: real, b: real, n: nat, p: nat) returns (hi: real, lo: real)
    requires 1 <= p <= n
    ensures |Lift(Line(a, b, n))| == n
    ensures Lift(Line(a, b, n))[n - 1] == Some(hi) && Lift(Line(a, b, n))[n - p] == Some(lo)
    ensures hi - lo == b * ((p - 1) as real)
  {
    hi, lo := LiftedRise(a, b, n, n - 1, n - p);
    assert ((n - 1) - (n - p)) as real == (p - 1) as real;
  }

  /** On a line of slope `b`, over a window of `p` values, the base slope is
      `(p - 1) * b`: it does not divide by the number of steps. */
  lemma BaseSlopeOnALine(a: real, b: real, n: nat, p: nat)
    requires 2 <= p <= n
    ensures BaseIndicator.BaseSlope(Lift(Line(a, b, n)), p) == Some(b * ((p - 1) as real))
  {
    var hi, lo := WindowRise(a, b, n, p);
    BaseOfRise(Lift(Line(a, b, n)), p, hi, lo);
  }

  /** The base slope of a window whose ends are the numbers `lo` and `hi`. */
  lemma BaseOfRise(s: Series, p: nat, hi: real, lo: real)
    requires 1 <= p <= |s| && s[|s| - 1] == Some(hi) && s[|s| - p] == Some(lo)
    ensures BaseIndicator.BaseSlope(s, p) == Some(hi - lo)
  {
  }

  /** The improved engine's endpoint slope recovers `b`. */
  lemma EndpointSlopeOnALine(a: real, b: real, n: nat, p: nat)
    requires 2 <= p <= n
    ensures ImprovedStrategy.CalculateSlope(Lift(Line(a, b, n)), p) == Some(b)
  {
    var hi, lo := WindowRise(a, b, n, p);
    EndpointOfRise(Lift(Line(a, b, n)), p, hi, lo, b);
  }

  /** The endpoint slope of a window rising by `p - 1` times `b` is `b`. */
  lemma EndpointOfRise(s: Series, p: nat, hi: real, lo: real, b: real)
    requires 2 <= p <= |s| && s[|s| - 1] == Some(hi) && s[|s| - p] == Some(lo)
    requires hi - lo == b * ((p - 1) as real)
    ensures ImprovedStrategy.CalculateSlope(s, p) == Some(b)
  {
    var v := ImprovedStrategy.CalculateSlope(s, p).value;
    Numeric.CancelPositive(v, b, (p - 1) as real);
  }

  /** The live bot's segment slope recovers `b`. */
  lemma SegmentSlopeOnALine(a: real, b: real, n: nat, p: nat)
    requires 2 <= p <= n
    ensures LiveBot.CalculateSlopes(Line(a, b, n), p) == b
  {
    var hi, lo := LiftedRise(a, b, n, n - 1, n - p);
    assert ((n - 1) - (n - p)) as real == (p - 1) as real;
    SegmentOfRise(Line(a, b, n), p, b);
  }

  /** The segment slope of values rising by `p - 1` times `b` over the last `p` is `b`. */
  lemma SegmentOfRise(xs: seq<real>, p: nat, b: real)
    requires 2 <= p <= |xs| && xs[|xs| - 1] - xs[|xs| - p] == b * ((p - 1) as real)
    ensures LiveBot.CalculateSlopes(xs, p) == b
  {
    Numeric.CancelPositive(LiveBot.CalculateSlopes(xs, p), b, (p - 1) as real);
  }

  /** The basic engine's `diff(p) / (p - 1)` spans `p + 1` values, so on a line it is
      `p / (p - 1)` times `b`. */
  lemma DiffSlopeOnALine(a: real, b: real, n: nat, p: nat)
    requires 2 <= p < n
    ensures BasicStrategy.DiffSlope(Lift(Line(a, b, n)), p, n - 1).v.Some?
    ensures BasicStrategy.DiffSlope(Lift(Line(a, b, n)), p, n - 1).v.value * ((p - 1) as real) == b * (p as real)
  {
    var hi, lo := LiftedRise(a, b, n, n - 1, n - 1 - p);
    DiffOfRise(Lift(Line(a, b, n)), p, n - 1, hi, lo, b);
  }

  /** `diff(p) / (p - 1)` at a row whose value rose by `p` times `b` over `p` steps. */
  lemma DiffOfRise(s: Series, p: nat, i: nat, hi: real, lo: real, b: real)
    requires 2 <= p <= i < |s| && s[i] == Some(hi) && s[i - p] == Some(lo)
    requires hi - lo == b * (p as real)
    ensures BasicStrategy.DiffSlope(s, p, i).v.Some?
    ensures BasicStrategy.DiffSlope(s, p, i).v.value * ((p - 1) as real) == b * (p as real)
  {
  }

  /** The least-squares window slope recovers `b` on a line as well. */
  lemma FitOnALine(a: real, b: real, n: nat, p: nat)
    requires 2 <= p <= n
    ensures ShortIndicators.WindowSlope(Lift(Line(a, b, n)), p) == b
  {
    var w := Tail(Lift(Line(a, b, n)), p);
    assert !AnyNaN(w);
    var ys := ShortIndicators.Numbers(w);
    forall i | 0 <= i < |ys|
      ensures ys[i] == (a + b * ((n - p) as real)) + b * (i as real)
    {
      assert ys[i] == a + b * ((n - p + i) as real);
    }
    ShortIndicators.LeastSquaresOfLine(ys, a + b * ((n - p) as real), b);
  }

  /** The basic engine's rows for an EMA column: only the 3-step EMA slope matters to
      its declining rule. */
  function BasicRows(ema: Series): (rows: seq<BasicStrategy.Row>)
    ensures |rows| == |ema|
    ensures forall i :: 0 <= i < |ema| ==> rows[i].emaSlope3 == BasicStrategy.DiffSlope(ema, 3, i).v
  {
    seq(|ema|, i requires 0 <= i < |ema| =>
          BasicStrategy.Row(0, 0.0, None, [], BasicStrategy.DiffSlope(ema, 3, i).v, BasicStrategy.DiffSlope(ema, 5, i).v))
  }

  /** The four declining verdicts at the last value of an EMA column. */
  datatype Verdicts = Verdicts(basic: bool, improved: bool, live: bool, falling: bool)

  function Judge(ema: seq<real>): (v: Verdicts)
    requires |ema| >= 1
  {
    Verdicts(
      BasicStrategy.EmaFalling(BasicRows(Lift(ema)), |ema| - 1),
      ImprovedStrategy.SlidingDecline(Lift(ema)),
      LiveBot.DisjointDecline(ema),
      EmaIndicator.IsDecliningTrend(Lift(ema), 3))
  }

  /** A steadily falling EMA: only the EMA calculator calls it declining, because its
      slopes are all equal and the three slope rules need them to shrink. */
  lemma SteadyFallSplitsTheRules()
    ensures Judge(Line(100.0, -1.0, 10)) == Verdicts(false, false, false, true)
  {
    var ema := Line(100.0, -1.0, 10);
    var lifted := Lift(ema);
    forall i | 3 <= i < 10
      ensures BasicStrategy.DiffSlope(lifted, 3, i) == BasicStrategy.Finite(Some(-1.5))
    {
      LineRise(100.0, -1.0, 10, i, 3);
    }
    ImprovedStrategy.SlidingDeclineMeansShrinkingRises(lifted);
    LiveBot.DisjointDeclineMeansShrinkingRises(ema);
    LineRise(100.0, -1.0, 10, 7, 2);
    LineRise(100.0, -1.0, 10, 8, 2);
    LineRise(100.0, -1.0, 10, 9, 2);
    LineRise(100.0, -1.0, 10, 6, 2);
    LineRise(100.0, -1.0, 10, 3, 2);
  }

  /** An EMA still rising but by less each bar: the three slope rules call it declining,
      the EMA calculator does not. */
  function Decelerating(): seq<real> {
    [0.0, 10.0, 19.0, 27.0, 34.0, 40.0, 45.0, 49.0, 52.0, 54.0]
  }

  lemma SlowingRiseSplitsTheRules()
    ensures Judge(Decelerating()) == Verdicts(true, true, true, false)
  {
    var ema := Decelerating();
    var lifted := Lift(ema);
    assert BasicStrategy.DiffSlope(lifted, 3, 9) == BasicStrategy.Finite(Some(4.5));
    assert BasicStrategy.DiffSlope(lifted, 3, 8) == BasicStrategy.Finite(Some(6.0));
    assert BasicStrategy.DiffSlope(lifted, 3, 7) == BasicStrategy.Finite(Some(7.5));
    ImprovedStrategy.SlidingDeclineMeansShrinkingRises(lifted);
    LiveBot.DisjointDeclineMeansShrinkingRises(ema);
    assert !Ge(lifted[9], lifted[8]) == false;
  }
}

=== FILE: split_buy.dfy ===
/** The split-buy strategy (`SplitBuyStrategy` in `split_buy_strategy.py`): a first
    limit buy of 30% of the KRW balance at the best ask once three short indicators
    agree, a second of 30% and a third of everything left, both at the average price
    minus 2, then one sell on the first of take-profit, stop-loss, 24 hours and RSI(14).
    The exchange replies, the clock and the indicator series are inputs. */
module SplitBuy {
  import opened Wrappers
  import opened Series
  import Numeric
  import ShortIndicators

  /** `position['state']`: the phases only move forward, apart from the reset of an
      unfilled first order. */
  datatype Phase = Waiting | Phase1 | Phase2 | Phase3 | Selling

  /** The position of a phase in the cycle. */
  function Rank(s: Phase): nat {
    match s
    case Waiting => 0
    case Phase1 => 1
    case Phase2 => 2
    case Phase3 => 3
    case Selling => 4
  }

  /** One entry of `buy_times`. */
  datatype Fill = Fill(time: int, quantity: real, price: real)

  /** The `position` dictionary. The target and stop are `math.ceil` results, so
      integers; before the first fill they are 0. */
  datatype SplitPosition = SplitPosition(
    state: Phase,
    avgBuyPrice: real,
    totalQuantity: real,
    totalInvested: real,
    buyTimes: seq<Fill>,
    targetProfitPrice: int,
    stopLossPrice: int,
    phase1OrderId: Option<string>,
    phase2OrderId: Option<string>,
    phase3OrderId: Option<string>,
    sellOrderId: Option<string>,
    createdAt: Option<int>)

  /** `reset_position` (and the initial position): nothing bought, nothing ordered. */
  function Fresh(): SplitPosition {
    SplitPosition(Waiting, 0.0, 0.0, 0.0, [], 0, 0, None, None, None, None, None)
  }

  /** What every fill keeps: the invested amount is the average price times the
      quantity, and once something is bought the take-profit target sits exactly 5
      above the stop-loss. */
  predicate Ledger(p: SplitPosition) {
    p.totalInvested == p.avgBuyPrice * p.totalQuantity
    && (|p.buyTimes| > 0 ==> p.targetProfitPrice == p.stopLossPrice + 5)
  }

  /** `ceil(avg + 3) - ceil(avg - 2)` is always 5. */
  lemma TargetAboveStop(avg: real)
    ensures Numeric.Ceil(avg + 3.0) == Numeric.Ceil(avg - 2.0) + 5
  {
    Numeric.CeilShift(avg - 2.0, 5);
  }

  /** `_update_position_after_fill`: when the new total quantity is positive, the fill
      is added to the quantity and the fill list and the average, target and stop are
      recomputed (see `FillBooksAverage`); otherwise nothing changes. The phase and
      orders are untouched. */
  function UpdateAfterFill(p: SplitPosition, quantity: real, price: real, now: int): (r: SplitPosition)
    ensures p.totalQuantity + quantity <= 0.0 ==> r == p
    ensures p.totalQuantity + quantity > 0.0 ==>
      r.totalQuantity == p.totalQuantity + quantity && r.buyTimes == p.buyTimes + [Fill(now, quantity, price)]
    ensures r.state == p.state && r.createdAt == p.createdAt && r.sellOrderId == p.sellOrderId
            && r.phase1OrderId == p.phase1OrderId && r.phase2OrderId == p.phase2OrderId
            && r.phase3OrderId == p.phase3OrderId
  {
    var invested := p.totalInvested + quantity * price;
    var total := p.totalQuantity + quantity;
    if total > 0.0 then
      var avg := Numeric.Div(invested, total);
      p.(avgBuyPrice := avg, totalQuantity := total, totalInvested := invested,
         buyTimes := p.buyTimes + [Fill(now, quantity, price)],
         targetProfitPrice := Numeric.Ceil(avg + 3.0), stopLossPrice := Numeric.Ceil(avg - 2.0))
    else p
  }

  /** A booked fill adds its cost to the invested amount, the new average times the
      new quantity is the invested amount, the target is the least whole price at least
      3 above the average, and the stop sits exactly 5 below the target. */
  lemma FillBooksAverage(p: SplitPosition, quantity: real, price: real, now: int)
    requires p.totalQuantity + quantity > 0.0
    ensures var r := UpdateAfterFill(p, quantity, price, now);
      && r.totalInvested == p.totalInvested + quantity * price
      && r.avgBuyPrice * r.totalQuantity == r.totalInvested
      && (r.avgBuyPrice + 3.0) <= r.targetProfitPrice as real < r.avgBuyPrice + 4.0
      && r.targetProfitPrice == r.stopLossPrice + 5
  {
    var r := UpdateAfterFill(p, quantity, price, now);
    TargetAboveStop(r.avgBuyPrice);
  }

  /** A fill keeps the ledger. */
  lemma FillKeepsLedger(p: SplitPosition, quantity: real, price: real, now: int)
    requires Ledger(p)
    ensures Ledger(UpdateAfterFill(p, quantity, price, now))
  {
    if p.totalQuantity + quantity > 0.0 {
      FillBooksAverage(p, quantity, price, now);
    }
  }

  /** The fee-adjusted amount `amount * (1 - 0.001)`. */
  function AfterFee(amount: real): real { amount * 0.999 }

  /** `math.ceil(effective_amount / price)`: for a positive price, the least whole
      quantity whose cost at `price` covers the fee-adjusted amount. */
  function CeilQuantity(amount: real, price: real): (q: int)
    requires price != 0.0
    ensures price > 0.0 ==> q as real * price >= AfterFee(amount)
    ensures price > 0.0 ==> (q - 1) as real * price < AfterFee(amount)
  {
    var d := Numeric.Div(AfterFee(amount), price);
    var q := Numeric.Ceil(d);
    assert price > 0.0 ==> q as real * price >= AfterFee(amount) && (q - 1) as real * price < AfterFee(amount) by {
      if price > 0.0 {
        WholeUnitsCover(AfterFee(amount), price, d, q);
      }
    }
    q
  }

  /** A whole number of units at a positive price, rounded up from the exact quotient
      `d`, covers the amount and one unit less does not. */
  lemma WholeUnitsCover(x: real, price: real, d: real, q: int)
    requires price > 0.0 && d * price == x && d <= q as real < d + 1.0
    ensures q as real * price >= x && (q - 1) as real * price < x
  {
    var down := (q - 1) as real;
    assert d - down > 0.0;
    Numeric.MulPositive(d - down, price);
    assert (d - down) * price == d * price - down * price;
    assert d * price - down * price > 0.0;
    assert down * price < x;
    var up := q as real;
    Numeric.MulNonNegative(up - d, price);
    assert (up - d) * price == up * price - d * price;
  }

  /** The split ratios. */
  const Phase1Ratio := 0.30
  const Phase2Ratio := 0.30

  /** An accepted buy order, as the `execute_phase*_buy` result reports it. */
  datatype BuyOrder = BuyOrder(orderId: string, quantity: int, price: real, amount: real)

  /** `check_phase1_conditions`: the RSI(9), the EMA of the RSI and the price EMA
      conditions all hold. */
  function Phase1Conditions(rsi9: Series, rsiEma: Series, priceEma: Series): (r: bool)
    ensures r <==>
      |rsi9| >= 3 && rsi9[|rsi9| - 1].Some? && rsi9[|rsi9| - 2].Some? && rsi9[|rsi9| - 3].Some?
      && rsi9[|rsi9| - 1].value < 70.0 && rsi9[|rsi9| - 1].value - rsi9[|rsi9| - 3].value > 6.0
      && |rsiEma| >= 2 && rsiEma[|rsiEma| - 1].Some? && rsiEma[|rsiEma| - 2].Some?
      && rsiEma[|rsiEma| - 1].value - rsiEma[|rsiEma| - 2].value > 1.0
      && |priceEma| >= 2 && priceEma[|priceEma| - 1].Some? && priceEma[|priceEma| - 2].Some?
      && priceEma[|priceEma| - 1].value - priceEma[|priceEma| - 2].value > 0.2
  {
    ShortIndicators.RsiShortBuyMeansRise(rsi9);
    ShortIndicators.RsiEmaShortBuyMeansRise(rsiEma);
    ShortIndicators.PriceEmaBuyMeansRise(priceEma);
    ShortIndicators.RsiShortBuy(rsi9).conditionMet
    && ShortIndicators.RsiEmaShortBuy(rsiEma).conditionMet
    && ShortIndicators.PriceEmaBuy(priceEma).conditionMet
  }

  /** `execute_phase1_buy`: 30% of the KRW balance, a quantity rounded up at the current
      price (a zero price raises), a limit order at the best ask (none in the book is an
      error). An accepted order moves to PHASE1 and stamps the position's start time. */
  function ExecutePhase1Buy(p: SplitPosition, price: real, krw: real, ask: Option<real>,
                            reply: Option<string>, now: int): (r: (SplitPosition, Result<BuyOrder, string>))
    ensures r.1.Failure? <==> price == 0.0 || ask.None? || reply.None?
    ensures r.1.Failure? ==> r.0 == p
    ensures r.1.Success? ==>
      r.0 == p.(phase1OrderId := reply, state := Phase1, createdAt := Some(now))
      && r.1.value.orderId == reply.value && r.1.value.price == ask.value
      && r.1.value.amount == krw * Phase1Ratio
    ensures r.1.Success? && price > 0.0 ==>
      r.1.value.quantity as real * price >= AfterFee(krw * Phase1Ratio)
      && (r.1.value.quantity - 1) as real * price < AfterFee(krw * Phase1Ratio)
  {
    var amount := krw * Phase1Ratio;
    if price == 0.0 then (p, Failure("float division by zero"))
    else
      var quantity := CeilQuantity(amount, price);
      if ask.None? then (p, Failure("No orderbook data"))
      else if reply.None? then (p, Failure("Order placement failed"))
      else
        (p.(phase1OrderId := reply, state := Phase1, createdAt := Some(now)),
         Success(BuyOrder(reply.value, quantity, ask.value, amount)))
  }

  /** `execute_phase2_buy`: 30% of the KRW balance as a limit order at the average price
      minus 2 (an average of exactly 2 divides by zero). */
  function ExecutePhase2Buy(p: SplitPosition, krw: real, reply: Option<string>): (r: (SplitPosition, Result<BuyOrder, string>))
    ensures r.1.Failure? <==> p.avgBuyPrice == 2.0 || reply.None?
    ensures r.1.Failure? ==> r.0 == p
    ensures r.1.Success? ==>
      r.0 == p.(phase2OrderId := reply, state := Phase2)
      && r.1.value.orderId == reply.value && r.1.value.price == p.avgBuyPrice - 2.0
      && r.1.value.amount == krw * Phase2Ratio
    ensures r.1.Success? && p.avgBuyPrice > 2.0 ==>
      r.1.value.quantity as real * r.1.value.price >= AfterFee(krw * Phase2Ratio)
      && (r.1.value.quantity - 1) as real * r.1.value.price < AfterFee(krw * Phase2Ratio)
  {
    var price := p.avgBuyPrice - 2.0;
    var amount := krw * Phase2Ratio;
    if price == 0.0 then (p, Failure("float division by zero"))
    else
      var quantity := CeilQuantity(amount, price);
      if reply.None? then (p, Failure("Phase2 order placement failed"))
      else (p.(phase2OrderId := reply, state := Phase2), Success(BuyOrder(reply.value, quantity, price, amount)))
  }

  /** `execute_phase3_buy`: ALL the remaining KRW, not the nominal 40%, as a limit order
      at the average price minus 2. */
  function ExecutePhase3Buy(p: SplitPosition, krw: real, reply: Option<string>): (r: (SplitPosition, Result<BuyOrder, string>))
    ensures r.1.Failure? <==> p.avgBuyPrice == 2.0 || reply.None?
    ensures r.1.Failure? ==> r.0 == p
    ensures r.1.Success? ==>
      r.0 == p.(phase3OrderId := reply, state := Phase3)
      && r.1.value.orderId == reply.value && r.1.value.price == p.avgBuyPrice - 2.0
      && r.1.value.amount == krw
    ensures r.1.Success? && p.avgBuyPrice > 2.0 ==>
      r.1.value.quantity as real * r.1.value.price >= AfterFee(krw)
      && (r.1.value.quantity - 1) as real * r.1.value.price < AfterFee(krw)
  {
    var price := p.avgBuyPrice - 2.0;
    if price == 0.0 then (p, Failure("float division by zero"))
    else
      var quantity := CeilQuantity(krw, price);
      if reply.None? then (p, Failure("Phase3 order placement failed"))
      else (p.(phase3OrderId := reply, state := Phase3), Success(BuyOrder(reply.value, quantity, price, krw)))
  }

  /** The order status fields `check_and_handle_phase1_fill` reads. */
  datatype FillStatus = Filled | PartiallyFilled | OtherStatus
  datatype StatusReply = StatusReply(status: FillStatus, filledQuantity: real, averagePrice: real)

  /** How long a partly filled first order may rest, in seconds (10 minutes). */
  const PartialFillTimeout := 600

  /** `_is_order_expired(10)`: the first order was placed at least 10 minutes ago. */
  predicate OrderExpired(p: SplitPosition, now: int) {
    p.createdAt.Some? && now - p.createdAt.value >= PartialFillTimeout
  }

  /** `check_and_handle_phase1_fill`: without a first order or a status reply nothing
      happens. A full fill is booked and moves to PHASE2. A partial fill waits 10
      minutes; then a positive fill is booked, the rest cancelled, and the phase moves
      to PHASE2, while an empty one is cancelled and the position reset. A cancel that
      raises ends the call early: a positive fill stays booked but the phase stays. */
  function HandlePhase1Fill(p: SplitPosition, status: Option<StatusReply>, cancelRaises: bool, now: int): (r: (SplitPosition, bool))
    ensures !Truthy(p.phase1OrderId) || status.None? ==> r == (p, false)
    ensures r.1 <==>
      Truthy(p.phase1OrderId) && status.Some?
      && (status.value.status == Filled
          || (status.value.status == PartiallyFilled && OrderExpired(p, now)
              && status.value.filledQuantity > 0.0 && !cancelRaises))
    ensures r.1 ==>
      r.0 == UpdateAfterFill(p, status.value.filledQuantity, status.value.averagePrice, now).(state := Phase2)
    ensures !r.1 && r.0 != p ==>
      Truthy(p.phase1OrderId) && status.Some? && status.value.status == PartiallyFilled && OrderExpired(p, now)
      && (r.0 == Fresh() || r.0 == UpdateAfterFill(p, status.value.filledQuantity, status.value.averagePrice, now))
  {
    if !Truthy(p.phase1OrderId) || status.None? then (p, false)
    else
      var s := status.value;
      var booked := UpdateAfterFill(p, s.filledQuantity, s.averagePrice, now);
      if s.status == Filled then (booked.(state := Phase2), true)
      else if s.status == PartiallyFilled && OrderExpired(p, now) then
        if s.filledQuantity > 0.0 then
          if cancelRaises then (booked, false) else (booked.(state := Phase2), true)
        else if cancelRaises then (p, false)
        else (Fresh(), false)
      else (p, false)
  }

  /** When the cancel raises, the next cycle sees the same partly filled order again
      and books the same fill a second time. */
  lemma RaisingCancelBooksTwice(p: SplitPosition, s: StatusReply, now: int)
    requires Truthy(p.phase1OrderId) && p.totalQuantity >= 0.0
    requires s.status == PartiallyFilled && OrderExpired(p, now) && s.filledQuantity > 0.0
    ensures var once := HandlePhase1Fill(p, Some(s), true, now).0;
      var twice := HandlePhase1Fill(once, Some(s), true, now).0;
      twice.totalQuantity == p.totalQuantity + 2.0 * s.filledQuantity
      && |twice.buyTimes| == |p.buyTimes| + 2 && twice.state == p.state
  {
    var once := HandlePhase1Fill(p, Some(s), true, now).0;
    assert once == UpdateAfterFill(p, s.filledQuantity, s.averagePrice, now);
  }

  /** The four sell reasons of `check_sell_conditions`, in priority order. */
  datatype SellReason = TakeProfit | StopLoss | DayElapsed | RsiAbove70

  datatype SellType = Limit | Market

  /** Take-profit and stop-loss sell with a limit order, the others at market. */
  function TypeOf(reason: SellReason): SellType {
    if reason == TakeProfit || reason == StopLoss then Limit else Market
  }

  /** How long a position may be held, in seconds (24 hours). */
  const MaxHoldSeconds := 24 * 60 * 60

  /** `_is_position_expired(24 * 60)`: the first fill is at least 24 hours old. */
  predicate PositionExpired(p: SplitPosition, now: int) {
    |p.buyTimes| > 0 && now - p.buyTimes[0].time >= MaxHoldSeconds
  }

  /** `check_sell_conditions`: the first of the current price at or above the target,
      in PHASE3 at or below the stop, the first fill 24 hours old, and a last RSI(14)
      value above 70 (a NaN is not). */
  function CheckSellConditions(p: SplitPosition, rsi14: Series, price: real, now: int): (r: Option<SellReason>)
    ensures var profit := price >= p.targetProfitPrice as real;
      var stop := p.state == Phase3 && price <= p.stopLossPrice as real;
      var late := PositionExpired(p, now);
      var hot := |rsi14| > 0 && Gt(rsi14[|rsi14| - 1], Some(70.0));
      (r == Some(TakeProfit) <==> profit)
      && (r == Some(StopLoss) <==> !profit && stop)
      && (r == Some(DayElapsed) <==> !profit && !stop && late)
      && (r == Some(RsiAbove70) <==> !profit && !stop && !late && hot)
      && (r.None? <==> !profit && !stop && !late && !hot)
  {
    if price >= p.targetProfitPrice as real then Some(TakeProfit)
    else if p.state == Phase3 && price <= p.stopLossPrice as real then Some(StopLoss)
    else if PositionExpired(p, now) then Some(DayElapsed)
    else if |rsi14| > 0 && Gt(rsi14[|rsi14| - 1], Some(70.0)) then Some(RsiAbove70)
    else None
  }

  /** `check_sell_conditions` as the code stands: the fourth test calls
      `self.rsi_14.calculate(data)`, a method the RSI calculator does not define, and the
      handler turns the resulting error into "no sell". Only the first three reasons can
      occur. */
  function CheckSellConditionsAsWritten(p: SplitPosition, price: real, now: int): (r: Option<SellReason>)
    ensures r != Some(RsiAbove70)
  {
    if price >= p.targetProfitPrice as real then Some(TakeProfit)
    else if p.state == Phase3 && price <= p.stopLossPrice as real then Some(StopLoss)
    else if PositionExpired(p, now) then Some(DayElapsed)
    else None
  }

  /** The code as written agrees with the intended rule except where the RSI(14) reason
      would fire; there it sells nothing. */
  lemma AsWrittenDropsTheRsiReason(p: SplitPosition, rsi14: Series, price: real, now: int)
    ensures var intended := CheckSellConditions(p, rsi14, price, now);
            CheckSellConditionsAsWritten(p, price, now) == if intended == Some(RsiAbove70) then None else intended
  {
  }

  /** An input that shows the difference: a first-phase position below its target, not
      yet a day old, whose last RSI(14) is 80. */
  lemma RsiSellNeverFires()
    ensures var p := Fresh().(state := Phase1, targetProfitPrice := 1400);
            && CheckSellConditions(p, [Some(80.0)], 1390.0, 0) == Some(RsiAbove70)
            && CheckSellConditionsAsWritten(p, 1390.0, 0) == None
  {
  }

  /** An accepted sell order. */
  datatype SellOrder = SellOrder(orderId: string, quantity: real, price: real, sellType: SellType)

  /** `execute_sell_order`: nothing to sell without a positive quantity; a limit sell is
      at the target when the price has reached it and at the stop otherwise, a market
      sell is reported at the current price. An accepted order moves to SELLING. */
  function ExecuteSellOrder(p: SplitPosition, sellType: SellType, price: real, reply: Option<string>): (r: (SplitPosition, Result<SellOrder, string>))
    ensures r.1.Failure? <==> p.totalQuantity <= 0.0 || reply.None?
    ensures p.totalQuantity <= 0.0 ==> r.1 == Failure("No position to sell")
    ensures r.1.Failure? ==> r.0 == p
    ensures r.1.Success? ==>
      r.0 == p.(sellOrderId := reply, state := Selling)
      && r.1.value.quantity == p.totalQuantity && r.1.value.sellType == sellType
      && r.1.value.orderId == reply.value
    ensures r.1.Success? && sellType == Limit ==>
      r.1.value.price == (if price >= p.targetProfitPrice as real then p.targetProfitPrice else p.stopLossPrice) as real
    ensures r.1.Success? && sellType == Market ==> r.1.value.price == price
  {
    if p.totalQuantity <= 0.0 then (p, Failure("No position to sell"))
    else
      var sellPrice := if sellType == Market then price
                       else if price >= p.targetProfitPrice as real then p.targetProfitPrice as real
                       else p.stopLossPrice as real;
      if reply.None? then (p, Failure("Sell order placement failed"))
      else (p.(sellOrderId := reply, state := Selling), Success(SellOrder(reply.value, p.totalQuantity, sellPrice, sellType)))
  }

  /** A limit sell on a stop-loss is placed at the stop, 5 below the target. */
  lemma StopLossSellsFiveBelowTarget(p: SplitPosition, rsi14: Series, price: real, now: int, reply: Option<string>)
    requires Ledger(p) && |p.buyTimes| > 0
    requires CheckSellConditions(p, rsi14, price, now) == Some(StopLoss)
    requires ExecuteSellOrder(p, Limit, price, reply).1.Success?
    ensures ExecuteSellOrder(p, Limit, price, reply).1.value.price == (p.targetProfitPrice - 5) as real
  {
  }

  /** What one run of the cycle sees: the closes of the hourly candles, the KRW balance
      (`None` when the balance call fails), the indicator series, the best ask, the first
      order's status, whether a cancel raises, the order reply and the clock. */
  datatype Observation = Observation(
    closes: seq<real>,
    krw: Option<real>,
    rsi9: Series,
    rsiEma: Series,
    priceEma: Series,
    rsi14: Series,
    ask: Option<real>,
    status: Option<StatusReply>,
    cancelRaises: bool,
    reply: Option<string>,
    now: int)

  /** The `action` of a cycle with the order result it carries. */
  datatype Action =
    | NoAction
    | Phase1BuyAction(buy: Result<BuyOrder, string>)
    | Phase2BuyAction(buy: Result<BuyOrder, string>)
    | Phase3BuyAction(buy: Result<BuyOrder, string>)
    | SellAction(sell: Result<SellOrder, string>)
    | WaitingSellFill

  datatype Cycle = Cycle(position: SplitPosition, action: Action)

  /** `get_market_data` asks for 100 candles and returns nothing below 20. */
  const MinCandles := 20

  /** The WAITING step: a first buy when the three conditions hold. */
  function WaitingStep(p: SplitPosition, obs: Observation, price: real, krw: real): (c: Cycle)
    requires p.state == Waiting
    ensures SameBook(p, c.position)
    ensures c.position.state == Waiting || c.position.state == Phase1
    ensures c.action.Phase1BuyAction? <==> Phase1Conditions(obs.rsi9, obs.rsiEma, obs.priceEma)
  {
    if Phase1Conditions(obs.rsi9, obs.rsiEma, obs.priceEma) then
      var (q, buy) := ExecutePhase1Buy(p, price, krw, obs.ask, obs.reply, obs.now);
      Cycle(q, Phase1BuyAction(buy))
    else Cycle(p, NoAction)
  }

  /** The PHASE1 step: on a handled fill the second buy is placed at once. */
  function Phase1Step(p: SplitPosition, obs: Observation, krw: real): (c: Cycle)
    requires p.state == Phase1
    ensures SameBook(HandlePhase1Fill(p, obs.status, obs.cancelRaises, obs.now).0, c.position)
    ensures c.position.state == Phase1 || c.position.state == Phase2 || c.position == Fresh()
    ensures c.action.Phase2BuyAction? <==> HandlePhase1Fill(p, obs.status, obs.cancelRaises, obs.now).1
  {
    var (filled, ok) := HandlePhase1Fill(p, obs.status, obs.cancelRaises, obs.now);
    if ok then
      var (q, buy) := ExecutePhase2Buy(filled, krw, obs.reply);
      Cycle(q, Phase2BuyAction(buy))
    else Cycle(filled, NoAction)
  }

  /** The PHASE3 step: a sell of the whole quantity on the first sell reason. */
  function Phase3Step(p: SplitPosition, obs: Observation, price: real): (c: Cycle)
    requires p.state == Phase3
    ensures SameBook(p, c.position)
    ensures c.position.state == Phase3 || c.position.state == Selling
    ensures c.action.SellAction? <==> CheckSellConditions(p, obs.rsi14, price, obs.now).Some?
  {
    var reason := CheckSellConditions(p, obs.rsi14, price, obs.now);
    if reason.Some? then
      var (q, sell) := ExecuteSellOrder(p, TypeOf(reason.value), price, obs.reply);
      Cycle(q, SellAction(sell))
    else Cycle(p, NoAction)
  }

  /** `run_strategy_cycle`: fails without 20 candles or a balance; otherwise WAITING
      checks the first-buy conditions, PHASE1 checks the fill and then places the second
      buy, PHASE2 places the third buy at once, PHASE3 sells on a sell reason and SELLING
      only waits. */
  function RunStrategyCycle(p: SplitPosition, obs: Observation): (r: Result<Cycle, string>)
    ensures r.Failure? <==> |obs.closes| < MinCandles || obs.krw.None?
    ensures r.Success? && p.state == Selling ==> r.value == Cycle(p, WaitingSellFill)
    ensures r.Success? ==>
      var q := r.value.position;
      q.state == p.state || Rank(q.state) == Rank(p.state) + 1 || (p.state == Phase1 && q == Fresh())
    ensures r.Success? && p.state != Phase1 ==> SameBook(p, r.value.position)
    ensures r.Success? && r.value.action.Phase3BuyAction? && r.value.action.buy.Success? ==>
      p.state == Phase2 && r.value.action.buy.value.amount == obs.krw.value
    ensures r.Success? && r.value.action.SellAction? ==>
      p.state == Phase3 && CheckSellConditions(p, obs.rsi14, obs.closes[|obs.closes| - 1], obs.now).Some?
  {
    if |obs.closes| < MinCandles then Failure("No market data")
    else if obs.krw.None? then Failure("Cannot get balance")
    else
      var price := obs.closes[|obs.closes| - 1];
      var krw := obs.krw.value;
      match p.state
      case Waiting => Success(WaitingStep(p, obs, price, krw))
      case Phase1 => Success(Phase1Step(p, obs, krw))
      case Phase2 =>
        var (q, buy) := ExecutePhase3Buy(p, krw, obs.reply);
        Success(Cycle(q, Phase3BuyAction(buy)))
      case Phase3 => Success(Phase3Step(p, obs, price))
      case Selling => Success(Cycle(p, WaitingSellFill))
  }

  /** Every cycle keeps the ledger: only the fill check of PHASE1 books anything, and
      a booked fill keeps it. */
  lemma CycleKeepsLedger(p: SplitPosition, obs: Observation)
    requires Ledger(p) && RunStrategyCycle(p, obs).Success?
    ensures Ledger(RunStrategyCycle(p, obs).value.position)
  {
    var q := RunStrategyCycle(p, obs).value.position;
    if p.state == Phase1 {
      var filled := HandlePhase1Fill(p, obs.status, obs.cancelRaises, obs.now).0;
      Phase1FillKeepsLedger(p, obs.status, obs.cancelRaises, obs.now);
      assert q == Phase1Step(p, obs, obs.krw.value).position;
      SameBookKeepsLedger(filled, q);
    } else {
      SameBookKeepsLedger(p, q);
    }
  }

  /** The fill check keeps the ledger, whichever way it goes. */
  lemma Phase1FillKeepsLedger(p: SplitPosition, status: Option<StatusReply>, cancelRaises: bool, now: int)
    requires Ledger(p)
    ensures Ledger(HandlePhase1Fill(p, status, cancelRaises, now).0)
  {
    var r := HandlePhase1Fill(p, status, cancelRaises, now).0;
    if Truthy(p.phase1OrderId) && status.Some? {
      var s := status.value;
      var booked := UpdateAfterFill(p, s.filledQuantity, s.averagePrice, now);
      FillKeepsLedger(p, s.filledQuantity, s.averagePrice, now);
      SameBookKeepsLedger(booked, booked.(state := Phase2));
      if s.status == Filled {
        assert r == booked.(state := Phase2);
      } else if s.status == PartiallyFilled && OrderExpired(p, now) {
        if s.filledQuantity > 0.0 {
          assert r == booked || r == booked.(state := Phase2);
        } else {
          assert r == p || r == Fresh();
          assert Ledger(Fresh());
        }
      } else {
        assert r == p;
      }
    }
  }

  lemma SameBookKeepsLedger(p: SplitPosition, q: SplitPosition)
    requires Ledger(p) && SameBook(p, q)
    ensures Ledger(q)
  {
  }

  /** Two positions with the same quantities, prices and fills. */
  predicate SameBook(p: SplitPosition, q: SplitPosition) {
    q.avgBuyPrice == p.avgBuyPrice && q.totalQuantity == p.totalQuantity
    && q.totalInvested == p.totalInvested && q.buyTimes == p.buyTimes
    && q.targetProfitPrice == p.targetProfitPrice && q.stopLossPrice == p.stopLossPrice
  }
}

=== FILE: split_sim.dfy ===
/** The split-buy backtest (`SplitStrategyBacktest` in `test_split_strategy.py`): a
    trade opens with 30% of the balance at the signal bar's close, adds 30% and then
    everything left once the close falls to 2 below the first price, and exits on the
    first of take-profit, stop-loss, 24 bars and RSI(14) above 70, or at the end of a
    48-bar window. The replay scans for signals from bar 20 and leaves 50 bars spare. */
module SplitSim {
  import opened Wrappers
  import opened Series
  import Numeric
  import BaseIndicator
  import RsiIndicator
  import SplitBuy

  const Phase1Ratio := 0.3
  const Phase2Ratio := 0.3
  /** Bars checked after the entry at most. */
  const MaxCheckBars := 48
  /** Bars after which a trade is closed at the close. */
  const HoldBars := 24
  /** The first bar index at which the RSI(14) exit is evaluated. */
  const RsiFrom := 14
  /** `check_phase1_conditions` needs this many bars before the signal bar. */
  const Warmup := 20
  /** Bars left spare at the end of the replay. */
  const Tailroom := 50
  /** Bars skipped after a sell before scanning again. */
  const Cooldown := 24

  /** One entry of `phases`. */
  datatype PhaseBuy = PhaseBuy(phase: nat, price: real, quantity: real, amount: real)

  /** The running book of a simulated trade. */
  datatype Book = Book(
    totalQuantity: real,
    totalInvested: real,
    remaining: real,
    avg: real,
    phase2Done: bool,
    phase3Done: bool,
    phases: seq<PhaseBuy>)

  /** What every step of a trade keeps: the balance is split between what is invested
      and what remains, nothing is overspent, the average price times the quantity is
      the invested amount, phase 3 comes after phase 2, and one entry is logged per
      phase. */
  predicate Balanced(b: Book, initial: real) {
    b.remaining >= 0.0 && b.totalInvested + b.remaining == initial
    && b.avg * b.totalQuantity == b.totalInvested && b.totalQuantity > 0.0 && b.totalInvested > 0.0
    && (b.phase3Done ==> b.phase2Done && b.remaining == 0.0)
    && |b.phases| == 1 + (if b.phase2Done then 1 else 0) + (if b.phase3Done then 1 else 0)
  }

  /** Phase 1: 30% of the balance at the entry close. */
  function Open(initial: real, price: real): (b: Book)
    requires initial > 0.0 && price > 0.0
    ensures Balanced(b, initial) && !b.phase2Done && b.avg == price
    ensures b.totalInvested == initial * Phase1Ratio
  {
    var amount := initial * Phase1Ratio;
    var q := Numeric.Div(amount, price);
    Numeric.MulPositive(amount, 1.0);
    assert q > 0.0 by { Numeric.PositiveFactor(q, price); }
    Book(q, amount, initial - amount, price, false, false, [PhaseBuy(1, price, q, amount)])
  }

  /** Adds a buy of `amount` at `price` and recomputes the average. */
  function AddBuy(b: Book, phase: nat, price: real, amount: real): (r: Book)
    requires price > 0.0 && amount >= 0.0 && b.totalQuantity > 0.0
    ensures r.totalInvested == b.totalInvested + amount && r.totalQuantity >= b.totalQuantity
    ensures r.avg * r.totalQuantity == r.totalInvested && r.totalQuantity > 0.0
    ensures r.phases == b.phases + [PhaseBuy(phase, price, r.totalQuantity - b.totalQuantity, amount)]
    ensures r.remaining == b.remaining && r.phase2Done == b.phase2Done && r.phase3Done == b.phase3Done
  {
    var q := Numeric.Div(amount, price);
    assert q >= 0.0 by { Numeric.DivNonNegative(amount, price); }
    var total := b.totalQuantity + q;
    var invested := b.totalInvested + amount;
    b.(totalQuantity := total, totalInvested := invested, avg := Numeric.Div(invested, total),
       phases := b.phases + [PhaseBuy(phase, price, q, amount)])
  }

  /** The phase-2 check of one bar: once, when the close is at or below the phase-2
      price and 30% of the initial balance is still there. */
  function Phase2Step(b: Book, initial: real, price: real, phase2Price: real): (r: Book)
    requires Balanced(b, initial) && price > 0.0 && initial > 0.0
    ensures Balanced(r, initial)
    ensures r.phase2Done <==> b.phase2Done || (price <= phase2Price && b.remaining >= initial * Phase2Ratio)
    ensures r.phase3Done == b.phase3Done
    ensures !b.phase2Done && r.phase2Done ==> r.remaining == b.remaining - initial * Phase2Ratio
    ensures b.phase2Done ==> r == b
  {
    var amount := initial * Phase2Ratio;
    if !b.phase2Done && price <= phase2Price && b.remaining >= amount then
      AddBuy(b, 2, price, amount).(remaining := b.remaining - amount, phase2Done := true)
    else b
  }

  /** The phase-3 check of the same bar: after phase 2, once, at the same trigger
      price, spending everything that remains. */
  function Phase3Step(b: Book, initial: real, price: real, phase3Price: real): (r: Book)
    requires Balanced(b, initial) && price > 0.0
    ensures Balanced(r, initial)
    ensures r.phase3Done <==> b.phase3Done || (b.phase2Done && price <= phase3Price && b.remaining > 0.0)
    ensures r.phase2Done == b.phase2Done
    ensures !b.phase3Done && r.phase3Done ==> r.remaining == 0.0 && r.totalInvested == initial
    ensures b.phase3Done ==> r == b
  {
    if b.phase2Done && !b.phase3Done && price <= phase3Price && b.remaining > 0.0 then
      AddBuy(b, 3, price, b.remaining).(remaining := 0.0, phase3Done := true)
    else b
  }

  /** Phase 3 waits for phase 2 but uses the same trigger, so a first close at or below
      it buys both on the same bar and spends the whole balance. */
  lemma FirstDipBuysBoth(initial: real, entry: real, price: real)
    requires initial > 0.0 && entry > 0.0 && 0.0 < price <= entry - 2.0
    ensures var b := Phase3Step(Phase2Step(Open(initial, entry), initial, price, entry - 2.0), initial, price, entry - 2.0);
      b.phase2Done && b.phase3Done && b.remaining == 0.0 && b.totalInvested == initial && |b.phases| == 3
  {
    var b1 := Open(initial, entry);
    var b2 := Phase2Step(b1, initial, price, entry - 2.0);
    assert b2.remaining == initial - initial * Phase1Ratio - initial * Phase2Ratio;
  }

  /** The exit reasons, in priority order, and the end of the window. */
  datatype Reason = TakeProfit | StopLoss | TimeLimit | RsiAbove70 | EndOfPeriod

  datatype Exit = Exit(index: nat, price: real, reason: Reason)

  /** The exit rule of one bar: the first of the close at or above the average plus 3
      (sold at that target), after phase 3 the close at or below the average minus 2
      (sold at that stop), 24 bars held, and a hot RSI (both sold at the close). */
  function ExitRule(b: Book, price: real, i: nat, hot: bool): (r: Option<(Reason, real)>)
    ensures var profit := price >= b.avg + 3.0;
      var stop := b.phase3Done && price <= b.avg - 2.0;
      var late := i >= HoldBars;
      (r == Some((TakeProfit, b.avg + 3.0)) <==> profit)
      && (r == Some((StopLoss, b.avg - 2.0)) <==> !profit && stop)
      && (r == Some((TimeLimit, price)) <==> !profit && !stop && late)
      && (r == Some((RsiAbove70, price)) <==> !profit && !stop && !late && hot)
      && (r.None? <==> !profit && !stop && !late && !hot)
  {
    if price >= b.avg + 3.0 then Some((TakeProfit, b.avg + 3.0))
    else if b.phase3Done && price <= b.avg - 2.0 then Some((StopLoss, b.avg - 2.0))
    else if i >= HoldBars then Some((TimeLimit, price))
    else if hot then Some((RsiAbove70, price))
    else None
  }

  /** `calculate_rsi` with period 14 over the first `k` closes, and whether its last
      value is above 70; its errors propagate, since nothing catches them. */
  function RsiHot(closes: seq<real>, k: nat): (r: Result<bool, string>)
    requires k <= |closes|
    ensures r.Success? ==>
      var rsi := RsiIndicator.CalculateRsi(RsiIndicator.RsiCalculator(14), BaseIndicator.Frame(k, map["close" := Lift(closes[..k])]), "close");
      rsi.Success? && (r.value <==> |rsi.value| > 0 && Gt(rsi.value[|rsi.value| - 1], Some(70.0)))
  {
    var rsi :- RsiIndicator.CalculateRsi(RsiIndicator.RsiCalculator(14), BaseIndicator.Frame(k, map["close" := Lift(closes[..k])]), "close");
    Success(|rsi| > 0 && Gt(rsi[|rsi| - 1], Some(70.0)))
  }

  predicate Positive(closes: seq<real>) {
    forall i :: 0 <= i < |closes| ==> closes[i] > 0.0
  }

  /** The loop of `simulate_trade` from bar `start + i`: the two buy checks, then the
      exit rule, the RSI computed only when the three other rules pass and the bar
      index is at least 14. */
  function Scan(closes: seq<real>, start: nat, initial: real, maxCheck: nat, i: nat, b: Book, triggerPrice: real): (r: Result<(Book, Option<Exit>), string>)
    requires Positive(closes) && initial > 0.0 && Balanced(b, initial)
    requires 1 <= i <= HoldBars && start + maxCheck < |closes|
    decreases maxCheck + 1 - i
    ensures r.Success? ==> Balanced(r.value.0, initial)
    ensures r.Success? && r.value.1.Some? ==> start + i <= r.value.1.value.index <= start + maxCheck
    ensures r.Success? && r.value.1.Some? && r.value.1.value.reason == TakeProfit ==>
      r.value.1.value.price == r.value.0.avg + 3.0
    ensures r.Success? && r.value.1.Some? && r.value.1.value.reason == StopLoss ==>
      r.value.1.value.price == r.value.0.avg - 2.0 && r.value.0.phase3Done
    ensures r.Success? && r.value.1.Some? ==> r.value.1.value.reason != EndOfPeriod
    ensures r.Success? && r.value.1.Some? && r.value.1.value.reason == TimeLimit ==>
      r.value.1.value.index == start + HoldBars
  {
    if i > maxCheck then Success((b, None))
    else
      var price := closes[start + i];
      var b2 := Phase2Step(b, initial, price, triggerPrice);
      var b3 := Phase3Step(b2, initial, price, triggerPrice);
      var rule := ExitRule(b3, price, i, false);
      if rule.Some? then Success((b3, Some(Exit(start + i, rule.value.1, rule.value.0))))
      else if start + i < RsiFrom then Scan(closes, start, initial, maxCheck, i + 1, b3, triggerPrice)
      else
        var hot :- RsiHot(closes, start + i + 1);
        if hot then Success((b3, Some(Exit(start + i, price, RsiAbove70))))
        else Scan(closes, start, initial, maxCheck, i + 1, b3, triggerPrice)
  }

  /** The result of `simulate_trade`. */
  datatype TradeResult = TradeResult(
    startIdx: nat,
    sellIdx: nat,
    phases: seq<PhaseBuy>,
    avgBuyPrice: real,
    sellPrice: real,
    reason: Reason,
    totalQuantity: real,
    totalInvested: real,
    totalSellAmount: real,
    profit: real,
    profitRate: real,
    holdingHours: int)

  /** The sale that closes a trade: the whole quantity at the exit price, the profit
      and its rate over what was invested. */
  function Settle(start: nat, book: Book, initial: real, e: Exit): (t: TradeResult)
    requires Balanced(book, initial)
    requires e.reason == TakeProfit ==> e.price == book.avg + 3.0
    requires e.reason == StopLoss ==> e.price == book.avg - 2.0 && book.phase3Done
    ensures t.startIdx == start && t.sellIdx == e.index && t.sellPrice == e.price && t.reason == e.reason
    ensures t.phases == book.phases && t.totalInvested == book.totalInvested
    ensures t.avgBuyPrice * t.totalQuantity == t.totalInvested
    ensures t.profit == t.totalQuantity * t.sellPrice - t.totalInvested
    ensures t.profit == t.totalQuantity * (t.sellPrice - t.avgBuyPrice)
    ensures t.reason == TakeProfit ==> t.profit == 3.0 * t.totalQuantity
    ensures t.reason == StopLoss ==> t.profit == -2.0 * t.totalQuantity && t.totalInvested == initial
    ensures t.profitRate * t.totalInvested == t.profit * 100.0
    ensures t.holdingHours == e.index - start
  {
    var sellAmount := book.totalQuantity * e.price;
    var profit := sellAmount - book.totalInvested;
    ProfitOfExit(book.avg, book.totalQuantity, book.totalInvested, e.price);
    var invested := book.totalInvested;
    var rate := Numeric.Div(profit, invested);
    assert (rate * 100.0) * invested == profit * 100.0;
    TradeResult(start, e.index, book.phases, book.avg, e.price, e.reason, book.totalQuantity,
                invested, sellAmount, profit, rate * 100.0, e.index - start)
  }

  /** A trade whose result satisfies what `simulate_trade` promises. */
  predicate Closed(closes: seq<real>, start: nat, initial: real, t: TradeResult) {
    t.startIdx == start && start <= t.sellIdx < |closes| && t.sellIdx <= start + MaxCheckBars
    && t.totalInvested <= initial && 1 <= |t.phases| <= 3
    && t.avgBuyPrice * t.totalQuantity == t.totalInvested
    && t.profit == t.totalQuantity * (t.sellPrice - t.avgBuyPrice)
    && t.holdingHours == t.sellIdx - start
    && (t.reason == EndOfPeriod ==>
          t.sellIdx == (if start + MaxCheckBars < |closes| then start + MaxCheckBars else |closes| - 1)
          && t.sellPrice == closes[t.sellIdx])
    && (t.reason == TimeLimit ==> t.sellIdx == start + HoldBars)
    && (t.reason == TakeProfit ==> t.profit == 3.0 * t.totalQuantity)
    && (t.reason == StopLoss ==> t.profit == -2.0 * t.totalQuantity && t.totalInvested == initial)
  }

  /** The end of `simulate_trade` once the scan is over: the exit found, or else the
      last bar checked at its close. */
  function Finish(closes: seq<real>, start: nat, initial: real, maxCheck: nat, book: Book, exit: Option<Exit>): (t: TradeResult)
    requires Balanced(book, initial) && start < |closes|
    requires maxCheck == (if MaxCheckBars < |closes| - start - 1 then MaxCheckBars else |closes| - start - 1)
    requires exit.Some? ==> start <= exit.value.index <= start + maxCheck && exit.value.reason != EndOfPeriod
    requires exit.Some? && exit.value.reason == TakeProfit ==> exit.value.price == book.avg + 3.0
    requires exit.Some? && exit.value.reason == StopLoss ==> exit.value.price == book.avg - 2.0 && book.phase3Done
    requires exit.Some? && exit.value.reason == TimeLimit ==> exit.value.index == start + HoldBars
    ensures Closed(closes, start, initial, t)
  {
    var e := if exit.Some? then exit.value
             else
               var idx := if start + maxCheck >= |closes| then |closes| - 1 else start + maxCheck;
               Exit(idx, closes[idx], EndOfPeriod);
    Settle(start, book, initial, e)
  }

  /** `simulate_trade`: buy at the entry close, scan at most 48 bars (fewer near the
      end of the data), and without an exit sell at the last bar checked. */
  function SimulateTrade(closes: seq<real>, start: nat, initial: real): (r: Result<TradeResult, string>)
    requires Positive(closes) && initial > 0.0 && start < |closes|
    ensures r.Success? ==> r.value.startIdx == start && start <= r.value.sellIdx < |closes|
  {
    var price := closes[start];
    var b := Open(initial, price);
    var maxCheck := if MaxCheckBars < |closes| - start - 1 then MaxCheckBars else |closes| - start - 1;
    var scanned :- Scan(closes, start, initial, maxCheck, 1, b, price - 2.0);
    Success(Finish(closes, start, initial, maxCheck, scanned.0, scanned.1))
  }

  /** Every trade `simulate_trade` completes keeps its promises (see `Closed`). */
  lemma SimulatedTradeIsClosed(closes: seq<real>, start: nat, initial: real)
    requires Positive(closes) && initial > 0.0 && start < |closes|
    ensures var r := SimulateTrade(closes, start, initial);
            r.Success? ==> Closed(closes, start, initial, r.value)
  {
  }

  /** Selling the whole quantity at the average plus `d` makes `d` per unit. */
  lemma ProfitOfExit(avg: real, quantity: real, invested: real, price: real)
    requires avg * quantity == invested
    ensures quantity * price - invested == quantity * (price - avg)
  {
  }
  /** The three short-indicator series `check_phase1_conditions` computes from the
      first `idx + 1` bars. */
  datatype ShortSeries = ShortSeries(rsi9: Series, rsiEma: Series, priceEma: Series)

  /** `check_phase1_conditions`: never before bar 20, otherwise the live split-buy
      strategy's three conditions on the bars so far. */
  function Phase1At(signals: seq<ShortSeries>, idx: nat): (r: bool)
    requires idx < |signals|
    ensures idx < Warmup ==> !r
    ensures r ==> |signals[idx].rsi9| >= 3 && |signals[idx].rsiEma| >= 2 && |signals[idx].priceEma| >= 2
  {
    idx >= Warmup
    && SplitBuy.Phase1Conditions(signals[idx].rsi9, signals[idx].rsiEma, signals[idx].priceEma)
  }

  /** The trades and the final balance of a replay. */
  datatype Replay = Replay(trades: seq<TradeResult>, balance: real)

  /** Trades of a replay from bar `i`: each starts at or after `i` with room left before
      the end and sells after it starts, and each starts at least 24 bars after every
      earlier one sold. */
  predicate Spaced(closes: seq<real>, i: nat, trades: seq<TradeResult>) {
    (forall k :: 0 <= k < |trades| ==>
       i <= trades[k].startIdx && trades[k].startIdx + Tailroom < |closes|
       && trades[k].startIdx <= trades[k].sellIdx < |closes|)
    && (forall j, k :: 0 <= j < k < |trades| ==> trades[k].startIdx >= trades[j].sellIdx + Cooldown)
  }

  /** A trade from bar `i` followed by a replay from 24 bars after its sale. */
  lemma SpacedCons(closes: seq<real>, i: nat, trade: TradeResult, rest: seq<TradeResult>)
    requires trade.startIdx == i && i + Tailroom < |closes| && i <= trade.sellIdx < |closes|
    requires Spaced(closes, trade.sellIdx + Cooldown, rest)
    ensures Spaced(closes, i, [trade] + rest)
  {
    var ts := [trade] + rest;
    assert forall k :: 1 <= k < |ts| ==> ts[k] == rest[k - 1];
  }

  /** Whether the entry conditions hold at each bar. */
  function Fires(signals: seq<ShortSeries>): (f: seq<bool>)
    ensures |f| == |signals| && forall i :: 0 <= i < |signals| ==> f[i] == Phase1At(signals, i)
  {
    seq(|signals|, i requires 0 <= i < |signals| => Phase1At(signals, i))
  }

  /** Every trade starts at a bar where the entry conditions hold. */
  predicate AtSignals(fires: seq<bool>, trades: seq<TradeResult>) {
    forall k :: 0 <= k < |trades| ==> trades[k].startIdx < |fires| && fires[trades[k].startIdx]
  }

  lemma AtSignalsCons(fires: seq<bool>, trade: TradeResult, rest: seq<TradeResult>)
    requires trade.startIdx < |fires| && fires[trade.startIdx] && AtSignals(fires, rest)
    ensures AtSignals(fires, [trade] + rest)
  {
    var ts := [trade] + rest;
    assert forall k :: 1 <= k < |ts| ==> ts[k] == rest[k - 1];
  }

  /** The `while` loop of `run_backtest` from bar `i`: a signal bar starts a trade with
      the current balance and scanning resumes 24 bars after its sale; a profit is
      added to the balance and a loss is not; otherwise the next bar is tried. The loop
      stops 50 bars before the end. */
  function BacktestFrom(closes: seq<real>, signals: seq<ShortSeries>, i: nat, balance: real): (r: Result<Replay, string>)
    requires Positive(closes) && |signals| == |closes| && balance > 0.0 && i >= Warmup
    decreases |closes| - i
    ensures r.Success? ==> r.value.balance >= balance
    ensures r.Success? ==> Spaced(closes, i, r.value.trades) && AtSignals(Fires(signals), r.value.trades)
  {
    if i + Tailroom >= |closes| then Success(Replay([], balance))
    else if Phase1At(signals, i) then
      var trade :- SimulateTrade(closes, i, balance);
      var next := trade.sellIdx + Cooldown;
      var grown := if trade.profit > 0.0 then balance + trade.profit else balance;
      var rest :- BacktestFrom(closes, signals, next, grown);
      SpacedCons(closes, i, trade, rest.trades);
      AtSignalsCons(Fires(signals), trade, rest.trades);
      Success(Replay([trade] + rest.trades, rest.balance))
    else
      BacktestFrom(closes, signals, i + 1, balance)
  }

  /** `run_backtest`: the replay from bar 20 with the initial balance. */
  function RunBacktest(closes: seq<real>, signals: seq<ShortSeries>, initial: real): (r: Result<Replay, string>)
    requires Positive(closes) && |signals| == |closes| && initial > 0.0
    ensures r.Success? ==> r.value.balance >= initial
    ensures r.Success? ==> forall k :: 0 <= k < |r.value.trades| ==>
      Warmup <= r.value.trades[k].startIdx && r.value.trades[k].startIdx + Tailroom < |closes|
      && Phase1At(signals, r.value.trades[k].startIdx)
    ensures |closes| <= Warmup + Tailroom ==> r == Success(Replay([], initial))
  {
    BacktestFrom(closes, signals, Warmup, initial)
  }
}

=== FILE: strategy.dfy ===
/** The five-state trading strategy (`TradingStrategy`): buy on RSI and EMA signals,
    rest a take-profit limit sell, liquidate at market on timeout, RSI or EMA, wait out
    the restart delay, and recover from errors by cancelling and liquidating. One call
    of `ExecuteCycle` is one `execute_cycle`; the market data, every exchange reply and
    the clock reading of the cycle are inputs. */
module TradingStrategy {
  import opened Wrappers
  import Numeric
  import BaseIndicator
  import RsiIndicator
  import EmaIndicator
  import L = PositionLedger
  import O = OrderLifecycle

  datatype TradingState = WaitingForBuy | PositionHeld | WaitingForSell | StrategyCompleted | Error

  /** `StrategyContext`; times are clock readings in seconds. */
  datatype Context = Context(
    state: TradingState,
    buyOrderId: Option<string>,
    sellOrderId: Option<string>,
    lastBuySignalTime: Option<real>,
    lastSellSignalTime: Option<real>,
    cycleStartTime: Option<real>,
    errorMessage: Option<string>,
    restartCount: nat)

  const InitialContext: Context := Context(WaitingForBuy, None, None, None, None, None, None, 0)

  /** The configuration values the strategy reads: indicator periods, the position
      timeout, the take-profit margin, the restart delay and the dry-run switch. */
  datatype Config = Config(
    rsiPeriod: nat,
    emaPeriod: nat,
    positionTimeout: real,
    profitTarget: real,
    restartDelay: real,
    dryRun: bool)

  /** The strategy with its position ledger and order book. */
  datatype Strategy = Strategy(context: Context, ledger: L.Ledger, book: O.Book)

  /** `_get_market_data` when it succeeds: the last price and the hourly chart. */
  datatype MarketData = MarketData(currentPrice: real, chart: BaseIndicator.Frame)

  /** What the exchange and the clock answer during one cycle. `krwBalance` fails with
      the message of the exception `get_account_balance` raised; `sweep` is the snapshot
      of active order ids taken by `cancel_all_active_orders`, each with the reply its
      cancel received; `drySellId` is the `dry_sell_<seconds>` id a dry run invents. */
  datatype Gateway = Gateway(
    now: real,
    ask: Option<real>,
    krwBalance: Result<real, string>,
    buyReply: O.PlaceReply,
    buyPolls: seq<O.Poll>,
    buyCancel: O.CancelReply,
    buyDeadline: real,
    sellReply: O.PlaceReply,
    statusReply: O.StatusReply,
    restingCancel: O.CancelReply,
    marketReply: O.PlaceReply,
    sweep: seq<(string, O.CancelReply)>,
    drySellId: string)

  /** The `action` of the result dictionary, with the values it reports. */
  datatype Outcome =
    | Waiting
    | BuyPlaced(quantity: real, price: real)
    | BuyFilled(filled: real, ordered: real, price: real, partial: bool)
    | ProfitSellPlaced(quantity: real, target: real)
    | LiquidationCompleted(quantity: real, price: real)
    | ProfitCycleCompleted(quantity: real, price: real, profit: real)
    | Restarted(cycleCount: nat)
    | WaitingRestart(remaining: real)
    | ErrorRecovered(previousError: Option<string>)
    | ErrorResult(message: string)

  datatype Step = Step(strategy: Strategy, outcome: Outcome)

  /** Decimal places of the rounded-up buy quantity. */
  const QuantityPrecision: nat := 8

  /** The price a dry-run liquidation books: the signal dictionary has no
      `current_price` key, so the lookup's default 0 is used. */
  const DryRunLiquidationPrice: real := 0.0

  /** An f-string of an optional message. */
  function ErrorText(m: Option<string>): string {
    if m.Some? then m.value else "None"
  }

  /** `_reset_for_new_cycle`: a fresh context that remembers one more restart. */
  function ResetForNewCycle(c: Context): (r: Context)
    ensures r == InitialContext.(restartCount := c.restartCount + 1)
  {
    c.(state := WaitingForBuy, buyOrderId := None, sellOrderId := None, lastBuySignalTime := None,
       lastSellSignalTime := None, cycleStartTime := None, errorMessage := None,
       restartCount := c.restartCount + 1)
  }

  /** `_create_error_result`: the state becomes ERROR and the message is recorded;
      nothing else changes. */
  function CreateErrorResult(s: Strategy, message: string): (r: Step)
    ensures r.strategy.context.state == Error && r.strategy.context.errorMessage == Some(message)
    ensures r.strategy.ledger == s.ledger && r.strategy.book == s.book
    ensures r.strategy.context.(state := s.context.state, errorMessage := s.context.errorMessage) == s.context
    ensures r.outcome == ErrorResult(message)
  {
    Step(s.(context := s.context.(state := Error, errorMessage := Some(message))), ErrorResult(message))
  }

  /** `_check_buy_conditions`: both the RSI and the EMA calculator must signal; an
      error in either analysis means no signal. */
  function CheckBuyConditions(cfg: Config, chart: BaseIndicator.Frame): (r: bool)
    requires cfg.rsiPeriod >= 1
    ensures r <==>
      && RsiIndicator.GetRsiSignals(RsiIndicator.RsiCalculator(cfg.rsiPeriod), chart, "close").Success?
      && RsiIndicator.GetRsiSignals(RsiIndicator.RsiCalculator(cfg.rsiPeriod), chart, "close").value.buySignal
      && EmaIndicator.GetEmaSignals(EmaIndicator.EmaCalculator(cfg.emaPeriod), chart, "close").Success?
      && EmaIndicator.GetEmaSignals(EmaIndicator.EmaCalculator(cfg.emaPeriod), chart, "close").value.buySignal
  {
    RsiIndicator.CheckBuyCondition(RsiIndicator.RsiCalculator(cfg.rsiPeriod), chart, "close").0
    && EmaIndicator.CheckBuyCondition(EmaIndicator.EmaCalculator(cfg.emaPeriod), chart, "close").signal
  }

  /** `_check_liquidation_conditions`: the position has been held for the timeout, or
      the RSI calculator, or the EMA calculator, signals a sell; an analysis error
      counts as no signal from that calculator. */
  function CheckLiquidationConditions(cfg: Config, l: L.Ledger, chart: BaseIndicator.Frame, now: real): (r: bool)
    requires cfg.rsiPeriod >= 1
    ensures r <==>
      || (L.HasPosition(l) && l.position.entryTime.Some? && now - l.position.entryTime.value >= cfg.positionTimeout)
      || (RsiIndicator.GetRsiSignals(RsiIndicator.RsiCalculator(cfg.rsiPeriod), chart, "close").Success?
          && RsiIndicator.GetRsiSignals(RsiIndicator.RsiCalculator(cfg.rsiPeriod), chart, "close").value.sellSignal)
      || (EmaIndicator.GetEmaSignals(EmaIndicator.EmaCalculator(cfg.emaPeriod), chart, "close").Success?
          && EmaIndicator.GetEmaSignals(EmaIndicator.EmaCalculator(cfg.emaPeriod), chart, "close").value.sellSignal)
  {
    L.IsPositionTimeout(l, now, cfg.positionTimeout)
    || RsiIndicator.CheckSellCondition(RsiIndicator.RsiCalculator(cfg.rsiPeriod), chart, "close").0
    || EmaIndicator.CheckSellCondition(EmaIndicator.EmaCalculator(cfg.emaPeriod), chart, "close").signal
  }

  /** The buy quantity: the KRW balance over the ask, rounded up to 8 decimals. */
  function BuyQuantity(krw: real, ask: real): (q: real)
    requires ask != 0.0
    ensures ask > 0.0 && krw > 0.0 ==> q > 0.0 && q * ask >= krw
  {
    var x := Numeric.Div(krw, ask);
    var q := L.CeilQuantity(x, QuantityPrecision);
    assert ask > 0.0 && krw > 0.0 ==> q > 0.0 && q * ask >= krw by {
      if ask > 0.0 && krw > 0.0 {
        CeilCovers(x, QuantityPrecision);
        assert x > 0.0 by { Numeric.DivNonNegative(krw, ask); }
        Numeric.MulNonNegative(q - x, ask);
      }
    }
    q
  }

  /** Rounding a non-negative quantity up never lowers it. */
  lemma CeilCovers(x: real, precision: nat)
    requires x >= 0.0
    ensures L.CeilQuantity(x, precision) >= x
  {
    var k := Numeric.Pow10(precision) as real;
    var q := L.CeilQuantity(x, precision);
    assert q * k >= x * k;
    Numeric.MulNonNegative(q - x, k);
    if q < x {
      Numeric.MulPositive(x - q, k);
    }
  }

  /** `_execute_buy_order`. A missing or zero ask, a balance query that raises, or a
      balance at or below 0 fails before any order. A dry run books the rounded-up
      quantity at the ask; a live run places a limit buy, waits for a fill, and books
      whatever quantity filled, failing when nothing did. */
  function ExecuteBuyOrder(cfg: Config, s: Strategy, g: Gateway): (r: Step)
    ensures r.strategy.context.state == PositionHeld || r.strategy.context.state == Error
    ensures r.strategy.context.restartCount == s.context.restartCount
    ensures g.ask.None? || g.ask.value == 0.0 ==> r == CreateErrorResult(s, "Failed to get ask price")
    ensures g.ask.Some? && g.ask.value != 0.0 && g.krwBalance.Failure? ==>
              r == CreateErrorResult(s, g.krwBalance.error)
    ensures g.ask.Some? && g.ask.value != 0.0 && g.krwBalance.Success? && g.krwBalance.value <= 0.0 ==>
              r == CreateErrorResult(s, "Insufficient KRW balance")
    ensures r.strategy.context.state == Error ==> r.strategy.ledger == s.ledger
    ensures r.strategy.context.state == PositionHeld ==>
              && g.ask.Some? && g.ask.value != 0.0 && g.krwBalance.Success? && g.krwBalance.value > 0.0
              && |r.strategy.ledger.trades| == |s.ledger.trades| + 1
              && var t := r.strategy.ledger.trades[|s.ledger.trades|];
                 && t.side == L.BuySide && t.price == g.ask.value && t.fee == 0.0
                 && r.strategy.ledger == L.AddBuyTrade(s.ledger, t.quantity, g.ask.value, 0.0, g.now)
                 && (cfg.dryRun ==> t.quantity == BuyQuantity(g.krwBalance.value, g.ask.value))
                 && (!cfg.dryRun ==> t.quantity > 0.0)
                 && (g.ask.value > 0.0 ==> t.quantity > 0.0)
  {
    if g.ask.None? || g.ask.value == 0.0 then CreateErrorResult(s, "Failed to get ask price")
    else if g.krwBalance.Failure? then CreateErrorResult(s, g.krwBalance.error)
    else if g.krwBalance.value <= 0.0 then CreateErrorResult(s, "Insufficient KRW balance")
    else
      var ask := g.ask.value;
      var quantity := BuyQuantity(g.krwBalance.value, ask);
      if cfg.dryRun then
        Step(s.(context := s.context.(state := PositionHeld),
                ledger := L.AddBuyTrade(s.ledger, quantity, ask, 0.0, g.now)),
             BuyPlaced(quantity, ask))
      else
        var placed := O.PlaceLimitBuy(s.book, quantity, ask, g.buyReply, g.now);
        if !placed.0 then CreateErrorResult(s, "Buy order failed: " + ErrorText(placed.1.errorMessage))
        else
          var id := g.buyReply.id;
          var c := s.context.(buyOrderId := Some(id), lastBuySignalTime := Some(g.now));
          var wait := O.WaitSpec(placed.2, id, g.buyPolls, g.buyCancel, g.buyDeadline);
          var s1 := s.(context := c, book := wait.book);
          if wait.quantity > 0.0 then
            Step(s1.(context := c.(state := PositionHeld),
                     ledger := L.AddBuyTrade(s.ledger, wait.quantity, ask, 0.0, g.now)),
                 BuyFilled(wait.quantity, quantity, ask, !wait.filled))
          else CreateErrorResult(s1, "Buy order not filled")
  }

  /** `_handle_waiting_for_buy`: buy on a signal, otherwise wait unchanged. */
  function HandleWaitingForBuy(cfg: Config, s: Strategy, md: MarketData, g: Gateway): (r: Step)
    requires cfg.rsiPeriod >= 1
    ensures !CheckBuyConditions(cfg, md.chart) ==> r == Step(s, Waiting)
    ensures s.context.state == WaitingForBuy ==> Moved(s.context, r.strategy.context)
    ensures CheckBuyConditions(cfg, md.chart) ==> r == ExecuteBuyOrder(cfg, s, g)
  {
    if CheckBuyConditions(cfg, md.chart) then ExecuteBuyOrder(cfg, s, g) else Step(s, Waiting)
  }

  /** `_execute_profit_sell_order`: a take-profit limit sell of the whole position at
      `target`. A dry run only records its invented order id. */
  function ExecuteProfitSellOrder(cfg: Config, s: Strategy, g: Gateway, target: real): (r: Step)
    ensures r.strategy.ledger == s.ledger
    ensures r.strategy.context.state == WaitingForSell || r.strategy.context.state == Error
    ensures r.strategy.context.restartCount == s.context.restartCount
    ensures r.strategy.context.state == Error <==> !cfg.dryRun && !g.sellReply.Accepted?
    ensures cfg.dryRun ==> r.strategy.context.sellOrderId == Some(g.drySellId) && r.strategy.book == s.book
    ensures !cfg.dryRun && g.sellReply.Accepted? ==>
              && r.strategy.context.sellOrderId == Some(g.sellReply.id)
              && g.sellReply.id in r.strategy.book.active
              && r.strategy.book.active[g.sellReply.id].price == Some(target)
              && r.strategy.book.active[g.sellReply.id].quantity == s.ledger.position.totalQuantity
              && r.strategy.book.active[g.sellReply.id].side == O.SellOrder
    ensures r.strategy.context.state == WaitingForSell ==> r.outcome == ProfitSellPlaced(s.ledger.position.totalQuantity, target)
  {
    var quantity := s.ledger.position.totalQuantity;
    if cfg.dryRun then
      Step(s.(context := s.context.(state := WaitingForSell, sellOrderId := Some(g.drySellId))),
           ProfitSellPlaced(quantity, target))
    else
      var placed := O.PlaceLimitSell(s.book, quantity, target, g.sellReply, g.now);
      if placed.0 then
        Step(s.(context := s.context.(state := WaitingForSell, sellOrderId := Some(g.sellReply.id)),
                book := placed.2),
             ProfitSellPlaced(quantity, target))
      else CreateErrorResult(s, "Profit sell order failed: " + ErrorText(placed.1.errorMessage))
  }

  /** `_handle_position_held`: always place the take-profit sell at average cost plus
      the margin, so the state never stays POSITION_HELD. */
  function HandlePositionHeld(cfg: Config, s: Strategy, g: Gateway): (r: Step)
    ensures r.strategy.context.state == WaitingForSell || r.strategy.context.state == Error
    ensures r.strategy.ledger == s.ledger
    ensures s.context.state == PositionHeld ==> Moved(s.context, r.strategy.context)
    ensures L.HasPosition(s.ledger) && r.strategy.context.state == WaitingForSell ==>
              r.outcome.ProfitSellPlaced? && r.outcome.target - s.ledger.position.averagePrice == cfg.profitTarget
  {
    ExecuteProfitSellOrder(cfg, s, g, L.ProfitTargetPrice(s.ledger, cfg.profitTarget))
  }

  /** The book after cancelling the resting take-profit order, if there is one. */
  function CancelResting(s: Strategy, g: Gateway): (b: O.Book)
    ensures !Truthy(s.context.sellOrderId) ==> b == s.book
    ensures Truthy(s.context.sellOrderId) && g.restingCancel.CancelAccepted? ==>
              s.context.sellOrderId.value !in b.active
    ensures Truthy(s.context.sellOrderId) && g.restingCancel.CancelRaised? ==> b == s.book
  {
    if Truthy(s.context.sellOrderId) then O.CancelOrder(s.book, s.context.sellOrderId.value, g.restingCancel, g.now).1
    else s.book
  }

  /** `_execute_liquidation_sell_order`: cancel the resting take-profit order, then sell
      the whole position at market. A dry run books the sale at price 0; a live run
      books the reported fill. Either way the cycle is completed and its time kept. */
  function ExecuteLiquidationSellOrder(cfg: Config, s: Strategy, g: Gateway): (r: Step)
    ensures r.strategy.book == CancelResting(s, g)
    ensures r.strategy.context.state == StrategyCompleted || r.strategy.context.state == Error
    ensures r.strategy.context.restartCount == s.context.restartCount
    ensures r.strategy.context.state == Error <==> !cfg.dryRun && !g.marketReply.Accepted?
    ensures r.strategy.context.state == Error ==> r.strategy.ledger == s.ledger
    ensures r.strategy.context.state == StrategyCompleted ==>
              r.strategy.context.cycleStartTime == Some(g.now)
              && |r.strategy.ledger.trades| == |s.ledger.trades| + 1
              && r.strategy.ledger.trades[|s.ledger.trades|].side == L.SellSide
    ensures cfg.dryRun ==>
              && r.outcome == LiquidationCompleted(s.ledger.position.totalQuantity, 0.0)
              && r.strategy.ledger.position.realizedPnl
                 == s.ledger.position.realizedPnl - s.ledger.position.totalQuantity * s.ledger.position.averagePrice
              && r.strategy.ledger.position.totalQuantity == 0.0
  {
    var quantity := s.ledger.position.totalQuantity;
    var book := CancelResting(s, g);
    var done := s.context.(state := StrategyCompleted, cycleStartTime := Some(g.now));
    if cfg.dryRun then
      var sold := L.AddSellTrade(s.ledger, quantity, DryRunLiquidationPrice, 0.0, g.now).1;
      Step(Strategy(done, sold, book), LiquidationCompleted(quantity, DryRunLiquidationPrice))
    else
      var placed := O.PlaceMarketSell(book, quantity, g.marketReply, g.now);
      if placed.0 then
        var sold := L.AddSellTrade(s.ledger, placed.1.filledQuantity, placed.1.averagePrice, 0.0, g.now).1;
        Step(Strategy(done, sold, book), LiquidationCompleted(placed.1.filledQuantity, placed.1.averagePrice))
      else CreateErrorResult(s.(book := book), "Liquidation failed: " + ErrorText(placed.1.errorMessage))
  }

  /** `_complete_profitable_cycle`: book the filled take-profit sale and complete the
      cycle. */
  function CompleteProfitableCycle(s: Strategy, info: O.OrderInfo, now: real): (r: Step)
    ensures r.strategy.context.state == StrategyCompleted && r.strategy.context.cycleStartTime == Some(now)
    ensures r.strategy.context.restartCount == s.context.restartCount
    ensures r.strategy.book == s.book
    ensures info.filledQuantity <= s.ledger.position.totalQuantity ==>
              r.strategy.ledger.position.realizedPnl == s.ledger.position.realizedPnl
                + (info.filledQuantity * info.averagePrice - info.filledQuantity * s.ledger.position.averagePrice)
    ensures info.filledQuantity > s.ledger.position.totalQuantity ==> r.strategy.ledger == s.ledger
    ensures r.outcome == ProfitCycleCompleted(info.filledQuantity, info.averagePrice, r.strategy.ledger.position.realizedPnl)
  {
    var sold := L.AddSellTrade(s.ledger, info.filledQuantity, info.averagePrice, 0.0, now).1;
    Step(s.(context := s.context.(state := StrategyCompleted, cycleStartTime := Some(now)), ledger := sold),
         ProfitCycleCompleted(info.filledQuantity, info.averagePrice, sold.position.realizedPnl))
  }

  /** `_handle_sell_order_cancelled`: check the liquidation conditions again;
      liquidate on a signal, otherwise place the take-profit order anew. */
  function HandleSellOrderCancelled(cfg: Config, s: Strategy, md: MarketData, g: Gateway): (r: Step)
    requires cfg.rsiPeriod >= 1
    ensures CheckLiquidationConditions(cfg, s.ledger, md.chart, g.now) ==> r == ExecuteLiquidationSellOrder(cfg, s, g)
    ensures !CheckLiquidationConditions(cfg, s.ledger, md.chart, g.now) ==>
              r == ExecuteProfitSellOrder(cfg, s, g, L.ProfitTargetPrice(s.ledger, cfg.profitTarget))
  {
    if CheckLiquidationConditions(cfg, s.ledger, md.chart, g.now) then ExecuteLiquidationSellOrder(cfg, s, g)
    else ExecuteProfitSellOrder(cfg, s, g, L.ProfitTargetPrice(s.ledger, cfg.profitTarget))
  }

  /** `_handle_waiting_for_sell`: the liquidation check comes first; only without a
      liquidation signal is the resting take-profit order's status consulted. */
  function HandleWaitingForSell(cfg: Config, s: Strategy, md: MarketData, g: Gateway): (r: Step)
    requires cfg.rsiPeriod >= 1
    ensures CheckLiquidationConditions(cfg, s.ledger, md.chart, g.now) ==> r == ExecuteLiquidationSellOrder(cfg, s, g)
    ensures s.context.state == WaitingForSell ==> Moved(s.context, r.strategy.context)
    ensures r.strategy.context.state == WaitingForSell && r.outcome == Waiting ==>
              r.strategy.ledger == s.ledger && r.strategy.context == s.context
    ensures r.strategy.context.state == WaitingForSell ==> r.strategy.ledger == s.ledger
    ensures !CheckLiquidationConditions(cfg, s.ledger, md.chart, g.now) && !Truthy(s.context.sellOrderId) ==>
              r == Step(s, Waiting)
  {
    if CheckLiquidationConditions(cfg, s.ledger, md.chart, g.now) then ExecuteLiquidationSellOrder(cfg, s, g)
    else if Truthy(s.context.sellOrderId) then
      var u := O.UpdateOrderStatus(s.book, s.context.sellOrderId.value, g.statusReply, g.now);
      var s1 := s.(book := u.1);
      if u.0.Some? && u.0.value.status == O.Filled then CompleteProfitableCycle(s1, u.0.value, g.now)
      else if u.0.Some? && u.0.value.status == O.Cancelled then HandleSellOrderCancelled(cfg, s1, md, g)
      else Step(s1, Waiting)
    else Step(s, Waiting)
  }

  /** `_handle_strategy_completed`: restart once `restartDelay` seconds have passed
      since the cycle completed; otherwise report the time left. */
  function HandleStrategyCompleted(cfg: Config, s: Strategy, now: real): (r: Step)
    ensures var start := s.context.cycleStartTime;
            var due := start.Some? && now - start.value >= cfg.restartDelay;
            && (due ==> r.strategy == s.(context := ResetForNewCycle(s.context))
                        && r.outcome == Restarted(s.context.restartCount + 1))
            && (!due ==> r.strategy == s && r.outcome.WaitingRestart?)
            && (!due && start.Some? ==> r.outcome.remaining > 0.0
                                        && r.outcome.remaining + (now - start.value) == cfg.restartDelay)
            && (start.None? ==> r.outcome.remaining == cfg.restartDelay)
    ensures s.context.state == StrategyCompleted ==> Moved(s.context, r.strategy.context)
  {
    var start := s.context.cycleStartTime;
    if start.Some? && now - start.value >= cfg.restartDelay then
      var c := ResetForNewCycle(s.context);
      Step(s.(context := c), Restarted(c.restartCount))
    else
      Step(s, WaitingRestart(if start.Some? then cfg.restartDelay - (now - start.value) else cfg.restartDelay))
  }

  /** The ids of a cancel sweep, in order. */
  function SweepIds(sweep: seq<(string, O.CancelReply)>): seq<string> {
    seq(|sweep|, i requires 0 <= i < |sweep| => sweep[i].0)
  }

  /** The replies of a cancel sweep, in order. */
  function SweepReplies(sweep: seq<(string, O.CancelReply)>): seq<O.CancelReply> {
    seq(|sweep|, i requires 0 <= i < |sweep| => sweep[i].1)
  }

  /** The clean-up shared by `_handle_error` and `emergency_stop`: cancel every active
      order, then sell any position at market (the dry-run switch is not consulted),
      booking the fill. */
  function CloseOut(s: Strategy, g: Gateway): (r: Strategy)
    ensures r.context == s.context
    ensures r.book == O.CancelAllSpec(s.book, SweepIds(g.sweep), SweepReplies(g.sweep), g.now).1
    ensures !L.HasPosition(s.ledger) || !g.marketReply.Accepted? ==> r.ledger == s.ledger
    ensures L.HasPosition(s.ledger) && g.marketReply.Accepted? ==>
              r.ledger == L.AddSellTrade(s.ledger, s.ledger.position.totalQuantity,
                                         g.marketReply.fillPrice.GetOr(0.0), 0.0, g.now).1
  {
    var swept := O.CancelAllSpec(s.book, SweepIds(g.sweep), SweepReplies(g.sweep), g.now).1;
    var ledger :=
      if L.HasPosition(s.ledger) then
        var placed := O.PlaceMarketSell(swept, s.ledger.position.totalQuantity, g.marketReply, g.now);
        if placed.0 then L.AddSellTrade(s.ledger, placed.1.filledQuantity, placed.1.averagePrice, 0.0, g.now).1
        else s.ledger
      else s.ledger;
    Strategy(s.context, ledger, swept)
  }

  /** `_handle_error`: the close-out, then a new cycle. The reported previous error is
      read after the reset has cleared it. */
  function HandleError(s: Strategy, g: Gateway): (r: Step)
    ensures r.strategy.context == ResetForNewCycle(s.context)
    ensures r.strategy.book == O.CancelAllSpec(s.book, SweepIds(g.sweep), SweepReplies(g.sweep), g.now).1
    ensures !L.HasPosition(s.ledger) || !g.marketReply.Accepted? ==> r.strategy.ledger == s.ledger
    ensures L.HasPosition(s.ledger) && g.marketReply.Accepted? ==>
              r.strategy.ledger == L.AddSellTrade(s.ledger, s.ledger.position.totalQuantity,
                                                  g.marketReply.fillPrice.GetOr(0.0), 0.0, g.now).1
    ensures r.outcome == ErrorRecovered(None)
    ensures s.context.state == Error ==> Moved(s.context, r.strategy.context)
  {
    var c := ResetForNewCycle(s.context);
    Step(CloseOut(s, g).(context := c), ErrorRecovered(c.errorMessage))
  }

  /** `emergency_stop`: the same close-out as error recovery, then the ERROR state with
      its message; the next cycle's error handler starts over. */
  function EmergencyStop(s: Strategy, g: Gateway): (r: Strategy)
    ensures r.context == s.context.(state := Error, errorMessage := Some("Emergency stop activated"))
    ensures r.book == HandleError(s, g).strategy.book && r.ledger == HandleError(s, g).strategy.ledger
  {
    CloseOut(s, g).(context := s.context.(state := Error, errorMessage := Some("Emergency stop activated")))
  }

  /** An emergency stop keeps the strategy coherent, and the next cycle with market
      data recovers to WAITING_FOR_BUY with one more restart. */
  lemma EmergencyStopRecovers(cfg: Config, s: Strategy, g: Gateway, md: MarketData, g2: Gateway)
    requires cfg.rsiPeriod >= 1 && Coherent(s)
    ensures Coherent(EmergencyStop(s, g))
    ensures var next := ExecuteCycle(cfg, EmergencyStop(s, g), Some(md), g2).strategy.context;
            next.state == WaitingForBuy && next.restartCount == s.context.restartCount + 1
  {
    CloseOutKeepsSound(s, g);
  }

  /** The handler of the current state. */
  function Handle(cfg: Config, s: Strategy, md: MarketData, g: Gateway): (r: Step)
    requires cfg.rsiPeriod >= 1
    ensures Moved(s.context, r.strategy.context)
    ensures s.context.state == PositionHeld ==> r.strategy.context.state != PositionHeld
    ensures s.context.state == Error ==> r.strategy.context.state == WaitingForBuy
  {
    match s.context.state
    case WaitingForBuy => HandleWaitingForBuy(cfg, s, md, g)
    case PositionHeld => HandlePositionHeld(cfg, s, g)
    case WaitingForSell => HandleWaitingForSell(cfg, s, md, g)
    case StrategyCompleted => HandleStrategyCompleted(cfg, s, g.now)
    case Error => HandleError(s, g)
  }

  /** The transitions of the state diagram, including staying put. */
  predicate Allowed(from: TradingState, to: TradingState) {
    || to == Error
    || (from == WaitingForBuy && to in {WaitingForBuy, PositionHeld})
    || (from == PositionHeld && to == WaitingForSell)
    || (from == WaitingForSell && to in {WaitingForSell, StrategyCompleted})
    || (from == StrategyCompleted && to in {StrategyCompleted, WaitingForBuy})
    || (from == Error && to == WaitingForBuy)
  }

  /** One cycle's effect on the context: a transition of the state diagram that keeps
      the restart count, or a reset out of STRATEGY_COMPLETED or ERROR. */
  predicate Moved(from: Context, to: Context) {
    && Allowed(from.state, to.state)
    && (to.restartCount == from.restartCount
        || (to == ResetForNewCycle(from) && from.state in {StrategyCompleted, Error}))
  }

  /** The position summary appended to every handled cycle stores the unrealised P&L
      when the current price is non-zero. */
  function Summarize(l: L.Ledger, price: real): (r: L.Ledger)
    ensures r.position.(unrealizedPnl := l.position.unrealizedPnl) == l.position
    ensures r.trades == l.trades && r.totalTrades == l.totalTrades && r.totalFees == l.totalFees
    ensures r.winningTrades == l.winningTrades && r.losingTrades == l.losingTrades
  {
    if price != 0.0 then L.CalculateUnrealizedPnl(l, price).1 else l
  }

  /** `execute_cycle`: without market data the strategy goes to ERROR; otherwise the
      handler of the current state runs and the position summary is refreshed. */
  function ExecuteCycle(cfg: Config, s: Strategy, md: Option<MarketData>, g: Gateway): (r: Step)
    requires cfg.rsiPeriod >= 1
    ensures md.None? ==> r == CreateErrorResult(s, "Failed to get market data")
    ensures Moved(s.context, r.strategy.context)
    ensures md.Some? && s.context.state == PositionHeld ==> r.strategy.context.state != PositionHeld
    ensures md.Some? && s.context.state == Error ==> r.strategy.context.state == WaitingForBuy
  {
    if md.None? then CreateErrorResult(s, "Failed to get market data")
    else
      var h := Handle(cfg, s, md.value, g);
      Step(h.strategy.(ledger := Summarize(h.strategy.ledger, md.value.currentPrice)), h.outcome)
  }

  /** The ledger identities: the cost basis, a non-negative quantity and the counters. */
  predicate LedgerSound(l: L.Ledger) {
    L.CostConsistent(l.position) && l.position.totalQuantity >= 0.0 && L.CountersConsistent(l)
  }

  /** What holds of every state the strategy reaches: a completed cycle knows when it
      completed, a position is held while the take-profit order is being placed or
      awaited, and the ledger identities hold. */
  predicate Coherent(s: Strategy) {
    && (s.context.state == StrategyCompleted ==> s.context.cycleStartTime.Some?)
    && (s.context.state in {PositionHeld, WaitingForSell} ==> L.HasPosition(s.ledger))
    && LedgerSound(s.ledger)
  }

  /** The exchange never quotes a negative ask. */
  predicate SaneGateway(g: Gateway) {
    g.ask.None? || g.ask.value >= 0.0
  }

  /** A buy of a positive quantity keeps the ledger sound and leaves a position. */
  lemma BuyKeepsSound(l: L.Ledger, q: real, price: real, now: real)
    requires LedgerSound(l) && q > 0.0
    ensures LedgerSound(L.AddBuyTrade(l, q, price, 0.0, now)) && L.HasPosition(L.AddBuyTrade(l, q, price, 0.0, now))
  {
    L.BuyKeepsCostConsistent(l, q, price, 0.0, now);
  }

  /** Any sell, accepted or refused, keeps the ledger sound. */
  lemma SellKeepsSound(l: L.Ledger, q: real, price: real, now: real)
    requires LedgerSound(l)
    ensures LedgerSound(L.AddSellTrade(l, q, price, 0.0, now).1)
  {
    L.SellKeepsCostConsistent(l, q, price, 0.0, now);
  }

  /** One cycle keeps the strategy coherent, whatever the market data and the
      exchange's replies, as long as the ask is never negative. */
  lemma CycleKeepsCoherent(cfg: Config, s: Strategy, md: Option<MarketData>, g: Gateway)
    requires cfg.rsiPeriod >= 1 && Coherent(s) && SaneGateway(g)
    ensures Coherent(ExecuteCycle(cfg, s, md, g).strategy)
  {
    if md.Some? {
      var h := Handle(cfg, s, md.value, g);
      HandleKeepsCoherent(cfg, s, md.value, g);
      SummaryKeepsCoherent(h.strategy, md.value.currentPrice);
      assert ExecuteCycle(cfg, s, md, g).strategy == h.strategy.(ledger := Summarize(h.strategy.ledger, md.value.currentPrice));
    }
  }

  /** Refreshing the unrealised P&L keeps the strategy coherent. */
  lemma SummaryKeepsCoherent(s: Strategy, price: real)
    requires Coherent(s)
    ensures Coherent(s.(ledger := Summarize(s.ledger, price)))
  {
    var l := Summarize(s.ledger, price);
    assert l.position.totalQuantity == s.ledger.position.totalQuantity;
    assert l.position.totalCost == s.ledger.position.totalCost;
    assert l.position.averagePrice == s.ledger.position.averagePrice;
  }

  /** Each state's handler keeps the strategy coherent. */
  lemma HandleKeepsCoherent(cfg: Config, s: Strategy, md: MarketData, g: Gateway)
    requires cfg.rsiPeriod >= 1 && Coherent(s) && SaneGateway(g)
    ensures Coherent(Handle(cfg, s, md, g).strategy)
  {
    match s.context.state {
      case WaitingForBuy =>
        WaitingForBuyKeepsSound(cfg, s, md, g);
      case PositionHeld =>
      case WaitingForSell =>
        WaitingForSellKeepsSound(cfg, s, md, g);
      case StrategyCompleted =>
      case Error =>
        CloseOutKeepsSound(s, g);
    }
  }

  /** In WAITING_FOR_BUY the ledger either stays or takes one buy of a positive quantity. */
  lemma WaitingForBuyKeepsSound(cfg: Config, s: Strategy, md: MarketData, g: Gateway)
    requires cfg.rsiPeriod >= 1 && Coherent(s) && s.context.state == WaitingForBuy && SaneGateway(g)
    ensures Coherent(HandleWaitingForBuy(cfg, s, md, g).strategy)
  {
    var h := ExecuteBuyOrder(cfg, s, g);
    if CheckBuyConditions(cfg, md.chart) && h.strategy.context.state == PositionHeld {
      var t := h.strategy.ledger.trades[|s.ledger.trades|];
      BuyKeepsSound(s.ledger, t.quantity, g.ask.value, g.now);
    }
  }

  /** The close-out keeps the ledger sound: it either stays or takes one sale. */
  lemma CloseOutKeepsSound(s: Strategy, g: Gateway)
    requires LedgerSound(s.ledger)
    ensures LedgerSound(CloseOut(s, g).ledger)
  {
    if L.HasPosition(s.ledger) && g.marketReply.Accepted? {
      SellKeepsSound(s.ledger, s.ledger.position.totalQuantity, g.marketReply.fillPrice.GetOr(0.0), g.now);
    }
  }

  /** In WAITING_FOR_SELL the ledger either stays or takes one sale. */
  lemma WaitingForSellKeepsSound(cfg: Config, s: Strategy, md: MarketData, g: Gateway)
    requires cfg.rsiPeriod >= 1 && Coherent(s) && s.context.state == WaitingForSell
    ensures Coherent(HandleWaitingForSell(cfg, s, md, g).strategy)
  {
    var q := s.ledger.position.totalQuantity;
    if CheckLiquidationConditions(cfg, s.ledger, md.chart, g.now) {
      if cfg.dryRun {
        SellKeepsSound(s.ledger, q, DryRunLiquidationPrice, g.now);
      } else {
        var placed := O.PlaceMarketSell(CancelResting(s, g), q, g.marketReply, g.now);
        SellKeepsSound(s.ledger, placed.1.filledQuantity, placed.1.averagePrice, g.now);
      }
    } else if Truthy(s.context.sellOrderId) {
      var u := O.UpdateOrderStatus(s.book, s.context.sellOrderId.value, g.statusReply, g.now);
      if u.0.Some? && u.0.value.status == O.Filled {
        SellKeepsSound(s.ledger, u.0.value.filledQuantity, u.0.value.averagePrice, g.now);
      }
    }
  }

  /** Feed a sequence of cycles' inputs to the strategy. */
  function Run(cfg: Config, s: Strategy, inputs: seq<(Option<MarketData>, Gateway)>): (r: Strategy)
    requires cfg.rsiPeriod >= 1
    ensures r.context.restartCount <= s.context.restartCount + |inputs|
    decreases |inputs|
  {
    if inputs == [] then s
    else Run(cfg, ExecuteCycle(cfg, s, inputs[0].0, inputs[0].1).strategy, inputs[1..])
  }

  /** Every state reached from a coherent one is coherent. */
  lemma {:induction false} RunKeepsCoherent(cfg: Config, s: Strategy, inputs: seq<(Option<MarketData>, Gateway)>)
    requires cfg.rsiPeriod >= 1 && Coherent(s)
    requires forall i :: 0 <= i < |inputs| ==> SaneGateway(inputs[i].1)
    ensures Coherent(Run(cfg, s, inputs))
    decreases |inputs|
  {
    if inputs != [] {
      CycleKeepsCoherent(cfg, s, inputs[0].0, inputs[0].1);
      assert forall i :: 0 <= i < |inputs[1..]| ==> inputs[1..][i] == inputs[i + 1];
      RunKeepsCoherent(cfg, ExecuteCycle(cfg, s, inputs[0].0, inputs[0].1).strategy, inputs[1..]);
    }
  }

  /** With a liquidation signal in WAITING_FOR_SELL, the resting order's status reply is
      never read: any other reply gives the same cycle. */
  lemma LiquidationIgnoresSellStatus(cfg: Config, s: Strategy, md: MarketData, g: Gateway, other: O.StatusReply)
    requires cfg.rsiPeriod >= 1 && s.context.state == WaitingForSell
    requires CheckLiquidationConditions(cfg, s.ledger, md.chart, g.now)
    ensures ExecuteCycle(cfg, s, Some(md), g) == ExecuteCycle(cfg, s, Some(md), g.(statusReply := other))
  {
  }

  /** A take-profit order found cancelled is always placed again in the same cycle: the
      second liquidation check sees the same ledger, chart and clock as the first. */
  lemma CancelledProfitOrderIsReplaced(cfg: Config, s: Strategy, md: MarketData, g: Gateway)
    requires cfg.rsiPeriod >= 1 && s.context.state == WaitingForSell && Truthy(s.context.sellOrderId)
    requires !CheckLiquidationConditions(cfg, s.ledger, md.chart, g.now)
    requires var u := O.UpdateOrderStatus(s.book, s.context.sellOrderId.value, g.statusReply, g.now);
             u.0.Some? && u.0.value.status == O.Cancelled
    ensures var u := O.UpdateOrderStatus(s.book, s.context.sellOrderId.value, g.statusReply, g.now);
            HandleWaitingForSell(cfg, s, md, g)
            == ExecuteProfitSellOrder(cfg, s.(book := u.1), g, L.ProfitTargetPrice(s.ledger, cfg.profitTarget))
  {
  }

  /** A dry run's invented sell id is never an active order, so its take-profit order
      never reports a fill: the position leaves only by liquidation. */
  lemma DryRunNeverTakesProfit(cfg: Config, s: Strategy, md: MarketData, g: Gateway)
    requires cfg.rsiPeriod >= 1 && s.context.state == WaitingForSell
    requires s.context.sellOrderId.Some? ==> s.context.sellOrderId.value !in s.book.active
    ensures !ExecuteCycle(cfg, s, Some(md), g).outcome.ProfitCycleCompleted?
    ensures ExecuteCycle(cfg, s, Some(md), g).strategy.context.state == StrategyCompleted ==>
              CheckLiquidationConditions(cfg, s.ledger, md.chart, g.now)
  {
  }

  /** With a snapshot of every active id and every cancel accepted, ERROR recovery
      leaves no active order. */
  lemma ErrorSweepClearsTheBook(s: Strategy, g: Gateway)
    requires forall k :: k in s.book.active ==> exists i :: 0 <= i < |g.sweep| && g.sweep[i].0 == k
    requires forall i :: 0 <= i < |g.sweep| ==> g.sweep[i].1.CancelAccepted?
    ensures HandleError(s, g).strategy.book.active.Keys == {}
  {
    var ids := SweepIds(g.sweep);
    var replies := SweepReplies(g.sweep);
    var b := HandleError(s, g).strategy.book;
    forall k | true
      ensures k !in b.active
    {
      O.CancelAllRemaining(s.book, ids, replies, g.now, k);
      if k in s.book.active {
        var i :| 0 <= i < |g.sweep| && g.sweep[i].0 == k;
        assert ids[i] == k;
      }
    }
  }
}

=== FILE: wrappers.dfy ===
/** Failure-compatible result types shared by every module of the model.
    `None` also stands for a pandas NaN wherever a series can hold one. */
module Wrappers {

  /** A value that may be absent (Python `None`, or NaN in a float series). */
  datatype Option<+T> = None | Some(value: T) {

    predicate IsFailure() {
      None?
    }

    function PropagateFailure<U>(): Option<U>
      requires None?
    {
      None
    }

    function Extract(): T
      requires Some?
    {
      value
    }

    /** The wrapped value, or `default` when absent. */
    function GetOr(default: T): T {
      match this
      case Some(v) => v
      case None => default
    }
  }

  /** Python truthiness of an optional string: present and not empty. */
  predicate Truthy(s: Option<string>) {
    s.Some? && s.value != ""
  }

  /** Either a value or the error a Python `raise` would have carried. */
  datatype Result<+R, +E> = Success(value: R) | Failure(error: E) {

    predicate IsFailure() {
      Failure?
    }

    function PropagateFailure<U>(): Result<U, E>
      requires Failure?
    {
      Failure(error)
    }

    function Extract(): R
      requires Success?
    {
      value
    }
  }
}
